=== FILE: README.md ===
# nets: the graph engine and its discrete algorithms, in Dafny

This project models the sequential core of the `nets` network-analysis tools:

- **The adjacency-list graph store** (`adj_list`). Each node has an ordered map from neighbour id to edge tag, an "in" and an "out" counter, and a place in the isolated-node set. The store has a directed/undirected flag.
- **Traversals over the store.** These are:
  - masked connected components;
  - masked hop distances;
  - cumulative histograms;
  - component-size histograms and their run-length encoding;
  - the betweenness working copy, its reset, and the breadth-first phase of Brandes' algorithm.
- **The Girvan–Newman community driver.** It keeps active regions and builds a binary community tree with generated `<rN>`/`<bN>` names. The `tree_tag` node tags are written and read back.
- **Agglomerative hierarchical clustering.** It picks the highest weight, merges by size-weighted averaging on a sparse table, and extracts leaf order and sizes from the trees. Similarity triples are read with name interning, and the similarity image is built.
- **Community-tree post-processing.** This covers:
  - the tree-name recognisers and the Strahler-like level labelling;
  - the collapse of equal-level children and the pruning into a clean tree;
  - leaf ordering, leaf collection and module lookup;
  - the integer link counts of the modularity measure and the node filter of the modularity tool.
- **Small codecs.** These are:
  - the `.ladj` and `.edgl` graph formats, with reader validation and file-extension dispatch;
  - RGB packing;
  - hexadecimal image bytes;
  - prefix/suffix tests;
  - `pf_format`;
  - pair printing.

## How it is modelled

The graph is a `seq<map<nat, E>>` (row `k` is node `k`'s neighbour map) with per-node records `NodeInfo(id, od, tag)`, the isolated set, the pair counter and the mode. The source's own naming is kept:

- `add_dir_edge(u, v)` stores `v` in `u`'s map and increments `u`'s `_id` and `v`'s `_od`.
- `AdjList.Valid` says that `id` is the size of the node's own map and `od` is the number of maps holding it.

Transforms are pure functions or short methods with pure results. Breadth-first searches, the Girvan–Newman loop, the clustering merge loop and the tree walks are methods with loop invariants and decreasing measures. A handful of properties are stated as separate lemmas:

- meanings such as "labelled iff reachable" and "hop count of a shortest walk";
- round trips;
- idempotence and involution.

Betweenness values are not computed. The Girvan–Newman driver takes a score function from (rows, subset, u, v) to `real`, and `max_edge_btwns` is modelled on `real` tags. Similarity weights are `real`. Only comparison and the exact size-weighted average are used on them.

Modules:

| file | module | source |
|---|---|---|
| common.dfy | Common | shared `Option`/`Result`, sums, ranks |
| text.dfy | Text | decimal numbers and whitespace-separated tokens, as C++ streams write and read them |
| adj_list.dfy | AdjList | networks/adj_list.H |
| stats.dfy, distance.dfy, histograms.dfy, betweenness.dfy, brandes.dfy | Stats, Distance, Histograms, Betweenness, Brandes | networks/stats.H |
| regions.dfy | Regions | facts about regions used by the Girvan–Newman driver |
| community.dfy, girvan_newman.dfy | Community, GirvanNewman | networks/community.H, networks/community.C |
| hierclust.dfy, similarity.dfy | HierClust, Similarity | networks/hierclust.H, networks/hierclust.C, `read_measure` and `prepare_image` of networks/treeanlz.C |
| treeanlz.dfy | TreeAnlz | networks/treeanlz.C, and the copies in networks/modmeas.C |
| modmeas.dfy | ModMeas | networks/modmeas.C |
| graph_io.dfy, graph_io_laws.dfy | GraphIo, GraphIoLaws | networks/io.H |
| stl.dfy, rgb.dfy, hex.dfy | Stl, Rgb, Hex | utils/stl.H, graphics/general.H, graphics/postscript.C |

## Model

| member | source | states |
|---|---|---|
| AdjList.NewGraph | networks/adj_list.H:91-94 | `adj_list(SZ)`: `n` nodes, every one isolated, no pair stored, all counters 0, and the bookkeeping invariant holds |
| AdjList.AddNode | networks/adj_list.H:224-231 | the new node's id is the old node count, with an empty row and the given tag, and it joins the isolated set. Old rows and records are unchanged and the invariant is kept |
| AdjList.SetNodeTag | networks/adj_list.H:115 | node `k` gets the tag; rows, mode, pair count, isolated set and every other node record are unchanged; the invariant is kept |
| AdjList.DegreeMeaning | networks/adj_list.H:100-110 | on a valid graph `indegree(k)` is the number of keys in `k`'s map, and `outdegree(k)` the number of maps holding `k`. On an undirected graph the two agree and `degree` is either. `num_edges` is half the stored pairs when undirected |
| AdjList.IsolatedMeaning | networks/adj_list.H:170-171 | a node is in the isolated set exactly when no stored pair touches it in either direction |
| AdjList.CommonNeighbours | networks/adj_list.H:178-187 | the count is exactly the number of ids present in both rows |
| AdjList.AddDirEdge | networks/adj_list.H:253-265 | the result is `true` exactly when `v` was not in `u`'s map. An existing pair leaves the graph unchanged. A new pair enters `u`'s map with tag `t` and the pair count grows by one. The counters, the isolated set and the pair count still agree with the maps |
| AdjList.AddEdge | networks/adj_list.H:267-276 | pair by pair: afterwards `b` is in `a`'s map iff it was, or (a, b) is (u, v), or the graph is undirected and (a, b) is (v, u). Stored tags are kept, a new pair gets `t` in both directions, and an existing pair changes nothing. The result is `false` for an existing pair and for a new undirected self-loop. The pair count grows by 2 for a new undirected non-loop, by 1 otherwise. The invariant holds |
| AdjList.RemoveDirEdge | networks/adj_list.H:278-290 | the result is `true` exactly when `v` was in `u`'s map. A missing pair changes nothing. Otherwise `v` leaves `u`'s map and the pair count drops by one, and the counters and isolated set agree with the maps again |
| AdjList.RemoveEdge | networks/adj_list.H:292-302 | requires `connected(u, v)`. Afterwards `b` is in `a`'s map iff it was and (a, b) is neither (u, v) nor, when undirected, (v, u); remaining tags are kept. The pair count drops by 2 for an undirected non-loop, by 1 otherwise. The result is `false` only for an undirected self-loop. The invariant holds |
| AdjList.ClearAsWritten | networks/adj_list.H:204-210 | `clear` as written: every map is emptied and every node marked isolated, the pair count is 0, and the per-node counters keep their old values |
| AdjList.ClearAsWrittenBreaksBookkeeping | networks/adj_list.H:204-210 | clearing a graph that holds a pair leaves a node that is listed isolated while its counter still reports a neighbour, so the invariant fails |
| AdjList.ClearAsWrittenFresh | networks/adj_list.H:204-210 | on a graph with no pairs whose counters agree with its maps, `clear` as written and the corrected `clear` give the same graph |
| AdjList.Clear | networks/adj_list.H:204-210 | corrected `clear`: no pairs, every node isolated with zero counters, tags and mode kept, invariant holds |
| AdjList.ResizeAndClear | networks/adj_list.H:212-222 | `n` isolated nodes with default tags and no pairs, in the same mode, with the invariant holding |
| AdjList.PairsFromSorted | networks/adj_list.H:380-386 | the scan over all rows lists pairs in strictly ascending (row, neighbour) order |
| AdjList.StoredPairsComplete | networks/adj_list.H:380-386 | every stored pair, with its tag, occurs in the scan |
| AdjList.StoredPairsSound | networks/adj_list.H:380-386 | everything the scan lists is a stored pair with its tag |
| AdjList.ToUndirected | networks/adj_list.H:389-402 | every stored pair gains its reverse with the same tag unless the reverse is stored already; the flag is set; the invariant holds |
| AdjList.ToUndirectedMeaning | networks/adj_list.H:389-402 | pair by pair: (v, u) is stored afterwards iff (v, u) or (u, v) was stored before. An existing tag is never overwritten, and a new reverse carries the tag of the pair it mirrors |
| AdjList.ToUndirectedIdempotent | networks/adj_list.H:389-402 | a second `to_undirected` changes nothing |
| AdjList.CheckUndirected | networks/adj_list.H:426-437 | the scan returns `true` exactly when every stored pair has its mirror stored |
| AdjList.CheckUndirectedAfterToUndirected | networks/adj_list.H:389-437 | `check_undirected` holds after `to_undirected` |
| AdjList.Transpose | networks/adj_list.H:404-424 | `i` is in `j`'s map iff `j` was in `i`'s, with the same tag. Each node's two counters are swapped and the invariant holds |
| AdjList.TransposeInvolution | networks/adj_list.H:404-424 | transposing twice gives back the same graph |
| AdjList.SubRowsKeys | networks/adj_list.H:366-387 | a pair of new ids is stored in the subgraph iff the two masked nodes they rank are joined in the original. In undirected mode either direction counts |
| AdjList.SubRowsTag | networks/adj_list.H:366-387 | a copied pair keeps its original tag; for an undirected target this is proved when the original's two directions carry the same tag |
| AdjList.Subgraph | networks/adj_list.H:366-387 | requires the target to have as many nodes as the mask has true entries. New node `i` is the `i`-th masked node and carries its tag; the rows are exactly the masked pairs renumbered; the invariant holds |
| AdjList.SubgraphOnto | networks/adj_list.H:373-378 | the renumbering is a bijection between the masked nodes and the target's nodes |
| AdjList.SubgraphAllTrue | networks/adj_list.H:366-387 | an all-true mask into a target of the same mode reproduces the graph: the same rows and tags |
| Stats.FindFirstUntouched | networks/stats.H:324-332 | the first masked position still labelled -1, from `i` on, with no such position before it; or -1 exactly when there is none |
| Stats.ConnectedComponents | networks/stats.H:352-383 | the count is the number of seeds. Seed `c` is masked and labelled `c`, and every masked node before it has a smaller label, so seeds are taken lowest first. Labels lie in [-1, count). Every labelled node is reached from its seed, and neighbours of labelled nodes are labelled, unmasked ones included. Every masked node ends labelled. Every node a seed reaches ends labelled, with a label no later than that seed's |
| Stats.LabelledIffReached | networks/stats.H:352-383 | a node ends labelled exactly when some seed reaches it, mask or not; all other nodes stay -1 |
| Stats.FirstSeedLabel | networks/stats.H:352-383 | a labelled node carries the label of the first seed that reaches it: its own seed reaches it and no earlier seed does |
| Stats.SeedsUnreached | networks/stats.H:352-383 | no seed is reachable from an earlier seed, because each search runs to completion before the next seed is chosen |
| Stats.DirectedPairOneComponent | networks/stats.H:352-383 | on the directed pair 0 -> 1 with both nodes masked, the only labelling is one component with seed 0 and both nodes labelled 0 |
| Stats.SameLabelIffPath | networks/stats.H:363-381 | on an undirected graph two labelled nodes share a label exactly when a walk joins them |
| Stats.MaskOf | networks/stats.H:341-350 | the mask built from a subset is true exactly at the subset's ids |
| Stats.SubsetComponents | networks/stats.H:341-350 | the subset overload labels every subset node, from seeds in the subset only |
| Stats.AllComponents | networks/stats.H:334-339 | the all-nodes overload labels every node with a label in [0, count) |
| Distance.MinimumDistance | networks/stats.H:197-224 | `from` is entered with 0. Every other entered node is masked and one hop further than an entered neighbour that discovered it. Every masked neighbour of an entered node is entered, and unentered entries keep their earlier value |
| Distance.DistanceMeaning | networks/stats.H:197-224 | the nodes entered are exactly those a masked walk from `from` reaches, and each distance is the length of a shortest such walk |
| Histograms.MakeCumulative | networks/stats.H:97-108 | the keys are exactly the nonzero bins, and each gets the sum of the bins from `k` upwards |
| Histograms.SuffixSumMonotone | networks/stats.H:97-108 | with non-negative bins the cumulative values never increase with `k` |
| Histograms.CountLabels | networks/stats.H:385-397 | `sizes[c]` is the number of nodes labelled `c`, for every label `c` |
| Histograms.SortDescFacts | networks/stats.H:385-397 | the sort with `greater` gives a non-increasing permutation of its input with the same sum |
| Histograms.DescendingUnique | networks/stats.H:385-397 | a non-increasing sequence is determined by its multiset, so the unstable sort's result is unique |
| Histograms.ComponentSizes | networks/stats.H:385-397 | the sizes are a non-increasing permutation of the per-component counts and sum to the node count |
| Histograms.RunLengths | networks/stats.H:399-415 | given a non-empty list: the (count, size) runs are maximal, expand back to the list, and their counts sum to its length; for a non-increasing list the sizes strictly decrease |
| Histograms.NumComponentSizes | networks/stats.H:399-415 | on a graph with at least one node: run counts sum to the number of components; the runs expand to the sorted component sizes and have strictly decreasing sizes |
| Betweenness.InitResult | networks/stats.H:693-705 | the copy has `g`'s node count, node `i` tagged (tag of `i`, 0). Its rows are `g`'s pairs reversed with tag 0, mirrored when `g` is undirected. It is undirected when `g` is or `res` already was, and the invariant holds |
| Betweenness.InitResultMeaning | networks/stats.H:693-705 | the copy stores j -> i iff `g` stores i -> j (once undirected, also when `g` stores j -> i); every stored tag is 0. An undirected `g` gives its own pairs |
| Betweenness.ResetResult | networks/stats.H:707-724 | for subset nodes, the score and the tags of their own map's entries become 0. Everything else, keys, counters and other rows included, is unchanged |
| Betweenness.ResetIdempotent | networks/stats.H:707-724 | resetting twice on the same subset is resetting once |
| Betweenness.ResetOfZeroed | networks/stats.H:707-724 | a copy whose accumulators are already 0 is left alone |
| Betweenness.ResetAfterInit | networks/stats.H:693-724 | resetting a freshly built copy, on any subset, changes nothing |
| Brandes.ShortestPaths | networks/stats.H:745-773 | from the source: `d` is 0 at the source and -1 where unentered; every entered node is one hop beyond an entered neighbour. `s[source]` is 1. `pred[w]` is exactly the set of entered `v` with `w` in `v`'s map and `d[v] + 1 == d[w]`, and `s[w]` is the sum of `s[v]` over `pred[w]`. The stack holds each entered node once, by non-decreasing distance |
| Brandes.HopDistance | networks/stats.H:745-773 | `d[x]` is non-negative exactly when a walk from the source reaches `x`, and then equals the length of a shortest such walk |
| Regions.SplitFacts | networks/community.C:110-124 | removing one edge from a joined, closed region leaves one or two labels on exactly the region's nodes, each label's nodes closed and joined; this is the source's assertion that a split yields at most two components |
| Regions.SplitIffDisjoined | networks/community.C:110-124 | the labelling finds a second component exactly when the region is no longer joined |
| Community.NewTreeTag | networks/community.H:14-15 | the constructor keeps name and size and counts no removals |
| Community.WriteTreeTag | networks/community.H:18-19 | reading two integers back from the text gives the size and then the removal count, and leaves a space and the name |
| Community.ReadTreeTag | networks/community.H:21-22 | a successful read yields a non-empty, whitespace-free name and consumes input; read order and field boundaries are stated by the round trip |
| Community.TreeTagRoundTrip | networks/community.H:18-22 | a tag written and read back is the same tag, for a non-empty whitespace-free name, and what followed is left unread |
| Community.TreeTagEmptyNameLost | networks/community.H:18-22 | a default tag (empty name) does not read back |
| Community.NewName | networks/community.C:45-50 | a generated name consists of the prefix, then the decimal digits of the index, then the suffix |
| Community.GeneratedNamesDistinct | networks/community.C:45-53 | different indices give different names, and a root name never equals a branch name |
| Community.MaxEdgeBtwnsMeaning | networks/community.C:24-39 | (-1, -1) exactly when no stored tag exceeds -1. Otherwise the pair is stored, its tag is at least every stored tag, and it is the first such pair in (row, neighbour) order |
| Community.MaxEdgeBtwnsStored | networks/community.C:24-39 | a found pair is stored, carrying the tag reported |
| GirvanNewman.MaxLabel | networks/community.C:63-65 | the largest label in `comp`, at least every label, and 0 when there is none larger |
| GirvanNewman.Label | networks/community.C:60-72 | the regions are the components, numbered from `base`: they are disjoint and cover the nodes, none is empty when there are nodes, no stored pair leaves a region, and each region is joined |
| GirvanNewman.AddRoots | networks/community.C:69-79 | one new tree node per region, node `|R| + k` tagged "<rk>" with region `k`'s size and no pairs; old nodes keep their tags and rows |
| GirvanNewman.Setup | networks/community.C:60-79 | the set-up gives every component an active region with its own root, tagged "<rk>" with the component's size in label order, and establishes the loop invariant |
| GirvanNewman.Working | networks/community.C:82-84 | on an undirected `G` the working copy stores `G`'s pairs with score 0, each node tagged (its name, 0) |
| GirvanNewman.FirstScores | networks/community.C:82-84 | the scored working copy keeps `G`'s pairs and node names, is undirected, and carries only non-negative scores |
| GirvanNewman.Init | networks/community.C:55-84 | everything before the main loop establishes the loop invariant. `B` holds `G`'s pairs and names, the old tree nodes keep their tags and rows, and region `k`'s root is node `|R| + k`, tagged "<rk>" with the region's size and without pairs |
| GirvanNewman.RemoveMax | networks/community.C:87-91 | the pair with the highest score (the first among equals in row order) leaves `B` in both directions; node tags stay |
| GirvanNewman.FindRegion | networks/community.C:93-104 | the last region in list order holding `x`, or -1 exactly when none does |
| GirvanNewman.Locate | networks/community.C:93-104 | the scan finds a region; it is the only one holding `u`, and it holds `v` too |
| GirvanNewman.CountRemoval | networks/community.C:106-108 | only the removal count of the region's tree node grows, by one |
| GirvanNewman.Divide | networks/community.C:110-124 | after the removal at most two components remain in the region. Right is label 0 and holds the region's lowest node, left is label 1. The two sides partition the region iff it split |
| GirvanNewman.BranchTag | networks/community.C:133-155 | a one-node side is named after that node's tag, a larger side gets the next "<bi>"; the size is the side's size and no removal is counted |
| GirvanNewman.AddChildren | networks/community.C:133-155 | the right node is added first, then the left, each tagged as its side says, with no pairs |
| GirvanNewman.Attach | networks/community.C:157-158 | after the two `add_edge` calls the region's tree node holds exactly its old keys plus the two new nodes, the new nodes hold at most the way back, and every other row is kept |
| GirvanNewman.Link | networks/community.C:157 | one `add_edge` on the tree keeps it valid, its size, mode and tags, and links the rows as `Linked` says |
| GirvanNewman.LinkedRows | networks/community.C:157 | `add_edge(a, c)` adds exactly `c` to row `a`, at most `a` to row `c`, and leaves every other row |
| GirvanNewman.LinkedTwice | networks/community.C:157-158 | the two `add_edge` calls from the region's node to the two new nodes give it exactly those two new keys and keep every older row |
| GirvanNewman.Subdivide | networks/community.C:133-158 | the tree grows by two nodes, right then left, tagged by `BranchTag`; the region's node gains exactly them as keys, they hold at most the way back, every other row is kept |
| GirvanNewman.Graft | networks/community.C:134-158 | two new nodes with the given tags hang under the region's node: its row gains exactly them, every other row and tag stays |
| GirvanNewman.Replaced | networks/community.C:160-162 | region `k` leaves the list and its two sides are appended, right then left |
| GirvanNewman.RegionsAfterSplit | networks/community.C:114-162 | replacing a region by two sides that partition it keeps the regions disjoint, covering, closed and joined |
| GirvanNewman.Recompute | networks/community.C:165-166 | after reset and recomputation, only pairs in rows of the subset get new scores; other rows keep pairs and scores and keys stay the same |
| GirvanNewman.Cut | networks/community.C:87-104 | one pass's first part: the highest pair leaves `B`, its region is found, regions stay closed and all but that one stay joined |
| GirvanNewman.Regroup | networks/community.C:106-162 | the removal is counted; the region's members are split into right and left, left empty exactly when the region stays joined; without a split the regions and the tree's rows stay, with one the region is replaced by its two sides and its tree node gains exactly the two new nodes; the invariant is restored |
| GirvanNewman.Rescored | networks/community.C:165-166 | rescoring the pre-split region's rows keeps regions, tree and invariant |
| GirvanNewman.Step | networks/community.C:87-166 | one pass removes exactly the highest pair (both directions) from `B` and keeps the invariant. The region holding it splits exactly when the removal disconnects it; then its two sides replace it and its tree node gains exactly two new children, and otherwise regions and tree rows stay |
| GirvanNewman.Communities | networks/community.C:55-170 | the loop ends with the invariant holding and no edge left in `B`, so every active region holds at most one node; the old rows of `R` are kept and the new nodes form a forest: each later node is the child of exactly one earlier node, each has no child or two, and the childless ones are exactly the active regions' nodes |
| GirvanNewman.Pass | networks/community.C:87-166 | one pass keeps the invariant, drops a pair of `B`, keeps the rows `R` held before the set-up, and keeps the new nodes a forest whose leaves are the active regions' nodes |
| GirvanNewman.GrownRoots | networks/community.C:69-79 | right after the set-up the roots, one childless node per region, form the whole forest and are its leaves |
| GirvanNewman.ChildrenAfterGraft | networks/community.C:157-158 | hanging the two new nodes under the region's node gives it exactly them as new children, they have none, and every other node keeps its children |
| GirvanNewman.GrownAfterSplit | networks/community.C:157-162 | a subdivision keeps the forest: the region's leaf gets two children, which become the leaves of the two sides that replace it |
| GirvanNewman.GrownAfterStep | networks/community.C:87-166 | a pass keeps the forest and its leaves and never touches the rows `R` held before the set-up |
| GirvanNewman.TreeAfterGraft | networks/community.C:157-158 | giving a leaf two new childless children keeps every later node the child of exactly one earlier node and every node with none or two children |
| GirvanNewman.LeavesAfterGraft | networks/community.C:157-162 | after the graft the childless nodes are exactly the nodes of the replaced region list |
| GirvanNewman.NodesAfterGraft | networks/community.C:160-162 | the replaced region list's tree nodes are in range and distinct |
| GirvanNewman.NotLeafAfterGraft | networks/community.C:160-162 | the region's old node, and any node that was no region's, is no region's node after the replacement |
| HierClust.Size | networks/hierclust.H:24-37 | every size is at least 1, and exactly the leaves have size 1 |
| HierClust.Depth | networks/hierclust.H:24-37 | depth 1 exactly for size 1, otherwise one more than the deeper part, and never more than the size |
| HierClust.LeavesFacts | networks/hierclust.H:148-158 | a branch holds as many leaf indices as its size; the largest leaf index is one of them and bounds them all |
| HierClust.OrderFacts | networks/hierclust.H:160-167 | the order lists every leaf once: length equals the size, same multiset of indices |
| HierClust.ExtractLeafs | networks/hierclust.H:148-158 | the recursion appends the leaves of `b`, the right part of every branch before its left, behind what `l` held |
| HierClust.ExtractOrder | networks/hierclust.H:160-167 | the leaves, the right part of every branch before its left part: as many as the root's size, each index as often as it occurs below the root |
| HierClust.InternalSizesCount | networks/hierclust.H:169-187 | a tree of `n` leaves has `n - 1` merged branches, each of size at least 2 |
| HierClust.ExtractSizes | networks/hierclust.H:169-187 | what the breadth-first walk appends is, as a multiset, the sizes of the merged branches (nothing with `jump`), the root's first; the old list stays in front |
| HierClust.HighestWeightNone | networks/hierclust.H:54-71 | (-1, -1) exactly when no weight below the diagonal is positive |
| HierClust.HighestWeightSome | networks/hierclust.H:54-71 | otherwise a (row, column) pair with row > column, positive weight, at least every other below-diagonal weight, and strictly above every one met earlier |
| HierClust.CollapseRowsColumns | networks/hierclust.H:73-107 | the in-place merge loop yields the table defined row by row: column `b` erased, row `b` emptied, row and column `a` merged |
| HierClust.CollapseErases | networks/hierclust.H:81-83 | afterwards row `b` is empty and no row holds `b` |
| HierClust.CollapseKeeps | networks/hierclust.H:86-103 | entries between indices other than `a` and `b` are untouched |
| HierClust.CollapseMerges | networks/hierclust.H:86-103 | for `k` where either weight is positive (missing counts 0), both (a, k) and (k, a) become the size-weighted average; otherwise the old entries stay |
| HierClust.MergedBetween | networks/hierclust.H:94-98 | with positive sizes the merged weight lies between the two weights it replaces |
| HierClust.CollapseSymmetric | networks/hierclust.H:73-107 | a symmetric table stays symmetric |
| HierClust.CollapseRetired | networks/hierclust.H:73-107 | merging `b` into `a` retires `b`: with `b` out of the live set, every non-live row is still empty and no row names a non-live index |
| HierClust.LeavesInit | networks/hierclust.H:112-118 | the starting forest of one leaf per index holds every index exactly once |
| HierClust.CollectRoots | networks/hierclust.H:141-145 | the live trees taken in ascending index order: every index occurs exactly once among them, and they are ordered by their largest leaf |
| HierClust.MergeRound | networks/hierclust.H:123-137 | the pair found is two live indices, the column below the row. The row's tree becomes the join of the two trees, the column leaves the roots and the table is collapsed with the two trees' sizes as weights. The live set shrinks, retired indices have empty rows and appear in no row, and the forest still holds every index exactly once |
| HierClust.HierarchicalClustering | networks/hierclust.H:109-146 | the loop stops when no positive weight is left below the diagonal. The roots hold every index exactly once between them, and come out in ascending order of their root index. The final table and roots are the ones the reference `Cluster` reaches from one leaf per index by repeated merges of the heaviest pair |
| Similarity.FirstsFacts | networks/hierclust.C:19-56 | the names in order of first appearance are distinct, and they are exactly the names read |
| Similarity.FoldOrder | networks/hierclust.C:19-56 | the reader interns names in order of first appearance in the stream, so ids are 0, 1, 2, ... by first appearance |
| Similarity.IdStable | networks/hierclust.C:37-56 | a name keeps its id however many triples are read later |
| Similarity.FoldSize | networks/hierclust.C:37-56 | the ids stay distinct, and the table has as many rows as the larger of the caller's table and the number of ids; it never shrinks |
| Similarity.FoldEntries | networks/hierclust.C:57-63 | each entry is the last value read for that ordered pair of ids, (n2, n1) being separate, or the caller's entry when no triple names it |
| Similarity.ReadSimilarityMeasure | networks/hierclust.C:19-75 | the result is `true` exactly at a clean end of input. Every complete triple is absorbed into the table either way. After a malformed triple the caller's names are left as they were |
| Similarity.NamesInverse | networks/hierclust.C:67-72 | the returned map sends every id to its name, and every name read has an id |
| Similarity.ReadMeasure | networks/treeanlz.C:24-72 | `read_measure`: the same success rule and the same table; the name-to-id map's keys are exactly the names read |
| Similarity.ReadersAgree | networks/treeanlz.C:24-72 | the two readers' maps are inverse to each other |
| Similarity.PrepareImage | networks/hierclust.C:77-95 | an |ord| x |ord| image; `PrepareImageMeaning` states its pixels |
| Similarity.PrepareImageMeaning | networks/hierclust.C:77-95 | pixel (i, j) is 1 minus the measure between `ord[i]` and `ord[j]`, a missing entry counting as 0; a symmetric measure gives a symmetric image |
| Similarity.PrepareNamedImage | networks/treeanlz.C:204-231 | with every name of the order known (as the source asserts), an |ord| x |ord| image; `NamedImageIsTurned` states its pixels |
| Similarity.NamedImageIsTurned | networks/treeanlz.C:204-231 | the tree analyser's image is the clusterer's image of the looked-up ids, turned by half a revolution |
| TreeAnlz.IsTreeName | networks/treeanlz.C:252-265 | a recognised name starts with '<' and the letter, ends with '>' and has an integer after the letter |
| TreeAnlz.GeneratedNamesRecognised | networks/treeanlz.C:337-338 | "<r i>" passes the root test and not the branch test; "<b i>" the other way round |
| TreeAnlz.TreeNameLenient | networks/treeanlz.C:252-265 | whitespace before the integer and any text after it up to the final '>' are accepted |
| TreeAnlz.ExtractOrder | networks/treeanlz.C:233-250 | the stack walk agrees with the recursive definition: failure when a node met lacks two children; otherwise the names of the size-1 children, in ascending child id, with the larger children's names in between, depth first |
| TreeAnlz.KidsAll | networks/treeanlz.C:233-250 | the children listed are all of the row, as many as `indegree` |
| TreeAnlz.Levels | networks/treeanlz.C:270-289 | the sweeps reach a fixpoint, which is the true level everywhere (1 when childless, one more when two children tie, otherwise the larger) |
| TreeAnlz.FixedIsLevel | networks/treeanlz.C:270-289 | any fixpoint of the sweep is the true level of every node |
| TreeAnlz.LastAt | networks/treeanlz.C:298-305 | the scan keeps the last child at the parent's level |
| TreeAnlz.Splice | networks/treeanlz.C:306-318 | the spliced child's children become the parent's; the child stops being one and keeps none |
| TreeAnlz.SpliceIsolates | networks/treeanlz.C:306-318 | the spliced-out child is left with no edge at all |
| TreeAnlz.SpliceSameLeaves | networks/treeanlz.C:306-318 | splicing inside a forest keeps the childless nodes every root reaches |
| TreeAnlz.CollapseStep | networks/treeanlz.C:291-321 | one pass pops `curr`. With no child at its level, it pushes `curr`'s children in ascending order (none for a childless node) and the rows stay. Otherwise it splices out the last child at that level, the rows become `Splice(adj, curr, t)` and `curr` is pushed again. It fails only when that child has other than two children, never while the binary-forest invariant `Settled` holds, and it keeps `Settled` and `Covered`. Without failure the rows keep their number, stay acyclic, and on a forest every root reaches the same childless nodes; either a node loses its children or the stack gets lighter |
| TreeAnlz.DescendFacts | networks/treeanlz.C:302-305 | pushing the children of a node with no child at its level makes the stack lighter and keeps `Settled` and `Covered`, the node finished |
| TreeAnlz.SpliceFacts | networks/treeanlz.C:306-319 | splicing out a two-child child at `curr`'s level keeps acyclicity, the forest, every root's leaves, `Settled` and `Covered`, and leaves fewer nodes with children |
| TreeAnlz.SettledStart | networks/treeanlz.C:270-293 | with the true levels of a binary forest, a child at its parent's level has two children, and the roots on the stack have no parent |
| TreeAnlz.SettledFinish | networks/treeanlz.C:302-305 | pushing the children of a node with no child at its level keeps the invariant, that node now finished |
| TreeAnlz.SettledSplice | networks/treeanlz.C:306-319 | the child at the popped node's level has exactly two children, and splicing it out keeps the invariant |
| TreeAnlz.CoveredStart | networks/treeanlz.C:292-293 | with the roots pushed, every node a root reaches is reached from a node on the stack |
| TreeAnlz.CoveredFinish | networks/treeanlz.C:296-305 | dropping a childless node or replacing a node by its children keeps every reached node finished or reached from the stack |
| TreeAnlz.CoveredSplice | networks/treeanlz.C:306-319 | splicing out the child at `curr`'s level keeps every node a root still reaches finished or reached from the stack |
| TreeAnlz.CollapsedEnd | networks/treeanlz.C:294 | once the stack is empty, no node a root reaches has a child at its own level |
| TreeAnlz.SpliceReachesBack | networks/treeanlz.C:314-318 | whatever a node reaches after a splice it reached before |
| TreeAnlz.SpliceReachesForth | networks/treeanlz.C:314-318 | a path that neither starts nor ends at the spliced child survives the splice |
| TreeAnlz.SpliceUnreached | networks/treeanlz.C:314-318 | in a forest, no root reaches the spliced child after the splice |
| TreeAnlz.CollapsePass | networks/treeanlz.C:294-320 | one pass of the loop never fails while `Settled` holds on a forest and keeps `Settled` and `Covered`; without failure every root keeps the childless nodes it reached in the starting rows, and either a node loses its children or the stack gets lighter |
| TreeAnlz.Collapse | networks/treeanlz.C:291-321 | started from the true levels of a binary forest no pass fails and the result is collapsed: no node a root reaches keeps a child at its own level. When no pass fails, the rows keep their number and acyclicity, no more nodes have children than before, and on a forest every root still reaches the same childless nodes |
| TreeAnlz.Recount | networks/treeanlz.C:291-321 | the graph on the collapsed rows with every counter as the rows imply satisfies the invariant |
| TreeAnlz.CountedUnique | networks/treeanlz.C:291-321 | the bookkeeping is a function of rows, tags and mode, so removing and adding edges one at a time reaches `Recount` |
| TreeAnlz.DegreeMask | networks/treeanlz.C:323-328 | the mask is true exactly at the nodes of positive degree |
| TreeAnlz.Pruned | networks/treeanlz.C:323-334 | the copy holds exactly the nodes of positive degree, renumbered ascending, with their tags and the pairs between them |
| TreeAnlz.CleanTree | networks/treeanlz.C:267-335 | a tree with a node of one or more than two children fails; a binary forest never does, and its collapsed rows leave no node a root reaches with a child at its own true level. On success the result is the pruned copy of the collapsed rows with `R`'s tags, and on a forest the collapse keeps every root's childless descendants |
| TreeAnlz.UnderTouched | networks/treeanlz.C:323-334 | a childless node reached from a node with children has an edge, so pruning loses no leaf under a root with children |
| ModMeas.WhichModule | networks/modmeas.C:136-143 | the index of the first module holding `k`, and -1 exactly when none does |
| ModMeas.NameMap | networks/modmeas.C:218-221 | every name carried is a key, and each key maps to a node carrying it |
| ModMeas.NameMapLast | networks/modmeas.C:218-221 | the keys are exactly the names carried, each mapping to the last node carrying it |
| ModMeas.GatheredMeaning | networks/modmeas.C:112-134 | the walk gathers exactly the childless nodes reached from a node with children |
| ModMeas.Walk | networks/modmeas.C:112-134 | from a node with children, the walk fails exactly when a name gathered below it is unknown; otherwise it gives the ids of everything gathered |
| ModMeas.AddLeafs | networks/modmeas.C:112-134 | `add_leafs`: the `name_map` indices of the childless descendants of the root (none for a childless root), or `None` when one is unknown |
| ModMeas.ModularityCounts | networks/modmeas.C:145-169 | `a[k]` counts links from module `k`'s members to nodes in some module, `e[k]` those staying in `k`, and the total counts all of them |
| ModMeas.InnerBelowEnds | networks/modmeas.C:145-169 | `e[k] <= a[k]` |
| ModMeas.LinkedSplits | networks/modmeas.C:136-169 | the neighbours of a node that lie in one of the first `m` modules number the sum, over those modules, of its links into each. A neighbour counts only in its first module |
| ModMeas.CountsBounded | networks/modmeas.C:145-169 | each `e[k]` is at most `a[k]` and each `a[k]` at most the total |
| ModMeas.Submodule | networks/modmeas.C:230-251 | a childless child gives the singleton of its index, any other its `add_leafs`, failing exactly when a name below is unknown |
| ModMeas.Submodules | networks/modmeas.C:230-251 | the children's submodules in order, or `None` exactly when a name below the root is unknown |
| ModMeas.MeasureNode | networks/modmeas.C:224-259 | extends the report from the nodes below `k` to node `k`, failing only when a name below `k` is unknown |
| ModMeas.Measure | networks/modmeas.C:224-259 | the loop fails exactly when some node has an unknown name below it; otherwise it reports over all the tree's nodes |
| ModMeas.MeasuredMeaning | networks/modmeas.C:224-259 | a node is reported exactly when it is eligible: it has children, one of them with children, and more than 4 leaves. Every report carries the node's submodules and their counts |
| GraphIo.FileExtension | networks/io.H:412-419 | for a name holding a '.', the text after the last '.': a suffix, preceded by a '.', holding no '.' |
| GraphIo.FileExtensionOf | networks/io.H:412-419 | base, dot and a dot-free extension give back that extension |
| GraphIo.ReadFormat | networks/io.H:421-450 | only the `edgl` and `ladj` formats are ever read |
| GraphIo.FormatsAgree | networks/io.H:421-487 | every extension read is written in the same format; "madj", "dot" and "net" are written only; anything else is refused both ways |
| GraphIo.EatWhite | networks/io.H:22-27 | what is left is a suffix of the input that starts with neither a blank nor a tab |
| GraphIo.FirstVertexEscapesBound | networks/io.H:161-166 | as written, the first vertex of a size-0 graph passes the checks and indexes a node that does not exist |
| GraphIo.VertexCheck | networks/io.H:161-166 | corrected: a vertex passes exactly when it is the next one and below the size |
| GraphIo.VertexCheckAgrees | networks/io.H:161-166 | the written and corrected checks differ only on the first vertex of a size-0 graph |
| GraphIo.ReadEdge | networks/io.H:189-231 | a neighbour read is below the size, and reading consumes input |
| GraphIo.ReadEdges | networks/io.H:189-231 | every pair read on the line is from `u` to a node below the size |
| GraphIo.ReadVertices | networks/io.H:150-232 | a successful read keeps one tag per node, and every pair read lies inside the size |
| GraphIo.ReadLadj | networks/io.H:146-237 | every pair read lies inside the node count read: an index at or above it is rejected |
| GraphIo.LadjRejects | networks/io.H:150-166 | an empty input fails with a missing size, a first vertex other than 0 with a bad start |
| GraphIo.Finish | networks/io.H:108 | the graph becomes undirected exactly when every pair has its mirror, and nothing else changes |
| GraphIo.Build | networks/io.H:234-236 | the collected pairs added in order to a directed graph with those tags, then switched to undirected iff symmetric |
| GraphIo.ReadLadjGraph | networks/io.H:146-237 | `read_ladj` on a fresh graph: the pairs and tags read, undirected iff symmetric |
| GraphIo.ParseLine | networks/io.H:56-106 | a line read gives two whitespace-free tokens and, optionally, a third. The first tag is missing exactly when the line is blank, any other failure is a missing second tag, and the first tag read is the line's first token |
| GraphIo.Intern | networks/io.H:56-106 | the nodes known before stay in front. Each line becomes one pair between nodes carrying the line's two tags, with the line's edge tag |
| GraphIo.ReadEdgl | networks/io.H:56-109 | `read_edgl` on a fresh graph fails exactly when the lines do not parse; the nodes read carry distinct tags |
| GraphIo.EdglNodes | networks/io.H:56-106 | one node per tag the lines mention |
| GraphIo.EdglPair | networks/io.H:56-106 | the node of `a` links the node of `b` exactly when some line names `a` then `b` |
| GraphIoLaws.ReadUnsignedWritten | networks/io.H:123-166 | a written number followed by a non-digit reads back |
| GraphIoLaws.ReadTagWritten | networks/io.H:123-187 | a written tag reads back when it holds no ']' |
| GraphIoLaws.LadjRoundTrip | networks/io.H:123-237 | reading what `write_ladj` wrote gives every node tag and the stored pairs in scan order, when tags are empty or single tokens without ']' |
| GraphIoLaws.Rebuilt | networks/io.H:189-231 | adding a graph's stored pairs in scan order to empty rows rebuilds its rows |
| GraphIoLaws.LadjGraphRoundTrip | networks/io.H:123-237 | writing a graph as `.ladj` and reading it back gives the same rows and tags, undirected exactly when every pair has its mirror |
| GraphIoLaws.EdglRoundTrip | networks/io.H:39-106 | reading what `write_edgl` wrote gives one line per stored pair, in scan order, with its nodes' tags and its edge tag |
| GraphIoLaws.EdglGraphRoundTrip | networks/io.H:39-109 | for whitespace-free node tags, reading back what `write_edgl` wrote succeeds with distinct node tags, and links two nodes exactly when the original links nodes carrying their tags |
| Stl.StartsWith | utils/stl.H:121-129 | given `|seq| >= |sub|`: true exactly when `sub` is a prefix of `seq` |
| Stl.EndsWith | utils/stl.H:131-139 | given `|seq| >= |sub|`: true exactly when `sub` is a suffix of `seq` |
| Stl.SuffixIsReversedPrefix | utils/stl.H:121-139 | `ends_with` agrees with `starts_with` on the reversed sequences |
| Stl.Find | utils/stl.H:102-106 | the first position holding the character, or `None` exactly when there is none |
| Stl.UpTo | utils/stl.H:102-106 | a prefix free of the character, followed by it or ending the text |
| Stl.PfFormat | utils/stl.H:102-106 | cut before the first '(', then drop up to the first space; a missing character skips its cut |
| Stl.PfFormatSignature | utils/stl.H:102-106 | "<type> <name>(<args>" is trimmed to `<name>` |
| Stl.PfFormatPlain | utils/stl.H:102-106 | without '(' or space nothing is cut |
| Stl.ReadIntPair | utils/stl.H:114-116 | the source has no reader for the printed pair: this is the decoder partner that Stl.IntPairRoundTrip uses. A successful read consumes input |
| Stl.IntPairRoundTrip | utils/stl.H:114-116 | a printed pair of integers reads back as the same pair |
| Rgb.Pack | graphics/general.H:20 | each component masked to 8 bits and placed at bits 16-23, 8-15, 0-7; the result is below 2^24 |
| Rgb.GetR | graphics/general.H:21 | the red component read is below 256; the round trips show it is bits 16-23 |
| Rgb.GetG | graphics/general.H:22 | the green component read is below 256; the round trips show it is bits 8-15 |
| Rgb.GetB | graphics/general.H:23 | the blue component read is below 256; the round trips show it is bits 0-7 |
| Rgb.UnpackPack | graphics/general.H:20-23 | unpacking recovers each component modulo 256 |
| Rgb.PackUnpack | graphics/general.H:20-23 | every value below 2^24 is the packing of its own components |
| Hex.HexValue | graphics/postscript.C:104-105 | the inverse of the `int2hex` table |
| Hex.PrintHex | graphics/postscript.C:107-117 | two characters per value; value `i` sits at positions 2i and 2i + 1 as its high and then its low hexadecimal digit, so order is kept |
| Hex.ReadHex | graphics/postscript.C:104-117 | reading succeeds exactly on an even-length run of lower-case hexadecimal digits, and value `i` is the byte whose high and low nibbles are the digits at 2i and 2i + 1 |
| Hex.HexRoundTrip | graphics/postscript.C:104-117 | decoding what `print_hex` wrote gives back the values |
| Hex.HexRoundTripText | graphics/postscript.C:104-117 | text that decodes is exactly what `print_hex` writes for the decoded values |

## Left out

- Betweenness back-propagation (networks/stats.H:775-788) and all other floating-point statistics: the Girvan–Newman driver takes the scores as a function.
- Integer widths: Brandes' path counts, the edge counter and the modularity counts are unbounded `nat`s, though the source stores some of them as `uint`, which can wrap.
- The modularity ratio arithmetic (networks/modmeas.C:171-188): only the integer counts are modelled.
- The progress bar, `boutputtimes` output, file opening, the 100000-character line buffer, `unget` and `try_all_readers`: stream and terminal mechanics.
- `write_dot`, `write_net` and `write_madj` text: only the format dispatch in `write_graph_to_file` is modelled.
- GraphIo.WriteLadj and GraphIo.WriteEdgl carry no contract of their own: the round-trip lemmas of GraphIoLaws state what they write.
- Numbers read into `uint` variables: a signed number would wrap in the source; the model reads unsigned digits only.
- GraphIo.ReadLadjGraph: modelled on a fresh directed graph, whereas the source's `resize_and_clear` keeps the caller's mode.
- GraphIo.ReadEdgl: modelled on a fresh directed graph, whereas the source's `clear` keeps the caller's mode and its nodes.
- GraphIo.ReadLadj: its contract states only the bound on the indices read. The other rejections (non-consecutive vertices, a non-integer neighbour, an unclosed '[') are part of its definition. GraphIo.LadjRejects shows the missing size and the bad first vertex on concrete inputs, and the round trips show that everything `write_ladj` writes is accepted.
- Tags: node and edge tags are strings (`tree_tag` has its own datatype); the generic `empty_tag` stringification is not modelled.
- Graphical output: `draw_dendrogram`, `print_pgm`/`print_pnm` and the EPS writer apart from `print_hex`.
- Random graphs and random edges: the RNG-dependent code.
- TreeAnlz.CollapseStep: when the child to splice out has fewer than two children the source reads node 0 for each missing one (the zeroed `nbrscoll`, networks/treeanlz.C:309-317) and links node 0 under `curr`; with more than two its assertion fails. The model returns failure in both cases; TreeAnlz.Collapse and TreeAnlz.CleanTree prove this never happens on a binary forest.
- TreeAnlz.Collapse: acyclicity of the community tree is taken from a ghost rank function parameter.
- TreeAnlz.ExtractOrder: a popped node without exactly two children makes the model fail where the source asserts `indegree(curr) == 2` (networks/treeanlz.C:240); acyclicity comes from a ghost rank function.
- networks/modmeas.C:24-107 repeats `is_tree_name` and `clean_tree` verbatim; they are modelled once, in TreeAnlz.
- HierClust.ExtractSizes: states the multiset of sizes appended and the first one, not their full breadth-first order.
- TreeAnlz.IsTreeName: its own contract is one direction only; GeneratedNamesRecognised and TreeNameLenient state the rest.
- Rgb.GetR: its own contract bounds the component only; Rgb.UnpackPack and Rgb.PackUnpack state that it reads bits 16-23.
- Rgb.GetG: its own contract bounds the component only; Rgb.UnpackPack and Rgb.PackUnpack state that it reads bits 8-15.
- Rgb.GetB: its own contract bounds the component only; Rgb.UnpackPack and Rgb.PackUnpack state that it reads bits 0-7.
- Community.ReadTreeTag: its own contract says little. Community.TreeTagRoundTrip and Community.TreeTagEmptyNameLost state what it reads.
- GraphIo.FileExtension: requires a '.' in the name. On a name without one the source's backward scan (`filename[--idx]`, networks/io.H:414-415) runs below index 0 through the unsigned wrap-around, which is undefined behaviour; the model leaves that case out rather than give it a value.
- Stl.ReadIntPair: its own contract says little. Stl.IntPairRoundTrip states what it reads.
- Similarity.PrepareImage: its own contract gives the image's shape; Similarity.PrepareImageMeaning states the pixels.
- Similarity.PrepareNamedImage: its own contract gives the image's shape; Similarity.NamedImageIsTurned states the pixels.
- GraphIo.EatWhite: its contract does not say that only blanks and tabs are dropped; the round trips in GraphIoLaws cover the text `write_ladj` writes.
- GraphIo.ReadEdge: its contract states bounds only; the round trips in GraphIoLaws state what it reads from written text.
- GraphIo.ReadEdges: its contract states bounds only; the round trips in GraphIoLaws state what it reads from written text.
- GraphIo.ReadVertices: its contract states bounds only; the round trips in GraphIoLaws state what it reads from written text.
- AdjList.Subgraph: clears the target with the corrected AdjList.Clear, not the as-written one. They differ only on a target whose pairs or counters are not all zero (see Findings). The callers at networks/treeanlz.C:334, networks/modmeas.C:91 and networks/stats.H:445 pass freshly built targets, where AdjList.ClearAsWrittenFresh shows the two agree.
- Stl.WritePair carries no contract of its own: Stl.IntPairRoundTrip states what it writes.
- Text.ReadInt and Text.ReadDigits: numbers are unbounded. The source reads sizes, vertices and neighbours into 32-bit `uint`s, and a value above 4294967295 sets the stream's fail bit: a size of "4294967296" makes `read_ladj` throw, while the model reads it.
- Histograms.MakeCumulative: the bins and their sums are exact `real`s, whereas the source accumulates `double`s, which round.
- ModMeas.AddLeafs and ModMeas.Submodules: the source asserts every leaf name is known; the model returns `None` instead.

## Findings

| source | as written | input that shows it | evidently intended | confidence | as-written member | corrected member |
|---|---|---|---|---|---|---|
| networks/adj_list.H:204-210 | `clear` empties the maps and marks every node isolated, but the counter reset is commented out | a graph with one pair 0 -> 1, cleared: node 0 is isolated while `indegree(0)` is still 1 | reset `_id` and `_od` too, so counters match the maps | not executed | AdjList.ClearAsWrittenBreaksBookkeeping | AdjList.Clear |
| networks/io.H:161-166 | the bound check `u >= N` is skipped for the first vertex line | size 0 followed by the vertex line "0": accepted, and the tag then indexes node 0 of an empty graph | every vertex, the first included, must be below the size | not executed | GraphIo.FirstVertexEscapesBound | GraphIo.VertexCheck |

=== FILE: adj_list.dfy ===
/** The adjacency-list graph store (`net::adj_list` in networks/adj_list.H).

    Each node owns an ordered map from neighbour id to edge tag. Two counters are
    cached per node and, following the source's own naming, `id` (`_id`) counts
    the entries of the node's OWN map while `od` (`_od`) counts the maps that
    hold the node: `add_dir_edge(u,v)` stores `v` in `u`'s map, increments
    `u`'s `id` and `v`'s `od`. A set of isolated nodes, a stored-pair counter
    `e` (`_E`) and the undirected flag complete the record. */
module AdjList {
  import opened Common

  datatype NodeInfo<N> = NodeInfo(id: nat, od: nat, tag: N)

  datatype Graph<N, E> = Graph(
    adj: seq<map<nat, E>>,
    nodes: seq<NodeInfo<N>>,
    isolated: set<nat>,
    e: nat,
    undirected: bool)

  type Pair<E> = (nat, nat, E)

  // ---------------------------------------------------------------------------
  // Representation invariants

  /** One record per node, and every stored neighbour id is a node. */
  ghost predicate WellFormed<N, E>(g: Graph<N, E>)
  {
    && |g.nodes| == |g.adj|
    && forall u, v :: 0 <= u < |g.adj| && v in g.adj[u] ==> v < |g.adj|
  }

  /** The rows whose map holds `k`. */
  function Holders<E>(adj: seq<map<nat, E>>, k: nat): set<nat>
  {
    set i | 0 <= i < |adj| && k in adj[i]
  }

  /** Total number of stored (row, neighbour) pairs. */
  function RowSum<E>(adj: seq<map<nat, E>>): nat
  {
    if |adj| == 0 then 0 else RowSum(adj[..|adj| - 1]) + |adj[|adj| - 1]|
  }

  function IsolatedSet<N>(nodes: seq<NodeInfo<N>>): set<nat>
  {
    set k | 0 <= k < |nodes| && nodes[k].id == 0 && nodes[k].od == 0
  }

  /** Every stored endpoint names a node. */
  ghost predicate Bounded<E>(adj: seq<map<nat, E>>)
  {
    forall u, v :: 0 <= u < |adj| && v in adj[u] ==> v < |adj|
  }

  /** Every stored pair is stored in both directions. */
  ghost predicate Symmetric<E>(adj: seq<map<nat, E>>)
  {
    && Bounded(adj)
    && forall u, v :: 0 <= u < |adj| && 0 <= v < |adj| && v in adj[u] ==> u in adj[v]
  }

  /** Both directions of every pair carry the same tag. */
  ghost predicate MirrorTagged<E>(adj: seq<map<nat, E>>)
  {
    forall u, v :: 0 <= u < |adj| && v in adj[u] && v < |adj| && u in adj[v] ==> adj[u][v] == adj[v][u]
  }

  /** The degree bookkeeping: counters, isolated set and pair count agree with the maps. */
  ghost predicate Counted<N, E>(g: Graph<N, E>)
  {
    && WellFormed(g)
    && (forall k :: 0 <= k < |g.adj| ==> g.nodes[k].id == |g.adj[k]|)
    && (forall k :: 0 <= k < |g.adj| ==> g.nodes[k].od == |Holders(g.adj, k)|)
    && g.isolated == IsolatedSet(g.nodes)
    && g.e == RowSum(g.adj)
  }

  /** Bookkeeping, plus: an undirected graph stores every pair in both directions. */
  ghost predicate Valid<N, E>(g: Graph<N, E>)
  {
    Counted(g) && (g.undirected ==> Symmetric(g.adj))
  }

  /** The shape facts a valid graph gives its users. */
  lemma ValidShape<N, E>(g: Graph<N, E>)
    requires Valid(g)
    ensures |g.nodes| == |g.adj| && Bounded(g.adj) && (g.undirected ==> Symmetric(g.adj))
  {
  }

  /** The row `m` with `k` mapped to `t` (typed so that the row stays a `map<nat, E>`). */
  function Insert<E>(m: map<nat, E>, k: nat, t: E): map<nat, E>
  {
    m[k := t]
  }

  ghost predicate SameTags<N, E>(g: Graph<N, E>, h: Graph<N, E>)
  {
    |g.nodes| == |h.nodes| && forall k :: 0 <= k < |g.nodes| ==> g.nodes[k].tag == h.nodes[k].tag
  }

  // ---------------------------------------------------------------------------
  // Counting lemmas

  lemma {:induction false} RowSumUpdate<E>(adj: seq<map<nat, E>>, i: nat, m: map<nat, E>)
    requires i < |adj|
    ensures RowSum(adj[i := m]) + |adj[i]| == RowSum(adj) + |m|
    decreases |adj|
  {
    var n := |adj| - 1;
    if i < n {
      assert adj[i := m][..n] == adj[..n][i := m];
      RowSumUpdate(adj[..n], i, m);
    } else {
      assert adj[i := m][..n] == adj[..n];
    }
  }

  lemma {:induction false} RowSumEmpty<E>(adj: seq<map<nat, E>>)
    requires forall k :: 0 <= k < |adj| ==> adj[k] == map[]
    ensures RowSum(adj) == 0
    decreases |adj|
  {
    if |adj| > 0 {
      RowSumEmpty(adj[..|adj| - 1]);
    }
  }

  lemma {:induction false} RowSumZero<E>(adj: seq<map<nat, E>>)
    requires RowSum(adj) == 0
    ensures forall k :: 0 <= k < |adj| ==> adj[k] == map[]
    decreases |adj|
  {
    if |adj| > 0 {
      RowSumZero(adj[..|adj| - 1]);
      assert forall k :: 0 <= k < |adj| - 1 ==> adj[k] == adj[..|adj| - 1][k];
    }
  }

  /** Number of keys of `m` below `n`, counted one candidate at a time. */
  function KeysBelow<E>(m: map<nat, E>, n: nat): nat
  {
    if n == 0 then 0 else KeysBelow(m, n - 1) + (if n - 1 in m then 1 else 0)
  }

  lemma {:induction false} KeysBelowCard<E>(m: map<nat, E>, n: nat)
    ensures KeysBelow(m, n) == |set k | k in m && k < n|
  {
    if n == 0 {
      assert (set k | k in m && k < n) == {};
    } else {
      KeysBelowCard(m, n - 1);
      var s := set k | k in m && k < n - 1;
      if n - 1 in m {
        assert (set k | k in m && k < n) == s + {n - 1};
      } else {
        assert (set k | k in m && k < n) == s;
      }
    }
  }

  /** Sum over the first `n` node ids of the number of rows holding them. */
  function ColSum<E>(adj: seq<map<nat, E>>, n: nat): nat
  {
    if n == 0 then 0 else ColSum(adj, n - 1) + |Holders(adj, n - 1)|
  }

  lemma {:induction false} ColSumSnoc<E>(adj: seq<map<nat, E>>, m: map<nat, E>, n: nat)
    ensures ColSum(adj + [m], n) == ColSum(adj, n) + KeysBelow(m, n)
  {
    if n > 0 {
      ColSumSnoc(adj, m, n - 1);
      var k := n - 1;
      if k in m {
        assert Holders(adj + [m], k) == Holders(adj, k) + {|adj|};
      } else {
        assert Holders(adj + [m], k) == Holders(adj, k);
      }
    }
  }

  /** Double counting: counting pairs by rows or by held ids gives the same total. */
  lemma {:induction false} RowSumIsColSum<E>(adj: seq<map<nat, E>>, n: nat)
    requires forall u, v :: 0 <= u < |adj| && v in adj[u] ==> v < n
    ensures RowSum(adj) == ColSum(adj, n)
    decreases |adj|
  {
    if |adj| == 0 {
      ColSumZero(adj, n);
    } else {
      var a := adj[..|adj| - 1];
      var m := adj[|adj| - 1];
      assert adj == a + [m];
      RowSumIsColSum(a, n);
      ColSumSnoc(a, m, n);
      KeysBelowCard(m, n);
      assert (set k | k in m && k < n) == m.Keys;
    }
  }

  lemma {:induction false} ColSumZero<E>(adj: seq<map<nat, E>>, n: nat)
    requires |adj| == 0
    ensures ColSum(adj, n) == 0
  {
    if n > 0 {
      ColSumZero(adj, n - 1);
      assert Holders(adj, n - 1) == {};
    }
  }

  lemma {:induction false} RowSumPrefixIsColSum<E>(t: seq<map<nat, E>>, adj: seq<map<nat, E>>, k: nat)
    requires k <= |t|
    requires forall j :: 0 <= j < |t| ==> |t[j]| == |Holders(adj, j)|
    ensures RowSum(t[..k]) == ColSum(adj, k)
  {
    if k > 0 {
      assert t[..k][..k - 1] == t[..k - 1];
      RowSumPrefixIsColSum(t, adj, k - 1);
    }
  }

  // ---------------------------------------------------------------------------
  // Construction

  /** `n` isolated nodes with the given tags and no pairs. */
  function Empty<N, E>(tags: seq<N>, undirected: bool): (g: Graph<N, E>)
    ensures Valid(g) && |g.adj| == |tags| && g.undirected == undirected && g.e == 0
    ensures forall k :: 0 <= k < |tags| ==> g.adj[k] == map[] && g.nodes[k].tag == tags[k]
    ensures g.isolated == Below(|tags|)
  {
    var adj: seq<map<nat, E>> := seq(|tags|, _ => map[]);
    RowSumEmpty(adj);
    var nodes := seq(|tags|, k requires 0 <= k < |tags| => NodeInfo(0, 0, tags[k]));
    assert forall k :: 0 <= k < |tags| ==> Holders(adj, k) == {};
    Graph(adj, nodes, Below(|tags|), 0, undirected)
  }

  /** `adj_list(SZ,bundir)`: `n` isolated nodes carrying the default tag. */
  function NewGraph<N, E>(n: nat, undirected: bool, dflt: N): (g: Graph<N, E>)
    ensures Valid(g) && |g.adj| == n && g.undirected == undirected && g.e == 0
    ensures g.isolated == Below(n)
    ensures forall k :: 0 <= k < n ==> g.adj[k] == map[] && g.nodes[k].tag == dflt
  {
    Empty(seq(n, _ => dflt), undirected)
  }

  /** `add_node`: append an isolated node; its id is the old node count. */
  function AddNode<N, E>(g: Graph<N, E>, tag: N): (r: (Graph<N, E>, nat))
    requires Valid(g)
    ensures Valid(r.0) && r.1 == |g.adj| && |r.0.adj| == |g.adj| + 1
    ensures r.0.adj[..|g.adj|] == g.adj && r.0.adj[r.1] == map[]
    ensures r.0.nodes[..|g.adj|] == g.nodes && r.0.nodes[r.1].tag == tag
    ensures r.0.isolated == g.isolated + {r.1} && r.0.undirected == g.undirected && r.0.e == g.e
  {
    var n := |g.adj|;
    AppendedValid(g, tag);
    (Graph(g.adj + [map[]], g.nodes + [NodeInfo(0, 0, tag)], g.isolated + {n}, g.e, g.undirected), n)
  }

  lemma AppendedValid<N, E>(g: Graph<N, E>, tag: N)
    requires Valid(g)
    ensures Valid(Graph(g.adj + [map[]], g.nodes + [NodeInfo(0, 0, tag)], g.isolated + {|g.adj|}, g.e, g.undirected))
  {
    AppendedCounted(g, tag);
    if g.undirected {
      AppendedSymmetric(g.adj);
    }
  }

  lemma AppendedCounted<N, E>(g: Graph<N, E>, tag: N)
    requires Counted(g)
    ensures Counted(Graph(g.adj + [map[]], g.nodes + [NodeInfo(0, 0, tag)], g.isolated + {|g.adj|}, g.e, g.undirected))
  {
    var n := |g.adj|;
    var adj := g.adj + [map[]];
    var nodes := g.nodes + [NodeInfo(0, 0, tag)];
    var h: Graph<N, E> := Graph(adj, nodes, g.isolated + {n}, g.e, g.undirected);
    assert forall u :: 0 <= u < n ==> adj[u] == g.adj[u];
    assert WellFormed(h) by {
      forall u, v | 0 <= u < |adj| && v in adj[u]
        ensures v < |adj|
      {
        assert u < n && adj[u] == g.adj[u];
      }
    }
    forall k | 0 <= k < n + 1
      ensures nodes[k].od == |Holders(adj, k)|
    {
      AppendedHolders(g.adj, k);
    }
    assert IsolatedSet(nodes) == IsolatedSet(g.nodes) + {n};
    assert RowSum(adj) == RowSum(g.adj) by {
      assert adj[..n] == g.adj;
    }
  }

  lemma AppendedHolders<E>(adj: seq<map<nat, E>>, k: nat)
    requires Bounded(adj)
    ensures Holders(adj + [map[]], k) == if k < |adj| then Holders(adj, k) else {}
  {
    var a := adj + [map[]];
    forall i
      ensures i in Holders(a, k) <==> i in Holders(adj, k) && k < |adj|
    {
      if 0 <= i < |adj| {
        assert a[i] == adj[i];
      }
    }
  }

  lemma AppendedSymmetric<E>(adj: seq<map<nat, E>>)
    requires Symmetric(adj)
    ensures Symmetric(adj + [map[]])
  {
    var a := adj + [map[]];
    forall u: int, v: nat | 0 <= u < |a| && v in a[u]
      ensures v < |a| && u in a[v]
    {
      assert u < |adj| && a[u] == adj[u];
      SymmetricAt(adj, u, v);
      assert a[v] == adj[v];
    }
  }

  function SetNodeTag<N, E>(g: Graph<N, E>, k: nat, t: N): (r: Graph<N, E>)
    requires Valid(g) && k < |g.adj|
    ensures Valid(r) && r.adj == g.adj && r.nodes[k].tag == t
    ensures forall j :: 0 <= j < |g.nodes| && j != k ==> r.nodes[j] == g.nodes[j]
    ensures r.undirected == g.undirected && r.e == g.e && r.isolated == g.isolated
  {
    var nodes := g.nodes[k := g.nodes[k].(tag := t)];
    assert IsolatedSet(nodes) == IsolatedSet(g.nodes);
    g.(nodes := nodes)
  }

  // ---------------------------------------------------------------------------
  // Queries

  function Indegree<N, E>(g: Graph<N, E>, k: nat): nat
    requires WellFormed(g) && k < |g.adj|
  {
    g.nodes[k].id
  }

  function Outdegree<N, E>(g: Graph<N, E>, k: nat): nat
    requires WellFormed(g) && k < |g.adj|
  {
    g.nodes[k].od
  }

  /** `degree`: in undirected mode the mirrored pairs are counted once. */
  function Degree<N, E>(g: Graph<N, E>, k: nat): nat
    requires WellFormed(g) && k < |g.adj|
  {
    if g.undirected then g.nodes[k].id else g.nodes[k].id + g.nodes[k].od
  }

  /** `num_edges`: half the stored pair count in undirected mode. */
  function NumEdges<N, E>(g: Graph<N, E>): nat
  {
    if g.undirected then g.e / 2 else g.e
  }

  predicate Connected<N, E>(g: Graph<N, E>, u: nat, v: nat)
    requires u < |g.adj|
  {
    v in g.adj[u]
  }

  /** The counters mean what the source's names suggest only through the invariant:
      `indegree(k)` is the size of `k`'s own map, `outdegree(k)` the number of maps
      holding `k`; on an undirected graph the two agree, so `degree` is either, and
      `num_edges` is half the stored pairs. */
  lemma DegreeMeaning<N, E>(g: Graph<N, E>, k: nat)
    requires Valid(g) && k < |g.adj|
    ensures Indegree(g, k) == |g.adj[k]|
    ensures Outdegree(g, k) == |Holders(g.adj, k)|
    ensures g.undirected ==> Outdegree(g, k) == Indegree(g, k) == Degree(g, k)
    ensures !g.undirected ==> Degree(g, k) == |g.adj[k]| + |Holders(g.adj, k)|
    ensures NumEdges(g) == if g.undirected then RowSum(g.adj) / 2 else RowSum(g.adj)
  {
    if g.undirected {
      assert Holders(g.adj, k) == g.adj[k].Keys;
    }
  }

  /** A node is in the isolated set exactly when no pair touches it. */
  lemma IsolatedMeaning<N, E>(g: Graph<N, E>, k: nat)
    requires Valid(g) && k < |g.adj|
    ensures k in g.isolated <==> g.adj[k] == map[] && forall i :: 0 <= i < |g.adj| ==> k !in g.adj[i]
  {
    if k in g.isolated {
      assert |Holders(g.adj, k)| == 0;
      forall i | 0 <= i < |g.adj|
        ensures k !in g.adj[i]
      {
        assert i !in Holders(g.adj, k);
      }
    } else if g.adj[k] == map[] {
      assert Holders(g.adj, k) != {};
      var i :| i in Holders(g.adj, k);
      assert k in g.adj[i];
    }
  }

  /** `common_neighbours`: the number of ids present in both rows. */
  method CommonNeighbours<N, E>(g: Graph<N, E>, i: nat, j: nat) returns (count: nat)
    requires WellFormed(g) && i < |g.adj| && j < |g.adj|
    ensures count == |g.adj[i].Keys * g.adj[j].Keys|
  {
    count := 0;
    var x := 0;
    while x < |g.adj|
      invariant x <= |g.adj|
      invariant count == |set y | y in g.adj[i] && y in g.adj[j] && y < x|
    {
      ghost var before := set y | y in g.adj[i] && y in g.adj[j] && y < x;
      if x in g.adj[i] && x in g.adj[j] {
        assert (set y | y in g.adj[i] && y in g.adj[j] && y < x + 1) == before + {x};
        count := count + 1;
      } else {
        assert (set y | y in g.adj[i] && y in g.adj[j] && y < x + 1) == before;
      }
      x := x + 1;
    }
    assert (set y | y in g.adj[i] && y in g.adj[j] && y < x) == g.adj[i].Keys * g.adj[j].Keys;
  }

  // ---------------------------------------------------------------------------
  // Insertion and removal

  lemma AddDirEdgeKept<N, E>(g: Graph<N, E>, u: nat, v: nat)
    requires Counted(g) && u < |g.adj| && v < |g.adj| && v in g.adj[u]
    ensures g.isolated - {u, v} == g.isolated
  {
    assert u in Holders(g.adj, v);
  }

  /** The record `add_dir_edge(u,v,t)` builds when `v` is new in `u`'s map. */
  function Inserted<N, E>(g: Graph<N, E>, u: nat, v: nat, t: E): Graph<N, E>
    requires WellFormed(g) && u < |g.adj| && v < |g.adj|
  {
    var n1 := g.nodes[u := g.nodes[u].(id := g.nodes[u].id + 1)];
    var n2 := n1[v := n1[v].(od := n1[v].od + 1)];
    Graph(g.adj[u := Insert(g.adj[u], v, t)], n2, g.isolated - {u, v}, g.e + 1, g.undirected)
  }

  lemma HoldersInsert<E>(adj: seq<map<nat, E>>, u: nat, v: nat, t: E, k: nat)
    requires u < |adj| && v !in adj[u]
    ensures Holders(adj[u := Insert(adj[u], v, t)], k) == Holders(adj, k) + (if k == v then {u} else {})
  {
  }

  lemma InsertedDegrees<N, E>(g: Graph<N, E>, u: nat, v: nat, t: E)
    requires Counted(g) && u < |g.adj| && v < |g.adj| && v !in g.adj[u]
    ensures var h := Inserted(g, u, v, t);
      forall k :: 0 <= k < |h.adj| ==> h.nodes[k].id == |h.adj[k]| && h.nodes[k].od == |Holders(h.adj, k)|
  {
    var h := Inserted(g, u, v, t);
    assert |h.adj[u]| == |g.adj[u]| + 1 by {
      assert h.adj[u].Keys == g.adj[u].Keys + {v};
    }
    forall k | 0 <= k < |h.adj|
      ensures h.nodes[k].id == |h.adj[k]| && h.nodes[k].od == |Holders(h.adj, k)|
    {
      HoldersInsert(g.adj, u, v, t, k);
    }
  }

  lemma InsertedIsolated<N, E>(g: Graph<N, E>, u: nat, v: nat, t: E)
    requires WellFormed(g) && g.isolated == IsolatedSet(g.nodes) && u < |g.adj| && v < |g.adj|
    ensures var h := Inserted(g, u, v, t); IsolatedSet(h.nodes) == h.isolated
  {
    var h := Inserted(g, u, v, t);
    forall k | 0 <= k
      ensures k in IsolatedSet(h.nodes) <==> k in h.isolated
    {
    }
  }

  lemma InsertedCounted<N, E>(g: Graph<N, E>, u: nat, v: nat, t: E)
    requires Counted(g) && u < |g.adj| && v < |g.adj| && v !in g.adj[u]
    ensures Counted(Inserted(g, u, v, t))
  {
    InsertedDegrees(g, u, v, t);
    InsertedIsolated(g, u, v, t);
    RowSumUpdate(g.adj, u, Insert(g.adj[u], v, t));
  }

  /** `add_dir_edge(u,v,t)` (private in the source): store `v` in `u`'s map. */
  function AddDirEdge<N, E>(g: Graph<N, E>, u: nat, v: nat, t: E): (r: (Graph<N, E>, bool))
    requires Counted(g) && u < |g.adj| && v < |g.adj|
    ensures Counted(r.0) && |r.0.adj| == |g.adj| && SameTags(r.0, g) && r.0.undirected == g.undirected
    ensures r.1 <==> v !in g.adj[u]
    ensures !r.1 ==> r.0 == g
    ensures r.1 ==> r.0.adj == g.adj[u := Insert(g.adj[u], v, t)] && r.0.e == g.e + 1
  {
    if v in g.adj[u] then
      AddDirEdgeKept(g, u, v);
      (g.(isolated := g.isolated - {u, v}), false)
    else
      InsertedCounted(g, u, v, t);
      (Inserted(g, u, v, t), true)
  }

  /** The rows after `add_edge(u,v,t)`: `v` enters `u`'s map unless already there and,
      in undirected mode, `u` enters `v`'s map unless already there. */
  function Linked<E>(adj: seq<map<nat, E>>, u: nat, v: nat, t: E, undirected: bool): (a: seq<map<nat, E>>)
    requires u < |adj| && v < |adj|
    ensures |a| == |adj|
  {
    var a1 := if v in adj[u] then adj else adj[u := Insert(adj[u], v, t)];
    if undirected && u !in a1[v] then a1[v := Insert(a1[v], u, t)] else a1
  }

  lemma LinkedFacts<E>(adj: seq<map<nat, E>>, u: nat, v: nat, t: E, undirected: bool)
    requires u < |adj| && v < |adj|
    ensures var a := Linked(adj, u, v, t, undirected);
      && |a| == |adj|
      && (forall x, y :: 0 <= x < |adj| ==>
            (y in a[x] <==> y in adj[x] || (x == u && y == v) || (undirected && x == v && y == u)))
      && (forall x, y :: 0 <= x < |adj| && y in adj[x] ==> a[x][y] == adj[x][y])
      && (v !in adj[u] ==> a[u][v] == t)
      && (undirected && u !in adj[v] ==> a[v][u] == t)
      && (undirected && Symmetric(adj) ==> Symmetric(a))
  {
    var a := Linked(adj, u, v, t, undirected);
    forall x: nat, y: nat | x < |adj|
      ensures y in a[x] <==> y in adj[x] || (x == u && y == v) || (undirected && x == v && y == u)
    {
      LinkedAt(adj, u, v, t, undirected, x, y);
    }
    if undirected && Symmetric(adj) {
      forall x: int, y: nat | 0 <= x < |a| && y in a[x]
        ensures y < |a| && x in a[y]
      {
        LinkedAt(adj, u, v, t, undirected, x, y);
        if y in adj[x] {
          SymmetricAt(adj, x, y);
        }
        LinkedAt(adj, u, v, t, undirected, y, x);
      }
    }
  }

  lemma LinkedAt<E>(adj: seq<map<nat, E>>, u: nat, v: nat, t: E, undirected: bool, x: nat, y: nat)
    requires u < |adj| && v < |adj| && x < |adj|
    ensures var a := Linked(adj, u, v, t, undirected);
      |a| == |adj| && (y in a[x] <==> y in adj[x] || (x == u && y == v) || (undirected && x == v && y == u))
  {
  }

  /** One instance of symmetry. */
  lemma SymmetricAt<E>(adj: seq<map<nat, E>>, x: nat, y: nat)
    requires Symmetric(adj) && x < |adj| && y in adj[x]
    ensures y < |adj| && x in adj[y]
  {
  }

  /** `add_edge(u,v,t)`: in undirected mode both directions are inserted with the same
      tag and the result is that of the mirror insertion, so a new undirected self-loop
      reports `false` although it was stored. An existing pair changes nothing. */
  function AddEdge<N, E>(g: Graph<N, E>, u: nat, v: nat, t: E): (r: (Graph<N, E>, bool))
    requires Valid(g) && u < |g.adj| && v < |g.adj|
    ensures Valid(r.0) && |r.0.adj| == |g.adj| && SameTags(r.0, g) && r.0.undirected == g.undirected
    ensures r.0.adj == Linked(g.adj, u, v, t, g.undirected)
    ensures r.1 <==> v !in g.adj[u] && !(g.undirected && u == v)
    ensures v in g.adj[u] ==> r.0 == g
    ensures forall a, b :: 0 <= a < |g.adj| ==>
      (b in r.0.adj[a] <==> b in g.adj[a] || (a == u && b == v) || (g.undirected && a == v && b == u))
    ensures forall a, b :: 0 <= a < |g.adj| && b in g.adj[a] ==> r.0.adj[a][b] == g.adj[a][b]
    ensures v !in g.adj[u] ==> r.0.adj[u][v] == t && (g.undirected ==> r.0.adj[v][u] == t)
    ensures r.0.e == g.e + (if v in g.adj[u] then 0 else if g.undirected && u != v then 2 else 1)
  {
    LinkedFacts(g.adj, u, v, t, g.undirected);
    if g.undirected then
      assert v in g.adj[u] <==> u in g.adj[v];
      var r1 := AddDirEdge(g, u, v, t);
      AddDirEdge(r1.0, v, u, t)
    else
      AddDirEdge(g, u, v, t)
  }

  /** The record `remove_dir_edge(u,v)` builds when `v` is in `u`'s map. */
  function Removed<N, E>(g: Graph<N, E>, u: nat, v: nat): Graph<N, E>
    requires Counted(g) && u < |g.adj| && v < |g.adj| && v in g.adj[u]
  {
    RemoveDirEdgeFacts(g, u, v);
    var n1 := g.nodes[u := g.nodes[u].(id := g.nodes[u].id - 1)];
    var n2 := n1[v := n1[v].(od := n1[v].od - 1)];
    var iso := g.isolated + (if n2[u].id == 0 && n2[u].od == 0 then {u} else {})
                          + (if n2[v].id == 0 && n2[v].od == 0 then {v} else {});
    Graph(g.adj[u := g.adj[u] - {v}], n2, iso, g.e - 1, g.undirected)
  }

  lemma RemoveDirEdgeFacts<N, E>(g: Graph<N, E>, u: nat, v: nat)
    requires Counted(g) && u < |g.adj| && v < |g.adj| && v in g.adj[u]
    ensures g.nodes[u].id >= 1 && g.nodes[v].od >= 1 && g.e >= 1
  {
    assert u in Holders(g.adj, v);
    RowSumUpdate(g.adj, u, map[]);
  }

  lemma HoldersRemove<E>(adj: seq<map<nat, E>>, u: nat, v: nat, k: nat)
    requires u < |adj| && v in adj[u]
    ensures Holders(adj, k) == Holders(adj[u := adj[u] - {v}], k) + (if k == v then {u} else {})
    ensures k == v ==> u !in Holders(adj[u := adj[u] - {v}], k)
  {
  }

  lemma RemovedDegrees<N, E>(g: Graph<N, E>, u: nat, v: nat)
    requires Counted(g) && u < |g.adj| && v < |g.adj| && v in g.adj[u]
    ensures var h := Removed(g, u, v);
      forall k :: 0 <= k < |h.adj| ==> h.nodes[k].id == |h.adj[k]| && h.nodes[k].od == |Holders(h.adj, k)|
  {
    var h := Removed(g, u, v);
    assert |h.adj[u]| + 1 == |g.adj[u]| by {
      assert h.adj[u].Keys == g.adj[u].Keys - {v};
    }
    forall k | 0 <= k < |h.adj|
      ensures h.nodes[k].id == |h.adj[k]| && h.nodes[k].od == |Holders(h.adj, k)|
    {
      HoldersRemove(g.adj, u, v, k);
    }
  }

  lemma RemovedIsolated<N, E>(g: Graph<N, E>, u: nat, v: nat)
    requires Counted(g) && u < |g.adj| && v < |g.adj| && v in g.adj[u]
    ensures var h := Removed(g, u, v); IsolatedSet(h.nodes) == h.isolated
  {
    var h := Removed(g, u, v);
    forall k | 0 <= k
      ensures k in IsolatedSet(h.nodes) <==> k in h.isolated
    {
    }
  }

  lemma RemovedCounted<N, E>(g: Graph<N, E>, u: nat, v: nat)
    requires Counted(g) && u < |g.adj| && v < |g.adj| && v in g.adj[u]
    ensures Counted(Removed(g, u, v))
  {
    RemovedDegrees(g, u, v);
    RemovedIsolated(g, u, v);
    RowSumUpdate(g.adj, u, g.adj[u] - {v});
  }

  /** `remove_dir_edge(u,v)` (private in the source). */
  function RemoveDirEdge<N, E>(g: Graph<N, E>, u: nat, v: nat): (r: (Graph<N, E>, bool))
    requires Counted(g) && u < |g.adj| && v < |g.adj|
    ensures Counted(r.0) && |r.0.adj| == |g.adj| && SameTags(r.0, g) && r.0.undirected == g.undirected
    ensures r.1 <==> v in g.adj[u]
    ensures !r.1 ==> r.0 == g
    ensures r.1 ==> r.0.adj == g.adj[u := g.adj[u] - {v}] && r.0.e + 1 == g.e
  {
    if v !in g.adj[u] then (g, false)
    else
      RemovedCounted(g, u, v);
      (Removed(g, u, v), true)
  }

  /** The rows after `remove_edge(u,v)`: `v` leaves `u`'s map and, in undirected
      mode, `u` leaves `v`'s map if still there. */
  function Unlinked<E>(adj: seq<map<nat, E>>, u: nat, v: nat, undirected: bool): seq<map<nat, E>>
    requires u < |adj| && v < |adj|
  {
    var a1 := if v in adj[u] then adj[u := adj[u] - {v}] else adj;
    if undirected && u in a1[v] then a1[v := a1[v] - {u}] else a1
  }

  lemma UnlinkedFacts<E>(adj: seq<map<nat, E>>, u: nat, v: nat, undirected: bool)
    requires u < |adj| && v < |adj|
    ensures var a := Unlinked(adj, u, v, undirected);
      && |a| == |adj|
      && (forall x, y :: 0 <= x < |adj| ==>
            (y in a[x] <==> y in adj[x] && !(x == u && y == v) && !(undirected && x == v && y == u)))
      && (forall x, y :: 0 <= x < |adj| && y in a[x] ==> a[x][y] == adj[x][y])
      && (undirected && Symmetric(adj) ==> Symmetric(a))
  {
    var a := Unlinked(adj, u, v, undirected);
    forall x: nat, y: nat | x < |adj|
      ensures y in a[x] <==> y in adj[x] && !(x == u && y == v) && !(undirected && x == v && y == u)
    {
      UnlinkedAt(adj, u, v, undirected, x, y);
    }
    if undirected && Symmetric(adj) {
      forall x: int, y: nat | 0 <= x < |a| && y in a[x]
        ensures y < |a| && x in a[y]
      {
        UnlinkedAt(adj, u, v, undirected, x, y);
        SymmetricAt(adj, x, y);
        UnlinkedAt(adj, u, v, undirected, y, x);
      }
    }
  }

  lemma UnlinkedAt<E>(adj: seq<map<nat, E>>, u: nat, v: nat, undirected: bool, x: nat, y: nat)
    requires u < |adj| && v < |adj| && x < |adj|
    ensures var a := Unlinked(adj, u, v, undirected);
      |a| == |adj| && (y in a[x] <==> y in adj[x] && !(x == u && y == v) && !(undirected && x == v && y == u))
      && (y in a[x] ==> a[x][y] == adj[x][y])
  {
  }

  /** `remove_edge(u,v)`: the pair must be stored (the source asserts `connected(u,v)`);
      undirected graphs lose both directions. Removing an undirected self-loop reports
      `false` because the mirror removal finds nothing left. */
  function RemoveEdge<N, E>(g: Graph<N, E>, u: nat, v: nat): (r: (Graph<N, E>, bool))
    requires Valid(g) && u < |g.adj| && v < |g.adj| && Connected(g, u, v)
    ensures Valid(r.0) && |r.0.adj| == |g.adj| && SameTags(r.0, g) && r.0.undirected == g.undirected
    ensures r.0.adj == Unlinked(g.adj, u, v, g.undirected)
    ensures r.1 <==> !(g.undirected && u == v)
    ensures forall a, b :: 0 <= a < |g.adj| ==>
      (b in r.0.adj[a] <==> b in g.adj[a] && !(a == u && b == v) && !(g.undirected && a == v && b == u))
    ensures forall a, b :: 0 <= a < |g.adj| && b in r.0.adj[a] ==> r.0.adj[a][b] == g.adj[a][b]
    ensures r.0.e + (if g.undirected && u != v then 2 else 1) == g.e
  {
    UnlinkedFacts(g.adj, u, v, g.undirected);
    if g.undirected then
      assert u in g.adj[v];
      var r1 := RemoveDirEdge(g, u, v);
      RemoveDirEdge(r1.0, v, u)
    else
      RemoveDirEdge(g, u, v)
  }

  // ---------------------------------------------------------------------------
  // Clearing

  /** `clear()` as written: the maps are emptied, every node is marked isolated and the
      pair counter is reset, but the per-node counters keep their old values (the line
      that would reset them is commented out at networks/adj_list.H:207). */
  function ClearAsWritten<N, E>(g: Graph<N, E>): (r: Graph<N, E>)
    requires WellFormed(g)
    ensures WellFormed(r) && |r.adj| == |g.adj| && r.nodes == g.nodes && r.e == 0
    ensures forall k :: 0 <= k < |r.adj| ==> r.adj[k] == map[] && k in r.isolated
  {
    g.(adj := seq(|g.adj|, _ => map[]), isolated := Below(|g.adj|), e := 0)
  }

  /** Clearing a graph that has a pair leaves a stale counter behind: the node is listed
      as isolated while `indegree` still reports its old neighbour. */
  lemma ClearAsWrittenBreaksBookkeeping()
    ensures
      var g := AddEdge(NewGraph<nat, nat>(2, false, 0), 0, 1, 7).0;
      && Valid(g)
      && var c := ClearAsWritten(g);
      && 0 in c.isolated && Indegree(c, 0) == 1 && c.adj[0] == map[]
      && !Counted(c)
  {
    var g := AddEdge(NewGraph<nat, nat>(2, false, 0), 0, 1, 7).0;
    assert g.adj[0] == map[1 := 7];
    var c := ClearAsWritten(g);
    assert c.nodes[0].id == 1 != |c.adj[0]|;
  }

  /** `clear()` with the counters reset as well, keeping node tags: the graph is left
      with no pairs and every node isolated, and the bookkeeping holds again. */
  function Clear<N, E>(g: Graph<N, E>): (r: Graph<N, E>)
    requires WellFormed(g)
    ensures Valid(r) && |r.adj| == |g.adj| && SameTags(r, g) && r.undirected == g.undirected
    ensures r.e == 0 && NumEdges(r) == 0 && r.isolated == Below(|g.adj|)
    ensures forall k :: 0 <= k < |r.adj| ==> r.adj[k] == map[]
  {
    Empty(seq(|g.nodes|, k requires 0 <= k < |g.nodes| => g.nodes[k].tag), g.undirected)
  }

  /** On a graph with no pairs whose bookkeeping holds (as a freshly built one), `clear()`
      as written and the corrected clear agree: there is no stale counter to keep. */
  lemma ClearAsWrittenFresh<N, E>(g: Graph<N, E>)
    requires Counted(g) && g.e == 0
    ensures ClearAsWritten(g) == Clear(g)
  {
    RowSumZero(g.adj);
    var a, c := ClearAsWritten(g), Clear(g);
    forall k | 0 <= k < |g.adj|
      ensures a.nodes[k] == c.nodes[k]
    {
      assert Holders(g.adj, k) == {};
    }
  }

  /** `resize_and_clear(N)`: `n` isolated nodes with default tags, no pairs, same mode. */
  function ResizeAndClear<N, E>(g: Graph<N, E>, n: nat, dflt: N): (r: Graph<N, E>)
    ensures Valid(r) && |r.adj| == n && r.undirected == g.undirected && r.e == 0
    ensures r.isolated == Below(n)
    ensures forall k :: 0 <= k < n ==> r.adj[k] == map[] && r.nodes[k] == NodeInfo(0, 0, dflt)
  {
    NewGraph(n, g.undirected, dflt)
  }

  // ---------------------------------------------------------------------------
  // Enumeration of stored pairs in the order the ordered maps are iterated

  /** Lexicographic (row, neighbour) order: the order of a scan over all rows. */
  predicate Before<E>(p: Pair<E>, q: Pair<E>)
  {
    p.0 < q.0 || (p.0 == q.0 && p.1 < q.1)
  }

  /** Entries of row `k` with neighbour ids in [from, bound), ascending. */
  function RowPairs<E>(k: nat, m: map<nat, E>, from: nat, bound: nat): (ps: seq<Pair<E>>)
    ensures forall i :: 0 <= i < |ps| ==> ps[i].0 == k && from <= ps[i].1 < bound && ps[i].1 in m && ps[i].2 == m[ps[i].1]
    ensures forall i, j :: 0 <= i < j < |ps| ==> ps[i].0 == k && ps[i].1 < ps[j].1
    decreases bound - from
  {
    if from >= bound then []
    else (if from in m then [(k, from, m[from])] else []) + RowPairs(k, m, from + 1, bound)
  }

  lemma {:induction false} RowPairsComplete<E>(k: nat, m: map<nat, E>, from: nat, bound: nat, v: nat)
    requires from <= v < bound && v in m
    ensures (k, v, m[v]) in RowPairs(k, m, from, bound)
    decreases bound - from
  {
    if from < v {
      RowPairsComplete(k, m, from + 1, bound, v);
    }
  }

  /** Stored pairs of rows `k`, `k+1`, ... in scan order. */
  function PairsFrom<E>(adj: seq<map<nat, E>>, k: nat): (ps: seq<Pair<E>>)
    ensures forall i :: 0 <= i < |ps| ==> k <= ps[i].0 < |adj| && ps[i].1 < |adj| && ps[i].1 in adj[ps[i].0] && ps[i].2 == adj[ps[i].0][ps[i].1]
    decreases |adj| - k
  {
    if k >= |adj| then []
    else RowPairs(k, adj[k], 0, |adj|) + PairsFrom(adj, k + 1)
  }

  lemma {:induction false} PairsFromComplete<E>(adj: seq<map<nat, E>>, k: nat, u: nat, v: nat)
    requires k <= u < |adj| && v < |adj| && v in adj[u]
    ensures (u, v, adj[u][v]) in PairsFrom(adj, k)
    decreases |adj| - k
  {
    var row := RowPairs(k, adj[k], 0, |adj|);
    var rest := PairsFrom(adj, k + 1);
    assert PairsFrom(adj, k) == row + rest;
    if u == k {
      RowPairsComplete(k, adj[k], 0, |adj|, v);
    } else {
      PairsFromComplete(adj, k + 1, u, v);
    }
  }

  lemma {:induction false} PairsFromSorted<E>(adj: seq<map<nat, E>>, k: nat)
    ensures forall i, j :: 0 <= i < j < |PairsFrom(adj, k)| ==> Before(PairsFrom(adj, k)[i], PairsFrom(adj, k)[j])
    decreases |adj| - k
  {
    if k < |adj| {
      var row := RowPairs(k, adj[k], 0, |adj|);
      var rest := PairsFrom(adj, k + 1);
      var ps := row + rest;
      assert PairsFrom(adj, k) == ps;
      PairsFromSorted(adj, k + 1);
      forall i, j | 0 <= i < j < |ps|
        ensures Before(ps[i], ps[j])
      {
        if j < |row| {
          assert ps[i] == row[i] && ps[j] == row[j];
        } else if i < |row| {
          assert ps[i] == row[i] && ps[j] == rest[j - |row|];
          assert row[i].0 == k < rest[j - |row|].0;
        } else {
          assert ps[i] == rest[i - |row|] && ps[j] == rest[j - |row|];
          var i', j' := i - |row|, j - |row|;
          assert 0 <= i' < j' < |rest|;
          assert Before(rest[i'], rest[j']);
        }
      }
    }
  }

  /** All stored pairs of a well-formed graph, in scan order. */
  function StoredPairs<E>(adj: seq<map<nat, E>>): (ps: seq<Pair<E>>)
    ensures forall i :: 0 <= i < |ps| ==> ps[i].0 < |adj| && ps[i].1 < |adj| && ps[i].1 in adj[ps[i].0] && ps[i].2 == adj[ps[i].0][ps[i].1]
    ensures forall i, j :: 0 <= i < j < |ps| ==> Before(ps[i], ps[j])
  {
    PairsFromSorted(adj, 0);
    PairsFrom(adj, 0)
  }

  lemma StoredPairsComplete<E>(adj: seq<map<nat, E>>, u: nat, v: nat)
    requires u < |adj| && v < |adj| && v in adj[u]
    ensures (u, v, adj[u][v]) in StoredPairs(adj)
  {
    PairsFromComplete(adj, 0, u, v);
  }

  lemma StoredPairsSound<E>(adj: seq<map<nat, E>>, p: Pair<E>)
    requires p in StoredPairs(adj)
    ensures p.0 < |adj| && p.1 < |adj| && p.1 in adj[p.0] && p.2 == adj[p.0][p.1]
  {
    var ps := StoredPairs(adj);
    var i :| 0 <= i < |ps| && ps[i] == p;
  }

  /** The same pair, or (undirected) the same pair read backwards. */
  predicate SamePair<E>(p: Pair<E>, u: nat, v: nat, undirected: bool)
  {
    (p.0 == u && p.1 == v) || (undirected && p.0 == v && p.1 == u)
  }

  ghost predicate Named<E>(ps: seq<Pair<E>>, u: nat, v: nat, undirected: bool)
  {
    exists p :: p in ps && SamePair(p, u, v, undirected)
  }

  /** Pairs that name the same (undirected: unordered) pair carry the same tag. */
  ghost predicate Consistent<E>(ps: seq<Pair<E>>, undirected: bool)
  {
    forall p, q :: p in ps && q in ps && SamePair(p, q.0, q.1, undirected) ==> p.2 == q.2
  }

  ghost predicate InRange<E>(ps: seq<Pair<E>>, n: nat)
  {
    forall i :: 0 <= i < |ps| ==> ps[i].0 < n && ps[i].1 < n
  }

  /** The rows after a sequence of `add_edge` calls, in order. */
  function LinkAll<E>(adj: seq<map<nat, E>>, ps: seq<Pair<E>>, undirected: bool): (a: seq<map<nat, E>>)
    requires InRange(ps, |adj|)
    ensures |a| == |adj|
    decreases |ps|
  {
    if |ps| == 0 then adj
    else LinkAll(Linked(adj, ps[0].0, ps[0].1, ps[0].2, undirected), ps[1..], undirected)
  }

  /** A sequence of `add_edge` calls, in order. */
  function AddEdges<N, E>(g: Graph<N, E>, ps: seq<Pair<E>>): (r: Graph<N, E>)
    requires Valid(g) && InRange(ps, |g.adj|)
    ensures Valid(r) && r.adj == LinkAll(g.adj, ps, g.undirected)
    ensures SameTags(r, g) && r.undirected == g.undirected
    decreases |ps|
  {
    if |ps| == 0 then g
    else AddEdges(AddEdge(g, ps[0].0, ps[0].1, ps[0].2).0, ps[1..])
  }

  lemma {:induction false} LinkAllKeys<E>(adj: seq<map<nat, E>>, ps: seq<Pair<E>>, undirected: bool, u: nat, v: nat)
    requires InRange(ps, |adj|) && u < |adj|
    ensures v in LinkAll(adj, ps, undirected)[u] <==> v in adj[u] || Named(ps, u, v, undirected)
    decreases |ps|
  {
    if |ps| > 0 {
      var q := ps[0];
      var a1 := Linked(adj, q.0, q.1, q.2, undirected);
      LinkedFacts(adj, q.0, q.1, q.2, undirected);
      LinkAllKeys(a1, ps[1..], undirected, u, v);
      assert q in ps;
      if Named(ps[1..], u, v, undirected) {
        var p :| p in ps[1..] && SamePair(p, u, v, undirected);
        assert p in ps;
      }
      if Named(ps, u, v, undirected) && !SamePair(q, u, v, undirected) {
        var p :| p in ps && SamePair(p, u, v, undirected);
        assert p in ps[1..];
      }
    }
  }

  lemma {:induction false} LinkAllKeep<E>(adj: seq<map<nat, E>>, ps: seq<Pair<E>>, undirected: bool, u: nat, v: nat)
    requires InRange(ps, |adj|) && u < |adj| && v in adj[u]
    ensures v in LinkAll(adj, ps, undirected)[u] && LinkAll(adj, ps, undirected)[u][v] == adj[u][v]
    decreases |ps|
  {
    if |ps| > 0 {
      var q := ps[0];
      LinkedFacts(adj, q.0, q.1, q.2, undirected);
      LinkAllKeep(Linked(adj, q.0, q.1, q.2, undirected), ps[1..], undirected, u, v);
    }
  }

  /** A pair that was absent ends up with the tag every entry naming it carries. */
  lemma {:induction false} LinkAllTag<E>(adj: seq<map<nat, E>>, ps: seq<Pair<E>>, undirected: bool, p: Pair<E>)
    requires InRange(ps, |adj|) && Consistent(ps, undirected) && (undirected ==> Symmetric(adj))
    requires p in ps && p.1 !in adj[p.0]
    ensures var a := LinkAll(adj, ps, undirected);
      p.1 in a[p.0] && a[p.0][p.1] == p.2 && (undirected ==> p.0 in a[p.1] && a[p.1][p.0] == p.2)
    decreases |ps|
  {
    var q := ps[0];
    var a1 := Linked(adj, q.0, q.1, q.2, undirected);
    LinkedFacts(adj, q.0, q.1, q.2, undirected);
    assert InRange(ps[1..], |adj|) && Consistent(ps[1..], undirected);
    if p.1 in a1[p.0] {
      // the pair was created by the first insertion, which is `p` itself or its mirror
      assert SamePair(q, p.0, p.1, undirected);
      assert p.2 == q.2;
      LinkAllKeep(a1, ps[1..], undirected, p.0, p.1);
      if undirected {
        LinkAllKeep(a1, ps[1..], undirected, p.1, p.0);
      }
    } else {
      assert p in ps[1..];
      LinkAllTag(a1, ps[1..], undirected, p);
    }
  }

  lemma {:induction false} LinkAllNoop<E>(adj: seq<map<nat, E>>, ps: seq<Pair<E>>, undirected: bool)
    requires InRange(ps, |adj|)
    requires forall i :: 0 <= i < |ps| ==> ps[i].1 in adj[ps[i].0] && (undirected ==> ps[i].0 in adj[ps[i].1])
    ensures LinkAll(adj, ps, undirected) == adj
    decreases |ps|
  {
    if |ps| > 0 {
      LinkAllNoop(adj, ps[1..], undirected);
    }
  }

  // ---------------------------------------------------------------------------
  // to_undirected, check_undirected, transpose

  function Reversed<E>(ps: seq<Pair<E>>): (rs: seq<Pair<E>>)
    ensures |rs| == |ps|
    ensures forall i :: 0 <= i < |ps| ==> rs[i] == (ps[i].1, ps[i].0, ps[i].2)
  {
    seq(|ps|, i requires 0 <= i < |ps| => (ps[i].1, ps[i].0, ps[i].2))
  }

  /** The pairs `to_undirected` inserts: every stored pair read backwards. */
  function Mirrors<E>(adj: seq<map<nat, E>>): (rs: seq<Pair<E>>)
    ensures InRange(rs, |adj|)
  {
    Reversed(StoredPairs(adj))
  }

  lemma MirrorsSound<E>(adj: seq<map<nat, E>>, p: Pair<E>)
    requires p in Mirrors(adj)
    ensures p.0 < |adj| && p.1 < |adj| && p.0 in adj[p.1] && p.2 == adj[p.1][p.0]
  {
    var ps := StoredPairs(adj);
    var rs := Mirrors(adj);
    var i :| 0 <= i < |rs| && rs[i] == p;
    assert rs[i] == (ps[i].1, ps[i].0, ps[i].2);
  }

  lemma MirrorsComplete<E>(adj: seq<map<nat, E>>, u: nat, v: nat)
    requires u < |adj| && v < |adj| && v in adj[u]
    ensures (v, u, adj[u][v]) in Mirrors(adj)
  {
    var ps := StoredPairs(adj);
    StoredPairsComplete(adj, u, v);
    var i :| 0 <= i < |ps| && ps[i] == (u, v, adj[u][v]);
    assert Mirrors(adj)[i] == (v, u, adj[u][v]);
  }

  /** In a directed graph the inserted mirrors never disagree on a tag. */
  lemma MirrorsConsistent<E>(adj: seq<map<nat, E>>)
    ensures Consistent(Mirrors(adj), false)
  {
    var rs := Mirrors(adj);
    forall p, q | p in rs && q in rs && SamePair(p, q.0, q.1, false)
      ensures p.2 == q.2
    {
      MirrorsSound(adj, p);
      MirrorsSound(adj, q);
    }
  }

  lemma MirrorsKeys<E>(adj: seq<map<nat, E>>, undirected: bool, u: nat, v: nat)
    requires u < |adj|
    ensures v in LinkAll(adj, Mirrors(adj), undirected)[u] <==> v in adj[u] || (0 <= v < |adj| && u in adj[v])
  {
    var rs := Mirrors(adj);
    LinkAllKeys(adj, rs, undirected, u, v);
    if Named(rs, u, v, undirected) {
      var p :| p in rs && SamePair(p, u, v, undirected);
      MirrorsSound(adj, p);
    }
    if v < |adj| && u in adj[v] {
      MirrorsComplete(adj, v, u);
    }
  }

  lemma MirrorsTag<E>(adj: seq<map<nat, E>>, u: nat, v: nat)
    requires u < |adj| && v < |adj| && u in adj[v] && v !in adj[u]
    ensures v in LinkAll(adj, Mirrors(adj), false)[u] && LinkAll(adj, Mirrors(adj), false)[u][v] == adj[v][u]
  {
    MirrorsConsistent(adj);
    MirrorsComplete(adj, v, u);
    LinkAllTag(adj, Mirrors(adj), false, (u, v, adj[v][u]));
  }

  lemma MirrorsNoop<E>(adj: seq<map<nat, E>>)
    requires Symmetric(adj)
    ensures LinkAll(adj, Mirrors(adj), true) == adj
  {
    var ps := StoredPairs(adj);
    var rs := Mirrors(adj);
    forall i | 0 <= i < |rs|
      ensures rs[i].1 in adj[rs[i].0] && rs[i].0 in adj[rs[i].1]
    {
      assert rs[i] == (ps[i].1, ps[i].0, ps[i].2);
    }
    LinkAllNoop(adj, rs, true);
  }

  /** The rows `to_undirected` builds: every stored pair's reverse added in order. */
  function Symmetrized<E>(adj: seq<map<nat, E>>, undirected: bool): (h: seq<map<nat, E>>)
    ensures |h| == |adj|
  {
    LinkAll(adj, Mirrors(adj), undirected)
  }

  lemma SymmetrizedMirror<E>(adj: seq<map<nat, E>>, undirected: bool, u: nat, v: nat)
    requires Bounded(adj) && u < |adj| && v in Symmetrized(adj, undirected)[u]
    ensures v < |adj| && u in Symmetrized(adj, undirected)[v]
  {
    MirrorsKeys(adj, undirected, u, v);
    MirrorsKeys(adj, undirected, v, u);
  }

  lemma SymmetrizedSymmetric<E>(adj: seq<map<nat, E>>, undirected: bool)
    requires Bounded(adj)
    ensures Symmetric(Symmetrized(adj, undirected))
  {
    var h := Symmetrized(adj, undirected);
    forall u, v | 0 <= u < |h| && v in h[u]
      ensures v < |h|
    {
      SymmetrizedMirror(adj, undirected, u, v);
    }
    forall u, v | 0 <= u < |h| && v in h[u]
      ensures u in h[v]
    {
      SymmetrizedMirror(adj, undirected, u, v);
    }
  }

  /** `to_undirected()`: every stored pair gains its reverse with the same tag unless
      the reverse is already stored (its tag is then kept), and the flag is set. The
      source iterates the rows while inserting; the entries it meets that were inserted
      during the scan only re-add pairs already present, so the scan is modelled over
      the original pairs. */
  function ToUndirected<N, E>(g: Graph<N, E>): (r: Graph<N, E>)
    requires Valid(g)
    ensures Valid(r) && r.undirected && |r.adj| == |g.adj| && SameTags(r, g)
    ensures r.adj == Symmetrized(g.adj, g.undirected)
    ensures g.undirected ==> r == g
  {
    assert Bounded(g.adj);
    SymmetrizedSymmetric(g.adj, g.undirected);
    if g.undirected then
      MirrorsNoop(g.adj);
      g
    else
      AddEdges(g, Mirrors(g.adj)).(undirected := true)
  }

  /** What `to_undirected` promises, pair by pair. */
  lemma ToUndirectedMeaning<N, E>(g: Graph<N, E>)
    requires Valid(g)
    ensures var r := ToUndirected(g);
      && Symmetric(r.adj)
      && (forall u: nat, v: nat :: 0 <= u < |g.adj| ==> (v in r.adj[u] <==> v in g.adj[u] || (0 <= v < |g.adj| && u in g.adj[v])))
      && (forall u: nat, v: nat :: 0 <= u < |g.adj| && v in g.adj[u] ==> v in r.adj[u] && r.adj[u][v] == g.adj[u][v])
      && (forall u: nat, v: nat :: 0 <= u < |g.adj| && 0 <= v < |g.adj| && v !in g.adj[u] && u in g.adj[v] ==>
            v in r.adj[u] && r.adj[u][v] == g.adj[v][u])
  {
    var r := ToUndirected(g);
    forall u: nat, v: nat | 0 <= u < |g.adj|
      ensures v in r.adj[u] <==> v in g.adj[u] || (0 <= v < |g.adj| && u in g.adj[v])
    {
      MirrorsKeys(g.adj, g.undirected, u, v);
    }
    forall u: nat, v: nat | 0 <= u < |g.adj| && v in g.adj[u]
      ensures v in r.adj[u] && r.adj[u][v] == g.adj[u][v]
    {
      LinkAllKeep(g.adj, Mirrors(g.adj), g.undirected, u, v);
    }
    forall u: nat, v: nat | 0 <= u < |g.adj| && 0 <= v < |g.adj| && v !in g.adj[u] && u in g.adj[v]
      ensures v in r.adj[u] && r.adj[u][v] == g.adj[v][u]
    {
      if g.undirected {
        assert false;
      } else {
        MirrorsTag(g.adj, u, v);
      }
    }
  }

  /** A second `to_undirected` changes nothing. */
  lemma ToUndirectedIdempotent<N, E>(g: Graph<N, E>)
    requires Valid(g)
    ensures ToUndirected(ToUndirected(g)) == ToUndirected(g)
  {
  }

  /** Every pair of `ps` has its mirror stored. */
  function MirrorsPresent<E>(adj: seq<map<nat, E>>, ps: seq<Pair<E>>): (b: bool)
    ensures b <==> forall i :: 0 <= i < |ps| ==> ps[i].1 < |adj| && ps[i].0 in adj[ps[i].1]
  {
    if |ps| == 0 then true
    else
      ps[0].1 < |adj| && ps[0].0 in adj[ps[0].1] && MirrorsPresent(adj, ps[1..])
  }

  /** `check_undirected()`: scans every stored pair for its mirror. */
  function CheckUndirected<N, E>(g: Graph<N, E>): (b: bool)
    requires WellFormed(g)
    ensures b <==> Symmetric(g.adj)
  {
    var ps := StoredPairs(g.adj);
    var b := MirrorsPresent(g.adj, ps);
    assert b ==> Symmetric(g.adj) by {
      if b {
        forall u, v | 0 <= u < |g.adj| && v in g.adj[u]
          ensures v < |g.adj| && u in g.adj[v]
        {
          StoredPairsComplete(g.adj, u, v);
        }
      }
    }
    b
  }

  lemma CheckUndirectedAfterToUndirected<N, E>(g: Graph<N, E>)
    requires Valid(g)
    ensures CheckUndirected(ToUndirected(g))
  {
  }

  function TransposedRow<E>(adj: seq<map<nat, E>>, j: nat): map<nat, E>
  {
    map i: nat | i < |adj| && j in adj[i] :: adj[i][j]
  }

  /** The rows of the transposed graph: row `j` maps every holder `i` of `j` to the tag of `(i, j)`. */
  function TransposedRows<E>(adj: seq<map<nat, E>>): (t: seq<map<nat, E>>)
    ensures |t| == |adj| && forall j :: 0 <= j < |adj| ==> t[j] == TransposedRow(adj, j)
  {
    seq(|adj|, j requires 0 <= j < |adj| => TransposedRow(adj, j))
  }

  /** The node records with the two counters exchanged. */
  function Swapped<N>(nodes: seq<NodeInfo<N>>): (s: seq<NodeInfo<N>>)
    ensures |s| == |nodes|
    ensures forall k :: 0 <= k < |nodes| ==> s[k] == NodeInfo(nodes[k].od, nodes[k].id, nodes[k].tag)
  {
    seq(|nodes|, k requires 0 <= k < |nodes| => NodeInfo(nodes[k].od, nodes[k].id, nodes[k].tag))
  }

  /** Row `k` of the transpose holds the holders of `k`, and `k` is held by the rows `k` held. */
  lemma TransposedHolders<E>(adj: seq<map<nat, E>>, k: nat)
    requires Bounded(adj) && k < |adj|
    ensures TransposedRows(adj)[k].Keys == Holders(adj, k)
    ensures Holders(TransposedRows(adj), k) == adj[k].Keys
  {
  }

  lemma TransposedRowSum<E>(adj: seq<map<nat, E>>)
    requires Bounded(adj)
    ensures RowSum(TransposedRows(adj)) == RowSum(adj)
  {
    var n := |adj|;
    var t := TransposedRows(adj);
    forall j | 0 <= j < n
      ensures |t[j]| == |Holders(adj, j)|
    {
      TransposedHolders(adj, j);
    }
    RowSumIsColSum(adj, n);
    assert t[..n] == t;
    RowSumPrefixIsColSum(t, adj, n);
  }

  lemma TransposeCounted<N, E>(g: Graph<N, E>)
    requires Valid(g)
    ensures Valid(Graph(TransposedRows(g.adj), Swapped(g.nodes), g.isolated, g.e, g.undirected))
  {
    var n := |g.adj|;
    var tadj := TransposedRows(g.adj);
    var nodes := Swapped(g.nodes);
    assert Bounded(g.adj);
    forall k | 0 <= k < n
      ensures nodes[k].id == |tadj[k]| && nodes[k].od == |Holders(tadj, k)|
    {
      TransposedHolders(g.adj, k);
    }
    assert IsolatedSet(nodes) == IsolatedSet(g.nodes);
    TransposedRowSum(g.adj);
    assert g.undirected ==> Symmetric(tadj);
  }

  /** `transpose()`: `i` is in `j`'s map iff `j` was in `i`'s, with the same tag, and the
      two counters of every node are swapped. */
  function Transpose<N, E>(g: Graph<N, E>): (r: Graph<N, E>)
    requires Valid(g)
    ensures Valid(r) && |r.adj| == |g.adj| && r.undirected == g.undirected
    ensures r.e == g.e && r.isolated == g.isolated
    ensures forall i, j :: 0 <= i < |g.adj| && 0 <= j < |g.adj| ==> (i in r.adj[j] <==> j in g.adj[i])
    ensures forall i, j :: 0 <= i < |g.adj| && 0 <= j < |g.adj| && j in g.adj[i] ==> r.adj[j][i] == g.adj[i][j]
    ensures forall k :: 0 <= k < |g.adj| ==> r.nodes[k] == NodeInfo(g.nodes[k].od, g.nodes[k].id, g.nodes[k].tag)
  {
    TransposeCounted(g);
    Graph(TransposedRows(g.adj), Swapped(g.nodes), g.isolated, g.e, g.undirected)
  }

  /** Transposing twice gives back the same graph. */
  lemma TransposeInvolution<N, E>(g: Graph<N, E>)
    requires Valid(g)
    ensures Transpose(Transpose(g)) == g
  {
    var t := Transpose(g);
    var tt := Transpose(t);
    forall j | 0 <= j < |g.adj|
      ensures tt.adj[j] == g.adj[j]
    {
      assert tt.adj[j].Keys == g.adj[j].Keys;
    }
    assert tt.adj == g.adj;
    assert tt.nodes == g.nodes;
  }

  // ---------------------------------------------------------------------------
  // subgraph

  /** The pairs of `ps` whose endpoints are both masked, renumbered by rank. */
  function SubPairs<E>(ps: seq<Pair<E>>, mask: seq<bool>): (qs: seq<Pair<E>>)
    requires InRange(ps, |mask|)
    ensures InRange(qs, CountTrue(mask))
  {
    if |ps| == 0 then []
    else
      var p := ps[0];
      var rest := SubPairs(ps[1..], mask);
      RankBound(mask, p.0);
      RankBound(mask, p.1);
      if mask[p.0] && mask[p.1] then
        RankMonotone(mask, p.0, |mask|);
        RankMonotone(mask, p.1, |mask|);
        [(Rank(mask, p.0), Rank(mask, p.1), p.2)] + rest
      else rest
  }

  /** Both endpoints of `p` are kept by the mask. */
  predicate Kept<E>(mask: seq<bool>, p: Pair<E>)
  {
    p.0 < |mask| && p.1 < |mask| && mask[p.0] && mask[p.1]
  }

  function Renumber<E>(mask: seq<bool>, p: Pair<E>): Pair<E>
    requires Kept(mask, p)
  {
    (Rank(mask, p.0), Rank(mask, p.1), p.2)
  }

  lemma {:induction false} SubPairsSound<E>(ps: seq<Pair<E>>, mask: seq<bool>, q: Pair<E>)
    requires InRange(ps, |mask|) && q in SubPairs(ps, mask)
    ensures exists p :: p in ps && Kept(mask, p) && q == Renumber(mask, p)
    decreases |ps|
  {
    var p := ps[0];
    var rest := SubPairs(ps[1..], mask);
    if q in rest {
      SubPairsSound(ps[1..], mask, q);
      var p' :| p' in ps[1..] && Kept(mask, p') && q == Renumber(mask, p');
      assert p' in ps;
    } else {
      assert Kept(mask, p) && q == Renumber(mask, p);
    }
  }

  lemma {:induction false} SubPairsComplete<E>(ps: seq<Pair<E>>, mask: seq<bool>, p: Pair<E>)
    requires InRange(ps, |mask|) && p in ps && Kept(mask, p)
    ensures Renumber(mask, p) in SubPairs(ps, mask)
    decreases |ps|
  {
    if p != ps[0] {
      assert p in ps[1..];
      SubPairsComplete(ps[1..], mask, p);
    }
  }

  lemma RankInjective(mask: seq<bool>, i: nat, j: nat)
    requires i < |mask| && j < |mask| && mask[i] && mask[j] && Rank(mask, i) == Rank(mask, j)
    ensures i == j
  {
    if i < j {
      RankMonotone(mask, i, j);
    } else if j < i {
      RankMonotone(mask, j, i);
    }
  }

  function SubTags<N, E>(g: Graph<N, E>, mask: seq<bool>): (tags: seq<N>)
    requires WellFormed(g) && |mask| == |g.adj|
    ensures |tags| == CountTrue(mask)
    ensures forall i :: 0 <= i < |mask| && mask[i] ==> Rank(mask, i) < |tags| && tags[Rank(mask, i)] == g.nodes[i].tag
  {
    var c := CountTrue(mask);
    var tags := seq(c, a requires 0 <= a < c => g.nodes[Unrank(mask, a, 0)].tag);
    assert forall i :: 0 <= i < |mask| && mask[i] ==> Rank(mask, i) < c && tags[Rank(mask, i)] == g.nodes[i].tag by {
      forall i | 0 <= i < |mask| && mask[i]
        ensures Rank(mask, i) < c && tags[Rank(mask, i)] == g.nodes[i].tag
      {
        RankMonotone(mask, i, |mask|);
        assert mask[..|mask|] == mask;
        var a := Rank(mask, i);
        RankInjective(mask, Unrank(mask, a, 0), i);
      }
    }
    tags
  }

  /** The renumbered pairs `subgraph` copies, in scan order. */
  function SubEdges<E>(adj: seq<map<nat, E>>, mask: seq<bool>): (qs: seq<Pair<E>>)
    requires |mask| == |adj|
    ensures InRange(qs, CountTrue(mask))
  {
    SubPairs(StoredPairs(adj), mask)
  }

  /** `n` rows without any pair. */
  function NoRows<E>(n: nat): (h: seq<map<nat, E>>)
    ensures |h| == n && forall k :: 0 <= k < n ==> h[k] == map[]
  {
    seq(n, _ => map[])
  }

  /** The rows `subgraph` builds: the masked pairs, renumbered, added in scan order to
      empty rows in the target's mode. */
  function SubRows<E>(adj: seq<map<nat, E>>, mask: seq<bool>, undirected: bool): (h: seq<map<nat, E>>)
    requires |mask| == |adj|
    ensures |h| == CountTrue(mask)
  {
    LinkAll(NoRows(CountTrue(mask)), SubEdges(adj, mask), undirected)
  }

  lemma SubRowsKeys<E>(adj: seq<map<nat, E>>, mask: seq<bool>, undirected: bool, i: nat, j: nat)
    requires |mask| == |adj| && i < |mask| && j < |mask| && mask[i] && mask[j]
    ensures Rank(mask, i) < CountTrue(mask) && Rank(mask, j) < CountTrue(mask)
    ensures Rank(mask, j) in SubRows(adj, mask, undirected)[Rank(mask, i)] <==> j in adj[i] || (undirected && i in adj[j])
  {
    var ps := StoredPairs(adj);
    var qs := SubEdges(adj, mask);
    RankBelowCount(mask, i);
    RankBelowCount(mask, j);
    LinkAllKeys(NoRows(CountTrue(mask)), qs, undirected, Rank(mask, i), Rank(mask, j));
    if Named(qs, Rank(mask, i), Rank(mask, j), undirected) {
      var q :| q in qs && SamePair(q, Rank(mask, i), Rank(mask, j), undirected);
      SubPairsSound(ps, mask, q);
      var p :| p in ps && Kept(mask, p) && q == Renumber(mask, p);
      StoredPairsSound(adj, p);
      if q.0 == Rank(mask, i) && q.1 == Rank(mask, j) {
        RankInjective(mask, p.0, i);
        RankInjective(mask, p.1, j);
      } else {
        RankInjective(mask, p.0, j);
        RankInjective(mask, p.1, i);
      }
    }
    if j in adj[i] {
      StoredPairsComplete(adj, i, j);
      SubPairsComplete(ps, mask, (i, j, adj[i][j]));
    }
    if undirected && i in adj[j] {
      StoredPairsComplete(adj, j, i);
      SubPairsComplete(ps, mask, (j, i, adj[j][i]));
    }
  }

  lemma SubEdgesConsistent<E>(adj: seq<map<nat, E>>, mask: seq<bool>, undirected: bool)
    requires |mask| == |adj| && (!undirected || MirrorTagged(adj))
    ensures Consistent(SubEdges(adj, mask), undirected)
  {
    var ps := StoredPairs(adj);
    var qs := SubEdges(adj, mask);
    forall q1, q2 | q1 in qs && q2 in qs && SamePair(q1, q2.0, q2.1, undirected)
      ensures q1.2 == q2.2
    {
      SubPairsSound(ps, mask, q1);
      SubPairsSound(ps, mask, q2);
      var p1 :| p1 in ps && Kept(mask, p1) && q1 == Renumber(mask, p1);
      var p2 :| p2 in ps && Kept(mask, p2) && q2 == Renumber(mask, p2);
      StoredPairsSound(adj, p1);
      StoredPairsSound(adj, p2);
      if q1.0 == q2.0 && q1.1 == q2.1 {
        RankInjective(mask, p1.0, p2.0);
        RankInjective(mask, p1.1, p2.1);
      } else {
        RankInjective(mask, p1.0, p2.1);
        RankInjective(mask, p1.1, p2.0);
      }
    }
  }

  /** A copied pair keeps its tag, unless the target is undirected and the source's two
      directions of the pair carry different tags. */
  lemma SubRowsTag<E>(adj: seq<map<nat, E>>, mask: seq<bool>, undirected: bool, i: nat, j: nat)
    requires |mask| == |adj| && i < |mask| && j < |mask| && mask[i] && mask[j] && j in adj[i]
    requires !undirected || MirrorTagged(adj)
    ensures Rank(mask, i) < CountTrue(mask)
    ensures var h := SubRows(adj, mask, undirected);
      Rank(mask, j) in h[Rank(mask, i)] && h[Rank(mask, i)][Rank(mask, j)] == adj[i][j]
  {
    var ps := StoredPairs(adj);
    var qs := SubEdges(adj, mask);
    RankBelowCount(mask, i);
    StoredPairsComplete(adj, i, j);
    SubPairsComplete(ps, mask, (i, j, adj[i][j]));
    SubEdgesConsistent(adj, mask, undirected);
    LinkAllTag(NoRows(CountTrue(mask)), qs, undirected, Renumber(mask, (i, j, adj[i][j])));
  }

  /** `subgraph(mask, subg)`: `subg` must have exactly as many nodes as the mask has true
      entries. It is cleared, retagged, and receives the masked pairs in scan order
      through its own `add_edge`, so in its own mode. */
  function Subgraph<N, E>(g: Graph<N, E>, mask: seq<bool>, target: Graph<N, E>): (r: Graph<N, E>)
    requires Valid(g) && WellFormed(target) && |mask| == |g.adj| && |target.adj| == CountTrue(mask)
    ensures Valid(r) && |r.adj| == CountTrue(mask) && r.undirected == target.undirected
    ensures r.adj == SubRows(g.adj, mask, target.undirected)
    ensures forall i :: 0 <= i < |mask| && mask[i] ==> Rank(mask, i) < |r.nodes| && r.nodes[Rank(mask, i)].tag == g.nodes[i].tag
  {
    var cleared := Clear(target);
    var tags := SubTags(g, mask);
    var tagged := Retag(cleared, tags);
    RetagValid(cleared, tags);
    assert tagged.adj == NoRows(|tagged.adj|);
    AddEdges(tagged, SubEdges(g.adj, mask))
  }

  /** `g` with node `i` retagged `tags[i]`. */
  function Retag<N, E>(g: Graph<N, E>, tags: seq<N>): (r: Graph<N, E>)
    requires |tags| == |g.nodes|
    ensures r.adj == g.adj && |r.nodes| == |g.nodes|
    ensures forall i :: 0 <= i < |tags| ==> r.nodes[i] == g.nodes[i].(tag := tags[i])
  {
    g.(nodes := seq(|tags|, i requires 0 <= i < |tags| => g.nodes[i].(tag := tags[i])))
  }

  /** Retagging nodes keeps the bookkeeping. */
  lemma RetagValid<N, E>(g: Graph<N, E>, tags: seq<N>)
    requires Valid(g) && |tags| == |g.nodes|
    ensures Valid(Retag(g, tags))
  {
    var r := Retag(g, tags);
    assert IsolatedSet(r.nodes) == IsolatedSet(g.nodes);
  }


  /** Every node of the subgraph is the image of exactly one masked node. */
  lemma SubgraphOnto(mask: seq<bool>, a: nat)
    requires a < CountTrue(mask)
    ensures Unrank(mask, a, 0) < |mask| && mask[Unrank(mask, a, 0)] && Rank(mask, Unrank(mask, a, 0)) == a
    ensures forall i :: 0 <= i < |mask| && mask[i] && Rank(mask, i) == a ==> i == Unrank(mask, a, 0)
  {
    forall i | 0 <= i < |mask| && mask[i] && Rank(mask, i) == a
      ensures i == Unrank(mask, a, 0)
    {
      RankInjective(mask, i, Unrank(mask, a, 0));
    }
  }

  ghost predicate AllTrue(mask: seq<bool>)
  {
    forall k :: 0 <= k < |mask| ==> mask[k]
  }

  /** A mask that keeps every node has as many entries as it has true ones. */
  lemma AllTrueCount(mask: seq<bool>)
    requires AllTrue(mask)
    ensures CountTrue(mask) == |mask|
  {
    AllTrueRank(mask, |mask|);
    assert mask[..|mask|] == mask;
  }

  lemma SubRowsAllTruePair<E>(adj: seq<map<nat, E>>, mask: seq<bool>, undirected: bool, i: nat, j: nat)
    requires Bounded(adj) && |mask| == |adj| && AllTrue(mask) && i < |adj|
    requires undirected ==> Symmetric(adj) && MirrorTagged(adj)
    ensures i < |SubRows(adj, mask, undirected)|
    ensures j in SubRows(adj, mask, undirected)[i] <==> j in adj[i]
    ensures j in adj[i] ==> SubRows(adj, mask, undirected)[i][j] == adj[i][j]
  {
    AllTrueCount(mask);
    AllTrueRank(mask, i);
    if j < |mask| {
      AllTrueRank(mask, j);
      SubRowsKeys(adj, mask, undirected, i, j);
      if j in adj[i] {
        SubRowsTag(adj, mask, undirected, i, j);
      }
    } else {
      assert j !in adj[i];
      var k := Rank(mask, i);
      assert j !in SubRows(adj, mask, undirected)[k] by {
        var qs := SubEdges(adj, mask);
        LinkAllKeys(NoRows(CountTrue(mask)), qs, undirected, k, j);
        if Named(qs, k, j, undirected) {
          var q :| q in qs && SamePair(q, k, j, undirected);
        }
      }
    }
  }

  /** An all-true mask into a target of the same mode reproduces the rows. */
  lemma SubRowsAllTrue<E>(adj: seq<map<nat, E>>, mask: seq<bool>, undirected: bool)
    requires Bounded(adj) && |mask| == |adj| && AllTrue(mask)
    requires undirected ==> Symmetric(adj) && MirrorTagged(adj)
    ensures SubRows(adj, mask, undirected) == adj
  {
    AllTrueCount(mask);
    var h := SubRows(adj, mask, undirected);
    forall i | 0 <= i < |adj|
      ensures h[i] == adj[i]
    {
      SubRowsAllTrueRow(adj, mask, undirected, i);
    }
  }

  lemma SubRowsAllTrueRow<E>(adj: seq<map<nat, E>>, mask: seq<bool>, undirected: bool, i: nat)
    requires Bounded(adj) && |mask| == |adj| && AllTrue(mask) && i < |adj|
    requires undirected ==> Symmetric(adj) && MirrorTagged(adj)
    ensures i < |SubRows(adj, mask, undirected)| && SubRows(adj, mask, undirected)[i] == adj[i]
  {
    AllTrueCount(mask);
    var row := SubRows(adj, mask, undirected)[i];
    forall j: nat
      ensures j in row <==> j in adj[i]
    {
      SubRowsAllTruePair(adj, mask, undirected, i, j);
    }
    assert row.Keys == adj[i].Keys;
    forall j | j in adj[i]
      ensures row[j] == adj[i][j]
    {
      SubRowsAllTruePair(adj, mask, undirected, i, j);
    }
  }

  /** `subgraph` with an all-true mask into a target of the same mode reproduces the graph:
      the same rows, and every node keeps its tag. */
  lemma SubgraphAllTrue<N, E>(g: Graph<N, E>, mask: seq<bool>, target: Graph<N, E>)
    requires Valid(g) && WellFormed(target) && |mask| == |g.adj| && AllTrue(mask)
    requires |target.adj| == |g.adj| && target.undirected == g.undirected
    requires g.undirected ==> MirrorTagged(g.adj)
    ensures CountTrue(mask) == |g.adj|
    ensures Subgraph(g, mask, target).adj == g.adj
    ensures SameTags(Subgraph(g, mask, target), g)
  {
    AllTrueCount(mask);
    assert Bounded(g.adj);
    SubRowsAllTrue(g.adj, mask, g.undirected);
    SubgraphAllTrueTags(g, mask, target);
  }

  lemma SubgraphAllTrueTags<N, E>(g: Graph<N, E>, mask: seq<bool>, target: Graph<N, E>)
    requires Valid(g) && WellFormed(target) && |mask| == |g.adj| && AllTrue(mask)
    requires |target.adj| == CountTrue(mask)
    ensures SameTags(Subgraph(g, mask, target), g)
  {
    AllTrueCount(mask);
    var r := Subgraph(g, mask, target);
    ValidShape(r);
    ValidShape(g);
    assert |r.nodes| == |g.nodes|;
    forall i | 0 <= i < |g.nodes|
      ensures r.nodes[i].tag == g.nodes[i].tag
    {
      AllTrueRank(mask, i);
      assert mask[i];
    }
  }

  lemma {:induction false} AllTrueRank(mask: seq<bool>, i: nat)
    requires i <= |mask| && AllTrue(mask)
    ensures Rank(mask, i) == i
  {
    if i > 0 {
      AllTrueRank(mask, i - 1);
      RankStep(mask, i - 1);
    }
  }

  // ---------------------------------------------------------------------------
  // Walks

  ghost predicate IsWalk<E>(adj: seq<map<nat, E>>, p: seq<nat>)
  {
    && |p| > 0
    && (forall i :: 0 <= i < |p| ==> p[i] < |adj|)
    && (forall i :: 0 <= i < |p| - 1 ==> p[i + 1] in adj[p[i]])
  }

  /** `b` can be reached from `a` following stored pairs. */
  ghost predicate Reaches<E>(adj: seq<map<nat, E>>, a: nat, b: nat)
  {
    exists p :: IsWalk(adj, p) && p[0] == a && p[|p| - 1] == b
  }

  lemma ReachesRefl<E>(adj: seq<map<nat, E>>, a: nat)
    requires a < |adj|
    ensures Reaches(adj, a, a)
  {
    assert IsWalk(adj, [a]);
  }

  lemma ReachesStep<E>(adj: seq<map<nat, E>>, a: nat, b: nat, c: nat)
    requires Reaches(adj, a, b) && c < |adj| && c in adj[b]
    ensures Reaches(adj, a, c)
  {
    var p :| IsWalk(adj, p) && p[0] == a && p[|p| - 1] == b;
    assert IsWalk(adj, p + [c]);
  }

  lemma ReachesTrans<E>(adj: seq<map<nat, E>>, a: nat, b: nat, c: nat)
    requires Reaches(adj, a, b) && Reaches(adj, b, c)
    ensures Reaches(adj, a, c)
  {
    var p :| IsWalk(adj, p) && p[0] == a && p[|p| - 1] == b;
    var q :| IsWalk(adj, q) && q[0] == b && q[|q| - 1] == c;
    var w := p + q[1..];
    assert IsWalk(adj, w) by {
      forall i | 0 <= i < |w| - 1
        ensures w[i + 1] in adj[w[i]]
      {
        if i < |p| - 1 {
        } else {
          assert w[i] == q[i - |p| + 1];
        }
      }
    }
  }

  lemma ReachesSym<E>(adj: seq<map<nat, E>>, a: nat, b: nat)
    requires Symmetric(adj) && Reaches(adj, a, b)
    ensures Reaches(adj, b, a)
  {
    var p :| IsWalk(adj, p) && p[0] == a && p[|p| - 1] == b;
    WalkBack(adj, p);
  }

  /** In a symmetric graph the end of a walk reaches its start. */
  lemma {:induction false} WalkBack<E>(adj: seq<map<nat, E>>, p: seq<nat>)
    requires Symmetric(adj) && IsWalk(adj, p)
    ensures Reaches(adj, p[|p| - 1], p[0])
    decreases |p|
  {
    var n := |p| - 1;
    if n == 0 {
      ReachesRefl(adj, p[0]);
    } else {
      var init := p[..n];
      assert IsWalk(adj, init) by {
        assert forall i :: 0 <= i < n ==> init[i] == p[i];
      }
      WalkBack(adj, init);
      assert p[n] in adj[p[n - 1]];
      SymmetricAt(adj, p[n - 1], p[n]);
      ReachesRefl(adj, p[n]);
      ReachesStep(adj, p[n], p[n], p[n - 1]);
      ReachesTrans(adj, p[n], p[n - 1], p[0]);
    }
  }
}

=== FILE: betweenness.dfy ===
/** The betweenness working copy in networks/stats.H: `betweenness_init_result_network`
    builds it from a graph, `betweenness_reset_result_network` zeroes the accumulators of a
    node subset. Node tags of the copy are (original tag, accumulated score); edge tags are
    accumulated scores. Scores are `real`s. */
module Betweenness {
  import opened Common
  import opened AdjList

  /** Every stored entry carries tag `t`. */
  ghost predicate AllTagged<E>(adj: seq<map<nat, E>>, t: E)
  {
    forall u, v :: 0 <= u < |adj| && v in adj[u] ==> adj[u][v] == t
  }

  lemma {:induction false} LinkAllUniform<E>(adj: seq<map<nat, E>>, ps: seq<Pair<E>>, undirected: bool, t: E)
    requires InRange(ps, |adj|) && AllTagged(adj, t)
    requires forall i :: 0 <= i < |ps| ==> ps[i].2 == t
    ensures AllTagged(LinkAll(adj, ps, undirected), t)
    decreases |ps|
  {
    if |ps| > 0 {
      LinkedFacts(adj, ps[0].0, ps[0].1, t, undirected);
      LinkAllUniform(Linked(adj, ps[0].0, ps[0].1, t, undirected), ps[1..], undirected, t);
    }
  }

  // ---------------------------------------------------------------------------
  // betweenness_init_result_network

  /** The insertions the set-up performs: for each stored pair i -> j, in scan order,
      `add_edge(j, i, 0.0)`. */
  function ZeroMirrors<E>(adj: seq<map<nat, E>>): (zs: seq<Pair<real>>)
    ensures InRange(zs, |adj|) && forall i :: 0 <= i < |zs| ==> zs[i].2 == 0.0
  {
    var ps := StoredPairs(adj);
    seq(|ps|, i requires 0 <= i < |ps| => (ps[i].1, ps[i].0, 0.0))
  }

  lemma ZeroMirrorsNamed<E>(adj: seq<map<nat, E>>, undirected: bool, u: nat, v: nat)
    requires u < |adj| && v < |adj|
    ensures Named(ZeroMirrors(adj), u, v, undirected) <==> u in adj[v] || (undirected && v in adj[u])
  {
    var ps := StoredPairs(adj);
    var zs := ZeroMirrors(adj);
    if Named(zs, u, v, undirected) {
      var p :| p in zs && SamePair(p, u, v, undirected);
      var i :| 0 <= i < |zs| && zs[i] == p;
      assert ps[i].1 in adj[ps[i].0];
    }
    if u in adj[v] {
      StoredPairsComplete(adj, v, u);
      var i :| 0 <= i < |ps| && ps[i] == (v, u, adj[v][u]);
      assert zs[i] in zs && SamePair(zs[i], u, v, undirected);
    }
    if undirected && v in adj[u] {
      StoredPairsComplete(adj, u, v);
      var i :| 0 <= i < |ps| && ps[i] == (u, v, adj[u][v]);
      assert zs[i] in zs && SamePair(zs[i], u, v, undirected);
    }
  }

  /** The rows of the copy before the final `to_undirected`: the reversed pairs of `adj`,
      inserted into empty rows in the copy's own mode. */
  function ZeroRows<E>(adj: seq<map<nat, E>>, undirected: bool): (h: seq<map<nat, real>>)
    ensures |h| == |adj|
  {
    LinkAll(NoRows(|adj|), ZeroMirrors(adj), undirected)
  }

  lemma ZeroRowsKeys<E>(adj: seq<map<nat, E>>, undirected: bool, u: nat, v: nat)
    requires u < |adj| && v < |adj|
    ensures v in ZeroRows(adj, undirected)[u] <==> u in adj[v] || (undirected && v in adj[u])
  {
    LinkAllKeys(NoRows(|adj|), ZeroMirrors(adj), undirected, u, v);
    ZeroMirrorsNamed(adj, undirected, u, v);
  }

  lemma ZeroRowsFacts<E>(adj: seq<map<nat, E>>, undirected: bool)
    requires Bounded(adj)
    ensures Bounded(ZeroRows(adj, undirected)) && AllTagged(ZeroRows(adj, undirected), 0.0)
  {
    var h := ZeroRows(adj, undirected);
    LinkAllUniform(NoRows(|adj|), ZeroMirrors(adj), undirected, 0.0);
    forall u, v | 0 <= u < |h| && v in h[u]
      ensures v < |h|
    {
      LinkAllKeys(NoRows(|adj|), ZeroMirrors(adj), undirected, u, v);
      var p :| p in ZeroMirrors(adj) && SamePair(p, u, v, undirected);
    }
  }

  /** Resizing, clearing and retagging every node yields the empty graph with those tags. */
  lemma ResizeRetag<N, E>(res: Graph<N, E>, tags: seq<N>, dflt: N)
    ensures Retag(ResizeAndClear(res, |tags|, dflt), tags) == Empty(tags, res.undirected)
  {
    var a := Retag(ResizeAndClear(res, |tags|, dflt), tags);
    var b: Graph<N, E> := Empty(tags, res.undirected);
    assert a.adj == b.adj;
    assert a.nodes == b.nodes;
  }

  /** The node tags of the copy: (tag of i, 0). */
  function InitTags<N, E>(g: Graph<N, E>): (tags: seq<(N, real)>)
    requires Valid(g)
    ensures |tags| == |g.adj| && forall i :: 0 <= i < |g.adj| ==> tags[i] == (g.nodes[i].tag, 0.0)
  {
    seq(|g.adj|, i requires 0 <= i < |g.adj| => (g.nodes[i].tag, 0.0))
  }

  /** The copy before the final `to_undirected`: `res` resized to g's node count and cleared
      (keeping its own mode), node i tagged (tag of i, 0), and every stored pair i -> j of g
      inserted reversed as j -> i with tag 0 through `res`'s `add_edge`. */
  function InitCopy<N, E>(g: Graph<N, E>, res: Graph<(N, real), real>, dflt: (N, real)): (r: Graph<(N, real), real>)
    requires Valid(g)
    ensures Valid(r) && |r.adj| == |g.adj| && r.undirected == res.undirected
    ensures forall i :: 0 <= i < |g.adj| ==> r.nodes[i].tag == (g.nodes[i].tag, 0.0)
    ensures r.adj == ZeroRows(g.adj, res.undirected)
  {
    var tags := InitTags(g);
    ResizeRetag(res, tags, dflt);
    AddEdges(Retag(ResizeAndClear(res, |tags|, dflt), tags), ZeroMirrors(g.adj))
  }

  /** `betweenness_init_result_network(g, res)`: the copy above, made undirected when g is.
      `dflt` is the default node tag. */
  function InitResult<N, E>(g: Graph<N, E>, res: Graph<(N, real), real>, dflt: (N, real)): (r: Graph<(N, real), real>)
    requires Valid(g)
    ensures Valid(r) && |r.adj| == |g.adj| && r.undirected == (g.undirected || res.undirected)
    ensures forall i :: 0 <= i < |g.adj| ==> r.nodes[i].tag == (g.nodes[i].tag, 0.0)
    ensures r.adj == if g.undirected then Symmetrized(ZeroRows(g.adj, res.undirected), res.undirected) else ZeroRows(g.adj, res.undirected)
  {
    var c := InitCopy(g, res, dflt);
    ValidShape(c);
    if g.undirected then
      var u := ToUndirected(c);
      ValidShape(u);
      u
    else
      c
  }

  /** The copy stores j -> i exactly when g stores i -> j (and, once undirected, also when g
      stores j -> i); every stored tag is 0. For an undirected g the copy has g's pairs. */
  lemma InitResultMeaning<N, E>(g: Graph<N, E>, res: Graph<(N, real), real>, dflt: (N, real), u: nat, v: nat)
    requires Valid(g) && u < |g.adj| && v < |g.adj|
    ensures var r := InitResult(g, res, dflt);
      && (v in r.adj[u] <==> u in g.adj[v] || (r.undirected && v in g.adj[u]))
      && (v in r.adj[u] ==> r.adj[u][v] == 0.0)
      && (g.undirected ==> (v in r.adj[u] <==> v in g.adj[u]))
  {
    var r := InitResult(g, res, dflt);
    var h := ZeroRows(g.adj, res.undirected);
    assert Bounded(g.adj);
    ZeroRowsFacts(g.adj, res.undirected);
    ZeroRowsKeys(g.adj, res.undirected, u, v);
    if g.undirected {
      ZeroRowsKeys(g.adj, res.undirected, v, u);
      MirrorsKeys(h, res.undirected, u, v);
      forall i | 0 <= i < |Mirrors(h)|
        ensures Mirrors(h)[i].2 == 0.0
      {
        assert Mirrors(h)[i] in Mirrors(h);
        MirrorsSound(h, Mirrors(h)[i]);
      }
      LinkAllUniform(h, Mirrors(h), res.undirected, 0.0);
    }
  }

  // ---------------------------------------------------------------------------
  // betweenness_reset_result_network

  lemma {:induction false} RowSumSameSizes<E>(a: seq<map<nat, E>>, b: seq<map<nat, E>>)
    requires |a| == |b| && forall k :: 0 <= k < |a| ==> a[k].Keys == b[k].Keys
    ensures RowSum(a) == RowSum(b)
    decreases |a|
  {
    if |a| > 0 {
      var n := |a| - 1;
      assert |a[n]| == |a[n].Keys| == |b[n].Keys| == |b[n]|;
      RowSumSameSizes(a[..n], b[..n]);
    }
  }

  /** The row with every tag replaced by 0. */
  function Zeroed(m: map<nat, real>): (z: map<nat, real>)
    ensures z.Keys == m.Keys && forall v :: v in z ==> z[v] == 0.0
  {
    map v | v in m :: 0.0
  }

  function ResetRows(adj: seq<map<nat, real>>, subset: set<nat>): (a: seq<map<nat, real>>)
    ensures |a| == |adj| && forall u :: 0 <= u < |adj| ==> a[u].Keys == adj[u].Keys
  {
    seq(|adj|, u requires 0 <= u < |adj| => if u in subset then Zeroed(adj[u]) else adj[u])
  }

  function ResetNodes<N>(nodes: seq<NodeInfo<(N, real)>>, subset: set<nat>): (s: seq<NodeInfo<(N, real)>>)
    ensures |s| == |nodes|
    ensures forall u :: 0 <= u < |nodes| ==> s[u].id == nodes[u].id && s[u].od == nodes[u].od
  {
    seq(|nodes|, u requires 0 <= u < |nodes| =>
      if u in subset then nodes[u].(tag := (nodes[u].tag.0, 0.0)) else nodes[u])
  }

  /** Keeping every row's key set and every counter keeps the bookkeeping. */
  lemma ResetCounted<N>(res: Graph<(N, real), real>, subset: set<nat>)
    requires Valid(res)
    ensures Valid(Graph(ResetRows(res.adj, subset), ResetNodes(res.nodes, subset), res.isolated, res.e, res.undirected))
  {
    var adj := ResetRows(res.adj, subset);
    var nodes := ResetNodes(res.nodes, subset);
    forall u | 0 <= u < |adj|
      ensures |adj[u]| == |res.adj[u]| && Holders(adj, u) == Holders(res.adj, u)
    {
      assert |adj[u]| == |adj[u].Keys| == |res.adj[u].Keys| == |res.adj[u]|;
    }
    RowSumSameSizes(adj, res.adj);
    assert IsolatedSet(nodes) == IsolatedSet(res.nodes);
  }

  /** `betweenness_reset_result_network(res, subset)`: for each subset node, its score goes
      back to 0 and so do the tags of its own map's entries (only that direction: the
      reverse entries of an undirected copy belong to the neighbours' maps). Nothing else
      changes. */
  function ResetResult<N>(res: Graph<(N, real), real>, subset: set<nat>): (r: Graph<(N, real), real>)
    requires Valid(res) && forall k :: k in subset ==> k < |res.adj|
    ensures Valid(r) && |r.adj| == |res.adj| && r.undirected == res.undirected && r.e == res.e
    ensures r.isolated == res.isolated
    ensures forall u :: 0 <= u < |res.adj| ==> r.adj[u].Keys == res.adj[u].Keys
    ensures forall u :: 0 <= u < |res.adj| && u in subset ==>
      (forall v :: v in r.adj[u] ==> r.adj[u][v] == 0.0) && r.nodes[u].tag == (res.nodes[u].tag.0, 0.0)
    ensures forall u :: 0 <= u < |res.adj| && u !in subset ==> r.adj[u] == res.adj[u] && r.nodes[u] == res.nodes[u]
    ensures forall u :: 0 <= u < |res.adj| ==> r.nodes[u].id == res.nodes[u].id && r.nodes[u].od == res.nodes[u].od
  {
    ResetCounted(res, subset);
    Graph(ResetRows(res.adj, subset), ResetNodes(res.nodes, subset), res.isolated, res.e, res.undirected)
  }

  /** Resetting twice is resetting once. */
  lemma ResetIdempotent<N>(res: Graph<(N, real), real>, subset: set<nat>)
    requires Valid(res) && forall k :: k in subset ==> k < |res.adj|
    ensures ResetResult(ResetResult(res, subset), subset) == ResetResult(res, subset)
  {
    var r1 := ResetResult(res, subset);
    var r2 := ResetResult(r1, subset);
    assert r2.adj == r1.adj;
    assert r2.nodes == r1.nodes;
  }

  /** A copy whose accumulators are already 0 is left alone by a reset. */
  lemma ResetOfZeroed<N>(res: Graph<(N, real), real>, subset: set<nat>)
    requires Valid(res) && forall k :: k in subset ==> k < |res.adj|
    requires AllTagged(res.adj, 0.0) && forall u :: 0 <= u < |res.adj| ==> res.nodes[u].tag.1 == 0.0
    ensures ResetResult(res, subset) == res
  {
    var r := ResetResult(res, subset);
    forall u | 0 <= u < |res.adj|
      ensures r.adj[u] == res.adj[u] && r.nodes[u] == res.nodes[u]
    {
    }
    assert r.adj == res.adj;
    assert r.nodes == res.nodes;
  }

  /** Every accumulator of a freshly built copy is 0. */
  lemma InitResultZeroed<N, E>(g: Graph<N, E>, res: Graph<(N, real), real>, dflt: (N, real))
    requires Valid(g)
    ensures AllTagged(InitResult(g, res, dflt).adj, 0.0)
  {
    var r := InitResult(g, res, dflt);
    forall u, v | 0 <= u < |r.adj| && v in r.adj[u]
      ensures r.adj[u][v] == 0.0
    {
      assert Bounded(r.adj);
      InitResultMeaning(g, res, dflt, u, v);
    }
  }

  /** Resetting a freshly built copy, on any subset, changes nothing. */
  lemma ResetAfterInit<N, E>(g: Graph<N, E>, res: Graph<(N, real), real>, dflt: (N, real), subset: set<nat>)
    requires Valid(g) && forall k :: k in subset ==> k < |g.adj|
    ensures ResetResult(InitResult(g, res, dflt), subset) == InitResult(g, res, dflt)
  {
    InitResultZeroed(g, res, dflt);
    ResetOfZeroed(InitResult(g, res, dflt), subset);
  }
}

=== FILE: brandes.dfy ===
/** The breadth-first phase of `betweenness_centrality` (networks/stats.H): from one source
    node, the hop distance `d` of every node (-1 when unreachable), the predecessor sets
    `pred` (neighbours one hop closer to the source) and the shortest-path counts `s`, plus
    the stack `S` of nodes in the order they were taken off the queue. The mask of the
    source only chooses which nodes serve as sources; the search itself enters every node. */
module Brandes {
  import opened Common
  import opened AdjList
  import opened Distance

  /** The search enters every node: an all-true `to_mask`. */
  function AllTrue(n: nat): (m: seq<bool>)
    ensures |m| == n && forall k :: 0 <= k < n ==> m[k]
  {
    seq(n, _ => true)
  }

  /** `d` before the search: every entry -1. */
  function Unset(n: nat): (d: seq<int>)
    ensures |d| == n && forall k :: 0 <= k < n ==> d[k] == -1
  {
    seq(n, _ => -1)
  }

  ghost predicate Distinct(xs: seq<nat>)
  {
    forall j, k :: 0 <= j < k < |xs| ==> xs[j] != xs[k]
  }

  /** The sum of `s[x]` over the entries `x` of `xs` that lie in `p`; over a duplicate-free
      `xs` containing `p`, the sum of `s` over the set `p`. */
  ghost function Weighted(s: seq<nat>, xs: seq<nat>, p: set<nat>): nat
    decreases |xs|
  {
    if xs == [] then 0
    else
      var x := xs[|xs| - 1];
      Weighted(s, xs[..|xs| - 1], p) + (if x in p && x < |s| then s[x] else 0)
  }

  lemma {:induction false} WeightedAgree(s: seq<nat>, s': seq<nat>, xs: seq<nat>, p: set<nat>)
    requires forall k :: 0 <= k < |xs| ==> xs[k] < |s| && xs[k] < |s'| && s[xs[k]] == s'[xs[k]]
    ensures Weighted(s', xs, p) == Weighted(s, xs, p)
    decreases |xs|
  {
    if xs != [] {
      WeightedAgree(s, s', xs[..|xs| - 1], p);
    }
  }

  lemma {:induction false} WeightedInsert(s: seq<nat>, xs: seq<nat>, p: set<nat>, c: nat)
    requires Distinct(xs) && c in xs && c !in p && c < |s|
    ensures Weighted(s, xs, p + {c}) == Weighted(s, xs, p) + s[c]
    decreases |xs|
  {
    var n := |xs| - 1;
    var init := xs[..n];
    if xs[n] == c {
      assert c !in init;
      WeightedOutside(s, init, p, c);
    } else {
      assert c in init by {
        var k :| 0 <= k < |xs| && xs[k] == c;
        assert init[k] == c;
      }
      WeightedInsert(s, init, p, c);
    }
  }

  lemma {:induction false} WeightedOutside(s: seq<nat>, xs: seq<nat>, p: set<nat>, c: nat)
    requires c !in xs
    ensures Weighted(s, xs, p + {c}) == Weighted(s, xs, p)
    decreases |xs|
  {
    if xs != [] {
      WeightedOutside(s, xs[..|xs| - 1], p, c);
    }
  }

  lemma {:induction false} WeightedNone(s: seq<nat>, xs: seq<nat>)
    ensures Weighted(s, xs, {}) == 0
    decreases |xs|
  {
    if xs != [] {
      WeightedNone(s, xs[..|xs| - 1]);
    }
  }

  /** `v` is recorded as a predecessor of `w` once `v` has been taken off the queue and has
      scanned `w`: while `curr` scans its neighbours, only those below `u` are done. */
  ghost predicate PredCond<E>(adj: seq<map<nat, E>>, d: seq<int>, order: seq<nat>, curr: nat, u: nat, w: nat, v: nat)
  {
    v in order && v < |adj| && v < |d| && w < |d| && w in adj[v] && d[v] + 1 == d[w] && (v == curr ==> w < u)
  }

  ghost predicate PredExact<E>(adj: seq<map<nat, E>>, d: seq<int>, order: seq<nat>, pred: seq<set<nat>>, curr: nat, u: nat)
  {
    |pred| == |adj| && forall w: nat, v: nat :: w < |adj| ==> (v in pred[w] <==> PredCond(adj, d, order, curr, u, w, v))
  }

  /** The path count of `w` is 1 for the source and otherwise the counts of its recorded
      predecessors added up. */
  ghost predicate SumsExact(from: nat, s: seq<nat>, order: seq<nat>, pred: seq<set<nat>>)
  {
    |s| == |pred| && forall w :: 0 <= w < |s| ==> s[w] == (if w == from then 1 else 0) + Weighted(s, order, pred[w])
  }

  /** `order` (the stack `S`, bottom first) lists nodes by non-decreasing distance. */
  ghost predicate ByDistance(d: seq<int>, order: seq<nat>)
  {
    && (forall k :: 0 <= k < |order| ==> order[k] < |d|)
    && (forall j, k :: 0 <= j <= k < |order| ==> d[order[j]] <= d[order[k]])
  }

  /** The state between two nodes taken off the queue `q`. */
  ghost predicate Between<E>(adj: seq<map<nat, E>>, from: nat, d: seq<int>, done: seq<bool>, s: seq<nat>, pred: seq<set<nat>>, order: seq<nat>, q: seq<nat>)
  {
    && |s| == |adj| && |d| == |adj| && |done| == |adj|
    && Distinct(order) && Distinct(q) && ByDistance(d, order)
    && (forall x: nat :: x < |adj| ==> (x in order <==> done[x] && x !in q))
    && (q != [] && order != [] && q[0] < |d| ==> d[order[|order| - 1]] <= d[q[0]])
    && PredExact(adj, d, order, pred, 0, |adj|)
    && SumsExact(from, s, order, pred)
  }

  /** The state while `q[0]`, already pushed on the stack, scans its neighbours below `u`. */
  ghost predicate Scanning<E>(adj: seq<map<nat, E>>, from: nat, d: seq<int>, done: seq<bool>, s: seq<nat>, pred: seq<set<nat>>, order: seq<nat>, q: seq<nat>, u: nat)
  {
    && q != [] && order != [] && order[|order| - 1] == q[0]
    && |s| == |adj| && |d| == |adj| && |done| == |adj|
    && Distinct(order) && Distinct(q) && ByDistance(d, order)
    && (forall x: nat :: x < |adj| ==> (x in order <==> done[x] && (x == q[0] || x !in q)))
    && PredExact(adj, d, order, pred, q[0], u)
    && SumsExact(from, s, order, pred)
  }

  /** Breadth-first search from `from` over all nodes, counting shortest paths. */
  method ShortestPaths<E>(adj: seq<map<nat, E>>, from: nat)
    returns (d: seq<int>, s: seq<nat>, pred: seq<set<nat>>, order: seq<nat>, ghost done: seq<bool>, ghost parent: seq<nat>)
    requires Bounded(adj) && from < |adj|
    ensures Tree(adj, from, AllTrue(|adj|), Unset(|adj|), d, done, parent)
    ensures Closed(adj, AllTrue(|adj|), done, []) && Relaxed(adj, AllTrue(|adj|), d, done, [])
    ensures |s| == |pred| == |adj| && s[from] == 1
    ensures Distinct(order) && ByDistance(d, order)
    ensures forall x: nat :: x < |adj| ==> (x in order <==> d[x] >= 0)
    ensures forall w: nat, v: nat :: w < |adj| ==> (v in pred[w] <==> v < |adj| && d[v] >= 0 && w in adj[v] && d[v] + 1 == d[w])
    ensures forall w :: 0 <= w < |adj| ==> s[w] == (if w == from then 1 else 0) + Weighted(s, order, pred[w])
  {
    var n := |adj|;
    done := seq(n, _ => false)[from := true];
    parent := seq(n, _ => 0);
    d := Unset(n)[from := 0];
    s := seq(n, _ => 0)[from := 1];
    pred := seq(n, _ => {});
    order := [];
    var q := [from];
    CountTrueBound(done);
    Start(adj, from, d, done, parent, s, pred, q);
    d, done, parent, s, pred, order := Drain(adj, from, d, done, parent, s, pred, order, q);
    Finish(adj, from, d, done, parent, s, pred, order);
  }

  /** Visit queue fronts until the queue is empty. */
  method Drain<E>(adj: seq<map<nat, E>>, from: nat, d1: seq<int>, ghost done1: seq<bool>, ghost parent1: seq<nat>,
                  s1: seq<nat>, pred1: seq<set<nat>>, order1: seq<nat>, q1: seq<nat>)
    returns (d: seq<int>, ghost done: seq<bool>, ghost parent: seq<nat>, s: seq<nat>, pred: seq<set<nat>>, order: seq<nat>)
    requires Search(adj, from, AllTrue(|adj|), Unset(|adj|), d1, done1, parent1, q1)
    requires Between(adj, from, d1, done1, s1, pred1, order1, q1) && CountTrue(done1) <= |done1|
    ensures Search(adj, from, AllTrue(|adj|), Unset(|adj|), d, done, parent, [])
    ensures Between(adj, from, d, done, s, pred, order, [])
  {
    d, done, parent, s, pred, order := d1, done1, parent1, s1, pred1, order1;
    var q := q1;
    while q != []
      invariant Search(adj, from, AllTrue(|adj|), Unset(|adj|), d, done, parent, q)
      invariant Between(adj, from, d, done, s, pred, order, q)
      invariant CountTrue(done) <= |done|
      decreases |adj| - CountTrue(done), |q|
    {
      d, done, parent, s, pred, order, q := Visit(adj, from, d, done, parent, s, pred, order, q);
    }
  }

  /** Take the front of the queue, push it on the stack and scan its neighbours in ascending
      order. The source pops the front before the scan; here it stays at the front until the
      scan ends, which changes nothing since the scan only appends at the back. */
  method Visit<E>(adj: seq<map<nat, E>>, from: nat, d1: seq<int>, ghost done1: seq<bool>, ghost parent1: seq<nat>,
                  s1: seq<nat>, pred1: seq<set<nat>>, order1: seq<nat>, q1: seq<nat>)
    returns (d: seq<int>, ghost done: seq<bool>, ghost parent: seq<nat>, s: seq<nat>, pred: seq<set<nat>>, order: seq<nat>, q: seq<nat>)
    requires Search(adj, from, AllTrue(|adj|), Unset(|adj|), d1, done1, parent1, q1) && q1 != []
    requires Between(adj, from, d1, done1, s1, pred1, order1, q1)
    ensures Search(adj, from, AllTrue(|adj|), Unset(|adj|), d, done, parent, q)
    ensures Between(adj, from, d, done, s, pred, order, q)
    ensures CountTrue(done1) <= CountTrue(done) <= |done|
    ensures CountTrue(done1) < CountTrue(done) || |q| < |q1|
  {
    var curr := q1[0];
    BeginScan(adj, from, d1, done1, s1, pred1, order1, q1);
    d, done, parent, s, pred, order, q := d1, done1, parent1, s1, pred1, order1 + [curr], q1;
    CountTrueBound(done);
    var u: nat := 0;
    while u < |adj|
      invariant u <= |adj| && q != [] && q[0] == curr && |q| >= |q1|
      invariant Search(adj, from, AllTrue(|adj|), Unset(|adj|), d, done, parent, q)
      invariant Scanning(adj, from, d, done, s, pred, order, q, u)
      invariant Scanned(adj, AllTrue(|adj|), done, curr, u)
      invariant CountTrue(done) - CountTrue(done1) == |q| - |q1| && |done| == |adj|
    {
      d, done, parent, s, pred, q := Scan(adj, from, d, done, parent, s, pred, order, q, u);
      u := u + 1;
    }
    SearchPop(adj, from, AllTrue(|adj|), Unset(|adj|), d, done, parent, q);
    EndScan(adj, from, d, done, s, pred, order, q);
    CountTrueBound(done);
    q := q[1..];
  }

  /** Neighbour `u` of the front `v`: a node not yet entered is queued one hop further than
      `v`; a node one hop further than `v` gets `v` as a predecessor and `v`'s path count. */
  method Scan<E>(adj: seq<map<nat, E>>, from: nat, d1: seq<int>, ghost done1: seq<bool>, ghost parent1: seq<nat>,
                 s1: seq<nat>, pred1: seq<set<nat>>, ghost order: seq<nat>, q1: seq<nat>, u: nat)
    returns (d: seq<int>, ghost done: seq<bool>, ghost parent: seq<nat>, s: seq<nat>, pred: seq<set<nat>>, q: seq<nat>)
    requires Search(adj, from, AllTrue(|adj|), Unset(|adj|), d1, done1, parent1, q1) && u < |adj|
    requires Scanning(adj, from, d1, done1, s1, pred1, order, q1, u)
    requires Scanned(adj, AllTrue(|adj|), done1, q1[0], u)
    ensures Search(adj, from, AllTrue(|adj|), Unset(|adj|), d, done, parent, q) && q != [] && q[0] == q1[0]
    ensures Scanning(adj, from, d, done, s, pred, order, q, u + 1)
    ensures Scanned(adj, AllTrue(|adj|), done, q1[0], u + 1)
    ensures CountTrue(done) - CountTrue(done1) == |q| - |q1| >= 0
  {
    d, done, parent, q := Enter(adj, from, d1, done1, parent1, s1, pred1, order, q1, u);
    s, pred := Count(adj, from, d, done, s1, pred1, order, q, u);
  }

  /** The first half of a scan step: queue `u` if it is an unentered neighbour of the front. */
  method Enter<E>(adj: seq<map<nat, E>>, from: nat, d1: seq<int>, ghost done1: seq<bool>, ghost parent1: seq<nat>,
                  ghost s: seq<nat>, ghost pred: seq<set<nat>>, ghost order: seq<nat>, q1: seq<nat>, u: nat)
    returns (d: seq<int>, ghost done: seq<bool>, ghost parent: seq<nat>, q: seq<nat>)
    requires Search(adj, from, AllTrue(|adj|), Unset(|adj|), d1, done1, parent1, q1) && u < |adj|
    requires Scanning(adj, from, d1, done1, s, pred, order, q1, u)
    requires Scanned(adj, AllTrue(|adj|), done1, q1[0], u)
    ensures Search(adj, from, AllTrue(|adj|), Unset(|adj|), d, done, parent, q) && q != [] && q[0] == q1[0]
    ensures Scanning(adj, from, d, done, s, pred, order, q, u)
    ensures Scanned(adj, AllTrue(|adj|), done, q1[0], u + 1)
    ensures CountTrue(done) - CountTrue(done1) == |q| - |q1| >= 0
    ensures u in adj[q1[0]] ==> d[u] >= 0 && d[q1[0]] == d1[q1[0]]
  {
    var v := q1[0];
    ScannedNext(adj, AllTrue(|adj|), done1, v, u);
    UnsetMeansUnentered(adj, from, d1, done1, parent1, u);
    if u in adj[v] && d1[u] < 0 {
      SearchEnter(adj, from, AllTrue(|adj|), Unset(|adj|), d1, done1, parent1, q1, u);
      Discover(adj, from, d1, done1, s, pred, order, q1, u);
      CountTrueSet(done1, u);
      d := d1[u := d1[v] + 1];
      done := done1[u := true];
      parent := parent1[u := v];
      q := q1 + [u];
    } else {
      d, done, parent, q := d1, done1, parent1, q1;
    }
  }

  /** The second half: record the front as a predecessor of `u` one hop further away. */
  method Count<E>(adj: seq<map<nat, E>>, from: nat, d: seq<int>, ghost done: seq<bool>,
                  s1: seq<nat>, pred1: seq<set<nat>>, ghost order: seq<nat>, q: seq<nat>, u: nat)
    returns (s: seq<nat>, pred: seq<set<nat>>)
    requires Scanning(adj, from, d, done, s1, pred1, order, q, u) && u < |adj|
    ensures Scanning(adj, from, d, done, s, pred, order, q, u + 1)
  {
    var v := q[0];
    if u in adj[v] && d[u] == d[v] + 1 {
      Accumulate(adj, from, d, done, s1, pred1, order, q, u);
      s := s1[u := s1[u] + s1[v]];
      pred := pred1[u := pred1[u] + {v}];
    } else {
      Skip(adj, from, d, done, s1, pred1, order, q, u);
      s, pred := s1, pred1;
    }
  }

  /** The state before the first node leaves the queue. */
  lemma Start<E>(adj: seq<map<nat, E>>, from: nat, d: seq<int>, done: seq<bool>, parent: seq<nat>,
                 s: seq<nat>, pred: seq<set<nat>>, q: seq<nat>)
    requires Bounded(adj) && from < |adj| && q == [from]
    requires done == seq(|adj|, _ => false)[from := true] && parent == seq(|adj|, _ => 0)
    requires d == Unset(|adj|)[from := 0] && s == seq(|adj|, _ => 0)[from := 1] && pred == seq(|adj|, _ => {})
    ensures Search(adj, from, AllTrue(|adj|), Unset(|adj|), d, done, parent, q)
    ensures Between(adj, from, d, done, s, pred, [], q)
  {
    assert forall z :: 0 <= z < |done| && done[z] ==> z == from;
    forall w | 0 <= w < |adj|
      ensures s[w] == (if w == from then 1 else 0) + Weighted(s, [], pred[w])
    {
    }
  }

  /** With every `d` entry starting at -1, a node has a negative distance exactly when the
      search has not entered it. */
  lemma UnsetMeansUnentered<E>(adj: seq<map<nat, E>>, from: nat, d: seq<int>, done: seq<bool>, parent: seq<nat>, x: nat)
    requires Tree(adj, from, AllTrue(|adj|), Unset(|adj|), d, done, parent) && x < |adj|
    ensures d[x] < 0 <==> !done[x]
  {
  }

  /** Taking the front off the queue and pushing it on the stack starts its scan. */
  lemma BeginScan<E>(adj: seq<map<nat, E>>, from: nat, d: seq<int>, done: seq<bool>,
                     s: seq<nat>, pred: seq<set<nat>>, order: seq<nat>, q: seq<nat>)
    requires Between(adj, from, d, done, s, pred, order, q) && q != [] && q[0] < |adj| && done[q[0]]
    ensures Scanning(adj, from, d, done, s, pred, order + [q[0]], q, 0)
  {
    var c := q[0];
    var order' := order + [c];
    assert c !in order;
    assert order'[..|order|] == order;
    forall w: nat, v: nat | w < |adj|
      ensures v in pred[w] <==> PredCond(adj, d, order', c, 0, w, v)
    {
      assert PredCond(adj, d, order', c, 0, w, v) <==> PredCond(adj, d, order, 0, |adj|, w, v);
    }
    forall w | 0 <= w < |s|
      ensures s[w] == (if w == from then 1 else 0) + Weighted(s, order', pred[w])
    {
      assert c !in pred[w] by {
        assert !PredCond(adj, d, order, 0, |adj|, w, c);
      }
    }
  }

  /** Entering the unentered neighbour `u` of the front records nothing about it yet: no
      node off the queue can have `u` as a neighbour. */
  lemma Discover<E>(adj: seq<map<nat, E>>, from: nat, d: seq<int>, done: seq<bool>,
                    s: seq<nat>, pred: seq<set<nat>>, order: seq<nat>, q: seq<nat>, u: nat)
    requires Scanning(adj, from, d, done, s, pred, order, q, u)
    requires Closed(adj, AllTrue(|adj|), done, q)
    requires forall i :: 0 <= i < |q| ==> q[i] < |adj| && done[q[i]]
    requires forall x :: 0 <= x < |adj| && done[x] ==> d[x] >= 0
    requires u < |adj| && u in adj[q[0]] && !done[u] && d[u] == -1
    ensures Scanning(adj, from, d[u := d[q[0]] + 1], done[u := true], s, pred, order, q + [u], u)
  {
    var c := q[0];
    var d' := d[u := d[c] + 1];
    var q' := q + [u];
    assert u !in order;
    assert u !in q by {
      forall i | 0 <= i < |q| ensures q[i] != u { }
    }
    forall w: nat, v: nat | w < |adj|
      ensures v in pred[w] <==> PredCond(adj, d', order, c, u, w, v)
    {
    }
  }

  /** The front `v` becomes a predecessor of its neighbour `u` one hop further, which adds
      `v`'s path count to `u`'s. */
  lemma Accumulate<E>(adj: seq<map<nat, E>>, from: nat, d: seq<int>, done: seq<bool>,
                      s: seq<nat>, pred: seq<set<nat>>, order: seq<nat>, q: seq<nat>, u: nat)
    requires Scanning(adj, from, d, done, s, pred, order, q, u)
    requires u < |adj| && u in adj[q[0]] && d[u] == d[q[0]] + 1
    ensures Scanning(adj, from, d, done, s[u := s[u] + s[q[0]]], pred[u := pred[u] + {q[0]}], order, q, u + 1)
  {
    var c := q[0];
    var s' := s[u := s[u] + s[c]];
    var pred' := pred[u := pred[u] + {c}];
    assert u !in order;
    forall k | 0 <= k < |order|
      ensures order[k] < |s| && order[k] < |s'| && s[order[k]] == s'[order[k]]
    {
    }
    forall w: nat, v: nat | w < |adj|
      ensures v in pred'[w] <==> PredCond(adj, d, order, c, u + 1, w, v)
    {
      if w != u || v != c {
        assert PredCond(adj, d, order, c, u + 1, w, v) <==> PredCond(adj, d, order, c, u, w, v);
      }
    }
    forall w | 0 <= w < |s'|
      ensures s'[w] == (if w == from then 1 else 0) + Weighted(s', order, pred'[w])
    {
      WeightedAgree(s, s', order, pred'[w]);
      if w == u {
        assert c !in pred[u] by {
          assert !PredCond(adj, d, order, c, u, u, c);
        }
        WeightedInsert(s, order, pred[u], c);
      }
    }
  }

  /** A neighbour the front does not record moves the scan on unchanged. */
  lemma Skip<E>(adj: seq<map<nat, E>>, from: nat, d: seq<int>, done: seq<bool>,
                s: seq<nat>, pred: seq<set<nat>>, order: seq<nat>, q: seq<nat>, u: nat)
    requires Scanning(adj, from, d, done, s, pred, order, q, u)
    requires u < |adj| && !(u in adj[q[0]] && d[u] == d[q[0]] + 1)
    ensures Scanning(adj, from, d, done, s, pred, order, q, u + 1)
  {
    var c := q[0];
    forall w: nat, v: nat | w < |adj|
      ensures v in pred[w] <==> PredCond(adj, d, order, c, u + 1, w, v)
    {
      assert PredCond(adj, d, order, c, u + 1, w, v) <==> PredCond(adj, d, order, c, u, w, v);
    }
  }

  /** Once the front has scanned every neighbour it leaves the queue. */
  lemma EndScan<E>(adj: seq<map<nat, E>>, from: nat, d: seq<int>, done: seq<bool>,
                   s: seq<nat>, pred: seq<set<nat>>, order: seq<nat>, q: seq<nat>)
    requires Layered(d, done, q)
    requires Scanning(adj, from, d, done, s, pred, order, q, |adj|)
    ensures Between(adj, from, d, done, s, pred, order, q[1..])
  {
    var c := q[0];
    forall x: nat | x < |adj|
      ensures x in order <==> done[x] && x !in q[1..]
    {
      if x == c {
        assert x !in q[1..] by {
          forall i | 1 <= i < |q| ensures q[i] != c { }
        }
      } else {
        assert q == [c] + q[1..];
      }
    }
    forall w: nat, v: nat | w < |adj|
      ensures v in pred[w] <==> PredCond(adj, d, order, 0, |adj|, w, v)
    {
      assert PredCond(adj, d, order, 0, |adj|, w, v) <==> PredCond(adj, d, order, c, |adj|, w, v);
    }
    if |q| > 1 {
      assert d[q[0]] <= d[q[1]];
    }
  }

  /** The empty queue: the stack holds exactly the entered nodes and each predecessor set
      is the set of entered neighbours one hop closer. */
  lemma Finish<E>(adj: seq<map<nat, E>>, from: nat, d: seq<int>, done: seq<bool>, parent: seq<nat>,
                  s: seq<nat>, pred: seq<set<nat>>, order: seq<nat>)
    requires Search(adj, from, AllTrue(|adj|), Unset(|adj|), d, done, parent, [])
    requires Between(adj, from, d, done, s, pred, order, [])
    ensures forall x: nat :: x < |adj| ==> (x in order <==> d[x] >= 0)
    ensures forall w: nat, v: nat :: w < |adj| ==> (v in pred[w] <==> v < |adj| && d[v] >= 0 && w in adj[v] && d[v] + 1 == d[w])
    ensures s[from] == 1
  {
    forall x: nat | x < |adj|
      ensures x in order <==> d[x] >= 0
    {
      UnsetMeansUnentered(adj, from, d, done, parent, x);
    }
    forall w: nat, v: nat | w < |adj|
      ensures v in pred[w] <==> v < |adj| && d[v] >= 0 && w in adj[v] && d[v] + 1 == d[w]
    {
      assert PredCond(adj, d, order, 0, |adj|, w, v) ==> v < |adj|;
      if v < |adj| {
        UnsetMeansUnentered(adj, from, d, done, parent, v);
      }
    }
    assert pred[from] == {} by {
      forall v | v in pred[from] ensures false {
        assert PredCond(adj, d, order, 0, |adj|, from, v);
        UnsetMeansUnentered(adj, from, d, done, parent, v);
      }
    }
    WeightedNone(s, order);
  }

  /** Over an all-true mask a masked walk is any walk. */
  lemma AllMaskedWalk<E>(adj: seq<map<nat, E>>, p: seq<nat>)
    ensures MaskedWalk(adj, AllTrue(|adj|), p) <==> IsWalk(adj, p)
  {
  }

  /** The distances of the search are hop counts: `d[x]` is non-negative exactly when a
      walk from the source reaches `x`, it is then the length of a shortest such walk, and
      it stays -1 otherwise. */
  lemma HopDistance<E>(adj: seq<map<nat, E>>, from: nat, d: seq<int>, done: seq<bool>, parent: seq<nat>, x: nat)
    requires Tree(adj, from, AllTrue(|adj|), Unset(|adj|), d, done, parent)
    requires Closed(adj, AllTrue(|adj|), done, []) && Relaxed(adj, AllTrue(|adj|), d, done, [])
    requires x < |adj|
    ensures d[x] >= 0 <==> exists p :: IsWalk(adj, p) && p[0] == from && p[|p| - 1] == x
    ensures d[x] >= 0 ==> exists p :: IsWalk(adj, p) && p[0] == from && p[|p| - 1] == x && |p| == d[x] + 1
    ensures forall p :: IsWalk(adj, p) && p[0] == from && p[|p| - 1] == x ==> d[x] <= |p| - 1
    ensures d[x] < 0 ==> d[x] == -1
  {
    var toMask := AllTrue(|adj|);
    DistanceMeaning(adj, from, toMask, Unset(|adj|), d, done, parent, x);
    UnsetMeansUnentered(adj, from, d, done, parent, x);
    forall p ensures MaskedWalk(adj, toMask, p) <==> IsWalk(adj, p) {
      AllMaskedWalk(adj, p);
    }
  }
}

=== FILE: common.dfy ===
/** Small shared vocabulary: an optional value, and counting/summing helpers
    over the masks (`vector<bool>`) and counters the network code passes around. */
module Common {

  datatype Option<+T> = None | Some(value: T)

  /** Number of `true` entries of a mask (`count(mask.begin(),mask.end(),true)`). */
  function CountTrue(mask: seq<bool>): nat
  {
    if |mask| == 0 then 0
    else CountTrue(mask[..|mask| - 1]) + (if mask[|mask| - 1] then 1 else 0)
  }

  /** Number of `true` entries strictly before position `i`: the dense id a
      masked position receives when the masked positions are renumbered in
      ascending order. */
  function Rank(mask: seq<bool>, i: nat): nat
    requires i <= |mask|
  {
    CountTrue(mask[..i])
  }

  lemma {:induction false} RankStep(mask: seq<bool>, i: nat)
    requires i < |mask|
    ensures Rank(mask, i + 1) == Rank(mask, i) + (if mask[i] then 1 else 0)
  {
    assert mask[..i + 1][..i] == mask[..i];
  }

  lemma {:induction false} RankBound(mask: seq<bool>, i: nat)
    requires i <= |mask|
    ensures Rank(mask, i) <= Rank(mask, |mask|) == CountTrue(mask)
    ensures Rank(mask, i) <= i
    decreases |mask| - i
  {
    assert mask[..|mask|] == mask;
    RankUpTo(mask, i);
    if i < |mask| {
      RankBound(mask, i + 1);
      RankStep(mask, i);
    }
  }

  lemma {:induction false} RankUpTo(mask: seq<bool>, i: nat)
    requires i <= |mask|
    ensures Rank(mask, i) <= i
  {
    if i > 0 {
      RankUpTo(mask, i - 1);
      RankStep(mask, i - 1);
    }
  }

  /** Renumbering by rank is strictly increasing on masked positions, hence injective. */
  lemma {:induction false} RankMonotone(mask: seq<bool>, i: nat, j: nat)
    requires i < j <= |mask| && mask[i]
    ensures Rank(mask, i) < Rank(mask, j)
    decreases j - i
  {
    RankStep(mask, i);
    if i + 1 < j {
      RankWeakMonotone(mask, i + 1, j);
    }
  }

  /** A masked position receives a dense id below the number of masked positions. */
  lemma RankBelowCount(mask: seq<bool>, i: nat)
    requires i < |mask| && mask[i]
    ensures Rank(mask, i) < CountTrue(mask)
  {
    RankMonotone(mask, i, |mask|);
    assert mask[..|mask|] == mask;
  }

  lemma {:induction false} RankWeakMonotone(mask: seq<bool>, i: nat, j: nat)
    requires i <= j <= |mask|
    ensures Rank(mask, i) <= Rank(mask, j)
    decreases j - i
  {
    if i < j {
      RankStep(mask, i);
      RankWeakMonotone(mask, i + 1, j);
    }
  }

  /** The position of the `a`-th `true` entry (counting from 0), searching from `from`. */
  function Unrank(mask: seq<bool>, a: nat, from: nat): (i: nat)
    requires from <= |mask|
    requires Rank(mask, from) <= a < CountTrue(mask)
    ensures from <= i < |mask| && mask[i] && Rank(mask, i) == a
    decreases |mask| - from
  {
    RankBound(mask, from);
    assert mask[..|mask|] == mask;
    RankStep(mask, from);
    if mask[from] && Rank(mask, from) == a then from
    else Unrank(mask, a, from + 1)
  }

  /** The ids `0 .. n-1`. */
  function Below(n: nat): (s: set<nat>)
    ensures forall k :: k in s <==> 0 <= k < n
  {
    if n == 0 then {} else Below(n - 1) + {n - 1}
  }

  /** Sum of a sequence of naturals. */
  function Sum(s: seq<nat>): nat
  {
    if |s| == 0 then 0 else Sum(s[..|s| - 1]) + s[|s| - 1]
  }

  lemma {:induction false} SumAppend(s: seq<nat>, t: seq<nat>)
    ensures Sum(s + t) == Sum(s) + Sum(t)
    decreases |t|
  {
    if |t| == 0 {
      assert s + t == s;
    } else {
      assert (s + t)[..|s + t| - 1] == s + t[..|t| - 1];
      SumAppend(s, t[..|t| - 1]);
    }
  }

  lemma {:induction false} SumUpdate(s: seq<nat>, i: nat, x: nat)
    requires i < |s|
    ensures Sum(s[i := x]) + s[i] == Sum(s) + x
    decreases |s|
  {
    var n := |s| - 1;
    if i < n {
      assert s[i := x][..n] == s[..n][i := x];
      SumUpdate(s[..n], i, x);
    } else {
      assert s[i := x][..n] == s[..n];
    }
  }
  lemma {:induction false} CountTrueBound(mask: seq<bool>)
    ensures CountTrue(mask) <= |mask|
  {
    if |mask| > 0 {
      CountTrueBound(mask[..|mask| - 1]);
    }
  }

  /** Setting an unset entry raises the count by one. */
  lemma {:induction false} CountTrueSet(mask: seq<bool>, i: nat)
    requires i < |mask| && !mask[i]
    ensures CountTrue(mask[i := true]) == CountTrue(mask) + 1
    decreases |mask|
  {
    var n := |mask| - 1;
    if i < n {
      assert mask[i := true][..n] == mask[..n][i := true];
      CountTrueSet(mask[..n], i);
    } else {
      assert mask[i := true][..n] == mask[..n];
    }
  }
}

=== FILE: community.dfy ===
/** The pieces of the Girvan–Newman program (networks/community.C, networks/community.H)
    that do not depend on its main loop: the tree-node tag and its stream format, the
    generated node names and the choice of the edge to remove. */
module Community {
  import opened Common
  import opened Text
  import opened AdjList

  // ---------------------------------------------------------------------------
  // tree_tag

  /** A node of the community tree: its name, the number of graph nodes below it and the
      number of edge removals its region took before it split. */
  datatype TreeTag = TreeTag(name: string, size: int, numEdges: int)

  /** The `tree_tag(n, sz)` constructor; `tree_tag()` is `NewTreeTag("", 0)`. */
  function NewTreeTag(n: string, sz: int): (t: TreeTag)
    ensures t.name == n && t.size == sz && t.numEdges == 0
  {
    TreeTag(n, sz, 0)
  }

  /** `o << t`: size, a space, the removal count, a space, the name. Reading two integers
      back yields the size and then the count, and leaves a space and the name. */
  function WriteTreeTag(t: TreeTag): (s: string)
    ensures ReadInt(s).Some? && ReadInt(s).value.0 == t.size
    ensures var rest := ReadInt(s).value.1;
      ReadInt(rest) == Some((t.numEdges, " " + t.name))
  {
    var tail := IntToString(t.numEdges) + (" " + t.name);
    ReadIntStep(t.size, tail);
    ReadIntStep(t.numEdges, t.name);
    IntToString(t.size) + (" " + tail)
  }

  /** `i >> t`: size, removal count and name, in that order; `None` when any read fails. */
  function ReadTreeTag(s: string): (r: Option<(TreeTag, string)>)
    ensures r.Some? ==> IsWord(r.value.0.name) && |r.value.1| < |s|
  {
    match ReadInt(s)
    case None => None
    case Some((size, s1)) =>
      match ReadInt(s1)
      case None => None
      case Some((edges, s2)) =>
        match ReadWord(s2)
        case None => None
        case Some((name, s3)) =>
          assert IsWord(name) by {
            var t := SkipSpace(s2);
            assert name == t[..WordRun(t)];
          }
          Some((TreeTag(name, size, edges), s3))
  }

  /** Writing a tag and reading it back reproduces it, provided its name is a single
      non-empty token, and leaves whatever followed the written text (starting with
      whitespace, as the next field would). */
  lemma TreeTagRoundTrip(t: TreeTag, rest: string)
    requires IsWord(t.name) && (rest == [] || IsSpace(rest[0]))
    ensures ReadTreeTag(WriteTreeTag(t) + rest) == Some((t, rest))
  {
    WriteTreeTagSplit(t, rest);
    ReadIntStep(t.size, IntToString(t.numEdges) + (" " + (t.name + rest)));
    ReadIntStep(t.numEdges, t.name + rest);
    ReadWordWritten(t.name, rest);
  }

  lemma WriteTreeTagSplit(t: TreeTag, rest: string)
    ensures WriteTreeTag(t) + rest == IntToString(t.size) + (" " + (IntToString(t.numEdges) + (" " + (t.name + rest))))
  {
    var a, b := IntToString(t.size), IntToString(t.numEdges);
    assert WriteTreeTag(t) == a + (" " + (b + (" " + t.name)));
    SeqAssoc4(a, " ", b, " ", t.name, rest);
  }

  lemma SeqAssoc4<T>(a: seq<T>, s1: seq<T>, b: seq<T>, s2: seq<T>, n: seq<T>, rest: seq<T>)
    ensures a + (s1 + (b + (s2 + n))) + rest == a + (s1 + (b + (s2 + (n + rest))))
  {
  }

  /** An integer written before a space reads back and leaves the text after the space. */
  lemma ReadIntStep(n: int, tail: string)
    ensures ReadInt(IntToString(n) + (" " + tail)) == Some((n, " " + tail))
    ensures ReadInt(" " + tail) == ReadInt(tail) && ReadWord(" " + tail) == ReadWord(tail)
  {
    assert (" " + tail)[0] == ' ';
    ReadIntWritten(n, " " + tail);
    assert " " + tail == [' '] + tail;
    ReadAfterSpace(' ', tail);
  }

  /** A default-constructed tag (empty name) does not read back: the name read fails. */
  lemma TreeTagEmptyNameLost(sz: int, k: int)
    ensures ReadTreeTag(WriteTreeTag(TreeTag("", sz, k))) == None
  {
    EmptyNameFirstField(sz, k);
    EmptyNameSecondField(k);
    assert ReadWord(" ") == None by {
      assert SkipSpace(" ") == [];
    }
  }

  lemma EmptyNameFirstField(sz: int, k: int)
    ensures ReadInt(WriteTreeTag(TreeTag("", sz, k))) == Some((sz, " " + (IntToString(k) + " ")))
  {
    var tail1 := IntToString(k) + " ";
    assert WriteTreeTag(TreeTag("", sz, k)) == IntToString(sz) + (" " + tail1);
    ReadIntStep(sz, tail1);
  }

  lemma EmptyNameSecondField(k: int)
    ensures ReadInt(" " + (IntToString(k) + " ")) == Some((k, " "))
  {
    var tail1 := IntToString(k) + " ";
    assert tail1 == IntToString(k) + (" " + []);
    ReadIntStep(k, []);
    assert " " + tail1 == [' '] + tail1;
    ReadAfterSpace(' ', tail1);
    assert " " + [] == " ";
  }

  // ---------------------------------------------------------------------------
  // Generated names

  /** `new_name(pre, idx, suff)`: the prefix, the decimal index, the suffix. */
  function NewName(pre: string, idx: int, suff: string): (s: string)
    ensures |s| == |pre| + |IntToString(idx)| + |suff|
    ensures s[..|pre|] == pre && s[|s| - |suff|..] == suff
    ensures s[|pre|..|s| - |suff|] == IntToString(idx)
  {
    pre + IntToString(idx) + suff
  }

  /** `new_root_name(i)`: "<r" i ">". */
  function RootName(i: int): (s: string)
  {
    NewName("<r", i, ">")
  }

  /** `new_branch_name(i)`: "<b" i ">". */
  function BranchName(i: int): (s: string)
  {
    NewName("<b", i, ">")
  }

  /** The digits of a generated name read back as its index, so different indices give
      different names, and root and branch names never coincide. */
  lemma GeneratedNamesDistinct(i: int, j: int)
    ensures RootName(i) == RootName(j) ==> i == j
    ensures BranchName(i) == BranchName(j) ==> i == j
    ensures RootName(i) != BranchName(j)
  {
    NameIndex("<r", i, ">");
    NameIndex("<r", j, ">");
    NameIndex("<b", i, ">");
    NameIndex("<b", j, ">");
    assert RootName(i)[1] == 'r' && BranchName(j)[1] == 'b';
  }

  /** The index of a generated name reads back from the text after the prefix. */
  lemma NameIndex(pre: string, i: int, suff: string)
    requires suff == [] || !IsDigit(suff[0])
    ensures ReadInt(NewName(pre, i, suff)[|pre|..]) == Some((i, suff))
  {
    assert NewName(pre, i, suff)[|pre|..] == IntToString(i) + suff;
    ReadIntWritten(i, suff);
  }

  // ---------------------------------------------------------------------------
  // max_edge_btwns

  /** The scan state after the pairs `ps`: the pair kept so far and its tag, starting
      from (-1, -1) with -1. A pair replaces the kept one only when its tag is strictly
      larger. */
  function MaxScan(ps: seq<Pair<real>>): (r: ((int, int), real))
    decreases |ps|
  {
    if ps == [] then ((-1, -1), -1.0)
    else
      var prev := MaxScan(ps[..|ps| - 1]);
      var p := ps[|ps| - 1];
      if p.2 > prev.1 then ((p.0 as int, p.1 as int), p.2) else prev
  }

  /** The scan keeps the first pair with the largest tag, provided that tag exceeds -1. */
  lemma {:induction false} MaxScanFacts(ps: seq<Pair<real>>)
    ensures var (best, mx) := MaxScan(ps);
      && mx >= -1.0
      && (forall j :: 0 <= j < |ps| ==> ps[j].2 <= mx)
      && (best == (-1, -1) <==> forall j :: 0 <= j < |ps| ==> ps[j].2 <= -1.0)
      && (best != (-1, -1) ==> exists k :: 0 <= k < |ps| && best == (ps[k].0 as int, ps[k].1 as int) && ps[k].2 == mx
                                         && forall j :: 0 <= j < k ==> ps[j].2 < mx)
      && (best == (-1, -1) ==> mx == -1.0)
    decreases |ps|
  {
    if ps != [] {
      var init := ps[..|ps| - 1];
      MaxScanFacts(init);
      var (best0, mx0) := MaxScan(init);
      var p := ps[|ps| - 1];
      if p.2 > mx0 {
        assert forall j :: 0 <= j < |ps| - 1 ==> ps[j] == init[j];
      } else {
        if best0 != (-1, -1) {
          var k :| 0 <= k < |init| && best0 == (init[k].0 as int, init[k].1 as int) && init[k].2 == mx0
                   && forall j :: 0 <= j < k ==> init[j].2 < mx0;
          assert ps[k] == init[k];
          assert forall j :: 0 <= j < k ==> ps[j] == init[j];
        }
        assert forall j :: 0 <= j < |ps| - 1 ==> ps[j] == init[j];
      }
    }
  }

  /** `max_edge_btwns(B)`: rows in ascending order, each row's pairs in ascending
      neighbour order, keeping the first pair whose tag beats every earlier one. */
  function MaxEdgeBtwns(adj: seq<map<nat, real>>): (idxs: (int, int))
  {
    MaxScan(StoredPairs(adj)).0
  }

  /** (-1, -1) comes back exactly when no stored tag exceeds -1; otherwise the result is
      a stored pair whose tag is at least every other tag, and the first such pair in
      ascending (row, neighbour) order. */
  lemma MaxEdgeBtwnsMeaning(adj: seq<map<nat, real>>)
    ensures var idxs := MaxEdgeBtwns(adj); var ps := StoredPairs(adj);
      && (idxs == (-1, -1) <==> forall j :: 0 <= j < |ps| ==> ps[j].2 <= -1.0)
      && (idxs != (-1, -1) ==>
            (exists k :: 0 <= k < |ps| && idxs == (ps[k].0 as int, ps[k].1 as int)
               && (forall j :: 0 <= j < |ps| ==> ps[j].2 <= ps[k].2)
               && (forall j :: 0 <= j < k ==> ps[j].2 < ps[k].2)))
  {
    MaxScanFacts(StoredPairs(adj));
  }

  /** A pair found by `max_edge_btwns` is stored, with its tag. */
  lemma MaxEdgeBtwnsStored(adj: seq<map<nat, real>>)
    requires Bounded(adj) && MaxEdgeBtwns(adj) != (-1, -1)
    ensures var idxs := MaxEdgeBtwns(adj);
      && 0 <= idxs.0 < |adj| && idxs.1 >= 0 && idxs.1 in adj[idxs.0]
      && forall u, v :: 0 <= u < |adj| && v in adj[u] ==> adj[u][v] <= adj[idxs.0][idxs.1]
  {
    var ps := StoredPairs(adj);
    MaxEdgeBtwnsMeaning(adj);
    var k :| 0 <= k < |ps| && MaxEdgeBtwns(adj) == (ps[k].0 as int, ps[k].1 as int)
            && (forall j :: 0 <= j < |ps| ==> ps[j].2 <= ps[k].2);
    StoredPairsSound(adj, ps[k]);
    forall u, v | 0 <= u < |adj| && v in adj[u]
      ensures adj[u][v] <= adj[ps[k].0][ps[k].1]
    {
      StoredPairsComplete(adj, u, v);
    }
  }
}

=== FILE: distance.dfy ===
/** `minimum_distance(g, from_node, to_mask, min_dist)` (networks/stats.H): a breadth-first
    search from one node that only enters nodes whose `to_mask` bit is set, writing each
    entered node's hop count into `min_dist` and leaving every other entry as it was. */
module Distance {
  import opened Common
  import opened AdjList

  /** What the search has established about the nodes it entered: the start has distance 0;
      every other entered node is masked and was discovered from an entered `parent`, one
      hop further away; entries of nodes not entered are untouched. */
  ghost predicate Tree<E>(adj: seq<map<nat, E>>, from: nat, toMask: seq<bool>, d0: seq<int>, d: seq<int>, reached: seq<bool>, parent: seq<nat>)
  {
    && from < |adj| && |toMask| == |d0| == |d| == |reached| == |parent| == |adj|
    && reached[from] && d[from] == 0
    && (forall x :: 0 <= x < |adj| && reached[x] ==> d[x] >= 0)
    && (forall x :: 0 <= x < |adj| && reached[x] && x != from ==>
          toMask[x] && parent[x] < |adj| && reached[parent[x]] && x in adj[parent[x]] && d[x] == d[parent[x]] + 1)
    && (forall x :: 0 <= x < |adj| && !reached[x] ==> d[x] == d0[x])
  }

  /** Every masked neighbour of an entered node outside the queue `q` has been entered. */
  ghost predicate Closed<E>(adj: seq<map<nat, E>>, toMask: seq<bool>, reached: seq<bool>, q: seq<nat>)
  {
    forall x: nat, y: nat :: x < |adj| && x < |reached| && reached[x] && x !in q && y in adj[x] && y < |reached| && y < |toMask| && toMask[y] ==> reached[y]
  }

  lemma ClosedAt<E>(adj: seq<map<nat, E>>, toMask: seq<bool>, reached: seq<bool>, q: seq<nat>, x: nat, y: nat)
    requires Closed(adj, toMask, reached, q)
    requires x < |adj| && x < |reached| && reached[x] && x !in q && y in adj[x] && y < |reached| && y < |toMask| && toMask[y]
    ensures reached[y]
  {
  }

  ghost predicate Round<E>(adj: seq<map<nat, E>>, from: nat, toMask: seq<bool>, d0: seq<int>, d: seq<int>, reached: seq<bool>, parent: seq<nat>, q: seq<nat>)
  {
    && Bounded(adj)
    && Tree(adj, from, toMask, d0, d, reached, parent)
    && (forall i :: 0 <= i < |q| ==> q[i] < |adj| && reached[q[i]])
    && Closed(adj, toMask, reached, q)
  }

  /** The masked neighbours of `curr` below `u` have been entered. */
  ghost predicate Scanned<E>(adj: seq<map<nat, E>>, toMask: seq<bool>, reached: seq<bool>, curr: nat, u: nat)
  {
    && curr < |adj| && |reached| == |toMask| == |adj|
    && forall y :: 0 <= y < u && y in adj[curr] && y < |adj| && toMask[y] ==> reached[y]
  }

  /** Breadth-first layering: queued distances never decrease along the queue and span at
      most one hop, and no entered node lies further away than the back of the queue. */
  ghost predicate Layered(d: seq<int>, reached: seq<bool>, q: seq<nat>)
  {
    && (forall i :: 0 <= i < |q| ==> q[i] < |d|)
    && (forall i, j :: 0 <= i <= j < |q| ==> d[q[i]] <= d[q[j]])
    && (q != [] ==> d[q[|q| - 1]] <= d[q[0]] + 1)
    && (q != [] ==> forall z :: 0 <= z < |d| && z < |reached| && reached[z] ==> d[z] <= d[q[|q| - 1]])
  }

  /** Every masked neighbour of an entered node outside the queue is at most one hop further. */
  ghost predicate Relaxed<E>(adj: seq<map<nat, E>>, toMask: seq<bool>, d: seq<int>, reached: seq<bool>, q: seq<nat>)
  {
    forall x: nat, y: nat :: x < |adj| && x < |reached| && x < |d| && reached[x] && x !in q && y in adj[x] && y < |d| && y < |toMask| && toMask[y] ==> d[y] <= d[x] + 1
  }

  /** Everything the breadth-first search keeps between steps. */
  ghost predicate Search<E>(adj: seq<map<nat, E>>, from: nat, toMask: seq<bool>, d0: seq<int>, d: seq<int>, done: seq<bool>, parent: seq<nat>, q: seq<nat>)
  {
    Round(adj, from, toMask, d0, d, done, parent, q) && Layered(d, done, q) && Relaxed(adj, toMask, d, done, q)
  }

  /** The search itself. `done` is the source's `processed` vector; `parent` records, for
      the proof, which node discovered each entered node. */
  method MinimumDistance<E>(adj: seq<map<nat, E>>, from: nat, toMask: seq<bool>, d0: seq<int>)
    returns (d: seq<int>, done: seq<bool>, ghost parent: seq<nat>)
    requires Bounded(adj) && from < |adj| && |toMask| == |adj| && |d0| == |adj|
    ensures Tree(adj, from, toMask, d0, d, done, parent)
    ensures Closed(adj, toMask, done, [])
    ensures Relaxed(adj, toMask, d, done, [])
  {
    done := seq(|adj|, _ => false)[from := true];
    parent := seq(|adj|, _ => 0);
    d := d0[from := 0];
    var q := [from];
    CountTrueBound(done);
    assert forall z :: 0 <= z < |done| && done[z] ==> z == from;
    while q != []
      invariant Search(adj, from, toMask, d0, d, done, parent, q)
      invariant CountTrue(done) <= |done|
      decreases |adj| - CountTrue(done), |q|
    {
      d, done, parent, q := Visit(adj, from, toMask, d0, d, done, parent, q);
    }
  }

  /** Process the front of the queue: enter each unentered masked neighbour, in ascending
      order, one hop further than the front; then pop the front. */
  method Visit<E>(adj: seq<map<nat, E>>, from: nat, toMask: seq<bool>, ghost d0: seq<int>, d1: seq<int>, done1: seq<bool>,
                  ghost parent1: seq<nat>, q1: seq<nat>)
    returns (d: seq<int>, done: seq<bool>, ghost parent: seq<nat>, q: seq<nat>)
    requires Search(adj, from, toMask, d0, d1, done1, parent1, q1) && q1 != []
    ensures Search(adj, from, toMask, d0, d, done, parent, q)
    ensures CountTrue(done1) <= CountTrue(done) <= |done|
    ensures CountTrue(done1) < CountTrue(done) || |q| < |q1|
  {
    var curr := q1[0];
    d, done, parent, q := d1, done1, parent1, q1;
    CountTrueBound(done);
    var u: nat := 0;
    while u < |adj|
      invariant u <= |adj| && q != [] && q[0] == curr && |q| >= |q1|
      invariant Search(adj, from, toMask, d0, d, done, parent, q)
      invariant Scanned(adj, toMask, done, curr, u)
      invariant CountTrue(done) - CountTrue(done1) == |q| - |q1| && |done| == |adj|
    {
      d, done, parent, q := Scan(adj, from, toMask, d0, d, done, parent, q, u);
      u := u + 1;
    }
    SearchPop(adj, from, toMask, d0, d, done, parent, q);
    CountTrueBound(done);
    q := q[1..];
  }

  /** Look at neighbour `u` of the front node: enter it if it is masked and not entered yet. */
  method Scan<E>(adj: seq<map<nat, E>>, from: nat, toMask: seq<bool>, ghost d0: seq<int>, d1: seq<int>, done1: seq<bool>,
                 ghost parent1: seq<nat>, q1: seq<nat>, u: nat)
    returns (d: seq<int>, done: seq<bool>, ghost parent: seq<nat>, q: seq<nat>)
    requires Search(adj, from, toMask, d0, d1, done1, parent1, q1) && q1 != [] && u < |adj|
    requires Scanned(adj, toMask, done1, q1[0], u)
    ensures Search(adj, from, toMask, d0, d, done, parent, q) && q != [] && q[0] == q1[0]
    ensures Scanned(adj, toMask, done, q1[0], u + 1)
    ensures CountTrue(done) - CountTrue(done1) == |q| - |q1| >= 0
  {
    var curr := q1[0];
    ScannedNext(adj, toMask, done1, curr, u);
    if u in adj[curr] && toMask[u] && !done1[u] {
      SearchEnter(adj, from, toMask, d0, d1, done1, parent1, q1, u);
      CountTrueSet(done1, u);
      d := d1[u := d1[curr] + 1];
      done := done1[u := true];
      parent := parent1[u := curr];
      q := q1 + [u];
    } else {
      d, done, parent, q := d1, done1, parent1, q1;
    }
  }

  lemma SearchEnter<E>(adj: seq<map<nat, E>>, from: nat, toMask: seq<bool>, d0: seq<int>, d: seq<int>, done: seq<bool>, parent: seq<nat>, q: seq<nat>, u: nat)
    requires Search(adj, from, toMask, d0, d, done, parent, q) && q != []
    requires u < |adj| && u in adj[q[0]] && toMask[u] && !done[u]
    ensures Search(adj, from, toMask, d0, d[u := d[q[0]] + 1], done[u := true], parent[u := q[0]], q + [u])
  {
    RoundEnter(adj, from, toMask, d0, d, done, parent, q, u);
    EnterLayered(adj, toMask, d, done, q, u);
  }

  lemma SearchPop<E>(adj: seq<map<nat, E>>, from: nat, toMask: seq<bool>, d0: seq<int>, d: seq<int>, done: seq<bool>, parent: seq<nat>, q: seq<nat>)
    requires Search(adj, from, toMask, d0, d, done, parent, q) && q != []
    requires Scanned(adj, toMask, done, q[0], |adj|)
    ensures Search(adj, from, toMask, d0, d, done, parent, q[1..])
  {
    RoundPop(adj, from, toMask, d0, d, done, parent, q);
    PopLayered(adj, toMask, d, done, q);
  }

  lemma ScannedNext<E>(adj: seq<map<nat, E>>, toMask: seq<bool>, reached: seq<bool>, curr: nat, u: nat)
    requires Scanned(adj, toMask, reached, curr, u) && u < |adj|
    ensures Scanned(adj, toMask, if u in adj[curr] && toMask[u] && !reached[u] then reached[u := true] else reached, curr, u + 1)
  {
  }

  /** Entering an unentered masked neighbour of the front node keeps the round. */
  lemma RoundEnter<E>(adj: seq<map<nat, E>>, from: nat, toMask: seq<bool>, d0: seq<int>, d: seq<int>, reached: seq<bool>, parent: seq<nat>, q: seq<nat>, u: nat)
    requires Round(adj, from, toMask, d0, d, reached, parent, q) && q != []
    requires u < |adj| && u in adj[q[0]] && toMask[u] && !reached[u]
    ensures Round(adj, from, toMask, d0, d[u := d[q[0]] + 1], reached[u := true], parent[u := q[0]], q + [u])
  {
    var reached' := reached[u := true];
    forall x: nat, y: nat | x < |adj| && x < |reached'| && reached'[x] && x !in q + [u] && y in adj[x] && y < |reached'| && y < |toMask| && toMask[y]
      ensures reached'[y]
    {
      ClosedAt(adj, toMask, reached, q, x, y);
    }
  }

  /** A front node whose masked neighbours have all been entered can leave the queue. */
  lemma RoundPop<E>(adj: seq<map<nat, E>>, from: nat, toMask: seq<bool>, d0: seq<int>, d: seq<int>, reached: seq<bool>, parent: seq<nat>, q: seq<nat>)
    requires Round(adj, from, toMask, d0, d, reached, parent, q) && q != []
    requires Scanned(adj, toMask, reached, q[0], |adj|)
    ensures Round(adj, from, toMask, d0, d, reached, parent, q[1..])
  {
    ClosedPop(adj, toMask, reached, q);
    assert forall i :: 0 <= i < |q| - 1 ==> q[1..][i] == q[i + 1];
  }

  lemma ClosedPop<E>(adj: seq<map<nat, E>>, toMask: seq<bool>, reached: seq<bool>, q: seq<nat>)
    requires Closed(adj, toMask, reached, q) && q != []
    requires Scanned(adj, toMask, reached, q[0], |adj|)
    ensures Closed(adj, toMask, reached, q[1..])
  {
    forall x: nat, y: nat | x < |adj| && x < |reached| && reached[x] && x !in q[1..] && y in adj[x] && y < |reached| && y < |toMask| && toMask[y]
      ensures reached[y]
    {
      if x != q[0] {
        assert q == [q[0]] + q[1..];
        ClosedAt(adj, toMask, reached, q, x, y);
      }
    }
  }

  /** Entering `u` one hop beyond the front keeps the layering. */
  lemma EnterLayered<E>(adj: seq<map<nat, E>>, toMask: seq<bool>, d: seq<int>, reached: seq<bool>, q: seq<nat>, u: nat)
    requires Layered(d, reached, q) && Relaxed(adj, toMask, d, reached, q) && q != []
    requires |reached| == |d| && u < |d| && !reached[u]
    requires forall i :: 0 <= i < |q| ==> q[i] < |reached| && reached[q[i]]
    requires Closed(adj, toMask, reached, q)
    ensures Layered(d[u := d[q[0]] + 1], reached[u := true], q + [u])
    ensures Relaxed(adj, toMask, d[u := d[q[0]] + 1], reached[u := true], q + [u])
  {
    var d' := d[u := d[q[0]] + 1];
    var reached' := reached[u := true];
    var q' := q + [u];
    forall i | 0 <= i < |q| ensures q[i] != u { }
    forall x: nat, y: nat | x < |adj| && x < |reached'| && x < |d'| && reached'[x] && x !in q' && y in adj[x] && y < |d'| && y < |toMask| && toMask[y]
      ensures d'[y] <= d'[x] + 1
    {
      ClosedAt(adj, toMask, reached, q, x, y);
    }
  }

  /** A front node whose masked neighbours are all entered is relaxed, and popping it keeps
      the layering. */
  lemma PopLayered<E>(adj: seq<map<nat, E>>, toMask: seq<bool>, d: seq<int>, reached: seq<bool>, q: seq<nat>)
    requires Layered(d, reached, q) && Relaxed(adj, toMask, d, reached, q) && q != []
    requires Scanned(adj, toMask, reached, q[0], |adj|) && |d| == |adj|
    ensures Layered(d, reached, q[1..])
    ensures Relaxed(adj, toMask, d, reached, q[1..])
  {
    forall x: nat, y: nat | x < |adj| && x < |reached| && x < |d| && reached[x] && x !in q[1..] && y in adj[x] && y < |d| && y < |toMask| && toMask[y]
      ensures d[y] <= d[x] + 1
    {
      if x != q[0] {
        assert q == [q[0]] + q[1..];
      } else {
        assert reached[y];
        assert d[y] <= d[q[|q| - 1]];
      }
    }
  }
  // ---------------------------------------------------------------------------
  // What the distances mean

  /** A walk whose every node after the first has its `to_mask` bit set. */
  ghost predicate MaskedWalk<E>(adj: seq<map<nat, E>>, toMask: seq<bool>, p: seq<nat>)
  {
    IsWalk(adj, p) && forall i :: 1 <= i < |p| ==> p[i] < |toMask| && toMask[p[i]]
  }

  lemma RelaxedAt<E>(adj: seq<map<nat, E>>, toMask: seq<bool>, d: seq<int>, reached: seq<bool>, x: nat, y: nat)
    requires Relaxed(adj, toMask, d, reached, [])
    requires x < |adj| && x < |reached| && x < |d| && reached[x] && y in adj[x] && y < |d| && y < |toMask| && toMask[y]
    ensures d[y] <= d[x] + 1
  {
    assert x !in [];
  }

  /** Every entered node is the end of a masked walk from the start whose hop count is its
      distance: follow the discoverers back. */
  lemma {:induction false} EnteredHasWalk<E>(adj: seq<map<nat, E>>, from: nat, toMask: seq<bool>, d0: seq<int>, d: seq<int>, done: seq<bool>, parent: seq<nat>, x: nat)
    requires Tree(adj, from, toMask, d0, d, done, parent) && x < |adj| && done[x]
    ensures exists p :: MaskedWalk(adj, toMask, p) && p[0] == from && p[|p| - 1] == x && |p| == d[x] + 1
    decreases d[x]
  {
    if x == from {
      assert MaskedWalk(adj, toMask, [from]);
    } else {
      var px := parent[x];
      EnteredHasWalk(adj, from, toMask, d0, d, done, parent, px);
      var p :| MaskedWalk(adj, toMask, p) && p[0] == from && p[|p| - 1] == px && |p| == d[px] + 1;
      var p' := p + [x];
      assert IsWalk(adj, p') by {
        forall i | 0 <= i < |p'| - 1
          ensures p'[i + 1] in adj[p'[i]]
        {
          if i < |p| - 1 {
            assert p'[i + 1] == p[i + 1];
          }
        }
      }
      assert MaskedWalk(adj, toMask, p');
    }
  }

  /** Every masked walk from the start ends at an entered node, at most as many hops away
      as the walk is long. */
  lemma {:induction false} WalkEntered<E>(adj: seq<map<nat, E>>, from: nat, toMask: seq<bool>, d0: seq<int>, d: seq<int>, done: seq<bool>, parent: seq<nat>, p: seq<nat>)
    requires Tree(adj, from, toMask, d0, d, done, parent)
    requires Closed(adj, toMask, done, []) && Relaxed(adj, toMask, d, done, [])
    requires MaskedWalk(adj, toMask, p) && p[0] == from
    ensures done[p[|p| - 1]] && d[p[|p| - 1]] <= |p| - 1
    decreases |p|
  {
    if |p| > 1 {
      var p' := p[..|p| - 1];
      assert MaskedWalk(adj, toMask, p');
      WalkEntered(adj, from, toMask, d0, d, done, parent, p');
      var x, y := p[|p| - 2], p[|p| - 1];
      assert y in adj[x] && toMask[y];
      ClosedAt(adj, toMask, done, [], x, y);
      RelaxedAt(adj, toMask, d, done, x, y);
    }
  }

  /** `minimum_distance` enters exactly the nodes a masked walk from the start reaches, and
      gives each the hop count of a shortest such walk. */
  lemma DistanceMeaning<E>(adj: seq<map<nat, E>>, from: nat, toMask: seq<bool>, d0: seq<int>, d: seq<int>, done: seq<bool>, parent: seq<nat>, x: nat)
    requires Tree(adj, from, toMask, d0, d, done, parent)
    requires Closed(adj, toMask, done, []) && Relaxed(adj, toMask, d, done, [])
    requires x < |adj|
    ensures done[x] <==> exists p :: MaskedWalk(adj, toMask, p) && p[0] == from && p[|p| - 1] == x
    ensures done[x] ==> exists p :: MaskedWalk(adj, toMask, p) && p[0] == from && p[|p| - 1] == x && |p| == d[x] + 1
    ensures forall p :: MaskedWalk(adj, toMask, p) && p[0] == from && p[|p| - 1] == x ==> d[x] <= |p| - 1
    ensures !done[x] ==> d[x] == d0[x]
  {
    if done[x] {
      EnteredHasWalk(adj, from, toMask, d0, d, done, parent, x);
    }
    forall p | MaskedWalk(adj, toMask, p) && p[0] == from && p[|p| - 1] == x
      ensures done[x] && d[x] <= |p| - 1
    {
      WalkEntered(adj, from, toMask, d0, d, done, parent, p);
    }
  }
}

=== FILE: girvan_newman.dfy ===
/** The Girvan–Newman driver `communities(G, R)` (networks/community.C): edges of highest
    betweenness are removed one at a time; whenever a region of the graph falls apart,
    its node of the community tree `R` gets two children, one per part. Betweenness values
    are abstracted: a score function gives the new edge tags of a recomputed region. */
module GirvanNewman {
  import opened Common
  import opened AdjList
  import opened Stats
  import opened Betweenness
  import opened Community
  import opened Regions

  /** The working copy `B`: node tags (original name, score), edge tags scores. */
  type BGraph = Graph<(string, real), real>

  /** The community tree `R`. */
  type ResGraph = Graph<TreeTag, ()>

  /** The score of pair u -> v when betweenness is recomputed for `subset` on rows `adj`. */
  type Scores = (seq<map<nat, real>>, set<nat>, nat, nat) -> real

  /** An active region: its graph nodes and the tree node standing for it. */
  datatype Region = Region(members: set<nat>, node: nat)

  /** The tag a node of `R` gets from `add_node()`. */
  const DefaultTag := TreeTag("", 0, 0)

  // ---------------------------------------------------------------------------
  // Recomputing scores

  /** Rows with the same key sets have the same bookkeeping. */
  lemma SameKeysValid<N, E>(g: Graph<N, E>, adj: seq<map<nat, E>>)
    requires Valid(g) && |adj| == |g.adj| && forall u :: 0 <= u < |adj| ==> adj[u].Keys == g.adj[u].Keys
    ensures Valid(g.(adj := adj))
  {
    forall u | 0 <= u < |adj|
      ensures |adj[u]| == |g.adj[u]| && Holders(adj, u) == Holders(g.adj, u)
    {
      assert |adj[u]| == |adj[u].Keys| == |g.adj[u].Keys| == |g.adj[u]|;
    }
    RowSumSameSizes(adj, g.adj);
  }

  /** The rows after `betweenness_centrality(B, subset)`: the pairs stored in the rows of
      `subset` carry their new scores, all other rows keep theirs. */
  function RescoredRows(adj: seq<map<nat, real>>, subset: set<nat>, score: Scores): (a: seq<map<nat, real>>)
    ensures |a| == |adj| && forall u :: 0 <= u < |adj| ==> a[u].Keys == adj[u].Keys
  {
    seq(|adj|, u requires 0 <= u < |adj| =>
      if u in subset then map v | v in adj[u] :: score(adj, subset, u, v) else adj[u])
  }

  function Rescore(b: BGraph, subset: set<nat>, score: Scores): (r: BGraph)
    requires Valid(b)
    ensures Valid(r) && r.nodes == b.nodes && r.undirected == b.undirected && r.e == b.e
    ensures r.adj == RescoredRows(b.adj, subset, score)
  {
    SameKeysValid(b, RescoredRows(b.adj, subset, score));
    b.(adj := RescoredRows(b.adj, subset, score))
  }

  /** `betweenness_reset_result_network(B, subset)` followed by
      `betweenness_centrality(B, subset)`: every pair stored in a row of `subset` gets the
      score computed on the reset rows; the other rows keep their pairs and scores, and no
      row gains or loses a pair. */
  method Recompute(b: BGraph, subset: set<nat>, score: Scores) returns (b': BGraph)
    requires Valid(b) && forall k :: k in subset ==> k < |b.adj|
    ensures Valid(b') && |b'.adj| == |b.adj| && b'.undirected == b.undirected && b'.e == b.e
    ensures forall u :: 0 <= u < |b.adj| ==> b'.adj[u].Keys == b.adj[u].Keys
    ensures forall u :: 0 <= u < |b.adj| ==> b'.nodes[u].tag.0 == b.nodes[u].tag.0
    ensures forall u :: 0 <= u < |b.adj| && u !in subset ==> b'.adj[u] == b.adj[u]
    ensures forall u, v :: 0 <= u < |b.adj| && u in subset && v in b'.adj[u] ==>
      b'.adj[u][v] == score(ResetResult(b, subset).adj, subset, u, v)
    ensures NonNegative(score) && Scored(b.adj) ==> Scored(b'.adj)
  {
    var z := ResetResult(b, subset);
    b' := Rescore(z, subset, score);
  }

  // ---------------------------------------------------------------------------
  // Regions

  /** Regions are pairwise disjoint. */
  ghost predicate Disjoint(rs: seq<Region>)
  {
    forall i, j :: 0 <= i < j < |rs| ==> rs[i].members !! rs[j].members
  }

  /** `x` lies in one of the regions. */
  ghost predicate InSome(rs: seq<Region>, x: nat)
  {
    exists i :: 0 <= i < |rs| && x in rs[i].members
  }

  /** Every node lies in some region and every region holds nodes only. */
  ghost predicate Covers(rs: seq<Region>, n: nat)
  {
    && (forall x: nat :: x < n ==> InSome(rs, x))
    && (forall i, x :: 0 <= i < |rs| && x in rs[i].members ==> x < n)
  }

  /** No stored pair leaves a region. */
  ghost predicate RegionsClosed<E>(adj: seq<map<nat, E>>, rs: seq<Region>)
  {
    forall i :: 0 <= i < |rs| ==> ClosedSet(adj, rs[i].members)
  }

  /** Every region is connected. */
  ghost predicate RegionsJoined<E>(adj: seq<map<nat, E>>, rs: seq<Region>)
  {
    forall i :: 0 <= i < |rs| ==> Joined(adj, rs[i].members)
  }

  /** Each region's tree node exists and is tagged with the region's size. */
  ghost predicate Sized(r: ResGraph, rs: seq<Region>)
  {
    forall i :: 0 <= i < |rs| ==> rs[i].node < |r.adj| && rs[i].node < |r.nodes| && r.nodes[rs[i].node].tag.size == |rs[i].members|
  }

  /** Betweenness values are never negative. */
  ghost predicate NonNegative(score: Scores)
  {
    forall adj, subset, u, v :: score(adj, subset, u, v) >= 0.0
  }

  /** Every stored edge tag of `B` is a (non-negative) score. */
  ghost predicate Scored(adj: seq<map<nat, real>>)
  {
    forall u, v :: 0 <= u < |adj| && v in adj[u] ==> adj[u][v] >= 0.0
  }

  /** The driver's state: the working copy, the tree, the active regions and the next
      branch index. */
  datatype State = State(b: BGraph, r: ResGraph, rs: seq<Region>, branch: nat)

  /** What the driver keeps between removals: the regions partition the nodes, no edge
      of `B` leaves a region, every region is connected in `B`, and every region has its
      tree node, tagged with its size. */
  ghost predicate Inv(st: State)
  {
    && Valid(st.b) && st.b.undirected && Valid(st.r) && Scored(st.b.adj)
    && Disjoint(st.rs) && Covers(st.rs, |st.b.adj|)
    && RegionsClosed(st.b.adj, st.rs) && RegionsJoined(st.b.adj, st.rs) && Sized(st.r, st.rs)
  }

  // ---------------------------------------------------------------------------
  // Set-up: one tree root per connected component

  /** `mx` in the set-up: the largest label, and 0 if there is none larger. */
  function MaxLabel(comp: seq<int>): (mx: int)
    ensures mx >= 0 && forall i :: 0 <= i < |comp| ==> comp[i] <= mx
    ensures mx == 0 || exists i :: 0 <= i < |comp| && comp[i] == mx
  {
    if comp == [] then 0
    else
      var m := MaxLabel(comp[..|comp| - 1]);
      assert forall i :: 0 <= i < |comp| - 1 ==> comp[i] == comp[..|comp| - 1][i];
      if comp[|comp| - 1] > m then comp[|comp| - 1] else m
  }

  /** `R` with `k` default-tagged nodes appended (the `roots` loop). */
  method AddNodes(r: ResGraph, k: nat) returns (r': ResGraph)
    requires Valid(r)
    ensures Valid(r') && |r'.adj| == |r.adj| + k && |r'.nodes| == |r'.adj|
    ensures forall j :: 0 <= j < |r.adj| ==> r'.nodes[j] == r.nodes[j]
    ensures forall j :: |r.adj| <= j < |r'.adj| ==> r'.nodes[j].tag == DefaultTag
    ensures forall j :: 0 <= j < |r.adj| ==> r'.adj[j] == r.adj[j]
    ensures forall j :: |r.adj| <= j < |r'.adj| ==> r'.adj[j] == map[]
    decreases k
  {
    if k == 0 {
      r' := r;
      ValidShape(r);
    } else {
      var r1 := AddNodes(r, k - 1);
      r' := AddTagged(r1, DefaultTag);
      forall j | |r.adj| <= j < |r'.adj|
        ensures r'.nodes[j].tag == DefaultTag && r'.adj[j] == map[]
      {
        if j < |r1.adj| {
          assert r'.nodes[j] == r1.nodes[j] && r1.nodes[j].tag == DefaultTag;
          assert r'.adj[j] == r1.adj[j];
        } else {
          assert j == |r1.adj|;
        }
      }
    }
  }

  /** `add_node()` followed by setting the new node's tag. */
  method AddTagged(r: ResGraph, t: TreeTag) returns (r': ResGraph)
    requires Valid(r)
    ensures Valid(r') && |r'.adj| == |r.adj| + 1 && |r'.nodes| == |r'.adj| && r'.undirected == r.undirected
    ensures forall j :: 0 <= j < |r.adj| ==> r'.nodes[j] == r.nodes[j]
    ensures forall j :: 0 <= j < |r.adj| ==> r'.adj[j] == r.adj[j]
    ensures r'.adj[|r.adj|] == map[] && r'.nodes[|r.adj|].tag == t
  {
    r' := AddNode(r, t).0;
    assert forall j :: 0 <= j < |r.adj| ==> r'.nodes[j] == r'.nodes[..|r.adj|][j] && r'.adj[j] == r'.adj[..|r.adj|][j];
  }

  /** The tag root `k` gets: the size of its region and the name "<rk>". */
  function RootTag(t: TreeTag, rs: seq<Region>, k: nat): TreeTag
    requires k < |rs|
  {
    t.(name := RootName(k), size := |rs[k].members|)
  }

  /** The node tags after the root tags loop: root `k` (node `base + k`) gets the size
      of region `k` and the name "<rk>"; every other node keeps its tag. */
  function RootTagSeq(nodes: seq<NodeInfo<TreeTag>>, base: nat, rs: seq<Region>): (tags: seq<TreeTag>)
    ensures |tags| == |nodes|
    ensures forall j :: 0 <= j < |nodes| && !(base <= j < base + |rs|) ==> tags[j] == nodes[j].tag
    ensures forall j :: 0 <= j < |nodes| && base <= j < base + |rs| ==> tags[j] == RootTag(nodes[j].tag, rs, j - base)
  {
    seq(|nodes|, j requires 0 <= j < |nodes| =>
      if base <= j < base + |rs| then RootTag(nodes[j].tag, rs, j - base) else nodes[j].tag)
  }

  /** The active regions right after the set-up: component `k` with tree node `base + k`. */
  function RootRegions(base: nat, comp: seq<int>, numcomp: nat): (rs: seq<Region>)
    ensures |rs| == numcomp && forall k :: 0 <= k < numcomp ==> rs[k] == Region(Side(comp, k), base + k)
  {
    seq(numcomp, k requires 0 <= k < numcomp => Region(Side(comp, k), base + k))
  }

  /** The first half of the set-up: `components(G, comp)`, `numcomp = mx + 1`, and the
      region list, the nodes labelled `k` standing for tree node `base + k`. The regions
      are the connected components: they partition the nodes, no stored pair leaves one
      and each is joined. An empty graph still gets one (empty) region. */
  method Label<E>(adj: seq<map<nat, E>>, base: nat) returns (rs: seq<Region>)
    requires Bounded(adj) && Symmetric(adj)
    ensures |rs| >= 1 && (|adj| == 0 ==> |rs| == 1)
    ensures forall k :: 0 <= k < |rs| ==> rs[k].node == base + k
    ensures |adj| > 0 ==> forall k :: 0 <= k < |rs| ==> rs[k].members != {}
    ensures Disjoint(rs) && Covers(rs, |adj|) && RegionsClosed(adj, rs) && RegionsJoined(adj, rs)
  {
    var comp, count;
    ghost var seeds;
    comp, count, seeds := AllComponents(adj);
    var mx := MaxLabel(comp);
    rs := RootRegions(base, comp, mx + 1);
    SetupFacts(adj, comp, count, seeds, mx);
    RootRegionsFacts(adj, comp, rs, base);
  }

  /** The second half of the set-up: one new node of `R` per region, node `|R| + k`
      tagged as the root of region `k`; the nodes already in `R` keep their tags. */
  method AddRoots(r0: ResGraph, rs: seq<Region>) returns (r: ResGraph)
    requires Valid(r0) && forall k :: 0 <= k < |rs| ==> rs[k].node == |r0.adj| + k
    ensures Valid(r) && |r.adj| == |r0.adj| + |rs| && Sized(r, rs)
    ensures forall j :: 0 <= j < |r0.adj| ==> r.nodes[j] == r0.nodes[j] && r.adj[j] == r0.adj[j]
    ensures forall j :: |r0.adj| <= j < |r.adj| ==> r.adj[j] == map[]
    ensures forall k :: 0 <= k < |rs| ==> r.nodes[|r0.adj| + k].tag == TreeTag(RootName(k), |rs[k].members|, 0)
  {
    var r1 := AddNodes(r0, |rs|);
    var tags := RootTagSeq(r1.nodes, |r0.adj|, rs);
    RetagValid(r1, tags);
    r := Retag(r1, tags);
    AddRootsFacts(r0, r1, r, rs);
  }

  lemma AddRootsFacts(r0: ResGraph, r1: ResGraph, r: ResGraph, rs: seq<Region>)
    requires |r0.nodes| == |r0.adj| && |r1.nodes| == |r1.adj| == |r0.adj| + |rs|
    requires forall j :: |r0.adj| <= j < |r1.adj| ==> r1.nodes[j].tag == DefaultTag
    requires |r.nodes| == |r1.nodes|
    requires forall i :: 0 <= i < |r1.nodes| ==> r.nodes[i] == r1.nodes[i].(tag := RootTagSeq(r1.nodes, |r0.adj|, rs)[i])
    requires forall j :: 0 <= j < |r0.adj| ==> r1.nodes[j] == r0.nodes[j]
    requires |r.adj| == |r1.adj| && forall k :: 0 <= k < |rs| ==> rs[k].node == |r0.adj| + k
    ensures forall k :: 0 <= k < |rs| ==> r.nodes[|r0.adj| + k].tag == TreeTag(RootName(k), |rs[k].members|, 0)
    ensures forall j :: 0 <= j < |r0.adj| ==> r.nodes[j] == r0.nodes[j]
    ensures Sized(r, rs)
  {
    forall j | 0 <= j < |r0.adj|
      ensures r.nodes[j] == r0.nodes[j]
    {
      assert RootTagSeq(r1.nodes, |r0.adj|, rs)[j] == r1.nodes[j].tag;
    }
    forall k | 0 <= k < |rs|
      ensures r.nodes[|r0.adj| + k].tag == TreeTag(RootName(k), |rs[k].members|, 0)
    {
      assert r.nodes[|r0.adj| + k] == r1.nodes[|r0.adj| + k].(tag := RootTag(DefaultTag, rs, k));
    }
    forall i | 0 <= i < |rs|
      ensures rs[i].node < |r.adj| && rs[i].node < |r.nodes| && r.nodes[rs[i].node].tag.size == |rs[i].members|
    {
      assert r.nodes[|r0.adj| + i] == r1.nodes[|r0.adj| + i].(tag := RootTag(DefaultTag, rs, i));
    }
  }

  /** The set-up (`communities`, before the main loop): label the components of `G`, add
      one tree node per component to `R`, tagged "<rk>" with the component's size, and
      make each component an active region. */
  method Setup(g: Graph<string, string>, r0: ResGraph) returns (r: ResGraph, rs: seq<Region>)
    requires Bounded(g.adj) && Symmetric(g.adj) && Valid(r0)
    ensures Valid(r) && |r.adj| == |r0.adj| + |rs| && forall j :: 0 <= j < |r0.adj| ==> r.nodes[j] == r0.nodes[j]
    ensures forall j :: 0 <= j < |r0.adj| ==> r.adj[j] == r0.adj[j]
    ensures forall j :: |r0.adj| <= j < |r.adj| ==> r.adj[j] == map[]
    ensures forall k :: 0 <= k < |rs| ==> rs[k].node == |r0.adj| + k
    ensures forall k :: 0 <= k < |rs| ==> r.nodes[|r0.adj| + k].tag == TreeTag(RootName(k), |rs[k].members|, 0)
    ensures Disjoint(rs) && Covers(rs, |g.adj|) && RegionsClosed(g.adj, rs) && RegionsJoined(g.adj, rs) && Sized(r, rs)
  {
    rs := Label(g.adj, |r0.adj|);
    r := AddRoots(r0, rs);
  }

  /** What the labelling gives the set-up: labels are constant along edges, there are
      `mx + 1` of them when the graph has nodes, and every label names a node. */
  lemma SetupFacts<E>(adj: seq<map<nat, E>>, comp: seq<int>, count: nat, seeds: seq<nat>, mx: int)
    requires Bounded(adj) && Symmetric(adj)
    requires Labelling(adj, seq(|adj|, _ => true), comp, seeds) && |seeds| == count
    requires forall x :: 0 <= x < |comp| ==> 0 <= comp[x] < count
    requires mx == MaxLabel(comp)
    ensures forall x, y :: 0 <= x < |adj| && y in adj[x] ==> y < |adj| && comp[x] == comp[y]
    ensures |adj| > 0 ==> mx + 1 == count
    ensures |adj| > 0 ==> forall k :: 0 <= k < count ==> Side(comp, k) != {}
    ensures forall k: nat :: Joined(adj, Side(comp, k))
  {
    forall k: nat
      ensures Joined(adj, Side(comp, k))
    {
      SidesJoined(adj, seq(|adj|, _ => true), comp, seeds, k);
    }
    forall x, y | 0 <= x < |adj| && y in adj[x]
      ensures comp[x] == comp[y]
    {
      SameLabelClosedAt(adj, comp, [], x, y);
    }
    if |adj| > 0 {
      assert comp[seeds[count - 1]] == count - 1;
      forall k | 0 <= k < count
        ensures Side(comp, k) != {}
      {
        assert seeds[k] in Side(comp, k);
      }
    }
  }

  /** Regions built from labels are disjoint, cover the nodes and keep the edges inside. */
  lemma RootRegionsFacts<E>(adj: seq<map<nat, E>>, comp: seq<int>, rs: seq<Region>, base: nat)
    requires |comp| == |adj| && forall x :: 0 <= x < |adj| ==> 0 <= comp[x] < |rs|
    requires forall x, y :: 0 <= x < |adj| && y in adj[x] ==> y < |adj| && comp[x] == comp[y]
    requires forall k :: 0 <= k < |rs| ==> rs[k] == Region(Side(comp, k), base + k)
    requires forall k :: 0 <= k < |rs| ==> Joined(adj, Side(comp, k))
    ensures Disjoint(rs) && Covers(rs, |adj|) && RegionsClosed(adj, rs) && RegionsJoined(adj, rs)
  {
    forall x: nat | x < |adj|
      ensures InSome(rs, x)
    {
      assert x in rs[comp[x]].members;
    }
    forall i, x: nat, y: nat | 0 <= i < |rs| && x in rs[i].members && x < |adj| && y in adj[x]
      ensures y in rs[i].members
    {
      assert y in Side(comp, i);
    }
  }

  // ---------------------------------------------------------------------------
  // The working copy

  /** `betweenness_init_result_network(G, B)` on an undirected `G`: `B` stores the pairs
      `G` stores, every score 0, every node tagged with its name and 0. */
  method Working(g: Graph<string, string>) returns (b: BGraph)
    requires Valid(g) && g.undirected
    ensures Valid(b) && b.undirected && |b.adj| == |g.adj|
    ensures forall u :: 0 <= u < |g.adj| ==> b.adj[u].Keys == g.adj[u].Keys && b.nodes[u].tag == (g.nodes[u].tag, 0.0)
    ensures AllTagged(b.adj, 0.0)
  {
    var res: BGraph := Empty([], false);
    b := InitResult(g, res, ("", 0.0));
    InitResultZeroed(g, res, ("", 0.0));
    forall u | 0 <= u < |g.adj|
      ensures b.adj[u].Keys == g.adj[u].Keys
    {
      WorkingRow(g, res, u);
    }
  }

  lemma WorkingRow(g: Graph<string, string>, res: BGraph, u: nat)
    requires Valid(g) && g.undirected && u < |g.adj|
    ensures var b := InitResult(g, res, ("", 0.0)); b.adj[u].Keys == g.adj[u].Keys
  {
    var b := InitResult(g, res, ("", 0.0));
    forall v
      ensures v in b.adj[u] <==> v in g.adj[u]
    {
      WorkingPair(g, res, u, v);
    }
  }

  lemma WorkingPair(g: Graph<string, string>, res: BGraph, u: nat, v: nat)
    requires Valid(g) && g.undirected && u < |g.adj|
    ensures v in InitResult(g, res, ("", 0.0)).adj[u] <==> v in g.adj[u]
  {
    if v < |g.adj| {
      InitResultMeaning(g, res, ("", 0.0), u, v);
    } else {
      ValidShape(g);
      ValidShape(InitResult(g, res, ("", 0.0)));
    }
  }

  /** Regions, closure and connectivity depend on the stored pairs only. */
  lemma RegionsSameKeys<E, F>(adj: seq<map<nat, E>>, adj': seq<map<nat, F>>, rs: seq<Region>)
    requires |adj'| == |adj| && forall x :: 0 <= x < |adj| ==> adj[x].Keys == adj'[x].Keys
    requires RegionsClosed(adj, rs) && RegionsJoined(adj, rs)
    ensures RegionsClosed(adj', rs) && RegionsJoined(adj', rs)
  {
    forall i | 0 <= i < |rs|
      ensures ClosedSet(adj', rs[i].members) && Joined(adj', rs[i].members)
    {
      JoinedSameKeys(adj, adj', rs[i].members);
      assert ClosedSet(adj, rs[i].members);
    }
  }

  /** `betweenness_init_result_network(G, B)` followed by `betweenness_centrality(B)`. */
  method FirstScores(g: Graph<string, string>, score: Scores) returns (b: BGraph)
    requires Valid(g) && g.undirected && NonNegative(score)
    ensures Valid(b) && b.undirected && |b.adj| == |g.adj| && Scored(b.adj)
    ensures forall u :: 0 <= u < |g.adj| ==> b.adj[u].Keys == g.adj[u].Keys && b.nodes[u].tag.0 == g.nodes[u].tag
  {
    var b0 := Working(g);
    b := Recompute(b0, Below(|g.adj|), score);
  }

  /** Everything before the main loop: the set-up, the working copy and its first
      scoring. */
  method Init(g: Graph<string, string>, r0: ResGraph, score: Scores) returns (st: State)
    requires Valid(g) && g.undirected && Valid(r0) && NonNegative(score)
    ensures Inv(st) && st.branch == 0 && |st.b.adj| == |g.adj|
    ensures forall u :: 0 <= u < |g.adj| ==> st.b.adj[u].Keys == g.adj[u].Keys
    ensures forall u :: 0 <= u < |g.adj| ==> st.b.nodes[u].tag.0 == g.nodes[u].tag
    ensures |st.r.adj| == |r0.adj| + |st.rs| && forall j :: 0 <= j < |r0.adj| ==> st.r.nodes[j] == r0.nodes[j]
    ensures forall j :: 0 <= j < |r0.adj| ==> st.r.adj[j] == r0.adj[j]
    ensures forall j :: |r0.adj| <= j < |st.r.adj| ==> st.r.adj[j] == map[]
    ensures forall k :: 0 <= k < |st.rs| ==> st.rs[k].node == |r0.adj| + k
    ensures forall k :: 0 <= k < |st.rs| ==> st.r.nodes[|r0.adj| + k].tag == TreeTag(RootName(k), |st.rs[k].members|, 0)
  {
    ValidShape(g);
    var r, rs := Setup(g, r0);
    var b := FirstScores(g, score);
    RegionsSameKeys(g.adj, b.adj, rs);
    st := State(b, r, rs, 0);
  }

  // ---------------------------------------------------------------------------
  // One pass of the main loop

  /** While edges remain, some stored score beats -1, so `max_edge_btwns` finds a pair. */
  lemma ScoredHasMax(adj: seq<map<nat, real>>)
    requires Bounded(adj) && Scored(adj) && RowSum(adj) > 0
    ensures MaxEdgeBtwns(adj) != (-1, -1)
  {
    if forall k :: 0 <= k < |adj| ==> adj[k] == map[] {
      RowSumEmpty(adj);
    }
    var u :| 0 <= u < |adj| && adj[u] != map[];
    var v :| v in adj[u];
    StoredPairsComplete(adj, u, v);
    var ps := StoredPairs(adj);
    var j :| 0 <= j < |ps| && ps[j] == (u, v, adj[u][v]);
    MaxEdgeBtwnsMeaning(adj);
  }

  /** `meb = max_edge_btwns(B)` and `B.remove_edge(meb.first, meb.second)`: the pair with
      the highest score (the first one in row order among equals) leaves `B` in both
      directions; the node tags stay. */
  method RemoveMax(b: BGraph) returns (b': BGraph, u: nat, v: nat)
    requires Valid(b) && b.undirected && Scored(b.adj) && NumEdges(b) > 0
    ensures MaxEdgeBtwns(b.adj) == (u as int, v as int)
    ensures u < |b.adj| && v < |b.adj| && v in b.adj[u]
    ensures forall x, y :: 0 <= x < |b.adj| && y in b.adj[x] ==> b.adj[x][y] <= b.adj[u][v]
    ensures Valid(b') && b'.undirected && b'.adj == Unlinked(b.adj, u, v, true) && SameTags(b', b)
    ensures b'.e < b.e && Scored(b'.adj)
  {
    ValidShape(b);
    ScoredHasMax(b.adj);
    MaxEdgeBtwnsStored(b.adj);
    var idxs := MaxEdgeBtwns(b.adj);
    u, v := idxs.0 as nat, idxs.1 as nat;
    b' := Drop(b, u, v);
  }

  /** `B.remove_edge(u, v)` on the undirected working copy. */
  method Drop(b: BGraph, u: nat, v: nat) returns (b': BGraph)
    requires Valid(b) && b.undirected && Scored(b.adj) && u < |b.adj| && v < |b.adj| && v in b.adj[u]
    ensures Valid(b') && b'.undirected && b'.adj == Unlinked(b.adj, u, v, true) && SameTags(b', b)
    ensures b'.e < b.e && Scored(b'.adj)
  {
    b' := RemoveEdge(b, u, v).0;
  }

  /** The `iroot` scan over the active regions: the last region in list order that holds
      `x`, or -1 when none does. */
  method FindRegion(rs: seq<Region>, x: nat) returns (k: int)
    ensures -1 <= k < |rs|
    ensures k == -1 <==> !InSome(rs, x)
    ensures k >= 0 ==> x in rs[k].members && forall j :: k < j < |rs| ==> x !in rs[j].members
  {
    k := -1;
    var i := 0;
    while i < |rs|
      invariant 0 <= i <= |rs| && -1 <= k < i
      invariant k == -1 <==> forall j :: 0 <= j < i ==> x !in rs[j].members
      invariant k >= 0 ==> x in rs[k].members && forall j :: k < j < i ==> x !in rs[j].members
    {
      if x in rs[i].members {
        k := i;
      }
      i := i + 1;
    }
  }

  /** The region of the removed pair: the scan finds it, no other region holds `u`, and it
      holds `v` too (the two assertions inside the scan). */
  method Locate<E>(adj: seq<map<nat, E>>, rs: seq<Region>, u: nat, v: nat) returns (k: nat)
    requires Disjoint(rs) && Covers(rs, |adj|) && RegionsClosed(adj, rs) && u < |adj| && v in adj[u]
    ensures k < |rs| && u in rs[k].members && v in rs[k].members
    ensures forall j :: 0 <= j < |rs| && (u in rs[j].members || v in rs[j].members) ==> j == k
  {
    assert InSome(rs, u);
    var i := FindRegion(rs, u);
    k := i as nat;
    assert ClosedSet(adj, rs[k].members);
    forall j | 0 <= j < |rs| && (u in rs[j].members || v in rs[j].members)
      ensures j == k
    {
    }
  }

  /** `t._num_edges++` on the tree node of the affected region. */
  method CountRemoval(r: ResGraph, node: nat) returns (r': ResGraph)
    requires Valid(r) && node < |r.adj|
    ensures Valid(r') && r'.adj == r.adj && |r'.nodes| == |r.nodes|
    ensures r'.nodes[node].tag == r.nodes[node].tag.(numEdges := r.nodes[node].tag.numEdges + 1)
    ensures forall j :: 0 <= j < |r.nodes| && j != node ==> r'.nodes[j] == r.nodes[j]
  {
    ValidShape(r);
    var t := r.nodes[node].tag;
    r' := SetNodeTag(r, node, t.(numEdges := t.numEdges + 1));
  }

  /** Removing a pair only drops stored pairs, so closed sets stay closed. */
  lemma ClosedAfterRemoval<E>(adj0: seq<map<nat, E>>, u: nat, v: nat, s: set<nat>)
    requires u < |adj0| && v < |adj0| && ClosedSet(adj0, s)
    ensures ClosedSet(Unlinked(adj0, u, v, true), s)
  {
    UnlinkedFacts(adj0, u, v, true);
  }

  /** `num_comp = connected_components(B, comp, rootset)` and the two sides `sright`
      (label 0) and `sleft` (label 1), on the rows left after the removal of {u, v} from
      a closed, joined region `m`: at most two components; a second one exactly when `m`
      is no longer joined; the sides partition `m`, are closed and joined, and the right
      side holds the smallest node of `m`. */
  method Divide<E>(adj0: seq<map<nat, E>>, m: set<nat>, u: nat, v: nat) returns (count: nat, right: set<nat>, left: set<nat>, ghost low: nat)
    requires Bounded(adj0) && Symmetric(adj0) && u < |adj0| && v < |adj0|
    requires ClosedSet(adj0, m) && Joined(adj0, m) && u in m && v in m && forall x :: x in m ==> x < |adj0|
    ensures var adj := Unlinked(adj0, u, v, true);
      && 1 <= count <= 2 && (count > 1 <==> !Joined(adj, m))
      && right + left == m && right !! left && right != {} && (count > 1 <==> left != {})
      && ClosedSet(adj, right) && ClosedSet(adj, left) && Joined(adj, right) && Joined(adj, left)
    ensures low in right && forall x :: x in m ==> low <= x
  {
    var adj := Unlinked(adj0, u, v, true);
    UnlinkedFacts(adj0, u, v, true);
    ClosedAfterRemoval(adj0, u, v, m);
    forall x | x in m
      ensures Reaches(adj, x, u) || Reaches(adj, x, v)
    {
      ReachesAfterRemoval(adj0, m, u, v, x);
    }
    var comp;
    ghost var seeds;
    comp, count, seeds := SubsetComponents(adj, m);
    SplitFacts(adj, m, comp, seeds, u, v);
    SplitIffDisjoined(adj, m, comp, seeds, u, v);
    right, left := Side(comp, 0), Side(comp, 1);
    low := seeds[0];
  }

  /** The tag of a new child of the tree: a side of one node is named after that node
      (`B.tag(*s.begin()).first`), a larger side gets the next branch name "<bi>"; the
      size is the side's size and no removal is counted yet. */
  method BranchTag(b: BGraph, side: set<nat>, branch: nat) returns (t: TreeTag, branch': nat)
    requires side != {} && forall x :: x in side ==> x < |b.nodes|
    ensures t.size == |side| && t.numEdges == 0
    ensures |side| == 1 ==> branch' == branch && exists x :: x in side && side == {x} && t.name == b.nodes[x].tag.0
    ensures |side| != 1 ==> branch' == branch + 1 && t.name == BranchName(branch)
  {
    if |side| == 1 {
      var x :| x in side;
      assert |side - {x}| == 0;
      assert side == {x};
      t, branch' := TreeTag(b.nodes[x].tag.0, 1, 0), branch;
    } else {
      t, branch' := TreeTag(BranchName(branch), |side|, 0), branch + 1;
    }
  }

  /** The two `add_node()` calls of the subdivision: node `|R|` tagged `tr` (right),
      node `|R| + 1` tagged `tl` (left), both without pairs. */
  method AddChildren(r: ResGraph, tr: TreeTag, tl: TreeTag) returns (r': ResGraph)
    requires Valid(r)
    ensures Valid(r') && |r'.adj| == |r.adj| + 2 && r'.undirected == r.undirected
    ensures forall j :: 0 <= j < |r.adj| ==> r'.nodes[j] == r.nodes[j]
    ensures forall j :: 0 <= j < |r.adj| ==> r'.adj[j] == r.adj[j]
    ensures r'.adj[|r.adj|] == map[] && r'.adj[|r.adj| + 1] == map[]
    ensures r'.nodes[|r.adj|].tag == tr && r'.nodes[|r.adj| + 1].tag == tl
  {
    var r1 := AddTagged(r, tr);
    r' := AddTagged(r1, tl);
  }

  /** `R.add_edge(a, c)`. */
  method Link(r: ResGraph, a: nat, c: nat) returns (r': ResGraph)
    requires Valid(r) && a < |r.adj| && c < |r.adj|
    ensures Valid(r') && |r'.adj| == |r.adj| && r'.undirected == r.undirected && SameTags(r', r)
    ensures r'.adj == Linked(r.adj, a, c, (), r.undirected)
  {
    r' := AddEdge(r, a, c, ()).0;
  }

  /** What one `add_edge(a, c)` does to the rows of the tree: `a` gains `c`, `c` gains at
      most `a`, and every other row is kept. */
  lemma LinkedRows(adj: seq<map<nat, ()>>, a: nat, c: nat, undirected: bool)
    requires a < |adj| && c < |adj|
    ensures var l := Linked(adj, a, c, (), undirected);
      && (forall x :: 0 <= x < |adj| && x != a && x != c ==> l[x] == adj[x])
      && l[a].Keys == adj[a].Keys + {c}
      && l[c].Keys <= adj[c].Keys + {a}
  {
    LinkedFacts(adj, a, c, (), undirected);
  }

  /** `R.add_edge(root, right)` and `R.add_edge(root, left)` for the two new nodes. */
  method Attach(r: ResGraph, root: nat, n: nat) returns (r': ResGraph)
    requires Valid(r) && root < n && n + 2 == |r.adj|
    ensures Valid(r') && |r'.adj| == |r.adj| && r'.undirected == r.undirected && SameTags(r', r)
    ensures forall x :: 0 <= x < n && x != root ==> r'.adj[x] == r.adj[x]
    ensures r'.adj[root].Keys == r.adj[root].Keys + {n, n + 1}
    ensures r'.adj[n].Keys <= r.adj[n].Keys + {root} && r'.adj[n + 1].Keys <= r.adj[n + 1].Keys + {root}
  {
    var r1 := Link(r, root, n);
    r' := Link(r1, root, n + 1);
    LinkedTwice(r.adj, r1.adj, r'.adj, root, n, r.undirected);
  }

  /** The rows `l` after `add_edge(root, n)` then `add_edge(root, n + 1)`. */
  lemma LinkedTwice(adj: seq<map<nat, ()>>, l1: seq<map<nat, ()>>, l: seq<map<nat, ()>>, root: nat, n: nat, undirected: bool)
    requires root < n && n + 2 == |adj|
    requires l1 == Linked(adj, root, n, (), undirected) && l == Linked(l1, root, n + 1, (), undirected)
    ensures |l| == |adj|
    ensures forall x :: 0 <= x < n && x != root ==> l[x] == adj[x]
    ensures l[root].Keys == adj[root].Keys + {n, n + 1}
    ensures l[n].Keys <= adj[n].Keys + {root} && l[n + 1].Keys <= adj[n + 1].Keys + {root}
  {
    LinkedRows(adj, root, n, undirected);
    LinkedRows(l1, root, n + 1, undirected);
  }

  /** The subdivision of the tree (`num_comp > 1`): two new nodes, right then left,
      tagged as `BranchTag` says, become children of the region's tree node `root`: its
      row gains exactly them, the new rows hold at most the way back to `root` (in an
      undirected `R`), and every other row is kept. */
  method Subdivide(r: ResGraph, b: BGraph, root: nat, right: set<nat>, left: set<nat>, branch: nat)
      returns (r': ResGraph, branch': nat)
    requires Valid(r) && root < |r.adj|
    requires right != {} && left != {}
    requires (forall x :: x in right ==> x < |b.nodes|) && (forall x :: x in left ==> x < |b.nodes|)
    ensures Valid(r') && |r'.adj| == |r.adj| + 2 && r'.undirected == r.undirected
    ensures forall j :: 0 <= j < |r.adj| ==> r'.nodes[j].tag == r.nodes[j].tag
    ensures r'.nodes[|r.adj|].tag.size == |right| && r'.nodes[|r.adj| + 1].tag.size == |left|
    ensures r'.nodes[|r.adj|].tag.numEdges == 0 && r'.nodes[|r.adj| + 1].tag.numEdges == 0
    ensures |right| != 1 ==> r'.nodes[|r.adj|].tag.name == BranchName(branch)
    ensures |left| != 1 ==> r'.nodes[|r.adj| + 1].tag.name == BranchName(if |right| == 1 then branch else branch + 1)
    ensures branch' == branch + (if |right| == 1 then 0 else 1) + (if |left| == 1 then 0 else 1)
    ensures forall x :: 0 <= x < |r.adj| && x != root ==> r'.adj[x] == r.adj[x]
    ensures r'.adj[root].Keys == r.adj[root].Keys + {|r.adj|, |r.adj| + 1}
    ensures r'.adj[|r.adj|].Keys <= {root} && r'.adj[|r.adj| + 1].Keys <= {root}
  {
    var tr, b1 := BranchTag(b, right, branch);
    var tl, b2 := BranchTag(b, left, b1);
    r' := Graft(r, root, tr, tl);
    branch' := b2;
  }

  /** Two new nodes tagged `tr` and `tl` hung under `root`: its row gains exactly them, the
      new rows hold at most the way back to `root`, and every other row and tag is kept. */
  method Graft(r: ResGraph, root: nat, tr: TreeTag, tl: TreeTag) returns (r': ResGraph)
    requires Valid(r) && root < |r.adj|
    ensures Valid(r') && |r'.adj| == |r.adj| + 2 && r'.undirected == r.undirected
    ensures forall j :: 0 <= j < |r.adj| ==> r'.nodes[j].tag == r.nodes[j].tag
    ensures r'.nodes[|r.adj|].tag == tr && r'.nodes[|r.adj| + 1].tag == tl
    ensures forall x :: 0 <= x < |r.adj| && x != root ==> r'.adj[x] == r.adj[x]
    ensures r'.adj[root].Keys == r.adj[root].Keys + {|r.adj|, |r.adj| + 1}
    ensures r'.adj[|r.adj|].Keys <= {root} && r'.adj[|r.adj| + 1].Keys <= {root}
  {
    var n := |r.adj|;
    var r2 := AddChildren(r, tr, tl);
    assert r2.adj[root] == r.adj[root] && r2.adj[n] == map[] && r2.adj[n + 1] == map[];
    r' := Attach(r2, root, n);
    ValidShape(r2);
    assert SameTags(r', r2);
  }

  // ---------------------------------------------------------------------------
  // What a pass keeps

  /** The region list after a subdivision: region `k` leaves, its two sides are appended. */
  function Replaced(rs: seq<Region>, k: nat, right: Region, left: Region): (rs': seq<Region>)
    requires k < |rs|
    ensures |rs'| == |rs| + 1
    ensures forall i :: 0 <= i < k ==> rs'[i] == rs[i]
    ensures forall i :: k <= i < |rs| - 1 ==> rs'[i] == rs[i + 1]
    ensures rs'[|rs| - 1] == right && rs'[|rs|] == left
  {
    rs[..k] + rs[k + 1..] + [right, left]
  }

  /** Removing {u, v} inside region `k` keeps every region closed and every other region
      joined. */
  lemma RegionsAfterRemoval<E>(adj: seq<map<nat, E>>, rs: seq<Region>, k: nat, u: nat, v: nat)
    requires u < |adj| && v < |adj| && k < |rs| && Disjoint(rs)
    requires u in rs[k].members && v in rs[k].members
    requires RegionsClosed(adj, rs) && RegionsJoined(adj, rs)
    ensures RegionsClosed(Unlinked(adj, u, v, true), rs)
    ensures forall j :: 0 <= j < |rs| && j != k ==> Joined(Unlinked(adj, u, v, true), rs[j].members)
  {
    var a := Unlinked(adj, u, v, true);
    UnlinkedFacts(adj, u, v, true);
    forall j | 0 <= j < |rs|
      ensures ClosedSet(a, rs[j].members)
    {
      ClosedAfterRemoval(adj, u, v, rs[j].members);
    }
    forall j | 0 <= j < |rs| && j != k
      ensures Joined(a, rs[j].members)
    {
      var s := rs[j].members;
      assert u !in s && v !in s by {
        if j < k { assert rs[j].members !! rs[k].members; } else { assert rs[k].members !! rs[j].members; }
      }
      assert ClosedSet(adj, s) && Joined(adj, s);
      forall x: nat, y: nat {:trigger Reaches(a, x, y)} | x in s && y in s
        ensures Reaches(a, x, y)
      {
        assert Reaches(adj, x, y);
        ReachesWithin(adj, a, s, x, y);
      }
    }
  }

  /** Replacing a region by two sides that partition it keeps the regions a partition;
      closure and connectivity carry over from the kept regions and the two sides. */
  lemma RegionsAfterSplit<E>(adj: seq<map<nat, E>>, rs: seq<Region>, k: nat, right: Region, left: Region, n: nat)
    requires k < |rs| && Disjoint(rs) && Covers(rs, n)
    requires right.members + left.members == rs[k].members && right.members !! left.members
    requires forall j :: 0 <= j < |rs| && j != k ==> ClosedSet(adj, rs[j].members) && Joined(adj, rs[j].members)
    requires ClosedSet(adj, right.members) && ClosedSet(adj, left.members)
    requires Joined(adj, right.members) && Joined(adj, left.members)
    ensures var rs' := Replaced(rs, k, right, left);
      Disjoint(rs') && Covers(rs', n) && RegionsClosed(adj, rs') && RegionsJoined(adj, rs')
  {
    var rs' := Replaced(rs, k, right, left);
    forall i | 0 <= i < |rs'|
      ensures ClosedSet(adj, rs'[i].members) && Joined(adj, rs'[i].members)
    {
      if i >= |rs| - 1 {
      } else if i >= k {
        assert rs'[i] == rs[i + 1];
      }
    }
    forall i, j | 0 <= i < j < |rs'|
      ensures rs'[i].members !! rs'[j].members
    {
      SplitDisjoint(rs, k, right, left, i, j);
    }
    forall x: nat | x < n
      ensures InSome(rs', x)
    {
      assert InSome(rs, x);
      var i :| 0 <= i < |rs| && x in rs[i].members;
      if i < k {
        assert x in rs'[i].members;
      } else if i > k {
        assert x in rs'[i - 1].members;
      } else if x in right.members {
        assert x in rs'[|rs| - 1].members;
      } else {
        assert x in rs'[|rs|].members;
      }
    }
    forall i, x | 0 <= i < |rs'| && x in rs'[i].members
      ensures x < n
    {
      if i < k {
      } else if i < |rs| - 1 {
        assert rs'[i] == rs[i + 1];
      } else {
        assert x in rs[k].members;
      }
    }
  }

  lemma SplitDisjoint(rs: seq<Region>, k: nat, right: Region, left: Region, i: nat, j: nat)
    requires k < |rs| && Disjoint(rs)
    requires right.members + left.members == rs[k].members && right.members !! left.members
    requires i < j < |rs| + 1
    ensures var rs' := Replaced(rs, k, right, left); rs'[i].members !! rs'[j].members
  {
    var rs' := Replaced(rs, k, right, left);
    var oi := if i < k then i else i + 1;
    if j < |rs| - 1 {
      var oj := if j < k then j else j + 1;
      assert rs'[i] == rs[oi] && rs'[j] == rs[oj];
    } else if i < |rs| - 1 {
      assert rs'[i] == rs[oi] && oi != k;
      if oi < k {
        assert rs[oi].members !! rs[k].members;
      } else {
        assert rs[k].members !! rs[oi].members;
      }
    }
  }

  /** Counting a removal at a tree node leaves every size as it was. */
  lemma SizedAfterCount(r: ResGraph, r': ResGraph, rs: seq<Region>, node: nat)
    requires Sized(r, rs) && |r'.adj| == |r.adj| && |r'.nodes| == |r.nodes| && node < |r.nodes|
    requires r'.nodes[node].tag.size == r.nodes[node].tag.size
    requires forall j :: 0 <= j < |r.nodes| && j != node ==> r'.nodes[j] == r.nodes[j]
    ensures Sized(r', rs)
  {
    forall i | 0 <= i < |rs|
      ensures r'.nodes[rs[i].node].tag.size == |rs[i].members|
    {
      if rs[i].node != node {
        assert r'.nodes[rs[i].node] == r.nodes[rs[i].node];
      }
    }
  }

  /** After a subdivision every region still has its sized tree node: the kept regions
      keep theirs, the two sides have the two new nodes. */
  lemma SizedAfterSplit(r: ResGraph, r': ResGraph, rs: seq<Region>, k: nat, right: set<nat>, left: set<nat>)
    requires k < |rs| && Sized(r, rs) && |r.nodes| == |r.adj|
    requires |r'.adj| == |r.adj| + 2 && |r'.nodes| == |r'.adj|
    requires forall j :: 0 <= j < |r.adj| ==> r'.nodes[j].tag == r.nodes[j].tag
    requires r'.nodes[|r.adj|].tag.size == |right| && r'.nodes[|r.adj| + 1].tag.size == |left|
    ensures Sized(r', Replaced(rs, k, Region(right, |r.adj|), Region(left, |r.adj| + 1)))
  {
    var rs' := Replaced(rs, k, Region(right, |r.adj|), Region(left, |r.adj| + 1));
    forall i | 0 <= i < |rs'|
      ensures rs'[i].node < |r'.adj| && rs'[i].node < |r'.nodes| && r'.nodes[rs'[i].node].tag.size == |rs'[i].members|
    {
      if i >= k && i < |rs| - 1 {
        assert rs'[i] == rs[i + 1];
      }
    }
  }

  /** What the removal of {u, v} leaves for the rest of the pass: `b1` is `B` without the
      pair, still scored; region `k` holds the pair; every region is still closed in
      `b1`, and every region but `k` still joined. */
  ghost predicate AfterCut(st: State, b1: BGraph, u: nat, v: nat, k: nat)
  {
    && u < |st.b.adj| && v < |st.b.adj| && v in st.b.adj[u]
    && Valid(b1) && b1.undirected && Scored(b1.adj) && |b1.nodes| == |st.b.adj|
    && b1.adj == Unlinked(st.b.adj, u, v, true)
    && k < |st.rs| && u in st.rs[k].members && v in st.rs[k].members
    && RegionsClosed(b1.adj, st.rs)
    && forall j :: 0 <= j < |st.rs| && j != k ==> Joined(b1.adj, st.rs[j].members)
  }

  /** The first part of a pass: the pair of highest score {u, v} leaves `B`, and the
      region holding it is found; removing a pair keeps every region closed, and every
      region but `k` joined. */
  method Cut(st: State) returns (b1: BGraph, u: nat, v: nat, k: nat)
    requires Inv(st) && NumEdges(st.b) > 0
    ensures AfterCut(st, b1, u, v, k)
    ensures MaxEdgeBtwns(st.b.adj) == (u as int, v as int) && b1.e < st.b.e && SameTags(b1, st.b)
  {
    b1, u, v := RemoveMax(st.b);
    ValidShape(st.b);
    k := Locate(st.b.adj, st.rs, u, v);
    RegionsAfterRemoval(st.b.adj, st.rs, k, u, v);
  }

  /** The second part of a pass, on `b1`, `B` after the removal: the removal is counted at
      region `k`'s tree node; when the region is no longer joined, its two sides replace
      it and get two new children of its tree node. The invariant holds of the new state
      over `b1`. */
  method Regroup(st: State, b1: BGraph, u: nat, v: nat, k: nat)
      returns (mid: State, split: bool, right: set<nat>, left: set<nat>)
    requires Inv(st) && AfterCut(st, b1, u, v, k)
    ensures Inv(mid) && mid.b == b1
    ensures |st.r.nodes| == |st.r.adj| <= |mid.r.adj| == |mid.r.nodes| && st.rs[k].node < |st.r.adj|
    ensures split <==> !Joined(b1.adj, st.rs[k].members)
    ensures right + left == st.rs[k].members && right !! left && right != {} && (split <==> left != {})
    ensures mid.r.nodes[st.rs[k].node].tag.numEdges == st.r.nodes[st.rs[k].node].tag.numEdges + 1
    ensures !split ==> mid.rs == st.rs && mid.branch == st.branch && |mid.r.adj| == |st.r.adj|
    ensures split ==> (|mid.r.adj| == |st.r.adj| + 2 &&
      mid.rs == Replaced(st.rs, k, Region(right, |st.r.adj|), Region(left, |st.r.adj| + 1)))
    ensures !split ==> mid.r.adj == st.r.adj
    ensures split ==> Grafted(st.r.adj, mid.r.adj, st.rs[k].node)
  {
    var b, r, rs := st.b, st.r, st.rs;
    ValidShape(b);
    ValidShape(r);
    var m, root := rs[k].members, rs[k].node;
    var r1 := CountRemoval(r, root);
    SizedAfterCount(r, r1, rs, root);
    var count;
    ghost var low;
    count, right, left, low := Divide(b.adj, m, u, v);
    split := count > 1;
    var r', rs', branch' := r1, rs, st.branch;
    if split {
      r', branch' := Subdivide(r1, b1, root, right, left, st.branch);
      rs' := Replaced(rs, k, Region(right, |r1.adj|), Region(left, |r1.adj| + 1));
      RegionsAfterSplit(b1.adj, rs, k, Region(right, |r1.adj|), Region(left, |r1.adj| + 1), |b.adj|);
      SizedAfterSplit(r1, r', rs, k, right, left);
    }
    mid := State(b1, r', rs', branch');
  }

  /** The last part of a pass: the scores of the rows of `m` are recomputed; the regions
      and the tree are untouched and the invariant is kept. */
  method Rescored(mid: State, m: set<nat>, score: Scores) returns (st': State)
    requires Inv(mid) && NonNegative(score) && forall x :: x in m ==> x < |mid.b.adj|
    ensures Inv(st') && st'.r == mid.r && st'.rs == mid.rs && st'.branch == mid.branch
    ensures |st'.b.adj| == |mid.b.adj| && st'.b.e == mid.b.e
    ensures forall x, y :: 0 <= x < |mid.b.adj| ==> (y in st'.b.adj[x] <==> y in mid.b.adj[x])
    ensures forall x :: 0 <= x < |mid.b.adj| ==> st'.b.nodes[x].tag.0 == mid.b.nodes[x].tag.0
    ensures forall x :: 0 <= x < |mid.b.adj| && x !in m ==> st'.b.adj[x] == mid.b.adj[x]
  {
    var b2 := Recompute(mid.b, m, score);
    RegionsSameKeys(mid.b.adj, b2.adj, mid.rs);
    st' := mid.(b := b2);
  }

  /** One pass of the main loop (`communities`, the body of `while (B.num_edges() > 0)`):
      the pair of highest score {u, v} leaves `B`; region `k`, the one holding it, counts
      the removal at its tree node; when the removal disconnects the region, its two sides
      (`right`, `left`) replace it and get two new children of its tree node; then the
      scores of the region's rows are recomputed. The driver's invariant is kept. */
  method Step(st: State, score: Scores) returns (st': State, u: nat, v: nat, k: nat, split: bool, right: set<nat>, left: set<nat>)
    requires Inv(st) && NumEdges(st.b) > 0 && NonNegative(score)
    ensures Inv(st') && |st'.b.adj| == |st.b.adj| && st'.b.e < st.b.e
    ensures MaxEdgeBtwns(st.b.adj) == (u as int, v as int) && u < |st.b.adj| && v < |st.b.adj| && v in st.b.adj[u]
    ensures forall x, y :: 0 <= x < |st.b.adj| ==>
      (y in st'.b.adj[x] <==> y in st.b.adj[x] && !(x == u && y == v) && !(x == v && y == u))
    ensures k < |st.rs| && u in st.rs[k].members && v in st.rs[k].members
    ensures split <==> !Joined(Unlinked(st.b.adj, u, v, true), st.rs[k].members)
    ensures right + left == st.rs[k].members && right !! left && right != {} && (split <==> left != {})
    ensures !split ==> st'.rs == st.rs && st'.r.adj == st.r.adj
    ensures split ==> st'.rs == Replaced(st.rs, k, Region(right, |st.r.adj|), Region(left, |st.r.adj| + 1))
    ensures split ==> Grafted(st.r.adj, st'.r.adj, st.rs[k].node)
  {
    var b1;
    b1, u, v, k := Cut(st);
    var mid;
    mid, split, right, left := Regroup(st, b1, u, v, k);
    st' := Rescored(mid, st.rs[k].members, score);
    UnlinkedFacts(st.b.adj, u, v, true);
  }

  // ---------------------------------------------------------------------------
  // The tree the driver grows

  /** `adj'` is `adj` with two new nodes hung under `root`: its row gains exactly them, the
      new rows hold at most the way back to `root`, every other row is kept. */
  ghost predicate Grafted(adj: seq<map<nat, ()>>, adj': seq<map<nat, ()>>, root: nat)
  {
    && root < |adj| && |adj'| == |adj| + 2
    && (forall x :: 0 <= x < |adj| && x != root ==> adj'[x] == adj[x])
    && adj'[root].Keys == adj[root].Keys + {|adj|, |adj| + 1}
    && adj'[|adj|].Keys <= {root} && adj'[|adj| + 1].Keys <= {root}
  }

  /** The children of tree node `p`: the later nodes its row points to (in an undirected
      `R` a child's row also points back, to an earlier node). */
  function Children(adj: seq<map<nat, ()>>, p: nat): set<nat>
    requires p < |adj|
  {
    set c: nat | p < c < |adj| && c in adj[p]
  }

  /** `c` is the child of some node from `base` on. */
  ghost predicate HasParent(adj: seq<map<nat, ()>>, base: nat, c: nat)
  {
    exists p :: base <= p < c && p < |adj| && c in Children(adj, p)
  }

  /** The tree above `base` (the nodes `R` held before the set-up): nodes `base` to
      `top - 1` are its roots, children of no node; every later node is the child of
      exactly one earlier node; and every node has no child or two. */
  ghost predicate Tree(adj: seq<map<nat, ()>>, base: nat, top: nat)
  {
    && base <= top <= |adj|
    && (forall p, c :: base <= p < |adj| && c in Children(adj, p) ==> top <= c)
    && (forall c :: top <= c < |adj| ==> HasParent(adj, base, c))
    && (forall p, q, c :: base <= p < |adj| && base <= q < |adj| && c in Children(adj, p) && c in Children(adj, q) ==> p == q)
    && (forall p :: base <= p < |adj| ==> |Children(adj, p)| == 0 || |Children(adj, p)| == 2)
  }

  /** The active regions sit at the leaves: each has its own tree node above `base`, and
      a node above `base` has no child exactly when it is some region's node. */
  ghost predicate AtLeaves(adj: seq<map<nat, ()>>, rs: seq<Region>, base: nat)
  {
    && (forall i :: 0 <= i < |rs| ==> base <= rs[i].node < |adj|)
    && (forall i, j :: 0 <= i < j < |rs| ==> rs[i].node != rs[j].node)
    && (forall x :: base <= x < |adj| ==> (Children(adj, x) == {} <==> IsLeafOf(rs, x)))
  }

  /** `x` is the tree node of some active region. */
  ghost predicate IsLeafOf(rs: seq<Region>, x: nat)
  {
    exists i :: 0 <= i < |rs| && rs[i].node == x
  }

  /** What the driver builds in `R`: a forest whose leaves are the active regions. */
  ghost predicate Grown(adj: seq<map<nat, ()>>, rs: seq<Region>, base: nat, top: nat)
  {
    Tree(adj, base, top) && AtLeaves(adj, rs, base)
  }

  /** Right after the set-up the roots are the whole tree: one childless node per
      region. */
  lemma GrownRoots(adj: seq<map<nat, ()>>, rs: seq<Region>, base: nat)
    requires |adj| == base + |rs|
    requires forall x :: base <= x < |adj| ==> adj[x] == map[]
    requires forall k :: 0 <= k < |rs| ==> rs[k].node == base + k
    ensures Grown(adj, rs, base, |adj|)
  {
    forall x | base <= x < |adj|
      ensures Children(adj, x) == {} && IsLeafOf(rs, x)
    {
      assert rs[x - base].node == x;
    }
  }

  /** Grafting two new nodes under `root`: `root` gains exactly them as children, they
      have none, and every other node keeps its children. */
  lemma ChildrenAfterGraft(adj: seq<map<nat, ()>>, adj': seq<map<nat, ()>>, root: nat)
    requires Bounded(adj) && Grafted(adj, adj', root)
    ensures forall x :: 0 <= x < |adj| && x != root ==> Children(adj', x) == Children(adj, x)
    ensures Children(adj', root) == Children(adj, root) + {|adj|, |adj| + 1}
    ensures Children(adj', |adj|) == {} && Children(adj', |adj| + 1) == {}
  {
    var n := |adj|;
    forall x | 0 <= x < n && x != root
      ensures Children(adj', x) == Children(adj, x)
    {
      forall c | c in Children(adj', x) ensures c in Children(adj, x) {
        assert c in adj[x];
      }
    }
    forall c | c in Children(adj', root) ensures c in Children(adj, root) + {n, n + 1} {
      assert c in adj'[root].Keys;
    }
    NoLaterKeys(adj', n, root);
    NoLaterKeys(adj', n + 1, root);
  }

  /** A row whose only possible key is an earlier node has no children. */
  lemma NoLaterKeys(adj: seq<map<nat, ()>>, x: nat, root: nat)
    requires x < |adj| && root < x && adj[x].Keys <= {root}
    ensures Children(adj, x) == {}
  {
    if c :| c in Children(adj, x) {
      assert c in adj[x].Keys;
    }
  }

  /** The position in the old region list of a region that `Replaced` kept. */
  lemma KeptRegion(rs: seq<Region>, k: nat, a: Region, b: Region, i: nat) returns (i0: nat)
    requires k < |rs| && i < |rs| - 1
    ensures i0 < |rs| && i0 != k && Replaced(rs, k, a, b)[i] == rs[i0]
    ensures i0 == if i < k then i else i + 1
  {
    i0 := if i < k then i else i + 1;
  }

  /** A subdivision keeps the forest and its leaves: the region's leaf becomes an inner
      node with the two new nodes as its children, and they are the leaves of the two
      sides that replace the region. */
  lemma GrownAfterSplit(adj: seq<map<nat, ()>>, adj': seq<map<nat, ()>>, rs: seq<Region>, k: nat,
                        right: set<nat>, left: set<nat>, base: nat, top: nat)
    requires Grown(adj, rs, base, top) && Bounded(adj) && k < |rs| && Grafted(adj, adj', rs[k].node)
    ensures Grown(adj', Replaced(rs, k, Region(right, |adj|), Region(left, |adj| + 1)), base, top)
  {
    var n, root := |adj|, rs[k].node;
    ChildrenAfterGraft(adj, adj', root);
    assert IsLeafOf(rs, root);
    assert Children(adj', root) == {n, n + 1};
    TreeAfterGraft(adj, adj', root, base, top);
    LeavesAfterGraft(adj, adj', rs, k, right, left, base);
  }

  /** A pass keeps the forest and its leaves, and never touches the nodes below `base`:
      without a split the tree and the regions stay as they are, with one the region's
      leaf gets its two children. */
  lemma GrownAfterStep(adj: seq<map<nat, ()>>, adj': seq<map<nat, ()>>, rs: seq<Region>, rs': seq<Region>,
                       k: nat, split: bool, right: set<nat>, left: set<nat>, base: nat, top: nat)
    requires Grown(adj, rs, base, top) && Bounded(adj) && k < |rs|
    requires !split ==> rs' == rs && adj' == adj
    requires split ==> rs' == Replaced(rs, k, Region(right, |adj|), Region(left, |adj| + 1))
    requires split ==> Grafted(adj, adj', rs[k].node)
    ensures Grown(adj', rs', base, top) && |adj| <= |adj'|
    ensures forall x :: 0 <= x < base ==> adj'[x] == adj[x]
  {
    if split {
      GrownAfterSplit(adj, adj', rs, k, right, left, base, top);
      assert base <= rs[k].node;
    }
  }

  lemma TreeAfterGraft(adj: seq<map<nat, ()>>, adj': seq<map<nat, ()>>, root: nat, base: nat, top: nat)
    requires Tree(adj, base, top) && base <= root < |adj| && |adj'| == |adj| + 2
    requires Children(adj, root) == {}
    requires forall x :: 0 <= x < |adj| && x != root ==> Children(adj', x) == Children(adj, x)
    requires Children(adj', root) == {|adj|, |adj| + 1}
    requires Children(adj', |adj|) == {} && Children(adj', |adj| + 1) == {}
    ensures Tree(adj', base, top)
  {
    var n := |adj|;
    forall p, c | base <= p < |adj'| && c in Children(adj', p) ensures top <= c {
      if p != root {
        assert c in Children(adj, p);
      }
    }
    forall c | top <= c < |adj'| ensures HasParent(adj', base, c) {
      if c < n {
        assert HasParent(adj, base, c);
        var p :| base <= p < c && p < |adj| && c in Children(adj, p);
        assert c in Children(adj', p);
      } else {
        assert c in Children(adj', root);
      }
    }
    forall p, q, c | base <= p < |adj'| && base <= q < |adj'| && c in Children(adj', p) && c in Children(adj', q)
      ensures p == q
    {
      if c < n {
        assert p != root && q != root;
        assert c in Children(adj, p) && c in Children(adj, q);
      } else {
        assert p == root && q == root;
      }
    }
    forall p | base <= p < |adj'| ensures |Children(adj', p)| == 0 || |Children(adj', p)| == 2 {
      if p < n && p != root {
        assert Children(adj', p) == Children(adj, p);
      }
    }
  }

  lemma LeavesAfterGraft(adj: seq<map<nat, ()>>, adj': seq<map<nat, ()>>, rs: seq<Region>, k: nat,
                         right: set<nat>, left: set<nat>, base: nat)
    requires AtLeaves(adj, rs, base) && k < |rs| && |adj'| == |adj| + 2
    requires forall x :: 0 <= x < |adj| && x != rs[k].node ==> Children(adj', x) == Children(adj, x)
    requires Children(adj', rs[k].node) == {|adj|, |adj| + 1}
    requires Children(adj', |adj|) == {} && Children(adj', |adj| + 1) == {}
    ensures AtLeaves(adj', Replaced(rs, k, Region(right, |adj|), Region(left, |adj| + 1)), base)
  {
    var n, root := |adj|, rs[k].node;
    var rs' := Replaced(rs, k, Region(right, n), Region(left, n + 1));
    NodesAfterGraft(adj, rs, k, right, left, base);
    forall x | base <= x < |adj'|
      ensures Children(adj', x) == {} <==> IsLeafOf(rs', x)
    {
      if x == n {
        assert rs'[|rs| - 1].node == x;
      } else if x == n + 1 {
        assert rs'[|rs|].node == x;
      } else if x == root {
        assert n in Children(adj', x);
        NotLeafAfterGraft(rs, k, right, left, n, x);
      } else {
        assert Children(adj', x) == Children(adj, x);
        if IsLeafOf(rs, x) {
          var i0 :| 0 <= i0 < |rs| && rs[i0].node == x;
          var i := if i0 < k then i0 else i0 - 1;
          var j0 := KeptRegion(rs, k, Region(right, n), Region(left, n + 1), i);
          assert rs'[i] == rs[i0];
        } else {
          NotLeafAfterGraft(rs, k, right, left, n, x);
        }
      }
    }
  }

  /** The replaced list's tree nodes are in range and distinct: the kept ones were, and
      the two new ones lie past every old one. */
  lemma NodesAfterGraft(adj: seq<map<nat, ()>>, rs: seq<Region>, k: nat, right: set<nat>, left: set<nat>, base: nat)
    requires AtLeaves(adj, rs, base) && k < |rs|
    ensures var rs' := Replaced(rs, k, Region(right, |adj|), Region(left, |adj| + 1));
      && (forall i :: 0 <= i < |rs'| ==> base <= rs'[i].node < |adj| + 2)
      && (forall i, j :: 0 <= i < j < |rs'| ==> rs'[i].node != rs'[j].node)
  {
    var rs' := Replaced(rs, k, Region(right, |adj|), Region(left, |adj| + 1));
    assert base <= rs[k].node < |adj|;
    forall i | 0 <= i < |rs'| ensures base <= rs'[i].node < |adj| + 2 {
      if i < |rs| - 1 {
        var i0 := KeptRegion(rs, k, Region(right, |adj|), Region(left, |adj| + 1), i);
      }
    }
    forall i, j | 0 <= i < j < |rs'| ensures rs'[i].node != rs'[j].node {
      if j < |rs| - 1 {
        var i0 := KeptRegion(rs, k, Region(right, |adj|), Region(left, |adj| + 1), i);
        var j0 := KeptRegion(rs, k, Region(right, |adj|), Region(left, |adj| + 1), j);
      } else if i < |rs| - 1 {
        var i0 := KeptRegion(rs, k, Region(right, |adj|), Region(left, |adj| + 1), i);
      }
    }
  }

  /** A node below the new ones that was no region's node, or that was region `k`'s, is no
      node of the replaced list. */
  lemma NotLeafAfterGraft(rs: seq<Region>, k: nat, right: set<nat>, left: set<nat>, n: nat, x: nat)
    requires k < |rs| && x < n && (x == rs[k].node || !IsLeafOf(rs, x))
    requires forall i, j :: 0 <= i < j < |rs| ==> rs[i].node != rs[j].node
    ensures !IsLeafOf(Replaced(rs, k, Region(right, n), Region(left, n + 1)), x)
  {
    var rs' := Replaced(rs, k, Region(right, n), Region(left, n + 1));
    forall i | 0 <= i < |rs'| ensures rs'[i].node != x {
      if i < |rs| - 1 {
        var i0 := KeptRegion(rs, k, Region(right, n), Region(left, n + 1), i);
      }
    }
  }

  // ---------------------------------------------------------------------------
  // The whole driver

  /** One pass of the main loop seen from the tree: the forest above `base` grows, its
      leaves stay the active regions' nodes, and the rows below `base` are kept. */
  method Pass(st: State, score: Scores, ghost base: nat, ghost top: nat) returns (st': State)
    requires Inv(st) && NumEdges(st.b) > 0 && NonNegative(score) && Grown(st.r.adj, st.rs, base, top)
    ensures Inv(st') && |st'.b.adj| == |st.b.adj| && st'.b.e < st.b.e
    ensures |st.r.adj| <= |st'.r.adj| && forall x :: 0 <= x < base ==> st'.r.adj[x] == st.r.adj[x]
    ensures Grown(st'.r.adj, st'.rs, base, top)
  {
    var u, v, k, split, right, left;
    st', u, v, k, split, right, left := Step(st, score);
    ValidShape(st.r);
    GrownAfterStep(st.r.adj, st'.r.adj, st.rs, st'.rs, k, split, right, left, base, top);
  }

  /** `communities(G, R)`: the set-up, then passes while `B.num_edges() > 0`. When the
      loop ends the invariant still holds, `B` has no edge left (at most one stored
      self-loop, which `num_edges` rounds away), and so every active region is a single
      node or empty: the leaves of the tree are the graph's nodes, one region each. */
  method Communities(g: Graph<string, string>, r0: ResGraph, score: Scores) returns (st: State)
    requires Valid(g) && g.undirected && Valid(r0) && NonNegative(score)
    ensures Inv(st) && NumEdges(st.b) == 0 && |st.b.adj| == |g.adj|
    ensures forall i :: 0 <= i < |st.rs| ==> |st.rs[i].members| <= 1
    ensures |r0.adj| <= |st.r.adj| && forall x :: 0 <= x < |r0.adj| ==> st.r.adj[x] == r0.adj[x]
    ensures exists top :: Grown(st.r.adj, st.rs, |r0.adj|, top)
  {
    var base := |r0.adj|;
    st := Init(g, r0, score);
    GrownRoots(st.r.adj, st.rs, base);
    ghost var top := |st.r.adj|;
    while NumEdges(st.b) > 0
      invariant Inv(st) && |st.b.adj| == |g.adj|
      invariant base <= |st.r.adj| && forall x :: 0 <= x < base ==> st.r.adj[x] == r0.adj[x]
      invariant Grown(st.r.adj, st.rs, base, top)
      decreases st.b.e
    {
      st := Pass(st, score, base, top);
    }
    forall i | 0 <= i < |st.rs|
      ensures |st.rs[i].members| <= 1
    {
      NoEdgesSingleton(st.b, st.rs[i].members);
    }
  }

  /** A stored pair between two different nodes of a symmetric store counts twice. */
  lemma NoEdgesSingleton(b: BGraph, m: set<nat>)
    requires Valid(b) && b.undirected && NumEdges(b) == 0 && Joined(b.adj, m)
    ensures |m| <= 1
  {
    if |m| > 1 {
      var x :| x in m;
      assert |m - {x}| == |m| - 1;
      var y :| y in m - {x};
      assert Reaches(b.adj, x, y);
      var p :| IsWalk(b.adj, p) && p[0] == x && p[|p| - 1] == y;
      var j := WalkMoves(b.adj, p);
      var a, c := p[j], p[j + 1];
      ValidShape(b);
      assert a in b.adj[c];
      if a < c {
        RowSumTwo(b.adj, a, c);
      } else {
        RowSumTwo(b.adj, c, a);
      }
    }
  }

  /** A walk between two different nodes takes a step between two different nodes. */
  lemma {:induction false} WalkMoves<E>(adj: seq<map<nat, E>>, p: seq<nat>) returns (j: nat)
    requires IsWalk(adj, p) && p[0] != p[|p| - 1]
    ensures j + 1 < |p| && p[j] != p[j + 1] && p[j] < |adj| && p[j + 1] in adj[p[j]]
    decreases |p|
  {
    if p[0] != p[1] {
      j := 0;
    } else {
      assert IsWalk(adj, p[1..]);
      var i := WalkMoves(adj, p[1..]);
      j := i + 1;
    }
  }

  lemma {:induction false} RowSumOne<E>(adj: seq<map<nat, E>>, a: nat)
    requires a < |adj|
    ensures RowSum(adj) >= |adj[a]|
    decreases |adj|
  {
    var n := |adj| - 1;
    if a < n {
      RowSumOne(adj[..n], a);
      assert adj[..n][a] == adj[a];
    }
  }

  lemma {:induction false} RowSumTwo<E>(adj: seq<map<nat, E>>, a: nat, c: nat)
    requires a < c < |adj|
    ensures RowSum(adj) >= |adj[a]| + |adj[c]|
    decreases |adj|
  {
    var n := |adj| - 1;
    if c == n {
      RowSumOne(adj[..n], a);
      assert adj[..n][a] == adj[a];
    } else {
      RowSumTwo(adj[..n], a, c);
      assert adj[..n][a] == adj[a] && adj[..n][c] == adj[c];
    }
  }
}

=== FILE: graph_io.dfy ===
/** The text formats of networks/io.H over graphs whose node and edge tags are their
    printed forms (`string`): the edge-list format (`.edgl`) and the adjacency-list
    format (`.ladj`), their writers and readers, and the choice of format by file
    extension. A reader either gives the graph it builds or the `wrong_format` reason
    it raises. */
module GraphIo {
  import opened Common
  import opened Text
  import opened AdjList
  import opened Stl

  // ---------------------------------------------------------------------------
  // file_extension and the choice of format

  /** `file_extension(filename)`: the characters after the last '.'. The backward scan
      of the source has no lower bound, so the name must hold a '.'. */
  function FileExtension(name: string): (ext: string)
    requires exists i :: 0 <= i < |name| && name[i] == '.'
    ensures |ext| < |name| && name[|name| - |ext| - 1] == '.' && ext == name[|name| - |ext|..]
    ensures forall i :: 0 <= i < |ext| ==> ext[i] != '.'
  {
    var n := |name| - 1;
    if name[n] == '.' then ""
    else
      assert exists i :: 0 <= i < n && name[..n][i] == '.' by {
        var i :| 0 <= i < |name| && name[i] == '.';
        assert name[..n][i] == '.';
      }
      FileExtension(name[..n]) + [name[n]]
  }

  /** A name made of a base, a dot and a dot-free extension has that extension. */
  lemma {:induction false} FileExtensionOf(base: string, ext: string)
    requires forall i :: 0 <= i < |ext| ==> ext[i] != '.'
    ensures var name := base + "." + ext;
      (exists i :: 0 <= i < |name| && name[i] == '.') && FileExtension(name) == ext
    decreases |ext|
  {
    var name := base + "." + ext;
    assert name[|base|] == '.';
    if ext != [] {
      var n := |ext| - 1;
      FileExtensionOf(base, ext[..n]);
      assert name[..|name| - 1] == base + "." + ext[..n];
      assert ext == ext[..n] + [ext[n]];
    }
  }

  datatype Format = Edgl | Ladj | Madj | Dot | Net

  /** The formats `read_graph_from_file` reads. */
  function ReadFormat(ext: string): (f: Option<Format>)
    ensures f.Some? ==> f.value == Edgl || f.value == Ladj
  {
    if ext == "edgl" then Some(Edgl)
    else if ext == "ladj" then Some(Ladj)
    else None
  }

  /** The formats `write_graph_to_file` writes. */
  function WriteFormat(ext: string): (f: Option<Format>)
  {
    if ext == "edgl" then Some(Edgl)
    else if ext == "ladj" then Some(Ladj)
    else if ext == "madj" then Some(Madj)
    else if ext == "dot" then Some(Dot)
    else if ext == "net" then Some(Net)
    else None
  }

  /** Every extension that is read is written in the same format, and exactly `edgl`
      and `ladj` are read; the other written formats are write-only. */
  lemma FormatsAgree(ext: string)
    ensures ReadFormat(ext).Some? ==> WriteFormat(ext) == ReadFormat(ext)
    ensures ReadFormat(ext).Some? <==> WriteFormat(ext) == Some(Edgl) || WriteFormat(ext) == Some(Ladj)
    ensures WriteFormat(ext).Some? <==> ext in {"edgl", "ladj", "madj", "dot", "net"}
  {
  }

  // ---------------------------------------------------------------------------
  // Stream pieces shared by the readers

  /** Why a reader gives up: the `wrong_format` it throws. */
  datatype ReadError =
    | MissingSize         // "Expecting graph size at the beginning"
    | BadStart            // "Adjacency list doesn't start with 0"
    | NotConsecutive      // "Vertices must be consecutive"
    | IndexTooLarge       // "Indices cannot exceed graph size"
    | NotAnInteger        // "Expected an integer: got ..."
    | UnclosedBracket     // "Parenthesis '[' not closed"
    | FirstTagMissing     // "Tag for the first vertex expected"
    | SecondTagMissing    // "Tag for the second vertex expected"

  datatype Outcome<T> = Done(value: T) | Failed(reason: ReadError)

  /** `eat_white(i)`: skips blanks and tabs, not line ends. */
  function EatWhite(s: string): (r: string)
    ensures |r| <= |s| && r == s[|s| - |r|..] && (r != [] ==> r[0] != ' ' && r[0] != '\t')
  {
    if s != [] && (s[0] == ' ' || s[0] == '\t') then EatWhite(s[1..]) else s
  }

  /** `i >> u` for an unsigned `u`: leading whitespace, then a run of digits. */
  function ReadUnsigned(s: string): (r: Option<(nat, string)>)
    ensures r.Some? ==> |r.value.1| < |s|
  {
    ReadDigits(SkipSpace(s))
  }

  /** `sin >> nt` for a string tag: the first token of the text, or the empty default. */
  function TagOf(text: string): string
  {
    var w := ReadWord(text);
    if w.None? then "" else w.value.0
  }

  /** An optional `[tag]`: the tag read (empty when there is no '[') and the input after
      it; `None` when the '[' is never closed. */
  function ReadTag(s: string): (r: Option<(string, string)>)
    ensures r.Some? ==> |r.value.1| <= |s|
  {
    if s == [] || s[0] != '[' then Some(("", s))
    else
      var p := Find(s[1..], ']');
      if p.None? then None else Some((TagOf(s[1..][..p.value]), s[1..][p.value + 1..]))
  }

  /** A tag the formats carry unchanged: empty, or one token without ']'. */
  predicate Clean(t: string)
  {
    t == [] || (IsWord(t) && forall i :: 0 <= i < |t| ==> t[i] != ']')
  }

  /** `[tag]` as the adjacency-list writer prints it: nothing for an empty tag. */
  function TagText(t: string): string
  {
    if t == [] then "" else "[" + t + "]"
  }

  // ---------------------------------------------------------------------------
  // The adjacency-list format

  /** The first line of `write_ladj`'s text is the node count; line `k` is `k`, its tag,
      and for each neighbour in ascending order a blank, its id and the edge's tag. */
  function WriteLadj(tags: seq<string>, adj: seq<map<nat, string>>): string
    requires |tags| == |adj|
  {
    NatToString(|adj|) + "\n" + LadjLines(tags, adj, 0)
  }

  function LadjLines(tags: seq<string>, adj: seq<map<nat, string>>, k: nat): string
    requires |tags| == |adj|
    decreases |adj| - k
  {
    if k >= |adj| then "" else LadjLine(tags, adj, k) + LadjLines(tags, adj, k + 1)
  }

  function LadjLine(tags: seq<string>, adj: seq<map<nat, string>>, k: nat): string
    requires |tags| == |adj| && k < |adj|
  {
    NatToString(k) + TagText(tags[k]) + EdgeText(RowPairs(k, adj[k], 0, |adj|)) + "\n"
  }

  function EdgeText(ps: seq<Pair<string>>): string
  {
    if ps == [] then "" else " " + NatToString(ps[0].1) + TagText(ps[0].2) + EdgeText(ps[1..])
  }

  /** What `read_ladj` collects: the node tags and the `add_edge` calls in order. */
  datatype Lists = Lists(tags: seq<string>, pairs: seq<Pair<string>>)

  /** The checks of a vertex index as written: the first must be 0, later ones must
      follow the previous one and stay below the size. The first escapes the bound. */
  function VertexCheckAsWritten(last: int, u: nat, n: nat): Option<ReadError>
  {
    if last == -1 then (if u != 0 then Some(BadStart) else None)
    else if u != last + 1 then Some(NotConsecutive)
    else if u >= n then Some(IndexTooLarge)
    else None
  }

  /** The first vertex of a graph of size 0 passes the checks as written, and then
      indexes a node that does not exist. */
  lemma FirstVertexEscapesBound()
    ensures VertexCheckAsWritten(-1, 0, 0) == None
  {
  }

  /** The checks with the bound applied to every vertex: a vertex passes exactly when it
      is the next one and is a node. */
  function VertexCheck(last: int, u: nat, n: nat): (r: Option<ReadError>)
    ensures r == None <==> u == last + 1 && u < n && (last == -1 || last >= 0)
  {
    if last == -1 then (if u != 0 then Some(BadStart) else if u >= n then Some(IndexTooLarge) else None)
    else if u != last + 1 then Some(NotConsecutive)
    else if u >= n then Some(IndexTooLarge)
    else None
  }

  /** The corrected checks differ from the written ones only on the first vertex of a
      graph of size 0. */
  lemma VertexCheckAgrees(last: int, u: nat, n: nat)
    ensures VertexCheck(last, u, n) == VertexCheckAsWritten(last, u, n) <==> !(last == -1 && u == 0 && n == 0)
  {
  }

  /** One neighbour: its index, below the size, and its optional tag. */
  function ReadEdge(t: string, n: nat): (r: Outcome<(nat, string, string)>)
    ensures r.Done? ==> r.value.0 < n && |r.value.2| < |t|
  {
    var v := ReadUnsigned(t);
    if v.None? then Failed(NotAnInteger)
    else if v.value.0 >= n then Failed(IndexTooLarge)
    else
      var et := ReadTag(v.value.1);
      if et.None? then Failed(UnclosedBracket) else Done((v.value.0, et.value.0, et.value.1))
  }

  /** The neighbours on one line of vertex `u`, each optionally tagged, up to the line
      end or the end of input, which is left in place. */
  function ReadEdges(s: string, n: nat, u: nat): (r: Outcome<(seq<Pair<string>>, string)>)
    ensures r.Done? ==> |r.value.1| <= |s| && OnRow(r.value.0, u, n)
    decreases |s|
  {
    var t := EatWhite(s);
    if t == [] || t[0] == '\n' then Done(([], t))
    else
      var e := ReadEdge(t, n);
      if e.Failed? then Failed(e.reason)
      else
        var r := ReadEdges(e.value.2, n, u);
        if r.Failed? then r else Done(([(u, e.value.0, e.value.1)] + r.value.0, r.value.1))
  }

  /** Pairs leaving `u` towards nodes below `n`. */
  predicate OnRow(ps: seq<Pair<string>>, u: nat, n: nat)
  {
    ps == [] || (ps[0].0 == u && ps[0].1 < n && OnRow(ps[1..], u, n))
  }

  lemma {:induction false} OnRowInRange(pairs: seq<Pair<string>>, ps: seq<Pair<string>>, u: nat, n: nat)
    requires InRange(pairs, n) && OnRow(ps, u, n) && u < n
    ensures InRange(pairs + ps, n)
    decreases |ps|
  {
    if ps != [] {
      OnRowInRange(pairs + [ps[0]], ps[1..], u, n);
      assert pairs + [ps[0]] + ps[1..] == pairs + ps;
    }
  }

  /** The vertex lines of `read_ladj`: reading stops without error at the first place
      where no number can be read. */
  function ReadVertices(s: string, n: nat, last: int, tags: seq<string>, pairs: seq<Pair<string>>): (r: Outcome<Lists>)
    requires |tags| == n && InRange(pairs, n)
    ensures r.Done? ==> |r.value.tags| == n && InRange(r.value.pairs, n)
    decreases |s|
  {
    var u := ReadUnsigned(s);
    if u.None? then Done(Lists(tags, pairs))
    else
      var check := VertexCheck(last, u.value.0, n);
      if check.Some? then Failed(check.value)
      else
        var t := ReadTag(u.value.1);
        if t.None? then Failed(UnclosedBracket)
        else
          var es := ReadEdges(t.value.1, n, u.value.0);
          if es.Failed? then Failed(es.reason)
          else
            OnRowInRange(pairs, es.value.0, u.value.0, n);
            ReadVertices(es.value.1, n, u.value.0, tags[u.value.0 := t.value.0], pairs + es.value.0)
  }

  /** `read_ladj`: the node count, then the vertex lines; tags start empty. */
  function ReadLadj(s: string): (r: Outcome<Lists>)
    ensures r.Done? ==> InRange(r.value.pairs, |r.value.tags|)
  {
    var n := ReadUnsigned(s);
    if n.None? then Failed(MissingSize)
    else ReadVertices(n.value.1, n.value.0, -1, seq(n.value.0, _ => ""), [])
  }

  /** The first two checks of `read_ladj`: a missing size, and a first vertex line that
      is not vertex 0. */
  lemma LadjRejects()
    ensures ReadLadj("") == Failed(MissingSize)
    ensures ReadLadj("2\n1\n") == Failed(BadStart)
  {
    assert SkipSpace("") == "";
    assert SkipSpace("2\n1\n") == "2\n1\n";
    assert ReadUnsigned("2\n1\n") == Some((2, "\n1\n")) by {
      assert DigitRun("2\n1\n") == 1;
      assert "2\n1\n"[..1] == "2";
    }
    assert ReadUnsigned("\n1\n") == Some((1, "\n")) by {
      assert SpaceRun("\n1\n") == 1;
      assert SkipSpace("\n1\n") == "1\n";
      assert DigitRun("1\n") == 1;
      assert "1\n"[..1] == "1";
    }
  }

  // ---------------------------------------------------------------------------
  // The graph a reader builds

  function NodeTags<N, E>(g: Graph<N, E>): (tags: seq<N>)
    ensures |tags| == |g.nodes| && forall k :: 0 <= k < |g.nodes| ==> tags[k] == g.nodes[k].tag
  {
    seq(|g.nodes|, k requires 0 <= k < |g.nodes| => g.nodes[k].tag)
  }

  /** Mirroring rows that already hold every mirror changes nothing. */
  lemma SymmetrizedNoop<E>(adj: seq<map<nat, E>>)
    requires Symmetric(adj)
    ensures Symmetrized(adj, false) == adj
  {
    var ps := StoredPairs(adj);
    var rs := Mirrors(adj);
    forall i | 0 <= i < |rs|
      ensures rs[i].1 in adj[rs[i].0]
    {
      assert rs[i] == (ps[i].1, ps[i].0, ps[i].2);
    }
    LinkAllNoop(adj, rs, false);
  }

  /** The end of both readers: `check_undirected`, then `to_undirected` when it holds.
      Only the flag changes: the mirrors `to_undirected` would add are all present. */
  function Finish(h: Graph<string, string>): (g: Graph<string, string>)
    requires Valid(h) && !h.undirected
    ensures Valid(g) && SameTags(g, h) && g.adj == h.adj
    ensures g.undirected <==> Symmetric(h.adj)
  {
    if CheckUndirected(h) then
      SymmetrizedNoop(h.adj);
      ToUndirected(h)
    else h
  }

  /** What a reader does with what it collected: a directed graph with the given node
      tags receives the pairs in order, and becomes undirected when every pair has its
      mirror. */
  function Build(tags: seq<string>, pairs: seq<Pair<string>>): (g: Graph<string, string>)
    requires InRange(pairs, |tags|)
    ensures Valid(g) && NodeTags(g) == tags
    ensures g.adj == LinkAll(NoRows(|tags|), pairs, false)
    ensures g.undirected <==> Symmetric(g.adj)
  {
    var e: Graph<string, string> := Empty(tags, false);
    assert e.adj == NoRows(|tags|);
    var h := AddEdges(e, pairs);
    var g := Finish(h);
    assert NodeTags(g) == tags by {
      assert SameTags(g, e);
    }
    g
  }

  /** `read_ladj` on a fresh graph. */
  function ReadLadjGraph(s: string): (r: Outcome<Graph<string, string>>)
    ensures r.Failed? <==> ReadLadj(s).Failed?
    ensures r.Done? ==> r.value == Build(ReadLadj(s).value.tags, ReadLadj(s).value.pairs)
  {
    var l := ReadLadj(s);
    if l.Failed? then Failed(l.reason) else Done(Build(l.value.tags, l.value.pairs))
  }

  // ---------------------------------------------------------------------------
  // The edge-list format

  /** A line of the edge-list format: two node tags and an edge tag, empty when the line
      has no third column. */
  type Triple = (string, string, string)

  /** The line `write_edgl` prints for a pair: both node tags and, when it is not empty,
      the edge tag, separated by blanks. */
  function EdglLine(a: string, b: string, t: string): string
  {
    a + " " + b + (if t == [] then "" else " " + t) + "\n"
  }

  function EdglText(tags: seq<string>, ps: seq<Pair<string>>): string
    requires InRange(ps, |tags|)
  {
    if ps == [] then "" else EdglLine(tags[ps[0].0], tags[ps[0].1], ps[0].2) + EdglText(tags, ps[1..])
  }

  /** `write_edgl`: one line per stored pair, in scan order. */
  function WriteEdgl(tags: seq<string>, adj: seq<map<nat, string>>): string
    requires |tags| == |adj|
  {
    EdglText(tags, StoredPairs(adj))
  }

  /** One non-empty line of `read_edgl`: the first two tokens, and the third or nothing.
      A line of blanks has no first tag; a line whose first tag is read can only lack the
      second. */
  function ParseLine(line: string): (r: Outcome<Triple>)
    ensures r.Done? ==> IsWord(r.value.0) && IsWord(r.value.1) && (r.value.2 == [] || IsWord(r.value.2))
    ensures r == Failed(FirstTagMissing) <==> forall i :: 0 <= i < |line| ==> IsSpace(line[i])
    ensures r.Failed? ==> r.reason == FirstTagMissing || r.reason == SecondTagMissing
    ensures r.Done? ==> r.value.0 <= SkipSpace(line)
  {
    ReadWordBlank(line);
    var a := ReadWord(line);
    if a.None? then Failed(FirstTagMissing)
    else
      var b := ReadWord(a.value.1);
      if b.None? then Failed(SecondTagMissing)
      else
        ReadWordIsWord(line);
        ReadWordIsWord(a.value.1);
        ReadWordIsWord(b.value.1);
        Done((a.value.0, b.value.0, TagOf(b.value.1)))
  }

  /** No token can be read exactly when only whitespace is left. */
  lemma ReadWordBlank(s: string)
    ensures ReadWord(s).None? <==> forall i :: 0 <= i < |s| ==> IsSpace(s[i])
  {
    var k := SpaceRun(s);
    if k < |s| {
      assert SkipSpace(s)[0] == s[k];
    }
  }

  /** A token read carries no whitespace. */
  lemma ReadWordIsWord(s: string)
    ensures ReadWord(s).Some? ==> IsWord(ReadWord(s).value.0)
    ensures ReadWord(s).None? ==> TagOf(s) == []
    ensures ReadWord(s).Some? ==> TagOf(s) == ReadWord(s).value.0
  {
  }

  /** Length of the text before the first line end. */
  function LineLength(s: string): (k: nat)
    ensures k <= |s|
  {
    if s == [] || s[0] == '\n' then 0 else 1 + LineLength(s[1..])
  }

  /** The lines `getline` hands out: the text split at line ends, the last line being
      what follows the last line end when that is not empty. */
  function Lines(s: string): seq<string>
    decreases |s|
  {
    if s == [] then []
    else
      var k := LineLength(s);
      [s[..k]] + if k < |s| then Lines(s[k + 1..]) else []
  }

  /** The lines of `read_edgl`: empty ones are skipped and reading stops at the first
      line that lacks a tag. */
  function ParseLines(ls: seq<string>): (r: Outcome<seq<Triple>>)
    ensures r.Done? ==> |r.value| <= |ls|
  {
    if ls == [] then Done([])
    else if ls[0] == [] then ParseLines(ls[1..])
    else
      var t := ParseLine(ls[0]);
      if t.Failed? then Failed(t.reason)
      else
        var r := ParseLines(ls[1..]);
        if r.Failed? then r else Done([t.value] + r.value)
  }

  function ParseEdgl(s: string): Outcome<seq<Triple>>
  {
    ParseLines(Lines(s))
  }

  ghost predicate Distinct(names: seq<string>)
  {
    forall i, j :: 0 <= i < j < |names| ==> names[i] != names[j]
  }

  /** The position of `w` in `names`, first occurrence. */
  function IndexOf(names: seq<string>, w: string): (r: Option<nat>)
    ensures r.Some? ==> r.value < |names| && names[r.value] == w && forall i :: 0 <= i < r.value ==> names[i] != w
    ensures r.None? <==> w !in names
  {
    if names == [] then None
    else if names[0] == w then Some(0)
    else
      var r := IndexOf(names[1..], w);
      if r.None? then None else Some(r.value + 1)
  }

  /** `tag2idx` lookup: the node of a tag already seen, or a new node for it. */
  function Intern1(names: seq<string>, w: string): (r: (seq<string>, nat))
    ensures r.1 < |r.0| && r.0[r.1] == w
    ensures w in names ==> r.0 == names
    ensures w !in names ==> r.0 == names + [w]
  {
    var k := IndexOf(names, w);
    if k.Some? then (names, k.value) else (names + [w], |names|)
  }

  /** The tags of a sequence of lines. */
  function Mentioned(ts: seq<Triple>): set<string>
  {
    if ts == [] then {} else {ts[0].0, ts[0].1} + Mentioned(ts[1..])
  }

  /** The nodes and `add_edge` calls of `read_edgl`: each line's tags are looked up, new
      ones becoming nodes in order of first appearance. `names` are the nodes so far. */
  function Intern(ts: seq<Triple>, names: seq<string>): (r: (seq<string>, seq<Pair<string>>))
    ensures |r.1| == |ts| && InRange(r.1, |r.0|)
    ensures |names| <= |r.0| && r.0[..|names|] == names
    ensures forall i :: 0 <= i < |ts| ==> r.0[r.1[i].0] == ts[i].0 && r.0[r.1[i].1] == ts[i].1 && r.1[i].2 == ts[i].2
    decreases |ts|
  {
    if ts == [] then (names, [])
    else
      var (n1, u) := Intern1(names, ts[0].0);
      var (n2, v) := Intern1(n1, ts[0].1);
      var (n3, ps) := Intern(ts[1..], n2);
      assert n3[..|n1|] == n1 by {
        assert n3[..|n1|] == n3[..|n2|][..|n1|];
      }
      assert n3[u] == ts[0].0 && n3[v] == ts[0].1 by {
        assert n3[u] == n3[..|n2|][u];
        assert n3[v] == n3[..|n2|][v];
      }
      (n3, [(u, v, ts[0].2)] + ps)
  }

  /** Each tag becomes one node: distinct nodes so far stay distinct. */
  lemma {:induction false} InternDistinct(ts: seq<Triple>, names: seq<string>)
    requires Distinct(names)
    ensures Distinct(Intern(ts, names).0)
    decreases |ts|
  {
    if ts != [] {
      var n1 := Intern1(names, ts[0].0).0;
      var n2 := Intern1(n1, ts[0].1).0;
      AppendDistinct(names, ts[0].0);
      AppendDistinct(n1, ts[0].1);
      InternDistinct(ts[1..], n2);
    }
  }

  lemma AppendDistinct(names: seq<string>, w: string)
    requires Distinct(names)
    ensures Distinct(Intern1(names, w).0)
  {
  }

  /** The nodes added are exactly the tags the lines mention and were not known. */
  lemma {:induction false} InternMentioned(ts: seq<Triple>, names: seq<string>)
    ensures var r := Intern(ts, names).0;
      && (forall k :: |names| <= k < |r| ==> r[k] in Mentioned(ts))
      && (forall w :: w in Mentioned(ts) ==> w in r)
    decreases |ts|
  {
    if ts != [] {
      var r := Intern(ts, names).0;
      var n1 := Intern1(names, ts[0].0).0;
      var n2 := Intern1(n1, ts[0].1).0;
      InternMentioned(ts[1..], n2);
      assert r == Intern(ts[1..], n2).0;
      forall k | |names| <= k < |r|
        ensures r[k] in Mentioned(ts)
      {
        if k < |n2| {
          assert r[k] == r[..|n2|][k];
        }
      }
      forall w | w in Mentioned(ts)
        ensures w in r
      {
        if w !in Mentioned(ts[1..]) {
          assert w in n2;
          var k :| 0 <= k < |n2| && n2[k] == w;
          assert r[..|n2|][k] == w;
        }
      }
    }
  }

  /** `read_edgl` on a fresh graph: the nodes are the tags in order of first appearance,
      the pairs are added line by line. */
  function ReadEdgl(s: string): (r: Outcome<Graph<string, string>>)
    ensures r.Failed? <==> ParseEdgl(s).Failed?
    ensures r.Done? ==> Distinct(NodeTags(r.value))
  {
    var ts := ParseEdgl(s);
    if ts.Failed? then Failed(ts.reason)
    else
      InternDistinct(ts.value, []);
      Done(Build(Intern(ts.value, []).0, Intern(ts.value, []).1))
  }

  /** The nodes of the edge-list reader: one per tag the lines mention. */
  lemma EdglNodes(ts: seq<Triple>)
    ensures Distinct(Intern(ts, []).0)
    ensures forall w :: w in Intern(ts, []).0 <==> w in Mentioned(ts)
  {
    InternDistinct(ts, []);
    InternMentioned(ts, []);
  }

  /** The pairs of the edge-list reader: one from the node of `a` to the node of `b`
      exactly when some line names `a` and then `b`. */
  lemma EdglPair(ts: seq<Triple>, u: nat, v: nat)
    requires u < |Intern(ts, []).0| && v < |Intern(ts, []).0|
    ensures var names := Intern(ts, []).0;
      v in LinkAll(NoRows(|names|), Intern(ts, []).1, false)[u] <==>
      (exists i :: 0 <= i < |ts| && ts[i].0 == names[u] && ts[i].1 == names[v])
  {
    var names := Intern(ts, []).0;
    var pairs := Intern(ts, []).1;
    InternDistinct(ts, []);
    LinkAllKeys(NoRows(|names|), pairs, false, u, v);
    if Named(pairs, u, v, false) {
      var p :| p in pairs && SamePair(p, u, v, false);
      var i :| 0 <= i < |pairs| && pairs[i] == p;
      assert ts[i].0 == names[u] && ts[i].1 == names[v];
    }
    if exists i :: 0 <= i < |ts| && ts[i].0 == names[u] && ts[i].1 == names[v] {
      var i :| 0 <= i < |ts| && ts[i].0 == names[u] && ts[i].1 == names[v];
      assert names[pairs[i].0] == names[u] && names[pairs[i].1] == names[v];
      assert pairs[i] in pairs && SamePair(pairs[i], u, v, false);
    }
  }

}

=== FILE: graph_io_laws.dfy ===
/** Laws of the text formats of networks/io.H: what `read_ladj` and `read_edgl` give
    back for the text `write_ladj` and `write_edgl` print, from single tokens up to
    whole graphs. */
module GraphIoLaws {
  import opened Common
  import opened Text
  import opened Stl
  import opened AdjList
  import opened GraphIo

  // ---------------------------------------------------------------------------
  // Reading back what write_ladj wrote

  ghost predicate CleanTags(tags: seq<string>, adj: seq<map<nat, string>>)
  {
    && (forall k :: 0 <= k < |tags| ==> Clean(tags[k]))
    && (forall u, v :: 0 <= u < |adj| && v in adj[u] ==> Clean(adj[u][v]))
  }

  /** One written neighbour, followed by a blank or a line end, is read back. */
  lemma EdgeRoundTrip(v: nat, et: string, n: nat, rest: string)
    requires v < n && Clean(et)
    requires rest == [] || rest[0] == ' ' || rest[0] == '\n'
    ensures ReadEdge(NatToString(v) + TagText(et) + rest, n) == Done((v, et, rest))
  {
    var tail := TagText(et) + rest;
    assert tail == [] || !IsDigit(tail[0]) by {
      if et != [] {
        assert tail[0] == '[';
      }
    }
    ReadUnsignedWritten(v, tail);
    ReadTagWritten(et, rest);
    Assoc(NatToString(v), TagText(et), rest);
  }

  /** Concatenation does not depend on grouping. */
  lemma Assoc<T>(a: seq<T>, b: seq<T>, c: seq<T>)
    ensures a + b + c == a + (b + c)
  {
  }

  /** A written neighbour list reads back as its pairs, stopping at the line end. */
  lemma {:induction false} EdgesRoundTrip(ps: seq<Pair<string>>, n: nat, u: nat, more: string)
    requires forall i :: 0 <= i < |ps| ==> ps[i].0 == u && ps[i].1 < n && Clean(ps[i].2)
    requires more == [] || more[0] == '\n'
    ensures ReadEdges(EdgeText(ps) + more, n, u) == Done((ps, more))
    decreases |ps|
  {
    if ps == [] {
      assert EdgeText(ps) + more == more;
      LineEnd(more, n, u);
    } else {
      var p := ps[0];
      var d, tg, rest := NatToString(p.1), TagText(p.2), EdgeText(ps[1..]) + more;
      assert rest == [] || rest[0] == ' ' || rest[0] == '\n' by {
        if ps[1..] != [] {
          assert rest[0] == ' ';
        }
      }
      Assoc(" " + d + tg, EdgeText(ps[1..]), more);
      Assoc(" " + d, tg, rest);
      Assoc(" ", d, tg + rest);
      Assoc(d, tg, rest);
      var t := d + (tg + rest);
      assert EdgeText(ps) + more == " " + t;
      EdgeRoundTrip(p.1, p.2, n, rest);
      EdgesRoundTrip(ps[1..], n, u, more);
      ReadEdgesStep(t, n, u, p, rest, ps[1..], more);
      ConsTail(ps);
    }
  }

  /** At a line end no neighbour is read. */
  lemma LineEnd(more: string, n: nat, u: nat)
    requires more == [] || more[0] == '\n'
    ensures ReadEdges(more, n, u) == Done(([], more))
  {
  }

  lemma ConsTail<T>(s: seq<T>)
    requires s != []
    ensures [s[0]] + s[1..] == s
  {
  }

  lemma ReadEdgesStep(t: string, n: nat, u: nat, p: Pair<string>, rest: string, ps: seq<Pair<string>>, more: string)
    requires t != [] && IsDigit(t[0]) && p.0 == u
    requires ReadEdge(t, n) == Done((p.1, p.2, rest)) && ReadEdges(rest, n, u) == Done((ps, more))
    ensures ReadEdges(" " + t, n, u) == Done(([p] + ps, more))
  {
    BlankThenDigit(t);
  }

  lemma BlankThenDigit(t: string)
    requires t != [] && IsDigit(t[0])
    ensures EatWhite(" " + t) == t
  {
    assert (" " + t)[1..] == t;
  }

  /** Unfolds one vertex line of `read_ladj` in terms of what its parts read. */
  lemma ReadVerticesStep(s: string, n: nat, last: int, tags: seq<string>, pairs: seq<Pair<string>>,
                         u: nat, s1: string, t: string, s2: string, ps: seq<Pair<string>>, s3: string)
    requires |tags| == n && InRange(pairs, n)
    requires ReadUnsigned(s) == Some((u, s1)) && VertexCheck(last, u, n) == None
    requires ReadTag(s1) == Some((t, s2)) && ReadEdges(s2, n, u) == Done((ps, s3))
    ensures u < n && InRange(pairs + ps, n)
    ensures ReadVertices(s, n, last, tags, pairs) == ReadVertices(s3, n, u, tags[u := t], pairs + ps)
  {
    OnRowInRange(pairs, ps, u, n);
  }

  /** The text of line `k` and the lines after it, grouped as the reader takes it apart. */
  lemma LadjLinesSplit(tags: seq<string>, adj: seq<map<nat, string>>, k: nat)
    requires |tags| == |adj| && k < |adj|
    ensures var rest := "\n" + LadjLines(tags, adj, k + 1);
      LadjLines(tags, adj, k) ==
        NatToString(k) + (TagText(tags[k]) + (EdgeText(RowPairs(k, adj[k], 0, |adj|)) + rest))
  {
    var d, tg, e := NatToString(k), TagText(tags[k]), EdgeText(RowPairs(k, adj[k], 0, |adj|));
    var rest := "\n" + LadjLines(tags, adj, k + 1);
    Assoc(d + tg + e, "\n", LadjLines(tags, adj, k + 1));
    Assoc(d + tg, e, rest);
    Assoc(d, tg, e + rest);
  }

  /** The tags gathered after `k` lines: the written ones, then the empty defaults. */
  function TagsSoFar(tags: seq<string>, k: nat): (acc: seq<string>)
    requires k <= |tags|
    ensures |acc| == |tags|
  {
    tags[..k] + seq(|tags| - k, _ => "")
  }

  lemma TagsSoFarStep(tags: seq<string>, k: nat)
    requires k < |tags|
    ensures TagsSoFar(tags, k)[k := tags[k]] == TagsSoFar(tags, k + 1)
  {
    var a, b := TagsSoFar(tags, k)[k := tags[k]], TagsSoFar(tags, k + 1);
    assert forall i :: 0 <= i < |tags| ==> a[i] == b[i];
  }

  /** The first character of a written line after its number: never a digit. */
  lemma AfterNumber(t: string, ps: seq<Pair<string>>, rest: string)
    requires rest != [] && rest[0] == '\n'
    ensures var x := TagText(t) + (EdgeText(ps) + rest); x != [] && !IsDigit(x[0]) && (t == [] ==> x[0] != '[')
  {
    var x := TagText(t) + (EdgeText(ps) + rest);
    if t != [] {
      assert x[0] == '[';
    } else if ps != [] {
      assert x[0] == ' ';
    } else {
      assert x == rest;
    }
  }

  /** The three parts of a written vertex line, read one after the other: the vertex
      number, its tag and its neighbours, up to the line end. */
  lemma LineParts(u: nat, t: string, ps: seq<Pair<string>>, n: nat, rest: string)
    requires Clean(t) && rest != [] && rest[0] == '\n'
    requires forall i :: 0 <= i < |ps| ==> ps[i].0 == u && ps[i].1 < n && Clean(ps[i].2)
    ensures var s2 := EdgeText(ps) + rest; var s1 := TagText(t) + s2;
      && ReadUnsigned("\n" + (NatToString(u) + s1)) == Some((u, s1))
      && ReadTag(s1) == Some((t, s2))
      && ReadEdges(s2, n, u) == Done((ps, rest))
  {
    var s2 := EdgeText(ps) + rest;
    var s1 := TagText(t) + s2;
    ReadUnsignedAfterSpace('\n', NatToString(u) + s1);
    AfterNumber(t, ps, rest);
    ReadUnsignedWritten(u, s1);
    ReadTagWritten(t, s2);
    EdgesRoundTrip(ps, n, u, rest);
  }

  /** Reading one written vertex line. */
  lemma LineRoundTrip(tags: seq<string>, adj: seq<map<nat, string>>, k: nat, pairs: seq<Pair<string>>)
    requires |tags| == |adj| && CleanTags(tags, adj) && k < |adj| && InRange(pairs, |adj|)
    ensures var row := RowPairs(k, adj[k], 0, |adj|);
      && InRange(pairs + row, |adj|)
      && ReadVertices("\n" + LadjLines(tags, adj, k), |adj|, k - 1, TagsSoFar(tags, k), pairs)
         == ReadVertices("\n" + LadjLines(tags, adj, k + 1), |adj|, k, TagsSoFar(tags, k + 1), pairs + row)
  {
    var n := |adj|;
    var row := RowPairs(k, adj[k], 0, n);
    var rest := "\n" + LadjLines(tags, adj, k + 1);
    var s2 := EdgeText(row) + rest;
    var s1 := TagText(tags[k]) + s2;
    LadjLinesSplit(tags, adj, k);
    LineParts(k, tags[k], row, n, rest);
    ReadVerticesStep("\n" + LadjLines(tags, adj, k), n, k - 1, TagsSoFar(tags, k), pairs, k, s1, tags[k], s2, row, rest);
    TagsSoFarStep(tags, k);
  }

  /** Reading back the vertex lines from line `k` on, after `k` lines have been read. */
  lemma {:induction false} LinesRoundTrip(tags: seq<string>, adj: seq<map<nat, string>>, k: nat, pairs: seq<Pair<string>>)
    requires |tags| == |adj| && CleanTags(tags, adj) && k <= |adj| && InRange(pairs, |adj|)
    ensures InRange(pairs + PairsFrom(adj, k), |adj|)
    ensures ReadVertices("\n" + LadjLines(tags, adj, k), |adj|, k - 1, TagsSoFar(tags, k), pairs)
         == Done(Lists(tags, pairs + PairsFrom(adj, k)))
    decreases |adj| - k
  {
    if k == |adj| {
      assert "\n" + LadjLines(tags, adj, k) == "\n";
      assert TagsSoFar(tags, k) == tags;
      assert pairs + PairsFrom(adj, k) == pairs;
      assert ReadUnsigned("\n") == None;
    } else {
      var row := RowPairs(k, adj[k], 0, |adj|);
      LineRoundTrip(tags, adj, k, pairs);
      LinesRoundTrip(tags, adj, k + 1, pairs + row);
      Assoc(pairs, row, PairsFrom(adj, k + 1));
    }
  }

  /** `read_ladj` of what `write_ladj` wrote gives back every node tag and the stored
      pairs in scan order, when every tag is empty or a single token without ']'. */
  lemma LadjRoundTrip(tags: seq<string>, adj: seq<map<nat, string>>)
    requires |tags| == |adj| && CleanTags(tags, adj)
    ensures ReadLadj(WriteLadj(tags, adj)) == Done(Lists(tags, StoredPairs(adj)))
  {
    var n := |adj|;
    var lines := LadjLines(tags, adj, 0);
    Assoc(NatToString(n), "\n", lines);
    ReadUnsignedWritten(n, "\n" + lines);
    ReadLadjStep(WriteLadj(tags, adj), n, "\n" + lines);
    LinesRoundTrip(tags, adj, 0, []);
    TagsSoFarStart(tags);
    assert [] + PairsFrom(adj, 0) == StoredPairs(adj);
  }

  /** The size read, then the vertex lines from a clean start. */
  lemma ReadLadjStep(s: string, n: nat, rest: string)
    requires ReadUnsigned(s) == Some((n, rest))
    ensures ReadLadj(s) == ReadVertices(rest, n, -1, seq(n, _ => ""), [])
  {
  }

  lemma TagsSoFarStart(tags: seq<string>)
    ensures TagsSoFar(tags, 0) == seq(|tags|, _ => "")
  {
    assert TagsSoFar(tags, 0) == seq(|tags|, _ => "");
  }


  /** Reading back a written number followed by anything but a digit. */
  lemma ReadUnsignedWritten(m: nat, rest: string)
    requires rest == [] || !IsDigit(rest[0])
    ensures ReadUnsigned(NatToString(m) + rest) == Some((m, rest))
  {
    var s := NatToString(m) + rest;
    assert s[0] == NatToString(m)[0];
    SkipNoSpace(s);
    ReadDigitsWritten(m, rest);
  }

  /** A line end in front of a number is skipped. */
  lemma ReadUnsignedAfterSpace(c: char, s: string)
    requires IsSpace(c)
    ensures ReadUnsigned([c] + s) == ReadUnsigned(s)
  {
    assert ([c] + s)[1..] == s;
    assert SkipSpace([c] + s) == SkipSpace(s);
  }


  /** Reading back a written tag, when what follows cannot be taken for a '['. */
  lemma ReadTagWritten(t: string, rest: string)
    requires Clean(t) && (t == [] ==> rest == [] || rest[0] != '[')
    ensures ReadTag(TagText(t) + rest) == Some((t, rest))
  {
    if t == [] {
      assert TagText(t) + rest == rest;
    } else {
      var s := TagText(t) + rest;
      assert s == "[" + (t + "]" + rest);
      assert s[1..] == t + "]" + rest;
      FindFirst(s[1..], ']', |t|);
      assert s[1..][..|t|] == t;
      assert s[1..][|t| + 1..] == rest;
      ReadWordWritten(t, "");
      assert t + "" == t;
    }
  }


  /** Adding a graph's stored pairs in scan order to empty rows rebuilds its rows. */
  lemma Rebuilt<E>(adj: seq<map<nat, E>>)
    requires Bounded(adj)
    ensures LinkAll(NoRows(|adj|), StoredPairs(adj), false) == adj
  {
    var ps := StoredPairs(adj);
    var a := LinkAll(NoRows(|adj|), ps, false);
    assert Consistent(ps, false) by {
      forall p, q | p in ps && q in ps && SamePair(p, q.0, q.1, false)
        ensures p.2 == q.2
      {
        StoredPairsSound(adj, p);
        StoredPairsSound(adj, q);
      }
    }
    forall u | 0 <= u < |adj|
      ensures a[u] == adj[u]
    {
      forall v
        ensures v in a[u] <==> v in adj[u]
      {
        LinkAllKeys(NoRows(|adj|), ps, false, u, v);
        if v in adj[u] {
          StoredPairsComplete(adj, u, v);
        }
        if Named(ps, u, v, false) {
          var p :| p in ps && SamePair(p, u, v, false);
          StoredPairsSound(adj, p);
        }
      }
      forall v | v in adj[u]
        ensures a[u][v] == adj[u][v]
      {
        StoredPairsComplete(adj, u, v);
        LinkAllTag(NoRows(|adj|), ps, false, (u, v, adj[u][v]));
      }
    }
  }

  /** Writing a graph in the adjacency-list format and reading it back gives the same
      rows and node tags; the graph read is undirected exactly when every pair has its
      mirror, so an undirected graph stays undirected and a directed one whose pairs
      happen to be mirrored becomes undirected. */
  lemma LadjGraphRoundTrip(g: Graph<string, string>)
    requires Valid(g) && CleanTags(NodeTags(g), g.adj)
    ensures var r := ReadLadjGraph(WriteLadj(NodeTags(g), g.adj));
      && r.Done? && r.value.adj == g.adj && NodeTags(r.value) == NodeTags(g)
      && (r.value.undirected <==> Symmetric(g.adj))
  {
    ValidShape(g);
    LadjRoundTrip(NodeTags(g), g.adj);
    Rebuilt(g.adj);
  }


  // ---------------------------------------------------------------------------
  // Reading back what write_edgl wrote

  /** The lines `write_edgl` prints for pairs, as `read_edgl` reads them. */
  function Triples(tags: seq<string>, ps: seq<Pair<string>>): (ts: seq<Triple>)
    requires InRange(ps, |tags|)
    ensures |ts| == |ps|
    ensures forall i :: 0 <= i < |ps| ==> ts[i] == (tags[ps[i].0], tags[ps[i].1], ps[i].2)
  {
    seq(|ps|, i requires 0 <= i < |ps| => (tags[ps[i].0], tags[ps[i].1], ps[i].2))
  }

  /** One printed line, without its line end, reads back as its three columns. */
  lemma ParseLineWritten(a: string, b: string, t: string)
    requires IsWord(a) && IsWord(b) && (t == [] || IsWord(t))
    ensures ParseLine(a + " " + b + (if t == [] then "" else " " + t)) == Done((a, b, t))
  {
    var x := if t == [] then "" else " " + t;
    Assoc(a + " ", b, x);
    Assoc(a, " ", b + x);
    ReadWordWritten(a, " " + (b + x));
    ReadAfterSpace(' ', b + x);
    ReadWordWritten(b, x);
    if t != [] {
      ReadAfterSpace(' ', t);
      ReadWordWritten(t, "");
      assert t + "" == t;
    }
  }

  /** The length of a line without line ends followed by one. */
  lemma {:induction false} LineLengthOf(line: string, more: string)
    requires forall i :: 0 <= i < |line| ==> line[i] != '\n'
    ensures LineLength(line + "\n" + more) == |line|
    decreases |line|
  {
    if line != [] {
      assert (line + "\n" + more)[1..] == line[1..] + "\n" + more;
      LineLengthOf(line[1..], more);
    } else {
      assert (line + "\n" + more)[0] == '\n';
    }
  }

  /** A line without line ends in front of the rest of the text is split off whole. */
  lemma SplitLine(line: string, more: string)
    requires forall i :: 0 <= i < |line| ==> line[i] != '\n'
    ensures Lines(line + "\n" + more) == [line] + Lines(more)
  {
    var s := line + "\n" + more;
    LineLengthOf(line, more);
    assert s[..|line|] == line;
    assert s[|line| + 1..] == more;
  }

  /** The lines printed for pairs, without their line ends. */
  function LineTexts(tags: seq<string>, ps: seq<Pair<string>>): (ls: seq<string>)
    requires InRange(ps, |tags|)
    ensures |ls| == |ps|
  {
    seq(|ps|, i requires 0 <= i < |ps| =>
      tags[ps[i].0] + " " + tags[ps[i].1] + (if ps[i].2 == [] then "" else " " + ps[i].2))
  }

  /** Printed lines of tokens hold no line end. */
  lemma NoLineEnd(a: string, b: string, t: string)
    requires IsWord(a) && IsWord(b) && (t == [] || IsWord(t))
    ensures var line := a + " " + b + (if t == [] then "" else " " + t);
      line != [] && forall i :: 0 <= i < |line| ==> line[i] != '\n'
  {
    var line := a + " " + b + (if t == [] then "" else " " + t);
    forall i | 0 <= i < |line|
      ensures line[i] != '\n'
    {
      if i < |a| {
        assert line[i] == a[i];
      } else if i == |a| {
      } else if i < |a| + 1 + |b| {
        assert line[i] == b[i - |a| - 1];
      } else if i > |a| + 1 + |b| {
        assert line[i] == t[i - |a| - 2 - |b|];
      }
    }
  }

  /** Splitting the printed text gives the printed lines. */
  lemma {:induction false} EdglLines(tags: seq<string>, ps: seq<Pair<string>>)
    requires InRange(ps, |tags|)
    requires forall i :: 0 <= i < |ps| ==> IsWord(tags[ps[i].0]) && IsWord(tags[ps[i].1]) && (ps[i].2 == [] || IsWord(ps[i].2))
    ensures Lines(EdglText(tags, ps)) == LineTexts(tags, ps)
    decreases |ps|
  {
    if ps != [] {
      var p := ps[0];
      var a, b, t := tags[p.0], tags[p.1], p.2;
      var line := a + " " + b + (if t == [] then "" else " " + t);
      var more := EdglText(tags, ps[1..]);
      NoLineEnd(a, b, t);
      assert EdglText(tags, ps) == line + "\n" + more;
      SplitLine(line, more);
      EdglLines(tags, ps[1..]);
      assert LineTexts(tags, ps) == [line] + LineTexts(tags, ps[1..]);
    } else {
      assert EdglText(tags, ps) == [];
    }
  }

  /** Reading the printed lines gives each pair's tags. */
  lemma {:induction false} PrintedLinesRead(tags: seq<string>, ps: seq<Pair<string>>)
    requires InRange(ps, |tags|)
    requires forall i :: 0 <= i < |ps| ==> IsWord(tags[ps[i].0]) && IsWord(tags[ps[i].1]) && (ps[i].2 == [] || IsWord(ps[i].2))
    ensures ParseLines(LineTexts(tags, ps)) == Done(Triples(tags, ps))
    decreases |ps|
  {
    if ps != [] {
      var p := ps[0];
      NoLineEnd(tags[p.0], tags[p.1], p.2);
      ParseLineWritten(tags[p.0], tags[p.1], p.2);
      PrintedLinesRead(tags, ps[1..]);
      PrintedStep(tags, ps);
      ParseLinesStep(LineTexts(tags, ps));
    }
  }

  lemma PrintedStep(tags: seq<string>, ps: seq<Pair<string>>)
    requires InRange(ps, |tags|) && ps != []
    ensures LineTexts(tags, ps)[1..] == LineTexts(tags, ps[1..])
    ensures [Triples(tags, ps)[0]] + Triples(tags, ps[1..]) == Triples(tags, ps)
  {
    assert LineTexts(tags, ps)[1..] == LineTexts(tags, ps[1..]);
    assert [Triples(tags, ps)[0]] + Triples(tags, ps[1..]) == Triples(tags, ps);
  }

  /** A first line that is not empty is read, then the rest. */
  lemma ParseLinesStep(ls: seq<string>)
    requires ls != [] && ls[0] != []
    ensures ParseLines(ls) ==
      var t := ParseLine(ls[0]);
      if t.Failed? then Failed(t.reason)
      else var r := ParseLines(ls[1..]); if r.Failed? then r else Done([t.value] + r.value)
  {
  }

  /** Reading back the lines printed for pairs whose tags are tokens (edge tags may be
      empty) gives each pair's tags in order. */
  lemma EdglTextRoundTrip(tags: seq<string>, ps: seq<Pair<string>>)
    requires InRange(ps, |tags|)
    requires forall i :: 0 <= i < |ps| ==> IsWord(tags[ps[i].0]) && IsWord(tags[ps[i].1]) && (ps[i].2 == [] || IsWord(ps[i].2))
    ensures ParseEdgl(EdglText(tags, ps)) == Done(Triples(tags, ps))
  {
    EdglLines(tags, ps);
    PrintedLinesRead(tags, ps);
  }

  /** Nodes whose tags are tokens and edges whose tags are tokens or empty: what the
      edge-list format can carry. */
  ghost predicate EdglTags(tags: seq<string>, adj: seq<map<nat, string>>)
  {
    && (forall k :: 0 <= k < |tags| ==> IsWord(tags[k]))
    && (forall u, v :: 0 <= u < |adj| && v in adj[u] ==> adj[u][v] == [] || IsWord(adj[u][v]))
  }

  /** `read_edgl` of what `write_edgl` wrote reads one line per stored pair, in scan
      order, with the tags of its nodes and its edge tag. */
  lemma EdglRoundTrip(tags: seq<string>, adj: seq<map<nat, string>>)
    requires |tags| == |adj| && EdglTags(tags, adj)
    ensures ParseEdgl(WriteEdgl(tags, adj)) == Done(Triples(tags, StoredPairs(adj)))
  {
    EdglTextRoundTrip(tags, StoredPairs(adj));
  }

  /** Some pair of `adj` runs from a node tagged `x` to a node tagged `y`. */
  ghost predicate TaggedPair(tags: seq<string>, adj: seq<map<nat, string>>, x: string, y: string)
  {
    exists a: nat, b: nat :: a < |adj| && a < |tags| && b < |tags| && b in adj[a] && tags[a] == x && tags[b] == y
  }

  /** The printed lines name exactly the tagged pairs of the graph. */
  lemma TriplesTagged(tags: seq<string>, adj: seq<map<nat, string>>, x: string, y: string)
    requires |tags| == |adj|
    ensures var ts := Triples(tags, StoredPairs(adj));
      (exists i :: 0 <= i < |ts| && ts[i].0 == x && ts[i].1 == y) <==> TaggedPair(tags, adj, x, y)
  {
    var ps := StoredPairs(adj);
    var ts := Triples(tags, ps);
    if exists i :: 0 <= i < |ts| && ts[i].0 == x && ts[i].1 == y {
      var i :| 0 <= i < |ts| && ts[i].0 == x && ts[i].1 == y;
      assert ps[i].1 in adj[ps[i].0];
    }
    if TaggedPair(tags, adj, x, y) {
      var a: nat, b: nat :| a < |adj| && a < |tags| && b < |tags| && b in adj[a] && tags[a] == x && tags[b] == y;
      StoredPairsComplete(adj, a, b);
      var i :| 0 <= i < |ps| && ps[i] == (a, b, adj[a][b]);
      assert ts[i].0 == x && ts[i].1 == y;
    }
  }

  /** The names and rows the edge-list reader builds from the printed lines. */
  lemma EdglPairTagged(tags: seq<string>, adj: seq<map<nat, string>>, u: nat, v: nat)
    requires |tags| == |adj|
    requires var names := Intern(Triples(tags, StoredPairs(adj)), []).0; u < |names| && v < |names|
    ensures var ts := Triples(tags, StoredPairs(adj));
      var names := Intern(ts, []).0;
      v in LinkAll(NoRows(|names|), Intern(ts, []).1, false)[u] <==> TaggedPair(tags, adj, names[u], names[v])
  {
    var ts := Triples(tags, StoredPairs(adj));
    var names := Intern(ts, []).0;
    EdglPair(ts, u, v);
    TriplesTagged(tags, adj, names[u], names[v]);
  }

  lemma EdglReadBack(g: Graph<string, string>)
    requires Valid(g) && EdglTags(NodeTags(g), g.adj)
    ensures var r := ReadEdgl(WriteEdgl(NodeTags(g), g.adj));
      var ts := Triples(NodeTags(g), StoredPairs(g.adj));
      && r.Done? && Distinct(NodeTags(r.value))
      && NodeTags(r.value) == Intern(ts, []).0
      && r.value.adj == LinkAll(NoRows(|Intern(ts, []).0|), Intern(ts, []).1, false)
  {
    ValidShape(g);
    EdglRoundTrip(NodeTags(g), g.adj);
  }

  /** Writing a graph in the edge-list format and reading it back gives one node per tag,
      and a pair between two nodes of the graph read exactly when the original has a
      pair between nodes carrying their tags. Node numbers follow the order in which
      tags first appear and nodes without pairs are lost, so the graph comes back up to
      renaming by tag. */
  lemma EdglGraphRoundTrip(g: Graph<string, string>)
    requires Valid(g) && EdglTags(NodeTags(g), g.adj)
    ensures var r := ReadEdgl(WriteEdgl(NodeTags(g), g.adj));
      && r.Done? && Distinct(NodeTags(r.value))
      && forall u: nat, v: nat :: u < |r.value.adj| && v < |r.value.adj| ==>
           (v in r.value.adj[u] <==> TaggedPair(NodeTags(g), g.adj, NodeTags(r.value)[u], NodeTags(r.value)[v]))
  {
    EdglReadBack(g);
    ValidShape(g);
    forall u: nat, v: nat | u < |ReadEdgl(WriteEdgl(NodeTags(g), g.adj)).value.adj| && v < |ReadEdgl(WriteEdgl(NodeTags(g), g.adj)).value.adj|
      ensures var r := ReadEdgl(WriteEdgl(NodeTags(g), g.adj)).value;
        v in r.adj[u] <==> TaggedPair(NodeTags(g), g.adj, NodeTags(r)[u], NodeTags(r)[v])
    {
      EdglPairTagged(NodeTags(g), g.adj, u, v);
    }
  }
}

=== FILE: hex.dfy ===
/** The hexadecimal image data of graphics/postscript.C: `print_hex` writes each value
    below 256 as two lower-case hexadecimal digits, high nibble first. */
module Hex {
  import opened Common

  /** The `int2hex` table. */
  const Int2Hex: string := "0123456789abcdef"

  predicate IsHexDigit(c: char)
  {
    '0' <= c <= '9' || 'a' <= c <= 'f'
  }

  /** The value of a digit of `Int2Hex`: the inverse of the table. */
  function HexValue(c: char): (k: nat)
    requires IsHexDigit(c)
    ensures k < 16 && Int2Hex[k] == c
  {
    if c <= '9' then (c as int - '0' as int) as nat else (c as int - 'a' as int + 10) as nat
  }

  lemma HexValueOfDigit(k: nat)
    requires k < 16
    ensures IsHexDigit(Int2Hex[k]) && HexValue(Int2Hex[k]) == k
  {
  }

  /** `print_hex(o, v)`: the text written for `v`. The source asserts every value is below
      256. Value `i` is written at positions 2i and 2i + 1, high nibble first, so the
      output keeps the order of the input. */
  function PrintHex(v: seq<nat>): (s: string)
    requires forall i :: 0 <= i < |v| ==> v[i] < 256
    ensures |s| == 2 * |v|
    ensures forall i :: 0 <= i < |v| ==> s[2 * i] == Int2Hex[v[i] / 16] && s[2 * i + 1] == Int2Hex[v[i] % 16]
  {
    if v == [] then []
    else
      var rest := PrintHex(v[1..]);
      PrintHexCons(v, rest);
      [Int2Hex[v[0] / 16], Int2Hex[v[0] % 16]] + rest
  }

  /** The digits of the first value in front of the text of the others place every value. */
  lemma PrintHexCons(v: seq<nat>, rest: string)
    requires |v| > 0 && forall i :: 0 <= i < |v| ==> v[i] < 256
    requires |rest| == 2 * (|v| - 1)
    requires forall i :: 0 <= i < |v| - 1 ==> rest[2 * i] == Int2Hex[v[1..][i] / 16] && rest[2 * i + 1] == Int2Hex[v[1..][i] % 16]
    ensures var s := [Int2Hex[v[0] / 16], Int2Hex[v[0] % 16]] + rest;
      forall i :: 0 <= i < |v| ==> s[2 * i] == Int2Hex[v[i] / 16] && s[2 * i + 1] == Int2Hex[v[i] % 16]
  {
    var s := [Int2Hex[v[0] / 16], Int2Hex[v[0] % 16]] + rest;
    forall i | 1 <= i < |v|
      ensures s[2 * i] == Int2Hex[v[i] / 16] && s[2 * i + 1] == Int2Hex[v[i] % 16]
    {
      assert v[i] == v[1..][i - 1];
      assert s[2 * i] == rest[2 * (i - 1)];
      assert s[2 * i + 1] == rest[2 * (i - 1) + 1];
    }
  }

  /** The value of a high and a low nibble. */
  function Byte(hi: nat, lo: nat): (x: nat)
    requires hi < 16 && lo < 16
    ensures x < 256 && x / 16 == hi && x % 16 == lo
  {
    hi * 16 + lo
  }

  /** Reads text back as values, two digits each; `None` unless the text is an even-length
      run of lower-case hexadecimal digits. */
  function ReadHex(s: string): (r: Option<seq<nat>>)
    ensures r.Some? <==> |s| % 2 == 0 && forall i :: 0 <= i < |s| ==> IsHexDigit(s[i])
    ensures r.Some? ==> |r.value| * 2 == |s|
    ensures r.Some? ==> forall i :: 0 <= i < |r.value| ==>
      r.value[i] == Byte(HexValue(s[2 * i]), HexValue(s[2 * i + 1]))
    decreases |s|
  {
    if s == [] then Some([])
    else if |s| < 2 || !IsHexDigit(s[0]) || !IsHexDigit(s[1]) then None
    else
      ReadHexTail(s);
      match ReadHex(s[2..])
      case None => None
      case Some(v) =>
        ReadHexCons(s, v);
        Some([Byte(HexValue(s[0]), HexValue(s[1]))] + v)
  }

  /** Text after two digits is all digits exactly when the whole text is. */
  lemma ReadHexTail(s: string)
    requires |s| >= 2 && IsHexDigit(s[0]) && IsHexDigit(s[1])
    ensures (forall i :: 0 <= i < |s| ==> IsHexDigit(s[i])) <==> forall i :: 0 <= i < |s[2..]| ==> IsHexDigit(s[2..][i])
  {
    assert forall i :: 2 <= i < |s| ==> s[i] == s[2..][i - 2];
  }

  /** The value read from two digits in front of the values read from the rest places
      every value. */
  lemma ReadHexCons(s: string, v: seq<nat>)
    requires |s| >= 2 && IsHexDigit(s[0]) && IsHexDigit(s[1]) && |v| * 2 == |s[2..]|
    requires forall i :: 0 <= i < |s[2..]| ==> IsHexDigit(s[2..][i])
    requires forall i :: 0 <= i < |v| ==> v[i] == Byte(HexValue(s[2..][2 * i]), HexValue(s[2..][2 * i + 1]))
    ensures var r := [Byte(HexValue(s[0]), HexValue(s[1]))] + v;
      forall i :: 0 <= i < |r| ==> r[i] == Byte(HexValue(s[2 * i]), HexValue(s[2 * i + 1]))
  {
    var r := [Byte(HexValue(s[0]), HexValue(s[1]))] + v;
    forall i | 1 <= i < |r|
      ensures r[i] == Byte(HexValue(s[2 * i]), HexValue(s[2 * i + 1]))
    {
      assert r[i] == v[i - 1];
      assert s[2 * i] == s[2..][2 * (i - 1)] && s[2 * i + 1] == s[2..][2 * (i - 1) + 1];
    }
  }

  /** Reading back what `print_hex` wrote gives the values written. */
  lemma {:induction false} HexRoundTrip(v: seq<nat>)
    requires forall i :: 0 <= i < |v| ==> v[i] < 256
    ensures ReadHex(PrintHex(v)) == Some(v)
    decreases |v|
  {
    if v != [] {
      HexRoundTrip(v[1..]);
      DigitPair(v[0]);
      ReadHexFront(Int2Hex[v[0] / 16], Int2Hex[v[0] % 16], PrintHex(v[1..]));
      assert [v[0]] + v[1..] == v;
    }
  }

  /** Two digits in front of readable text read as one more value. */
  lemma ReadHexFront(hi: char, lo: char, s: string)
    requires IsHexDigit(hi) && IsHexDigit(lo) && ReadHex(s).Some?
    ensures ReadHex([hi, lo] + s) == Some([Byte(HexValue(hi), HexValue(lo))] + ReadHex(s).value)
  {
    assert ([hi, lo] + s)[2..] == s;
  }

  /** The two digits of a value below 256 give it back. */
  lemma DigitPair(x: nat)
    requires x < 256
    ensures IsHexDigit(Int2Hex[x / 16]) && IsHexDigit(Int2Hex[x % 16])
    ensures Byte(HexValue(Int2Hex[x / 16]), HexValue(Int2Hex[x % 16])) == x
  {
    HexValueOfDigit(x / 16);
    HexValueOfDigit(x % 16);
  }

  /** Conversely, text that reads back is exactly what `print_hex` writes for the values
      read. */
  lemma {:induction false} HexRoundTripText(s: string)
    requires ReadHex(s).Some?
    ensures PrintHex(ReadHex(s).value) == s
    decreases |s|
  {
    if s != [] {
      var w := ReadHex(s[2..]).value;
      HexRoundTripText(s[2..]);
      var v := ReadHex(s).value;
      assert v == [Byte(HexValue(s[0]), HexValue(s[1]))] + w;
      assert v[1..] == w;
      assert s == [s[0], s[1]] + s[2..];
    }
  }
}

=== FILE: hierclust.dfy ===
/** Agglomerative clustering of a similarity table (networks/hierclust.H): binary branches
    over the table's indices, the scan for the largest weight below the diagonal, the merge
    of two rows and columns into one, the clustering loop, and the two ways a finished tree
    is read back (its leaves in order, the sizes of its branches level by level). The
    table's doubles are taken as exact reals. */
module HierClust {
  import opened Common
  import opened AdjList

  // ---------------------------------------------------------------------------
  // branch

  /** `branch<int>`: a leaf holds one index of the table, a merged branch its two parts. */
  datatype Branch = Leaf(data: int) | Node(left: Branch, right: Branch)

  /** `size()`: 1 for a leaf, the sum of the parts for a merged branch. */
  function Size(b: Branch): (n: int)
    ensures n >= 1
    ensures n == 1 <==> b.Leaf?
  {
    match b
    case Leaf(_) => 1
    case Node(l, r) => Size(l) + Size(r)
  }

  function Max(x: int, y: int): int
  {
    if x >= y then x else y
  }

  /** `depth()`: 1 when the size is 1, otherwise one more than the deeper part. A branch is
      never deeper than it is large, and only a leaf has depth 1. */
  function Depth(b: Branch): (d: int)
    ensures 1 <= d <= Size(b)
    ensures d == 1 <==> b.Leaf?
  {
    if Size(b) == 1 then 1
    else
      match b
      case Leaf(_) => 1
      case Node(l, r) => 1 + Max(Depth(l), Depth(r))
  }

  /** The indices held by the leaves below `b`, with multiplicity. */
  function Leaves(b: Branch): multiset<int>
  {
    match b
    case Leaf(x) => multiset{x}
    case Node(l, r) => Leaves(l) + Leaves(r)
  }

  /** The largest index below `b`. */
  function MaxLeaf(b: Branch): int
  {
    match b
    case Leaf(x) => x
    case Node(l, r) => Max(MaxLeaf(l), MaxLeaf(r))
  }

  /** A branch holds as many indices as its size, and the largest is one of them. */
  lemma {:induction false} LeavesFacts(b: Branch)
    ensures |Leaves(b)| == Size(b)
    ensures MaxLeaf(b) in Leaves(b)
    ensures forall y :: y in Leaves(b) ==> y <= MaxLeaf(b)
  {
    match b
    case Leaf(_) =>
    case Node(l, r) =>
      LeavesFacts(l);
      LeavesFacts(r);
  }

  // ---------------------------------------------------------------------------
  // extract_leafs, extract_order

  /** The leaves below `b`, the right part of every merged branch before its left part. */
  function Order(b: Branch): seq<int>
  {
    match b
    case Leaf(x) => [x]
    case Node(l, r) => Order(r) + Order(l)
  }

  /** That order lists every leaf once: as many entries as the size, the same indices. */
  lemma {:induction false} OrderFacts(b: Branch)
    ensures |Order(b)| == Size(b) && multiset(Order(b)) == Leaves(b)
  {
    match b
    case Leaf(_) =>
    case Node(l, r) =>
      OrderFacts(l);
      OrderFacts(r);
  }

  /** `extract_leafs(b, l)`: the recursion that pushes every leaf onto the back of `l`
      leaves `l` in front of the leaves of `b` in that order. */
  function ExtractLeafs(b: Branch, l: seq<int>): (r: seq<int>)
    ensures r == l + Order(b)
  {
    match b
    case Leaf(x) => l + [x]
    case Node(left, right) =>
      var l1 := ExtractLeafs(right, l);
      assert l + Order(b) == (l + Order(right)) + Order(left);
      ExtractLeafs(left, l1)
  }

  /** `extract_order(root, order)`: the leaves of the tree in that order, so each index as
      often as it occurs below the root. */
  function ExtractOrder(root: Branch): (order: seq<int>)
    ensures order == Order(root)
    ensures |order| == Size(root) && multiset(order) == Leaves(root)
  {
    OrderFacts(root);
    ExtractLeafs(root, [])
  }

  // ---------------------------------------------------------------------------
  // extract_sizes

  /** The sizes of the merged branches below `b` (leaves have none), with multiplicity. */
  function InternalSizes(b: Branch): multiset<int>
  {
    match b
    case Leaf(_) => multiset{}
    case Node(l, r) => multiset{Size(b)} + InternalSizes(l) + InternalSizes(r)
  }

  /** A tree of n leaves has n - 1 merged branches, each of size at least 2. */
  lemma {:induction false} InternalSizesCount(b: Branch)
    ensures |InternalSizes(b)| == Size(b) - 1
    ensures forall s :: s in InternalSizes(b) ==> 2 <= s <= Size(b)
  {
    match b
    case Leaf(_) =>
    case Node(l, r) =>
      InternalSizesCount(l);
      InternalSizesCount(r);
  }

  /** The merged-branch sizes still below the branches waiting in a queue. */
  ghost function QueueSizes(q: seq<Branch>): multiset<int>
  {
    if q == [] then multiset{} else InternalSizes(q[0]) + QueueSizes(q[1..])
  }

  lemma {:induction false} QueueSizesAppend(q: seq<Branch>, x: Branch)
    ensures QueueSizes(q + [x]) == QueueSizes(q) + InternalSizes(x)
    decreases |q|
  {
    if q == [] {
      assert [x][1..] == [];
    } else {
      assert (q + [x])[1..] == q[1..] + [x];
      QueueSizesAppend(q[1..], x);
    }
  }

  /** What a branch reports when it reaches the front of the queue: its size when merged. */
  function Reported(b: Branch): (s: seq<int>)
  {
    if b.Node? then [Size(b)] else []
  }

  /** One round of `extract_sizes`: the front branch, when merged, reports its size (unless
      `jump`) and queues its larger part, then its smaller part; then it leaves the queue. */
  method SizesRound(q: seq<Branch>, sizes: seq<int>, jump: bool) returns (q': seq<Branch>, sizes': seq<int>)
    requires q != []
    ensures QueueSizes(q) == multiset(Reported(q[0])) + QueueSizes(q')
    ensures |q'| == |q| + 2 * |Reported(q[0])| - 1
    ensures sizes' == sizes + (if jump then [] else Reported(q[0]))
  {
    var curr := q[0];
    q' := q;
    sizes' := sizes;
    if !curr.Leaf? {
      var r, l := curr.right, curr.left;
      if !jump {
        sizes' := sizes' + [Size(curr)];
      }
      if Size(l) > Size(r) {
        r, l := l, r;
      }
      q' := q' + [r];
      q' := q' + [l];
      QueueAfterNode(q, r, l);
    } else {
      QueueAfterLeaf(q);
      assert sizes' == sizes + [];
    }
    q' := q'[1..];
  }

  lemma QueueAfterNode(q: seq<Branch>, r: Branch, l: Branch)
    requires q != [] && q[0].Node?
    requires (r, l) == (q[0].right, q[0].left) || (r, l) == (q[0].left, q[0].right)
    ensures QueueSizes(q) == multiset{Size(q[0])} + QueueSizes((q + [r] + [l])[1..])
  {
    var rest := q[1..];
    var t := (q + [r] + [l])[1..];
    assert t == rest + [r] + [l];
    QueueSizesAppend(rest, r);
    QueueSizesAppend(rest + [r], l);
  }

  lemma QueueAfterLeaf(q: seq<Branch>)
    requires q != [] && q[0].Leaf?
    ensures QueueSizes(q) == QueueSizes(q[1..])
  {
  }

  lemma Appended<T>(s0: seq<T>, added: seq<T>, x: seq<T>)
    ensures (s0 + added) + x == s0 + (added + x)
    ensures multiset(added + x) == multiset(added) + multiset(x)
  {
  }

  /** `extract_sizes(root, sizes, jump)`: a breadth-first walk from the root that appends
      the size of every merged branch it meets (nothing when `jump`). What was already in the
      list stays in front; what is appended is exactly the merged-branch sizes of the tree,
      the root's own first. */
  method ExtractSizes(root: Branch, sizes0: seq<int>, jump: bool) returns (sizes: seq<int>)
    ensures |sizes| >= |sizes0| && sizes[..|sizes0|] == sizes0
    ensures jump ==> sizes == sizes0
    ensures !jump ==> multiset(sizes[|sizes0|..]) == InternalSizes(root)
    ensures !jump && root.Node? ==> |sizes| > |sizes0| && sizes[|sizes0|] == Size(root)
  {
    var q := [root];
    sizes := sizes0;
    ghost var added: seq<int> := [];
    assert [root][1..] == [];
    while q != []
      invariant sizes == sizes0 + added
      invariant jump ==> added == []
      invariant !jump ==> multiset(added) + QueueSizes(q) == InternalSizes(root)
      invariant !jump && root.Node? && added == [] ==> q == [root]
      invariant !jump && root.Node? && added != [] ==> added[0] == Size(root)
      decreases 2 * |QueueSizes(q)| + |q|
    {
      ghost var x := if jump then [] else Reported(q[0]);
      var q', sizes' := SizesRound(q, sizes, jump);
      Appended(sizes0, added, x);
      added := added + x;
      q, sizes := q', sizes';
    }
    assert sizes[|sizes0|..] == added;
  }

  // ---------------------------------------------------------------------------
  // highest_weight

  /** The scan of `highest_weight` over pairs in (row, column) order: only pairs below the
      diagonal count, and one replaces the kept pair only when its weight is strictly larger;
      the scan starts from (-1, -1) with weight 0. */
  function HighScan(ps: seq<Pair<real>>): (r: ((int, int), real))
    decreases |ps|
  {
    if ps == [] then ((-1, -1), 0.0)
    else
      var prev := HighScan(ps[..|ps| - 1]);
      var p := ps[|ps| - 1];
      if p.1 < p.0 && p.2 > prev.1 then ((p.0 as int, p.1 as int), p.2) else prev
  }

  /** The scan keeps the first below-diagonal pair with the largest weight, provided that
      weight is positive. */
  lemma {:induction false} HighScanFacts(ps: seq<Pair<real>>)
    ensures var (best, mx) := HighScan(ps);
      && mx >= 0.0
      && (forall j :: 0 <= j < |ps| && ps[j].1 < ps[j].0 ==> ps[j].2 <= mx)
      && (best == (-1, -1) <==> forall j :: 0 <= j < |ps| && ps[j].1 < ps[j].0 ==> ps[j].2 <= 0.0)
      && (best != (-1, -1) ==> exists k :: 0 <= k < |ps| && ps[k].1 < ps[k].0 && best == (ps[k].0 as int, ps[k].1 as int)
                                         && ps[k].2 == mx && forall j :: 0 <= j < k && ps[j].1 < ps[j].0 ==> ps[j].2 < mx)
      && (best == (-1, -1) ==> mx == 0.0)
    decreases |ps|
  {
    if ps != [] {
      var init := ps[..|ps| - 1];
      HighScanFacts(init);
      var (best0, mx0) := HighScan(init);
      var p := ps[|ps| - 1];
      assert forall j :: 0 <= j < |ps| - 1 ==> ps[j] == init[j];
      if !(p.1 < p.0 && p.2 > mx0) && best0 != (-1, -1) {
        var k :| 0 <= k < |init| && init[k].1 < init[k].0 && best0 == (init[k].0 as int, init[k].1 as int)
                 && init[k].2 == mx0 && forall j :: 0 <= j < k && init[j].1 < init[j].0 ==> init[j].2 < mx0;
        assert ps[k] == init[k];
      }
    }
  }

  /** `highest_weight(weights)`: rows in ascending order, in each row the columns below the
      row's own index in ascending order. */
  function HighestWeight(w: seq<map<nat, real>>): (h: (int, int))
  {
    HighScan(StoredPairs(w)).0
  }

  /** Some stored weight below the diagonal is positive. */
  ghost predicate HasPositive(w: seq<map<nat, real>>)
  {
    exists r, c :: 0 <= r < |w| && c in w[r] && c < r && w[r][c] > 0.0
  }

  /** (-1, -1) comes back exactly when no weight below the diagonal is positive; any other
      result is a (row, column) pair below the diagonal. */
  lemma HighestWeightNone(w: seq<map<nat, real>>)
    ensures HighestWeight(w) == (-1, -1) <==> !HasPositive(w)
    ensures var h := HighestWeight(w); h == (-1, -1) || 0 <= h.1 < h.0
  {
    var ps := StoredPairs(w);
    HighScanFacts(ps);
    if HighestWeight(w) == (-1, -1) && HasPositive(w) {
      var r, c :| 0 <= r < |w| && c in w[r] && c < r && w[r][c] > 0.0;
      StoredPairsComplete(w, r, c);
    }
  }

  /** Otherwise the result is (row, column) below the diagonal, its weight is positive, at
      least every other below-diagonal weight and larger than every one met earlier in
      (row, column) order. */
  lemma HighestWeightSome(w: seq<map<nat, real>>)
    requires HighestWeight(w) != (-1, -1)
    ensures var h := HighestWeight(w);
      && 0 <= h.1 < h.0 < |w| && h.1 in w[h.0] && w[h.0][h.1] > 0.0
      && (forall r, c :: 0 <= r < |w| && c in w[r] && c < r ==> w[r][c] <= w[h.0][h.1])
      && (forall r, c :: 0 <= r < |w| && c in w[r] && c < r && (r < h.0 || (r == h.0 && c < h.1)) ==>
            w[r][c] < w[h.0][h.1])
  {
    var k := HighestIndex(w);
    ScanBeatsAll(w, k);
  }

  /** The position in the stored pairs of the entry `HighestWeight` picks. */
  lemma HighestIndex(w: seq<map<nat, real>>) returns (k: nat)
    requires HighestWeight(w) != (-1, -1)
    ensures var ps := StoredPairs(w);
      && k < |ps| && ps[k].1 < ps[k].0 && HighestWeight(w) == (ps[k].0 as int, ps[k].1 as int) && ps[k].2 > 0.0
      && (forall j :: 0 <= j < |ps| && ps[j].1 < ps[j].0 ==> ps[j].2 <= ps[k].2)
      && (forall j :: 0 <= j < k && ps[j].1 < ps[j].0 ==> ps[j].2 < ps[k].2)
  {
    var ps := StoredPairs(w);
    HighScanFacts(ps);
    k :| 0 <= k < |ps| && ps[k].1 < ps[k].0 && HighestWeight(w) == (ps[k].0 as int, ps[k].1 as int)
         && ps[k].2 == HighScan(ps).1 && forall j :: 0 <= j < k && ps[j].1 < ps[j].0 ==> ps[j].2 < HighScan(ps).1;
  }

  lemma ScanBeatsAll(w: seq<map<nat, real>>, k: nat)
    requires var ps := StoredPairs(w);
      && k < |ps|
      && (forall j :: 0 <= j < |ps| && ps[j].1 < ps[j].0 ==> ps[j].2 <= ps[k].2)
      && (forall j :: 0 <= j < k && ps[j].1 < ps[j].0 ==> ps[j].2 < ps[k].2)
    ensures var ps := StoredPairs(w);
      && (forall r, c :: 0 <= r < |w| && c in w[r] && c < r ==> w[r][c] <= ps[k].2)
      && (forall r, c :: 0 <= r < |w| && c in w[r] && c < r && (r < ps[k].0 || (r == ps[k].0 && c < ps[k].1)) ==>
            w[r][c] < ps[k].2)
  {
    forall r: nat, c: nat | r < |w| && c in w[r] && c < r
      ensures w[r][c] <= StoredPairs(w)[k].2
      ensures r < StoredPairs(w)[k].0 || (r == StoredPairs(w)[k].0 && c < StoredPairs(w)[k].1) ==> w[r][c] < StoredPairs(w)[k].2
    {
      ScanBeats(w, k, r, c);
    }
  }

  lemma ScanBeats(w: seq<map<nat, real>>, k: nat, r: nat, c: nat)
    requires var ps := StoredPairs(w);
      && k < |ps|
      && (forall j :: 0 <= j < |ps| && ps[j].1 < ps[j].0 ==> ps[j].2 <= ps[k].2)
      && (forall j :: 0 <= j < k && ps[j].1 < ps[j].0 ==> ps[j].2 < ps[k].2)
    requires r < |w| && c in w[r] && c < r
    ensures var ps := StoredPairs(w);
      && w[r][c] <= ps[k].2
      && (r < ps[k].0 || (r == ps[k].0 && c < ps[k].1) ==> w[r][c] < ps[k].2)
  {
    var ps := StoredPairs(w);
    StoredPairsComplete(w, r, c);
    var j :| 0 <= j < |ps| && ps[j] == (r, c, w[r][c]);
    if j > k {
      assert Before(ps[k], ps[j]);
    }
  }

  // ---------------------------------------------------------------------------
  // collapse_rows_columns

  /** A stored weight, 0 when absent. */
  function Get(m: map<nat, real>, k: nat): (x: real)
    ensures k in m ==> x == m[k]
    ensures k !in m ==> x == 0.0
  {
    if k in m then m[k] else 0.0
  }

  /** Index `k` takes part in the merge of rows `a` and `b`: a third index of the table
      to which either merged row gives a positive weight. */
  predicate Merges(w: seq<map<nat, real>>, a: nat, b: nat, k: nat)
    requires a < |w| && b < |w|
  {
    k < |w| && k != a && k != b && (Get(w[a], k) > 0.0 || Get(w[b], k) > 0.0)
  }

  /** The weight between the merged cluster and `k`: the two weights averaged by the sizes
      of the two merged clusters. */
  function Merged(w: seq<map<nat, real>>, a: nat, b: nat, sz1: real, sz2: real, k: nat): real
    requires a < |w| && b < |w| && sz1 + sz2 != 0.0
  {
    (Get(w[a], k) * sz1 + Get(w[b], k) * sz2) / (sz1 + sz2)
  }

  /** Row `a` once the indices below `upto` have been merged into it (column `b` erased). */
  function MergedRowUpTo(w: seq<map<nat, real>>, a: nat, b: nat, sz1: real, sz2: real, upto: nat): map<nat, real>
    requires a < |w| && b < |w| && sz1 + sz2 != 0.0
  {
    var merged := set k | k in Below(upto) && Merges(w, a, b, k);
    map k | k in (w[a].Keys - {b}) + merged :: if k in merged then Merged(w, a, b, sz1, sz2, k) else w[a][k]
  }

  /** Any other row `i`: column `b` erased and, when `i` takes part in the merge, column `a`
      set to the merged weight. */
  function OtherRow(w: seq<map<nat, real>>, a: nat, b: nat, sz1: real, sz2: real, i: nat): map<nat, real>
    requires a < |w| && b < |w| && sz1 + sz2 != 0.0
    requires i < |w|
  {
    if Merges(w, a, b, i) then (w[i] - {b})[a := Merged(w, a, b, sz1, sz2, i)] else w[i] - {b}
  }

  /** The table after `collapse_rows_columns((a, b), (sz1, sz2), w)`, row by row. */
  function Collapse(w: seq<map<nat, real>>, a: nat, b: nat, sz1: real, sz2: real): (r: seq<map<nat, real>>)
    requires a < |w| && b < |w| && a != b && sz1 + sz2 != 0.0
    ensures |r| == |w|
  {
    seq(|w|, i requires 0 <= i < |w| =>
      if i == b then map[]
      else if i == a then MergedRowUpTo(w, a, b, sz1, sz2, |w|)
      else OtherRow(w, a, b, sz1, sz2, i))
  }

  /** Column `b` erased from every row. */
  method EraseColumn(w: seq<map<nat, real>>, b: nat) returns (r: seq<map<nat, real>>)
    ensures |r| == |w| && forall i :: 0 <= i < |w| ==> r[i] == w[i] - {b}
  {
    r := w;
    var i := 0;
    while i < |r|
      invariant 0 <= i <= |r| == |w|
      invariant forall j :: 0 <= j < i ==> r[j] == w[j] - {b}
      invariant forall j :: i <= j < |w| ==> r[j] == w[j]
    {
      r := r[i := r[i] - {b}];
      i := i + 1;
    }
  }

  /** Merging one more index into row `a` adds its merged weight, if it takes part. */
  lemma MergedRowStep(w: seq<map<nat, real>>, a: nat, b: nat, sz1: real, sz2: real, k: nat)
    requires a < |w| && b < |w| && sz1 + sz2 != 0.0
    ensures MergedRowUpTo(w, a, b, sz1, sz2, k + 1) ==
      if Merges(w, a, b, k) then MergedRowUpTo(w, a, b, sz1, sz2, k)[k := Merged(w, a, b, sz1, sz2, k)]
      else MergedRowUpTo(w, a, b, sz1, sz2, k)
  {
  }

  /** Before index `k` is merged, row `a` holds its original weight for it. */
  lemma MergedRowAhead(w: seq<map<nat, real>>, a: nat, b: nat, sz1: real, sz2: real, upto: nat, k: nat)
    requires a < |w| && b < |w| && sz1 + sz2 != 0.0 && upto <= k && k != b
    ensures Get(MergedRowUpTo(w, a, b, sz1, sz2, upto), k) == Get(w[a], k)
  {
  }

  /** The table in the merge loop once the indices below `k` have been merged: column `b`
      erased everywhere, row `a` merged as far as `k`, the rows of the merged indices below
      `k` given their merged weight in column `a`, row `b` not yet emptied. */
  function MergedUpTo(w: seq<map<nat, real>>, a: nat, b: nat, sz1: real, sz2: real, k: nat): (r: seq<map<nat, real>>)
    requires a < |w| && b < |w| && sz1 + sz2 != 0.0
    ensures |r| == |w|
  {
    seq(|w|, i requires 0 <= i < |w| =>
      if i == a then MergedRowUpTo(w, a, b, sz1, sz2, k)
      else if i != b && i < k && Merges(w, a, b, i) then (w[i] - {b})[a := Merged(w, a, b, sz1, sz2, i)]
      else w[i] - {b})
  }

  /** Merging index `k` changes entries (a, k) and (k, a), and only when `k` takes part. */
  lemma MergedUpToNext(w: seq<map<nat, real>>, a: nat, b: nat, sz1: real, sz2: real, k: nat)
    requires a < |w| && b < |w| && a != b && sz1 + sz2 != 0.0 && k < |w|
    ensures var p, m := MergedUpTo(w, a, b, sz1, sz2, k), Merged(w, a, b, sz1, sz2, k);
      MergedUpTo(w, a, b, sz1, sz2, k + 1) ==
        if Merges(w, a, b, k) then p[a := Insert(p[a], k, m)][k := Insert(p[k], a, m)] else p
  {
    MergedRowStep(w, a, b, sz1, sz2, k);
    var p, m := MergedUpTo(w, a, b, sz1, sz2, k), Merged(w, a, b, sz1, sz2, k);
    var q := MergedUpTo(w, a, b, sz1, sz2, k + 1);
    if Merges(w, a, b, k) {
      var p' := p[a := Insert(p[a], k, m)][k := Insert(p[k], a, m)];
      forall i | 0 <= i < |w|
        ensures q[i] == p'[i]
      {
      }
    } else {
      forall i | 0 <= i < |w|
        ensures q[i] == p[i]
      {
      }
    }
  }

  /** One round of the merge loop, for index `k`. */
  method MergeIndex(w: seq<map<nat, real>>, r: seq<map<nat, real>>, a: nat, b: nat, sz1: real, sz2: real, k: nat)
    returns (r': seq<map<nat, real>>)
    requires a < |w| && b < |w| && a != b && sz1 + sz2 != 0.0 && k < |w|
    requires r == MergedUpTo(w, a, b, sz1, sz2, k)
    ensures r' == MergedUpTo(w, a, b, sz1, sz2, k + 1)
  {
    r' := r;
    MergedUpToNext(w, a, b, sz1, sz2, k);
    assert k == a || k == b ==> !Merges(w, a, b, k);
    if k != a && k != b {
      var w1 := if k in r'[a] then r'[a][k] else 0.0;
      var w2 := if k in r'[b] then r'[b][k] else 0.0;
      MergedRowAhead(w, a, b, sz1, sz2, k, k);
      assert w1 == Get(w[a], k) && w2 == Get(w[b], k);
      assert Merges(w, a, b, k) <==> w1 > 0.0 || w2 > 0.0;
      if w1 > 0.0 || w2 > 0.0 {
        var x := (w1 * sz1 + w2 * sz2) / (sz1 + sz2);
        assert x == Merged(w, a, b, sz1, sz2, k);
        r' := r'[a := Insert(r'[a], k, x)];
        r' := r'[k := Insert(r'[k], a, x)];
      }
    }
  }

  /** `collapse_rows_columns((a, b), (sz1, sz2), weights)`: erases column `b` everywhere,
      merges rows `a` and `b` into row `a` (and column `a`, to keep the table symmetric), then
      empties row `b`. The source always passes two different indices, row above column. */
  method CollapseRowsColumns(h: (nat, nat), sizes: (real, real), weights: seq<map<nat, real>>)
    returns (r: seq<map<nat, real>>)
    requires h.0 < |weights| && h.1 < |weights| && h.0 != h.1 && sizes.0 + sizes.1 != 0.0
    ensures r == Collapse(weights, h.0, h.1, sizes.0, sizes.1)
  {
    var a, b := h.0, h.1;
    var sz1, sz2 := sizes.0, sizes.1;
    r := EraseColumn(weights, b);
    MergedStart(weights, r, a, b, sz1, sz2);
    var k := 0;
    while k < |weights|
      invariant 0 <= k <= |weights|
      invariant r == MergedUpTo(weights, a, b, sz1, sz2, k)
    {
      r := MergeIndex(weights, r, a, b, sz1, sz2, k);
      k := k + 1;
    }
    MergedAll(weights, a, b, sz1, sz2);
    r := r[b := map[]];
  }

  /** Before the merge loop: column `b` erased, nothing merged yet. */
  lemma MergedStart(w: seq<map<nat, real>>, erased: seq<map<nat, real>>, a: nat, b: nat, sz1: real, sz2: real)
    requires a < |w| && b < |w| && a != b && sz1 + sz2 != 0.0
    requires |erased| == |w| && forall i :: 0 <= i < |w| ==> erased[i] == w[i] - {b}
    ensures erased == MergedUpTo(w, a, b, sz1, sz2, 0)
  {
    var p := MergedUpTo(w, a, b, sz1, sz2, 0);
    assert erased[a] == MergedRowUpTo(w, a, b, sz1, sz2, 0);
    forall i | 0 <= i < |w|
      ensures erased[i] == p[i]
    {
    }
  }

  /** Once every index is merged, emptying row `b` gives the table after the merge. */
  lemma MergedAll(w: seq<map<nat, real>>, a: nat, b: nat, sz1: real, sz2: real)
    requires a < |w| && b < |w| && a != b && sz1 + sz2 != 0.0
    ensures MergedUpTo(w, a, b, sz1, sz2, |w|)[b := map[]] == Collapse(w, a, b, sz1, sz2)
  {
    var r := MergedUpTo(w, a, b, sz1, sz2, |w|);
    var c := Collapse(w, a, b, sz1, sz2);
    forall i | 0 <= i < |w|
      ensures r[b := map[]][i] == c[i]
    {
    }
  }

  /** Which indices row `a` holds after the merge: its old ones except `b`, and the merged
      ones. */
  lemma MergedRowKeys(w: seq<map<nat, real>>, a: nat, b: nat, sz1: real, sz2: real, k: nat)
    requires a < |w| && b < |w| && sz1 + sz2 != 0.0
    ensures var m := MergedRowUpTo(w, a, b, sz1, sz2, |w|);
      && (k in m <==> (k in w[a] && k != b) || Merges(w, a, b, k))
      && (k in m && Merges(w, a, b, k) ==> m[k] == Merged(w, a, b, sz1, sz2, k))
      && (k in m && !Merges(w, a, b, k) ==> m[k] == w[a][k])
  {
    assert Merges(w, a, b, k) ==> k in Below(|w|);
  }

  /** What the merge leaves of the table: row and column `b` are gone. */
  lemma CollapseErases(w: seq<map<nat, real>>, a: nat, b: nat, sz1: real, sz2: real)
    requires a < |w| && b < |w| && a != b && sz1 + sz2 != 0.0
    ensures var r := Collapse(w, a, b, sz1, sz2);
      && r[b] == map[]
      && forall i :: 0 <= i < |r| ==> b !in r[i]
  {
    MergedRowKeys(w, a, b, sz1, sz2, b);
  }

  /** Entries between two indices other than `a` and `b` are untouched. */
  lemma CollapseKeeps(w: seq<map<nat, real>>, a: nat, b: nat, sz1: real, sz2: real, i: nat, j: nat)
    requires a < |w| && b < |w| && a != b && sz1 + sz2 != 0.0
    requires i < |w| && i != a && i != b && j != a && j != b
    ensures var r := Collapse(w, a, b, sz1, sz2);
      && (j in r[i] <==> j in w[i])
      && (j in w[i] ==> r[i][j] == w[i][j])
  {
  }

  /** Between `a` and a third index `k`: the merged weight in both directions when `k` takes
      part in the merge, and otherwise the old entries of row `a` and of column `a`. */
  lemma CollapseMerges(w: seq<map<nat, real>>, a: nat, b: nat, sz1: real, sz2: real, k: nat)
    requires a < |w| && b < |w| && a != b && sz1 + sz2 != 0.0
    requires k < |w| && k != a && k != b
    ensures var r := Collapse(w, a, b, sz1, sz2);
      && (Merges(w, a, b, k) ==>
            k in r[a] && a in r[k] && r[a][k] == r[k][a] == Merged(w, a, b, sz1, sz2, k))
      && (!Merges(w, a, b, k) ==>
            && (k in r[a] <==> k in w[a]) && (k in w[a] ==> r[a][k] == w[a][k])
            && (a in r[k] <==> a in w[k]) && (a in w[k] ==> r[k][a] == w[k][a]))
  {
    MergedRowKeys(w, a, b, sz1, sz2, k);
  }

  /** With positive sizes the merged weight is a weighted average: it lies between the
      two weights it replaces. */
  lemma MergedBetween(w: seq<map<nat, real>>, a: nat, b: nat, sz1: real, sz2: real, k: nat)
    requires a < |w| && b < |w| && sz1 > 0.0 && sz2 > 0.0
    ensures var m := Merged(w, a, b, sz1, sz2, k); var w1, w2 := Get(w[a], k), Get(w[b], k);
      && (w1 <= w2 ==> w1 <= m <= w2)
      && (w2 <= w1 ==> w2 <= m <= w1)
  {
    var w1, w2 := Get(w[a], k), Get(w[b], k);
    if w1 <= w2 {
      Between(w1, w2, sz1, sz2);
    }
    if w2 <= w1 {
      Between(w2, w1, sz2, sz1);
      assert w2 * sz2 + w1 * sz1 == w1 * sz1 + w2 * sz2;
    }
  }

  lemma MulLess(x: real, y: real, s: real)
    requires s > 0.0 && x < y
    ensures x * s < y * s
  {
  }

  /** A positively weighted average of `x <= y` lies between them. */
  lemma Between(x: real, y: real, p: real, q: real)
    requires p > 0.0 && q > 0.0 && x <= y
    ensures x <= (x * p + y * q) / (p + q) <= y
  {
    var s := p + q;
    var m := (x * p + y * q) / s;
    assert m * s == x * p + y * q;
    if m < x {
      MulLess(m, x, s);
    }
    if y < m {
      MulLess(y, m, s);
    }
    if x < y {
      MulLess(x, y, q);
      MulLess(x, y, p);
    }
  }

  /** Every stored weight between two indices of the table is stored both ways, equal. */
  ghost predicate SymmetricWeights(w: seq<map<nat, real>>)
  {
    forall u, v :: 0 <= u < |w| && 0 <= v < |w| && v in w[u] ==> u in w[v] && w[u][v] == w[v][u]
  }

  /** The merge keeps a symmetric table symmetric: this is what writing the merged weight
      into both row `a` and column `a` achieves. */
  lemma CollapseSymmetric(w: seq<map<nat, real>>, a: nat, b: nat, sz1: real, sz2: real)
    requires a < |w| && b < |w| && a != b && sz1 + sz2 != 0.0
    requires SymmetricWeights(w)
    ensures SymmetricWeights(Collapse(w, a, b, sz1, sz2))
  {
    var r := Collapse(w, a, b, sz1, sz2);
    forall u, v | 0 <= u < |r| && 0 <= v < |r| && v in r[u]
      ensures u in r[v] && r[u][v] == r[v][u]
    {
      CollapseSymAt(w, a, b, sz1, sz2, u, v);
    }
  }

  lemma CollapseSymAt(w: seq<map<nat, real>>, a: nat, b: nat, sz1: real, sz2: real, u: nat, v: nat)
    requires a < |w| && b < |w| && a != b && sz1 + sz2 != 0.0
    requires SymmetricWeights(w)
    requires u < |w| && v < |w| && v in Collapse(w, a, b, sz1, sz2)[u]
    ensures var r := Collapse(w, a, b, sz1, sz2); u in r[v] && r[u][v] == r[v][u]
  {
    CollapseErases(w, a, b, sz1, sz2);
    if u != a && v != a {
      CollapseKeeps(w, a, b, sz1, sz2, u, v);
      CollapseKeeps(w, a, b, sz1, sz2, v, u);
    } else if u == a && v != a {
      CollapseMerges(w, a, b, sz1, sz2, v);
    } else if u != a {
      CollapseMerges(w, a, b, sz1, sz2, u);
    }
  }

  // ---------------------------------------------------------------------------
  // hierarchical_clustering

  /** The table as the clustering loop keeps it, `live` being its set of roots: the row of
      an index merged away is empty, and no row names such an index. */
  ghost predicate Retired(w: seq<map<nat, real>>, live: set<nat>)
  {
    && (forall i :: 0 <= i < |w| && i !in live ==> w[i] == map[])
    && (forall i, j :: 0 <= i < |w| && j in w[i] && j < |w| ==> j in live)
  }

  /** Merging `b` into `a` retires `b`. */
  lemma CollapseRetired(w: seq<map<nat, real>>, live: set<nat>, a: nat, b: nat, sz1: real, sz2: real)
    requires a < |w| && b < |w| && a != b && sz1 + sz2 != 0.0
    requires a in live && b in live && Retired(w, live)
    ensures Retired(Collapse(w, a, b, sz1, sz2), live - {b})
  {
    var r := Collapse(w, a, b, sz1, sz2);
    CollapseErases(w, a, b, sz1, sz2);
    forall i | 0 <= i < |w| && i !in live - {b}
      ensures r[i] == map[]
    {
      if i != b {
        assert i !in w[a] && i !in w[b];
      }
    }
    forall i, j | 0 <= i < |w| && j in r[i] && j < |w|
      ensures j in live - {b}
    {
      if i == a {
        MergedRowKeys(w, a, b, sz1, sz2, j);
      }
    }
  }

  /** How often index `x` occurs below an optional branch. */
  function OptCount(t: Option<Branch>, x: int): nat
  {
    if t.Some? then Leaves(t.value)[x] else 0
  }

  /** How often index `x` occurs below the branches of a slot table. */
  function TreeCount(t: seq<Option<Branch>>, x: int): nat
  {
    if t == [] then 0 else TreeCount(t[..|t| - 1], x) + OptCount(t[|t| - 1], x)
  }

  lemma {:induction false} TreeCountUpdate(t: seq<Option<Branch>>, i: nat, y: Option<Branch>, x: int)
    requires i < |t|
    ensures TreeCount(t[i := y], x) + OptCount(t[i], x) == TreeCount(t, x) + OptCount(y, x)
    decreases |t|
  {
    var n := |t| - 1;
    if i == n {
      assert t[i := y][..n] == t[..n];
    } else {
      assert t[i := y][..n] == t[..n][i := y];
      assert t[i := y][n] == t[n] && t[..n][i] == t[i];
      TreeCountUpdate(t[..n], i, y, x);
    }
  }

  /** How often index `x` occurs in the trees of a forest. */
  function ForestCount(bs: seq<Branch>, x: int): nat
  {
    if bs == [] then 0 else ForestCount(bs[..|bs| - 1], x) + Leaves(bs[|bs| - 1])[x]
  }

  /** One leaf per index at the start. */
  lemma {:induction false} LeavesInit(n: nat, x: int)
    ensures TreeCount(seq(n, i => Some(Leaf(i))), x) == if 0 <= x < n then 1 else 0
  {
    if n > 0 {
      assert seq(n, i => Some(Leaf(i)))[..n - 1] == seq(n - 1, i => Some(Leaf(i)));
      LeavesInit(n - 1, x);
    }
  }

  /** The trees of the clustering loop over `n` indices: `tree[i]` is set exactly for the
      roots, a root's tree has the root as its largest index, and the trees together hold
      every index exactly once. */
  ghost predicate Trees(n: nat, tree: seq<Option<Branch>>, live: set<nat>)
  {
    && |tree| == n
    && (forall i :: i in live ==> i < n)
    && (forall i :: 0 <= i < n ==> (tree[i].Some? <==> i in live))
    && (forall i :: 0 <= i < n && tree[i].Some? ==> MaxLeaf(tree[i].value) == i)
    && forall x :: TreeCount(tree, x) == if 0 <= x < n then 1 else 0
  }

  /** The state of the clustering loop: the table with its retired indices, and the trees. */
  ghost predicate Clustering(n: nat, w: seq<map<nat, real>>, tree: seq<Option<Branch>>, live: set<nat>)
  {
    |w| == n && Retired(w, live) && Trees(n, tree, live)
  }

  /** Joining the tree of `b` under the tree of `a` as its right part. */
  function Join(tree: seq<Option<Branch>>, a: nat, b: nat): (t: seq<Option<Branch>>)
    requires a < |tree| && b < |tree| && tree[a].Some? && tree[b].Some?
    ensures |t| == |tree|
  {
    tree[a := Some(Node(tree[a].value, tree[b].value))][b := None]
  }

  lemma JoinTrees(n: nat, tree: seq<Option<Branch>>, live: set<nat>, a: nat, b: nat)
    requires Trees(n, tree, live) && a in live && b in live && b < a
    ensures Trees(n, Join(tree, a, b), live - {b})
  {
    var ta, tb := tree[a].value, tree[b].value;
    var t1 := tree[a := Some(Node(ta, tb))];
    forall x
      ensures TreeCount(Join(tree, a, b), x) == if 0 <= x < n then 1 else 0
    {
      TreeCountUpdate(tree, a, Some(Node(ta, tb)), x);
      TreeCountUpdate(t1, b, None, x);
    }
  }

  /** The row and column of a pair found by `highest_weight` are both roots. */
  lemma FoundLive(n: nat, w: seq<map<nat, real>>, live: set<nat>, a: nat, b: nat)
    requires |w| == n && Retired(w, live) && a < n && b < n && b in w[a]
    ensures a in live && b in live
  {
  }

  /** One round of the clustering loop: the pair `h` found by `highest_weight` is merged, the
      row's tree taking the column's tree as its right part, the column leaving the roots and
      the table collapsing the column into the row with the two trees' sizes as weights. */
  method MergeRound(ghost n: nat, w: seq<map<nat, real>>, tree: seq<Option<Branch>>, live: set<nat>, h: (int, int))
    returns (w': seq<map<nat, real>>, tree': seq<Option<Branch>>, live': set<nat>)
    requires Clustering(n, w, tree, live) && h == HighestWeight(w) && h != (-1, -1)
    ensures Clustering(n, w', tree', live') && |live'| < |live|
    ensures 0 <= h.1 < h.0 < n && h.0 in live && h.1 in live
    ensures tree' == Join(tree, h.0, h.1) && live' == live - {h.1}
    ensures w' == Collapse(w, h.0, h.1, Size(tree[h.0].value) as real, Size(tree[h.1].value) as real)
  {
    HighestWeightSome(w);
    var a: nat, b: nat := h.0, h.1;
    FoundLive(n, w, live, a, b);
    var rsz := Size(tree[a].value) as real;
    var lsz := Size(tree[b].value) as real;
    w' := CollapseRowsColumns((a, b), (rsz, lsz), w);
    CollapseRetired(w, live, a, b, rsz, lsz);
    JoinTrees(n, tree, live, a, b);
    tree' := tree[a := Some(Node(tree[a].value, tree[b].value))];
    tree' := tree'[b := None];
    live' := live - {b};
  }

  /** What the clustering loop needs of its state to take a step: every root has a tree and
      the table has retired every other index. */
  ghost predicate Mergeable(w: seq<map<nat, real>>, tree: seq<Option<Branch>>, live: set<nat>)
  {
    |tree| == |w| && Retired(w, live) && forall i :: i in live ==> i < |w| && tree[i].Some?
  }

  /** The clustering as a reference definition: while `highest_weight` finds a pair, join the
      column's tree under the row's, retire the column and collapse the table; the result is
      the final table, trees and roots. */
  ghost function Cluster(w: seq<map<nat, real>>, tree: seq<Option<Branch>>, live: set<nat>)
    : (r: (seq<map<nat, real>>, seq<Option<Branch>>, set<nat>))
    requires Mergeable(w, tree, live)
    decreases |live|
  {
    var h := HighestWeight(w);
    if h == (-1, -1) then (w, tree, live)
    else
      HighestWeightSome(w);
      var a: nat, b: nat := h.0, h.1;
      FoundLive(|w|, w, live, a, b);
      var sz1, sz2 := Size(tree[a].value) as real, Size(tree[b].value) as real;
      CollapseRetired(w, live, a, b, sz1, sz2);
      Cluster(Collapse(w, a, b, sz1, sz2), Join(tree, a, b), live - {b})
  }

  /** The trees of the roots, in ascending order of the root index. */
  function Present(tree: seq<Option<Branch>>): seq<Branch>
  {
    if tree == [] then []
    else Present(tree[..|tree| - 1]) + (if tree[|tree| - 1].Some? then [tree[|tree| - 1].value] else [])
  }

  /** The roots' trees in ascending order of the root index. */
  method CollectRoots(n: nat, tree: seq<Option<Branch>>, live: set<nat>) returns (roots: seq<Branch>)
    requires Trees(n, tree, live)
    ensures forall x :: ForestCount(roots, x) == if 0 <= x < n then 1 else 0
    ensures forall j, k :: 0 <= j < k < |roots| ==> MaxLeaf(roots[j]) < MaxLeaf(roots[k])
    ensures roots == Present(tree)
  {
    roots := [];
    var i := 0;
    while i < n
      invariant 0 <= i <= n
      invariant forall x :: ForestCount(roots, x) == TreeCount(tree[..i], x)
      invariant forall j :: 0 <= j < |roots| ==> MaxLeaf(roots[j]) < i
      invariant forall j, k :: 0 <= j < k < |roots| ==> MaxLeaf(roots[j]) < MaxLeaf(roots[k])
      invariant roots == Present(tree[..i])
    {
      assert tree[..i + 1][..i] == tree[..i];
      assert Present(tree[..i + 1]) == Present(tree[..i]) + if tree[i].Some? then [tree[i].value] else [];
      if i in live {
        var roots' := roots + [tree[i].value];
        assert roots'[..|roots'| - 1] == roots;
        roots := roots';
      }
      i := i + 1;
    }
    assert tree[..n] == tree;
  }

  /** `hierarchical_clustering(roots, weights)`: starting from one leaf per index, merge the
      pair with the largest positive weight below the diagonal until none is left. The trees
      come out in ascending order of their root index, which is their largest leaf, and
      together hold every index of the table exactly once. The table left over (the source's
      local copy) has no positive weight below the diagonal. Trees and table are the ones the
      reference `Cluster` reaches from one leaf per index. */
  method HierarchicalClustering(weights0: seq<map<nat, real>>) returns (roots: seq<Branch>, weights: seq<map<nat, real>>)
    ensures |weights| == |weights0| && !HasPositive(weights)
    ensures forall x :: ForestCount(roots, x) == if 0 <= x < |weights0| then 1 else 0
    ensures forall j, k :: 0 <= j < k < |roots| ==> MaxLeaf(roots[j]) < MaxLeaf(roots[k])
    ensures var r := Cluster(weights0, seq(|weights0|, i => Some(Leaf(i))), Below(|weights0|));
      weights == r.0 && roots == Present(r.1)
  {
    weights := weights0;
    var n := |weights|;
    var tree: seq<Option<Branch>> := seq(n, i => Some(Leaf(i)));
    var live := Below(n);
    forall x
      ensures TreeCount(tree, x) == if 0 <= x < n then 1 else 0
    {
      LeavesInit(n, x);
    }
    var h := HighestWeight(weights);
    while h.0 != -1 && h.1 != -1
      invariant Clustering(n, weights, tree, live) && h == HighestWeight(weights)
      invariant Cluster(weights, tree, live) == Cluster(weights0, seq(n, i => Some(Leaf(i))), Below(n))
      decreases |live|
    {
      weights, tree, live := MergeRound(n, weights, tree, live, h);
      h := HighestWeight(weights);
    }
    HighestWeightNone(weights);
    roots := CollectRoots(n, tree, live);
  }
}

=== FILE: histograms.dfy ===
/** The summaries networks/stats.H builds on top of the traversals: cumulative degree
    histograms (`make_cumulative`), the list of component sizes (`component_sizes`) and its
    run-length encoding (`num_component_sizes`). */
module Histograms {
  import opened Common
  import opened AdjList
  import opened Stats

  // ---------------------------------------------------------------------------
  // Cumulative histogram

  /** `dd[k] + dd[k+1] + ... + dd[|dd|-1]`. */
  function SuffixSum(dd: seq<real>, k: nat): real
    decreases |dd| - k
  {
    if k >= |dd| then 0.0 else dd[k] + SuffixSum(dd, k + 1)
  }

  /** `make_cumulative(dd, cdd)`: walking `dd` from the back while accumulating the nonzero
      entries, every nonzero bin `k` receives the total of the bins from `k` upwards; empty
      bins get no key. */
  method MakeCumulative(dd: seq<real>) returns (cdd: map<nat, real>)
    ensures forall k: nat :: k in cdd <==> k < |dd| && dd[k] != 0.0
    ensures forall k: nat :: k in cdd ==> cdd[k] == SuffixSum(dd, k)
  {
    var acum := 0.0;
    cdd := map[];
    var k: nat := |dd|;
    while k > 0
      invariant k <= |dd|
      invariant acum == SuffixSum(dd, k)
      invariant forall j: nat :: j in cdd <==> k <= j < |dd| && dd[j] != 0.0
      invariant forall j: nat :: j in cdd ==> cdd[j] == SuffixSum(dd, j)
    {
      k := k - 1;
      if dd[k] != 0.0 {
        acum := acum + dd[k];
        cdd := cdd[k := acum];
      }
    }
  }

  /** For a histogram of non-negative bins the cumulative values never increase with `k`. */
  lemma {:induction false} SuffixSumMonotone(dd: seq<real>, k: nat, j: nat)
    requires k <= j && forall i :: 0 <= i < |dd| ==> dd[i] >= 0.0
    ensures SuffixSum(dd, k) >= SuffixSum(dd, j)
    decreases j - k
  {
    if k < j {
      SuffixSumMonotone(dd, k + 1, j);
    }
  }

  // ---------------------------------------------------------------------------
  // Component sizes

  /** Number of entries of `comp` equal to `c`. */
  function Occurrences(comp: seq<int>, c: int): nat
  {
    if |comp| == 0 then 0 else Occurrences(comp[..|comp| - 1], c) + (if comp[|comp| - 1] == c then 1 else 0)
  }

  lemma {:induction false} OccurrencesSnoc(comp: seq<int>, x: int, c: int)
    ensures Occurrences(comp + [x], c) == Occurrences(comp, c) + (if x == c then 1 else 0)
  {
    assert (comp + [x])[..|comp|] == comp;
  }

  /** The counts `sizes[c]` of each label `c < n` in `comp`, accumulated in one pass. */
  method CountLabels(comp: seq<int>, n: nat) returns (sizes: seq<nat>)
    requires forall x :: 0 <= x < |comp| ==> 0 <= comp[x] < n
    ensures |sizes| == n
    ensures forall c :: 0 <= c < n ==> sizes[c] == Occurrences(comp, c)
    ensures Sum(sizes) == |comp|
  {
    sizes := seq(n, _ => 0);
    SumZero(n);
    var i := 0;
    while i < |comp|
      invariant i <= |comp| && |sizes| == n
      invariant forall c :: 0 <= c < n ==> sizes[c] == Occurrences(comp[..i], c)
      invariant Sum(sizes) == i
    {
      assert comp[..i + 1] == comp[..i] + [comp[i]];
      forall c | 0 <= c < n
        ensures Occurrences(comp[..i + 1], c) == Occurrences(comp[..i], c) + (if comp[i] == c then 1 else 0)
      {
        OccurrencesSnoc(comp[..i], comp[i], c);
      }
      SumUpdate(sizes, comp[i], sizes[comp[i]] + 1);
      sizes := sizes[comp[i] := sizes[comp[i]] + 1];
      i := i + 1;
    }
    assert comp[..|comp|] == comp;
  }

  lemma {:induction false} SumZero(n: nat)
    ensures Sum(seq(n, _ => 0)) == 0
  {
    if n > 0 {
      assert seq(n, _ => 0)[..n - 1] == seq(n - 1, _ => 0);
      SumZero(n - 1);
    }
  }

  /** Non-increasing order: `sort(..., greater<int>())`. */
  ghost predicate Descending(s: seq<nat>)
  {
    forall i, j :: 0 <= i < j < |s| ==> s[i] >= s[j]
  }

  /** Place `x` in front of the first entry smaller than it. */
  function InsertDesc(x: nat, s: seq<nat>): (r: seq<nat>)
    ensures |r| == |s| + 1
  {
    if |s| == 0 || x >= s[0] then [x] + s else [s[0]] + InsertDesc(x, s[1..])
  }

  lemma DescendingCons(a: nat, t: seq<nat>)
    requires Descending(t) && (|t| > 0 ==> a >= t[0])
    ensures Descending([a] + t)
  {
    var r := [a] + t;
    forall i, j | 0 <= i < j < |r|
      ensures r[i] >= r[j]
    {
      if i == 0 {
        assert r[j] == t[j - 1] <= t[0];
      } else {
        assert r[i] == t[i - 1] && r[j] == t[j - 1];
      }
    }
  }

  lemma {:induction false} SumPrepend(x: nat, s: seq<nat>)
    ensures Sum([x] + s) == x + Sum(s)
  {
    SumAppend([x], s);
    assert Sum([x]) == Sum([x][..0]) + x;
  }

  /** Inserting into a descending list keeps it descending and adds exactly `x`. */
  lemma {:induction false} InsertDescFacts(x: nat, s: seq<nat>)
    requires Descending(s)
    ensures Descending(InsertDesc(x, s))
    ensures multiset(InsertDesc(x, s)) == multiset(s) + multiset{x}
    ensures Sum(InsertDesc(x, s)) == Sum(s) + x
    ensures InsertDesc(x, s)[0] == (if |s| == 0 || x >= s[0] then x else s[0])
    decreases |s|
  {
    if |s| == 0 || x >= s[0] {
      DescendingCons(x, s);
      SumPrepend(x, s);
    } else {
      var t := InsertDesc(x, s[1..]);
      assert InsertDesc(x, s) == [s[0]] + t;
      assert Descending(s[1..]) by {
        forall i, j | 0 <= i < j < |s[1..]|
          ensures s[1..][i] >= s[1..][j]
        {
          assert s[1..][i] == s[i + 1] && s[1..][j] == s[j + 1];
        }
      }
      InsertDescFacts(x, s[1..]);
      assert s == [s[0]] + s[1..];
      DescendingCons(s[0], t);
      SumPrepend(s[0], s[1..]);
      SumPrepend(s[0], t);
    }
  }

  /** A descending arrangement of `s` (insertion sort). */
  function SortDesc(s: seq<nat>): (r: seq<nat>)
    ensures |r| == |s|
  {
    if |s| == 0 then [] else InsertDesc(s[|s| - 1], SortDesc(s[..|s| - 1]))
  }

  /** `sort(..., greater<int>())`: the result is descending, a permutation of the input,
      and has the same total. */
  lemma {:induction false} SortDescFacts(s: seq<nat>)
    ensures Descending(SortDesc(s)) && multiset(SortDesc(s)) == multiset(s)
    ensures Sum(SortDesc(s)) == Sum(s)
    decreases |s|
  {
    if |s| > 0 {
      var n := |s| - 1;
      SortDescFacts(s[..n]);
      InsertDescFacts(s[n], SortDesc(s[..n]));
      assert s == s[..n] + [s[n]];
      SumAppend(s[..n], [s[n]]);
      assert Sum([s[n]]) == Sum([s[n]][..0]) + s[n];
    }
  }

  /** A descending sequence is determined by its multiset: `std::sort` with `greater` is
      not stable, but equal sizes are indistinguishable, so the result is unique. */
  lemma {:induction false} DescendingUnique(a: seq<nat>, b: seq<nat>)
    requires Descending(a) && Descending(b) && multiset(a) == multiset(b)
    ensures a == b
    decreases |a|
  {
    assert |a| == |multiset(a)| == |multiset(b)| == |b|;
    if |a| > 0 {
      DescendingHeads(a, b);
      DescendingUnique(a[1..], b[1..]);
      assert a == [a[0]] + a[1..];
      assert b == [b[0]] + b[1..];
    }
  }

  /** Two non-empty descending arrangements of one multiset start alike, and their tails
      are again descending arrangements of one multiset. */
  lemma DescendingHeads(a: seq<nat>, b: seq<nat>)
    requires Descending(a) && Descending(b) && multiset(a) == multiset(b) && |a| > 0 && |b| > 0
    ensures a[0] == b[0] && multiset(a[1..]) == multiset(b[1..])
    ensures Descending(a[1..]) && Descending(b[1..])
  {
    assert b[0] in multiset(a) && a[0] in multiset(b);
    DescendingHeadMax(a, b[0]);
    DescendingHeadMax(b, a[0]);
    MultisetTail(a);
    MultisetTail(b);
    DescendingTail(a);
    DescendingTail(b);
  }

  lemma DescendingHeadMax(a: seq<nat>, x: nat)
    requires Descending(a) && x in a
    ensures a[0] >= x
  {
    var i :| 0 <= i < |a| && a[i] == x;
    if i > 0 {
      assert a[0] >= a[i];
    }
  }

  lemma MultisetTail(a: seq<nat>)
    requires |a| > 0
    ensures multiset(a[1..]) == multiset(a) - multiset{a[0]}
  {
    assert a == [a[0]] + a[1..];
  }

  lemma DescendingTail(a: seq<nat>)
    requires Descending(a) && |a| > 0
    ensures Descending(a[1..])
  {
    forall i, j | 0 <= i < j < |a| - 1
      ensures a[1..][i] >= a[1..][j]
    {
      assert a[1..][i] == a[i + 1] && a[1..][j] == a[j + 1];
    }
  }

  /** `component_sizes(g, comp_sz)`: label every node, count each label, and sort the counts
      in non-increasing order. */
  method ComponentSizes<E>(adj: seq<map<nat, E>>) returns (sizes: seq<nat>, comp: seq<int>, ghost seeds: seq<nat>)
    requires Bounded(adj)
    ensures Labelling(adj, seq(|adj|, _ => true), comp, seeds)
    ensures |sizes| == |seeds|
    ensures Descending(sizes)
    ensures multiset(sizes) == multiset(seq(|seeds|, c requires 0 <= c < |seeds| => Occurrences(comp, c)))
    ensures Sum(sizes) == |adj|
    ensures forall k :: 0 <= k < |sizes| ==> sizes[k] > 0
  {
    var count;
    comp, count, seeds := AllComponents(adj);
    var counts := CountLabels(comp, count);
    assert counts == seq(|seeds|, c requires 0 <= c < |seeds| => Occurrences(comp, c));
    forall c | 0 <= c < count
      ensures counts[c] > 0
    {
      OccurrencesPositive(comp, c, seeds[c]);
    }
    sizes := SortDesc(counts);
    SortDescFacts(counts);
    forall k | 0 <= k < |sizes|
      ensures sizes[k] > 0
    {
      assert sizes[k] in multiset(counts);
    }
  }

  lemma {:induction false} OccurrencesPositive(comp: seq<int>, c: int, x: nat)
    requires x < |comp| && comp[x] == c
    ensures Occurrences(comp, c) > 0
    decreases |comp|
  {
    if x < |comp| - 1 {
      OccurrencesPositive(comp[..|comp| - 1], c, x);
    }
  }

  // ---------------------------------------------------------------------------
  // Run-length encoding of the sizes

  /** `n` copies of `x`. */
  function Repeat(x: nat, n: nat): (s: seq<nat>)
    ensures |s| == n && forall i :: 0 <= i < n ==> s[i] == x
  {
    seq(n, _ => x)
  }

  /** Expand (count, size) runs back into the list of sizes. */
  function Expand(runs: seq<(nat, nat)>): seq<nat>
  {
    if |runs| == 0 then [] else Expand(runs[..|runs| - 1]) + Repeat(runs[|runs| - 1].1, runs[|runs| - 1].0)
  }

  /** Sum of the counts of a list of runs. */
  function Counts(runs: seq<(nat, nat)>): nat
  {
    if |runs| == 0 then 0 else Counts(runs[..|runs| - 1]) + runs[|runs| - 1].0
  }

  /** Runs are non-empty and neighbouring runs hold different sizes: the encoding is maximal. */
  ghost predicate Maximal(runs: seq<(nat, nat)>)
  {
    && (forall k :: 0 <= k < |runs| ==> runs[k].0 > 0)
    && (forall k :: 0 < k < |runs| ==> runs[k - 1].1 != runs[k].1)
  }

  lemma ExpandSnoc(runs: seq<(nat, nat)>, r: (nat, nat))
    ensures Expand(runs + [r]) == Expand(runs) + Repeat(r.1, r.0)
    ensures Counts(runs + [r]) == Counts(runs) + r.0
  {
    assert (runs + [r])[..|runs|] == runs;
  }

  lemma MaximalSnoc(runs: seq<(nat, nat)>, r: (nat, nat))
    requires Maximal(runs) && r.0 > 0 && (|runs| > 0 ==> runs[|runs| - 1].1 != r.1)
    ensures Maximal(runs + [r])
  {
    var t := runs + [r];
    forall k | 0 < k < |t|
      ensures t[k - 1].1 != t[k].1
    {
      if k < |runs| {
        assert t[k - 1] == runs[k - 1] && t[k] == runs[k];
      }
    }
  }

  /** Sizes strictly decrease from run to run. */
  ghost predicate Decreasing(runs: seq<(nat, nat)>)
  {
    forall k :: 0 < k < |runs| ==> runs[k - 1].1 > runs[k].1
  }

  lemma DecreasingSnoc(runs: seq<(nat, nat)>, r: (nat, nat))
    requires Decreasing(runs) && (|runs| > 0 ==> runs[|runs| - 1].1 > r.1)
    ensures Decreasing(runs + [r])
  {
    var t := runs + [r];
    forall k | 0 < k < |t|
      ensures t[k - 1].1 > t[k].1
    {
      if k < |runs| {
        assert t[k - 1] == runs[k - 1] && t[k] == runs[k];
      }
    }
  }

  /** The state of the encoding loop after reading `s[..i]`: the closed runs followed by
      the open run of `count` copies of `s[i - 1]` spell out what was read. */
  ghost predicate RunsSoFar(s: seq<nat>, i: nat, runs: seq<(nat, nat)>, count: nat)
  {
    && 1 <= i <= |s| && count >= 1
    && Expand(runs) + Repeat(s[i - 1], count) == s[..i]
    && Maximal(runs) && (|runs| > 0 ==> runs[|runs| - 1].1 != s[i - 1])
    && Counts(runs) + count == i
    && (Descending(s) ==> Decreasing(runs) && (|runs| > 0 ==> runs[|runs| - 1].1 > s[i - 1]))
  }

  lemma RunsStart(s: seq<nat>)
    requires |s| > 0
    ensures RunsSoFar(s, 1, [], 1)
  {
    assert s[..1] == [s[0]] == Repeat(s[0], 1);
  }

  /** A new size closes the open run. */
  lemma RunClosed(s: seq<nat>, i: nat, runs: seq<(nat, nat)>, count: nat)
    requires RunsSoFar(s, i, runs, count) && i < |s| && s[i - 1] != s[i]
    ensures RunsSoFar(s, i + 1, runs + [(count, s[i - 1])], 1)
  {
    assert s[..i + 1] == s[..i] + [s[i]];
    ExpandSnoc(runs, (count, s[i - 1]));
    MaximalSnoc(runs, (count, s[i - 1]));
    if Descending(s) {
      assert s[i - 1] >= s[i];
      DecreasingSnoc(runs, (count, s[i - 1]));
    }
    assert Repeat(s[i], 1) == [s[i]];
  }

  /** A repeated size extends the open run. */
  lemma RunExtended(s: seq<nat>, i: nat, runs: seq<(nat, nat)>, count: nat)
    requires RunsSoFar(s, i, runs, count) && i < |s| && s[i - 1] == s[i]
    ensures RunsSoFar(s, i + 1, runs, count + 1)
  {
    assert s[..i + 1] == s[..i] + [s[i]];
    assert Repeat(s[i - 1], count) + [s[i]] == Repeat(s[i - 1], count + 1);
  }

  /** At the end the open run is closed as the last one. */
  lemma RunsDone(s: seq<nat>, runs: seq<(nat, nat)>, count: nat)
    requires RunsSoFar(s, |s|, runs, count)
    ensures var all := runs + [(count, s[|s| - 1])];
      && Expand(all) == s && Maximal(all) && Counts(all) == |s|
      && (Descending(s) ==> Decreasing(all))
  {
    ExpandSnoc(runs, (count, s[|s| - 1]));
    MaximalSnoc(runs, (count, s[|s| - 1]));
    if Descending(s) {
      DecreasingSnoc(runs, (count, s[|s| - 1]));
    }
    assert s[..|s|] == s;
  }

  /** `num_component_sizes`' encoding loop over a size list `s`. The source reads `s[SZ-1]`
      unconditionally, so it needs at least one entry. */
  method RunLengths(s: seq<nat>) returns (runs: seq<(nat, nat)>)
    requires |s| > 0
    ensures Expand(runs) == s
    ensures Maximal(runs)
    ensures Counts(runs) == |s|
    ensures Descending(s) ==> Decreasing(runs)
  {
    runs := [];
    var count: nat := 1;
    var i := 1;
    RunsStart(s);
    while i < |s|
      invariant RunsSoFar(s, i, runs, count)
    {
      if s[i - 1] != s[i] {
        RunClosed(s, i, runs, count);
        runs := runs + [(count, s[i - 1])];
        count := 1;
      } else {
        RunExtended(s, i, runs, count);
        count := count + 1;
      }
      i := i + 1;
    }
    RunsDone(s, runs, count);
    runs := runs + [(count, s[|s| - 1])];
  }

  lemma SumPositive(s: seq<nat>)
    requires Sum(s) > 0
    ensures |s| > 0
  {
  }

  /** `num_component_sizes(g, n_comp_sz)`: the run-length encoding of `component_sizes`; the
      graph needs at least one node, so that there is at least one component. */
  method NumComponentSizes<E>(adj: seq<map<nat, E>>) returns (runs: seq<(nat, nat)>, comp: seq<int>, ghost seeds: seq<nat>)
    requires Bounded(adj) && |adj| > 0
    ensures Labelling(adj, seq(|adj|, _ => true), comp, seeds)
    ensures Maximal(runs) && Counts(runs) == |seeds|
    ensures multiset(Expand(runs)) == multiset(seq(|seeds|, c requires 0 <= c < |seeds| => Occurrences(comp, c)))
    ensures Descending(Expand(runs)) && Sum(Expand(runs)) == |adj|
    ensures forall k :: 0 < k < |runs| ==> runs[k - 1].1 > runs[k].1
  {
    var sizes;
    sizes, comp, seeds := ComponentSizes(adj);
    SumPositive(sizes);
    runs := RunLengths(sizes);
  }
}

=== FILE: modmeas.dfy ===
/** The module bookkeeping of networks/modmeas.C: which module holds a node, the leaves
    collected below a tree node, the integer link counts behind the modularity measure,
    and the choice of tree nodes that get scored.

    The tree is the same directed `resgraph` as in `TreeAnlz` (row `v` holds the children
    of `v`); modmeas.C carries its own copies of `clean_tree` and `is_tree_name`, which are
    the ones modelled there. The network `G` only contributes its rows and its node names.
    As in `TreeAnlz`, a ghost `rank` that decreases along child edges stands for the
    acyclicity of the tree. */
module ModMeas {
  import opened Common
  import opened AdjList
  import opened Community
  import opened TreeAnlz

  // ---------------------------------------------------------------------------
  // which_module

  /** The first of `modules[from..]` that holds `k`, or -1. */
  function WhichFrom(k: nat, modules: seq<set<nat>>, from: nat): (m: int)
    requires from <= |modules|
    ensures m == -1 || from <= m < |modules|
    ensures m >= 0 ==> k in modules[m] && forall j :: from <= j < m ==> k !in modules[j]
    ensures m == -1 <==> forall j :: from <= j < |modules| ==> k !in modules[j]
    decreases |modules| - from
  {
    if from == |modules| then -1
    else if k in modules[from] then from
    else WhichFrom(k, modules, from + 1)
  }

  /** `which_module(k, modules)`: the index of the first module holding `k`, and -1
      exactly when no module holds it. */
  function WhichModule(k: nat, modules: seq<set<nat>>): (m: int)
    ensures -1 <= m < |modules|
    ensures m >= 0 ==> k in modules[m] && forall j :: 0 <= j < m ==> k !in modules[j]
    ensures m == -1 <==> forall j :: 0 <= j < |modules| ==> k !in modules[j]
  {
    WhichFrom(k, modules, 0)
  }

  // ---------------------------------------------------------------------------
  // The name map of main

  /** `name_map[G.tag(k)] = k` for every node in ascending order. */
  function NameMap(tags: seq<string>): (m: map<string, nat>)
    ensures forall k :: 0 <= k < |tags| ==> tags[k] in m
    ensures forall t :: t in m ==> m[t] < |tags| && tags[m[t]] == t
  {
    if tags == [] then map[]
    else
      var n := |tags| - 1;
      NameMap(tags[..n])[tags[n] := n]
  }

  /** The map holds exactly the names carried, and a later node overwrites an earlier one:
      each name maps to the last node carrying it. */
  lemma {:induction false} NameMapLast(tags: seq<string>, t: string)
    ensures t in NameMap(tags) <==> exists k :: 0 <= k < |tags| && tags[k] == t
    ensures t in NameMap(tags) ==> forall j :: 0 <= j < |tags| && tags[j] == t ==> j <= NameMap(tags)[t]
    decreases |tags|
  {
    if tags != [] {
      var n := |tags| - 1;
      NameMapLast(tags[..n], t);
      if t != tags[n] {
        forall j | 0 <= j < |tags| && tags[j] == t
          ensures j < n && tags[..n][j] == t
        {
        }
      }
    }
  }

  // ---------------------------------------------------------------------------
  // add_leafs

  /** The name of tree node `l`. */
  function NameOf(g: Tree, l: nat): string
    requires l < |g.nodes|
  {
    g.nodes[l].tag.name
  }

  /** The childless nodes reached from `v` by child edges, when `v` has children; none
      when it has none. */
  ghost function LeavesBelow(adj: Rows, rank: seq<nat>, v: nat): set<nat>
    requires v < |adj|
  {
    set l | 0 <= l < |adj| && adj[v] != map[] && Under(adj, rank, v, l)
  }

  /** What a node contributes to the walk: itself when childless, otherwise what is
      gathered below it. */
  ghost function Share(adj: Rows, rank: seq<nat>, c: nat): set<nat>
    requires Ranked(adj, rank) && c < |adj|
    decreases rank[c], 2
  {
    if adj[c] == map[] then {c} else Gathered(adj, rank, c)
  }

  /** The shares of `v`'s children, the walk's view of the leaves below `v`. */
  ghost function Gathered(adj: Rows, rank: seq<nat>, v: nat): set<nat>
    requires Ranked(adj, rank) && v < |adj|
    decreases rank[v], 1
  {
    Gathering(adj, rank, v, Kids(adj, v))
  }

  ghost function Gathering(adj: Rows, rank: seq<nat>, v: nat, cs: seq<nat>): set<nat>
    requires Ranked(adj, rank) && v < |adj| && forall i :: 0 <= i < |cs| ==> cs[i] in adj[v]
    decreases rank[v], 0, |cs|
  {
    if cs == [] then {}
    else
      var c := cs[|cs| - 1];
      EdgeRank(adj, rank, v, c);
      Gathering(adj, rank, v, cs[..|cs| - 1]) + Share(adj, rank, c)
  }

  /** The shares of the nodes in a queue. */
  ghost function Shares(adj: Rows, rank: seq<nat>, cs: seq<nat>): set<nat>
    requires Ranked(adj, rank) && forall i :: 0 <= i < |cs| ==> cs[i] < |adj|
  {
    if cs == [] then {} else Shares(adj, rank, cs[..|cs| - 1]) + Share(adj, rank, cs[|cs| - 1])
  }

  lemma {:induction false} SharesAppend(adj: Rows, rank: seq<nat>, cs: seq<nat>, ds: seq<nat>)
    requires Ranked(adj, rank)
    requires forall i :: 0 <= i < |cs| ==> cs[i] < |adj|
    requires forall i :: 0 <= i < |ds| ==> ds[i] < |adj|
    ensures forall i :: 0 <= i < |cs + ds| ==> (cs + ds)[i] < |adj|
    ensures Shares(adj, rank, cs + ds) == Shares(adj, rank, cs) + Shares(adj, rank, ds)
    decreases |ds|
  {
    if ds == [] {
      assert cs + ds == cs;
    } else {
      var n := |ds| - 1;
      assert (cs + ds)[..|cs + ds| - 1] == cs + ds[..n];
      SharesAppend(adj, rank, cs, ds[..n]);
    }
  }

  /** A node is gathered from a list of children exactly when one of them shares it. */
  lemma {:induction false} GatheringMember(adj: Rows, rank: seq<nat>, v: nat, cs: seq<nat>, l: nat)
    requires Ranked(adj, rank) && v < |adj| && forall i :: 0 <= i < |cs| ==> cs[i] in adj[v]
    ensures l in Gathering(adj, rank, v, cs) <==> exists i :: 0 <= i < |cs| && cs[i] < |adj| && l in Share(adj, rank, cs[i])
    decreases |cs|
  {
    if cs != [] {
      var n := |cs| - 1;
      EdgeRank(adj, rank, v, cs[n]);
      GatheringMember(adj, rank, v, cs[..n], l);
      if l in Gathering(adj, rank, v, cs[..n]) {
        var i :| 0 <= i < n && cs[..n][i] < |adj| && l in Share(adj, rank, cs[..n][i]);
        assert cs[..n][i] == cs[i];
      }
      if exists i :: 0 <= i < |cs| && cs[i] < |adj| && l in Share(adj, rank, cs[i]) {
        var i :| 0 <= i < |cs| && cs[i] < |adj| && l in Share(adj, rank, cs[i]);
        if i < n {
          assert cs[..n][i] == cs[i];
        }
      }
    }
  }

  /** Anything reached lies inside the graph. */
  lemma {:induction false} UnderBound(adj: Rows, rank: seq<nat>, v: nat, l: nat)
    requires Under(adj, rank, v, l)
    ensures l < |adj|
    decreases rank[v]
  {
    if adj[v] != map[] {
      var c :| c in adj[v] && c < |rank| && rank[c] < rank[v] && Under(adj, rank, c, l);
      UnderBound(adj, rank, c, l);
    }
  }

  /** The walk gathers exactly the childless nodes reached from a node with children. */
  lemma {:induction false} GatheredMeaning(adj: Rows, rank: seq<nat>, v: nat, l: nat)
    requires Ranked(adj, rank) && v < |adj|
    ensures l in Gathered(adj, rank, v) <==> l in LeavesBelow(adj, rank, v)
    decreases rank[v]
  {
    var cs := Kids(adj, v);
    GatheringMember(adj, rank, v, cs, l);
    if l in LeavesBelow(adj, rank, v) {
      var c :| c in adj[v] && c < |rank| && rank[c] < rank[v] && Under(adj, rank, c, l);
      KidsAll(adj, v, c);
      var i :| 0 <= i < |cs| && cs[i] == c;
      if adj[c] != map[] {
        UnderBound(adj, rank, c, l);
        GatheredMeaning(adj, rank, c, l);
      }
      assert l in Share(adj, rank, cs[i]);
    }
    if l in Gathered(adj, rank, v) {
      var i :| 0 <= i < |cs| && cs[i] < |adj| && l in Share(adj, rank, cs[i]);
      var c := cs[i];
      EdgeRank(adj, rank, v, c);
      if adj[c] != map[] {
        GatheredMeaning(adj, rank, c, l);
      }
      assert Under(adj, rank, c, l);
    }
  }

  lemma GatheredIsLeavesBelow(adj: Rows, rank: seq<nat>, v: nat)
    requires Ranked(adj, rank) && v < |adj|
    ensures Gathered(adj, rank, v) == LeavesBelow(adj, rank, v)
  {
    forall l | true
      ensures l in Gathered(adj, rank, v) <==> l in LeavesBelow(adj, rank, v)
    {
      GatheredMeaning(adj, rank, v, l);
    }
  }

  /** Every name of the nodes in `ls` is in the map. */
  ghost predicate Known(g: Tree, nameMap: map<string, nat>, ls: set<nat>)
  {
    forall l :: l in ls ==> l < |g.nodes| && NameOf(g, l) in nameMap
  }

  /** The map's indices of the nodes in `ls`. */
  ghost function Ids(g: Tree, nameMap: map<string, nat>, ls: set<nat>): set<nat>
  {
    set l | l in ls && l < |g.nodes| && NameOf(g, l) in nameMap :: nameMap[NameOf(g, l)]
  }

  ghost function Elements(ls: seq<nat>): set<nat>
  {
    set x | x in ls
  }

  /** Looking the names of `ls` up one by one, failing at the first unknown one. */
  ghost function Lookup(g: Tree, nameMap: map<string, nat>, ls: seq<nat>): Option<set<nat>>
  {
    if ls == [] then Some({})
    else
      var l := ls[|ls| - 1];
      match Lookup(g, nameMap, ls[..|ls| - 1])
      case None => None
      case Some(ids) => if l < |g.nodes| && NameOf(g, l) in nameMap then Some(ids + {nameMap[NameOf(g, l)]}) else None
  }

  /** The lookup succeeds exactly when every name is known, and then gives their indices. */
  lemma {:induction false} LookupMeaning(g: Tree, nameMap: map<string, nat>, ls: seq<nat>)
    ensures Lookup(g, nameMap, ls).Some? <==> Known(g, nameMap, Elements(ls))
    ensures Lookup(g, nameMap, ls).Some? ==> Lookup(g, nameMap, ls).value == Ids(g, nameMap, Elements(ls))
    decreases |ls|
  {
    if ls != [] {
      var n := |ls| - 1;
      LookupMeaning(g, nameMap, ls[..n]);
      assert Elements(ls) == Elements(ls[..n]) + {ls[n]} by {
        assert ls == ls[..n] + [ls[n]];
      }
    }
  }

  lemma {:induction false} LookupAppend(g: Tree, nameMap: map<string, nat>, ls: seq<nat>, ms: seq<nat>, x: set<nat>, y: set<nat>)
    requires Lookup(g, nameMap, ls) == Some(x) && Lookup(g, nameMap, ms) == Some(y)
    ensures Lookup(g, nameMap, ls + ms) == Some(x + y)
    decreases |ms|
  {
    if ms == [] {
      assert ls + ms == ls;
      assert x + y == x;
    } else {
      var n := |ms| - 1;
      assert (ls + ms)[..|ls + ms| - 1] == ls + ms[..n];
      assert (ls + ms)[|ls + ms| - 1] == ms[n];
      var m := ms[n];
      assert Lookup(g, nameMap, ms[..n]).Some? && m < |g.nodes| && NameOf(g, m) in nameMap;
      var y' := Lookup(g, nameMap, ms[..n]).value;
      assert y == y' + {nameMap[NameOf(g, m)]};
      LookupAppend(g, nameMap, ls, ms[..n], x, y');
      assert Lookup(g, nameMap, ls + ms[..n]) == Some(x + y');
      assert Lookup(g, nameMap, ls + ms) == Some(x + y' + {nameMap[NameOf(g, m)]});
      assert x + y' + {nameMap[NameOf(g, m)]} == x + y;
    }
  }

  lemma ElementsAppend(ls: seq<nat>, ms: seq<nat>)
    ensures Elements(ls + ms) == Elements(ls) + Elements(ms)
  {
  }

  /** Nodes waiting in the queue: inside the graph, with children, below rank `r`. */
  ghost predicate Waiting(adj: Rows, rank: seq<nat>, pushed: seq<nat>, r: nat)
  {
    forall i :: 0 <= i < |pushed| ==> pushed[i] < |adj| && adj[pushed[i]] != map[] && pushed[i] < |rank| && rank[pushed[i]] < r
  }

  /** What has been collected and queued after the first `i` children. */
  ghost predicate Covered(adj: Rows, rank: seq<nat>, v: nat, cs: seq<nat>, i: nat, leaves: seq<nat>, pushed: seq<nat>)
    requires Ranked(adj, rank) && v < |adj| && i <= |cs| && forall j :: 0 <= j < |cs| ==> cs[j] in adj[v]
    requires forall j :: 0 <= j < |pushed| ==> pushed[j] < |adj|
  {
    Elements(leaves) + Shares(adj, rank, pushed) == Gathering(adj, rank, v, cs[..i])
  }

  /** A childless child joins the leaves. */
  lemma CoveredLeaf(adj: Rows, rank: seq<nat>, v: nat, cs: seq<nat>, i: nat, leaves: seq<nat>, pushed: seq<nat>)
    requires Ranked(adj, rank) && v < |adj| && i < |cs| && forall j :: 0 <= j < |cs| ==> cs[j] in adj[v]
    requires forall j :: 0 <= j < |pushed| ==> pushed[j] < |adj|
    requires Covered(adj, rank, v, cs, i, leaves, pushed) && cs[i] < |adj| && adj[cs[i]] == map[]
    ensures Covered(adj, rank, v, cs, i + 1, leaves + [cs[i]], pushed)
  {
    assert cs[..i + 1][..i] == cs[..i];
    ElementsAppend(leaves, [cs[i]]);
  }

  /** A child with children joins the queue. */
  lemma CoveredPush(adj: Rows, rank: seq<nat>, v: nat, cs: seq<nat>, i: nat, leaves: seq<nat>, pushed: seq<nat>)
    requires Ranked(adj, rank) && v < |adj| && i < |cs| && forall j :: 0 <= j < |cs| ==> cs[j] in adj[v]
    requires forall j :: 0 <= j < |pushed| ==> pushed[j] < |adj|
    requires Covered(adj, rank, v, cs, i, leaves, pushed) && cs[i] < |adj| && adj[cs[i]] != map[]
    ensures Covered(adj, rank, v, cs, i + 1, leaves, pushed + [cs[i]])
  {
    assert cs[..i + 1][..i] == cs[..i];
    assert (pushed + [cs[i]])[..|pushed|] == pushed;
  }

  /** A childless child whose name is unknown makes what is gathered below its parent
      unknown. */
  lemma UnknownLeaf(g: Tree, nameMap: map<string, nat>, rank: seq<nat>, curr: nat, i: nat)
    requires Ranked(g.adj, rank) && WellFormed(g) && curr < |g.adj| && i < |Kids(g.adj, curr)|
    requires var c := Kids(g.adj, curr)[i]; g.adj[c] == map[] && NameOf(g, c) !in nameMap
    ensures !Known(g, nameMap, Gathered(g.adj, rank, curr))
  {
    var cs := Kids(g.adj, curr);
    GatheringMember(g.adj, rank, curr, cs, cs[i]);
  }

  /** The state of the scan of `curr`'s children after the first `i`. */
  ghost predicate Scanned(g: Tree, nameMap: map<string, nat>, rank: seq<nat>, curr: nat, i: nat,
                          ids: set<nat>, leaves: seq<nat>, pushed: seq<nat>)
    requires WellFormed(g) && Ranked(g.adj, rank) && curr < |g.adj|
  {
    var cs := Kids(g.adj, curr);
    && curr < |rank| && i <= |cs| && |pushed| <= i
    && Lookup(g, nameMap, leaves) == Some(ids)
    && Waiting(g.adj, rank, pushed, rank[curr])
    && Covered(g.adj, rank, curr, cs, i, leaves, pushed)
  }

  /** One child of `curr`: a childless one gives its name's index, any other one joins
      the queue. */
  method VisitChild(g: Tree, nameMap: map<string, nat>, curr: nat, i: nat, ghost rank: seq<nat>,
                    ids: set<nat>, ghost leaves: seq<nat>, pushed: seq<nat>)
    returns (failed: bool, ids': set<nat>, ghost leaves': seq<nat>, pushed': seq<nat>)
    requires WellFormed(g) && Ranked(g.adj, rank) && curr < |g.adj| && i < |Kids(g.adj, curr)|
    requires Scanned(g, nameMap, rank, curr, i, ids, leaves, pushed)
    ensures failed ==> !Known(g, nameMap, Gathered(g.adj, rank, curr))
    ensures !failed ==> Scanned(g, nameMap, rank, curr, i + 1, ids', leaves', pushed')
  {
    var cs := Kids(g.adj, curr);
    var c := cs[i];
    EdgeRank(g.adj, rank, curr, c);
    if g.adj[c] == map[] {
      var name := g.nodes[c].tag.name;
      if name !in nameMap {
        UnknownLeaf(g, nameMap, rank, curr, i);
        return true, ids, leaves, pushed;
      }
      CoveredLeaf(g.adj, rank, curr, cs, i, leaves, pushed);
      assert (leaves + [c])[..|leaves|] == leaves;
      return false, ids + {nameMap[name]}, leaves + [c], pushed;
    } else {
      CoveredPush(g.adj, rank, curr, cs, i, leaves, pushed);
      return false, ids, leaves, pushed + [c];
    }
  }

  /** One turn of the `add_leafs` loop: the children of `curr` in ascending order, each
      childless one giving its name's index and each other one joining the queue. The
      source asserts every name is known; a missing one stops the model (`failed`). */
  method VisitNode(g: Tree, nameMap: map<string, nat>, curr: nat, ghost rank: seq<nat>)
    returns (failed: bool, ids: set<nat>, ghost leaves: seq<nat>, pushed: seq<nat>)
    requires WellFormed(g) && Ranked(g.adj, rank) && curr < |g.adj| && g.adj[curr] != map[]
    ensures failed ==> !Known(g, nameMap, Gathered(g.adj, rank, curr))
    ensures !failed ==> Lookup(g, nameMap, leaves) == Some(ids)
    ensures !failed ==> Waiting(g.adj, rank, pushed, rank[curr]) && |pushed| <= |g.adj|
    ensures !failed ==> Elements(leaves) + Shares(g.adj, rank, pushed) == Gathered(g.adj, rank, curr)
  {
    var n := |Kids(g.adj, curr)|;
    failed, ids, leaves, pushed := false, {}, [], [];
    var i := 0;
    while i < n
      invariant i <= n && Scanned(g, nameMap, rank, curr, i, ids, leaves, pushed)
    {
      failed, ids, leaves, pushed := VisitChild(g, nameMap, curr, i, rank, ids, leaves, pushed);
      if failed {
        return;
      }
      i := i + 1;
    }
    ScannedAll(g, nameMap, rank, curr, ids, leaves, pushed);
  }

  /** Once every child is scanned, the leaves and the queued nodes cover `curr`. */
  lemma ScannedAll(g: Tree, nameMap: map<string, nat>, rank: seq<nat>, curr: nat,
                   ids: set<nat>, leaves: seq<nat>, pushed: seq<nat>)
    requires WellFormed(g) && Ranked(g.adj, rank) && curr < |g.adj| && g.adj[curr] != map[]
    requires Scanned(g, nameMap, rank, curr, |Kids(g.adj, curr)|, ids, leaves, pushed)
    ensures Lookup(g, nameMap, leaves) == Some(ids)
    ensures Waiting(g.adj, rank, pushed, rank[curr]) && |pushed| <= |g.adj|
    ensures Elements(leaves) + Shares(g.adj, rank, pushed) == Gathered(g.adj, rank, curr)
  {
    var cs := Kids(g.adj, curr);
    assert cs[..|cs|] == cs;
  }

  /** A set holding a node with an unknown name keeps it in every superset. */
  lemma UnknownGrows(g: Tree, nameMap: map<string, nat>, a: set<nat>, b: set<nat>)
    requires a <= b && !Known(g, nameMap, a)
    ensures !Known(g, nameMap, b)
  {
  }

  /** The walk's queue: nodes with children, and what is found so far together with
      what the queue still holds is what is gathered below `root`. */
  ghost predicate Walking(g: Tree, nameMap: map<string, nat>, rank: seq<nat>, root: nat,
                          s: set<nat>, found: seq<nat>, queue: seq<nat>)
    requires WellFormed(g) && Ranked(g.adj, rank) && root < |g.adj|
  {
    && (forall i :: 0 <= i < |queue| ==> queue[i] < |g.adj| && g.adj[queue[i]] != map[])
    && Elements(found) + Shares(g.adj, rank, queue) == Gathered(g.adj, rank, root)
    && Lookup(g, nameMap, found) == Some(s)
  }

  /** One turn of the walk: the front of the queue is visited and its queued children
      go to the back. */
  method WalkStep(g: Tree, nameMap: map<string, nat>, root: nat, ghost rank: seq<nat>,
                  s: set<nat>, ghost found: seq<nat>, queue: seq<nat>)
    returns (failed: bool, s': set<nat>, ghost found': seq<nat>, queue': seq<nat>)
    requires WellFormed(g) && Ranked(g.adj, rank) && root < |g.adj| && queue != []
    requires Walking(g, nameMap, rank, root, s, found, queue)
    ensures failed ==> !Known(g, nameMap, Gathered(g.adj, rank, root))
    ensures !failed ==> Walking(g, nameMap, rank, root, s', found', queue')
    ensures !failed ==> Weight(queue', rank, |g.adj| + 1) < Weight(queue, rank, |g.adj| + 1)
  {
    var curr := queue[0];
    var ids, pushed;
    ghost var leaves;
    failed, ids, leaves, pushed := VisitNode(g, nameMap, curr, rank);
    if failed {
      QueueFront(g.adj, rank, queue);
      UnknownGrows(g, nameMap, Gathered(g.adj, rank, curr), Gathered(g.adj, rank, root));
      return true, s, found, queue;
    }
    WalkAdvance(g, nameMap, rank, root, s, found, queue, ids, leaves, pushed);
    return false, s + ids, found + leaves, queue[1..] + pushed;
  }

  /** The front of the queue shares what is gathered below it. */
  lemma QueueFront(adj: Rows, rank: seq<nat>, queue: seq<nat>)
    requires Ranked(adj, rank) && queue != []
    requires forall i :: 0 <= i < |queue| ==> queue[i] < |adj| && adj[queue[i]] != map[]
    ensures Shares(adj, rank, queue) == Gathered(adj, rank, queue[0]) + Shares(adj, rank, queue[1..])
  {
    SharesAppend(adj, rank, [queue[0]], queue[1..]);
    assert [queue[0]] + queue[1..] == queue;
    assert [queue[0]][..0] == [];
  }

  /** Replacing the front of the queue by what its visit found and queued keeps the walk's
      state and lightens the queue. */
  lemma WalkAdvance(g: Tree, nameMap: map<string, nat>, rank: seq<nat>, root: nat, s: set<nat>,
                    found: seq<nat>, queue: seq<nat>, ids: set<nat>, leaves: seq<nat>, pushed: seq<nat>)
    requires WellFormed(g) && Ranked(g.adj, rank) && root < |g.adj| && queue != []
    requires Walking(g, nameMap, rank, root, s, found, queue)
    requires Lookup(g, nameMap, leaves) == Some(ids)
    requires Waiting(g.adj, rank, pushed, rank[queue[0]]) && |pushed| <= |g.adj|
    requires Elements(leaves) + Shares(g.adj, rank, pushed) == Gathered(g.adj, rank, queue[0])
    ensures Walking(g, nameMap, rank, root, s + ids, found + leaves, queue[1..] + pushed)
    ensures Weight(queue[1..] + pushed, rank, |g.adj| + 1) < Weight(queue, rank, |g.adj| + 1)
  {
    QueueFront(g.adj, rank, queue);
    SharesAppend(g.adj, rank, queue[1..], pushed);
    QueueLighter(queue, pushed, rank, |g.adj| + 1);
    LookupAppend(g, nameMap, found, leaves, s, ids);
    ElementsAppend(found, leaves);
  }

  /** The walk from a node with children: the indices of everything gathered below it,
      or `None` when a name there is unknown. */
  method Walk(g: Tree, nameMap: map<string, nat>, root: nat, ghost rank: seq<nat>) returns (r: Option<set<nat>>)
    requires WellFormed(g) && Ranked(g.adj, rank) && root < |g.adj| && g.adj[root] != map[]
    ensures r.None? ==> !Known(g, nameMap, Gathered(g.adj, rank, root))
    ensures r.Some? ==> Known(g, nameMap, Gathered(g.adj, rank, root))
    ensures r.Some? ==> r.value == Ids(g, nameMap, Gathered(g.adj, rank, root))
  {
    var s: set<nat> := {};
    ghost var found: seq<nat> := [];
    var queue: seq<nat> := [root];
    assert [root][..0] == [];
    while queue != []
      invariant Walking(g, nameMap, rank, root, s, found, queue)
      decreases Weight(queue, rank, |g.adj| + 1)
    {
      var failed;
      failed, s, found, queue := WalkStep(g, nameMap, root, rank, s, found, queue);
      if failed {
        return None;
      }
    }
    LookupMeaning(g, nameMap, found);
    return Some(s);
  }

  /** `add_leafs(R, name_map, root, s)`: a breadth-first walk from `root` collecting the
      `name_map` index of every childless node below it (nothing when `root` itself has
      no children). The source asserts that every such name is in the map; the result is
      `None` exactly when one is not. */
  method AddLeafs(g: Tree, nameMap: map<string, nat>, root: nat, ghost rank: seq<nat>) returns (r: Option<set<nat>>)
    requires WellFormed(g) && Ranked(g.adj, rank) && root < |g.adj|
    ensures r.None? <==> !Known(g, nameMap, LeavesBelow(g.adj, rank, root))
    ensures r.Some? ==> r.value == Ids(g, nameMap, LeavesBelow(g.adj, rank, root))
  {
    if g.adj[root] == map[] {
      return Some({});
    }
    GatheredIsLeavesBelow(g.adj, rank, root);
    r := Walk(g, nameMap, root, rank);
  }

  /** Popping the front of the queue and appending fewer than `b` nodes of lower rank
      lightens it. */
  lemma QueueLighter(queue: seq<nat>, pushed: seq<nat>, rank: seq<nat>, b: nat)
    requires queue != [] && b >= 1 && queue[0] < |rank| && |pushed| < b
    requires forall i :: 0 <= i < |pushed| ==> pushed[i] < |rank| && rank[pushed[i]] < rank[queue[0]]
    ensures Weight(queue[1..] + pushed, rank, b) < Weight(queue, rank, b)
  {
    WeightAppend([queue[0]], queue[1..], rank, b);
    assert [queue[0]] + queue[1..] == queue;
    assert [queue[0]][..0] == [];
    WeightAppend(queue[1..], pushed, rank, b);
    WeightChildren(queue[0], pushed, rank, b);
  }

  // ---------------------------------------------------------------------------
  // The link counts of modularity_measure

  /** The neighbours of `i` that some module holds. */
  ghost function Linked<E>(adj: seq<map<nat, E>>, modules: seq<set<nat>>, i: nat): set<nat>
    requires i < |adj|
  {
    set j | j in adj[i] && WhichModule(j, modules) >= 0
  }

  /** The neighbours of `i` whose first module is `m`. */
  ghost function Within<E>(adj: seq<map<nat, E>>, modules: seq<set<nat>>, i: nat, m: nat): set<nat>
    requires i < |adj|
  {
    set j | j in adj[i] && WhichModule(j, modules) == m
  }

  /** The links from the nodes `ms` to nodes some module holds. */
  ghost function Ends<E>(adj: seq<map<nat, E>>, modules: seq<set<nat>>, ms: seq<nat>): nat
    requires forall t :: 0 <= t < |ms| ==> ms[t] < |adj|
  {
    if ms == [] then 0 else Ends(adj, modules, ms[..|ms| - 1]) + |Linked(adj, modules, ms[|ms| - 1])|
  }

  /** The links from the nodes `ms` to nodes whose first module is `m`. */
  ghost function Inner<E>(adj: seq<map<nat, E>>, modules: seq<set<nat>>, ms: seq<nat>, m: nat): nat
    requires forall t :: 0 <= t < |ms| ==> ms[t] < |adj|
  {
    if ms == [] then 0 else Inner(adj, modules, ms[..|ms| - 1], m) + |Within(adj, modules, ms[|ms| - 1], m)|
  }

  /** The members of module `k`, ascending, as `set<int>` iterates them. */
  function Members(modules: seq<set<nat>>, k: nat, n: nat): seq<nat>
    requires k < |modules|
  {
    Ascending(modules[k], 0, n)
  }

  /** Every module lies inside the graph. */
  ghost predicate Inside(modules: seq<set<nat>>, n: nat)
  {
    forall k, i :: 0 <= k < |modules| && i in modules[k] ==> i < n
  }

  /** The counts of `modularity_measure`: `a[k]` is the number of links from module `k`
      to any module, `e[k]` the number of those that stay in `k` (a node counts for the
      first module holding it), and `total` the sum of all `a[k]`. */
  ghost predicate Counts<E>(adj: seq<map<nat, E>>, modules: seq<set<nat>>, e: seq<nat>, a: seq<nat>, total: nat)
  {
    && |e| == |modules| && |a| == |modules|
    && (forall k :: 0 <= k < |modules| ==> a[k] == Ends(adj, modules, Members(modules, k, |adj|)))
    && (forall k :: 0 <= k < |modules| ==> e[k] == Inner(adj, modules, Members(modules, k, |adj|), k))
    && total == Sum(a)
  }

  /** How many of `cs` satisfy `p`. */
  function CountIf(cs: seq<nat>, p: nat -> bool): nat
  {
    if cs == [] then 0 else CountIf(cs[..|cs| - 1], p) + (if p(cs[|cs| - 1]) then 1 else 0)
  }

  /** Held by some module. */
  function InSome(modules: seq<set<nat>>): nat -> bool
  {
    (j: nat) => WhichModule(j, modules) >= 0
  }

  /** Held first by module `m`. */
  function InModule(modules: seq<set<nat>>, m: nat): nat -> bool
  {
    (j: nat) => WhichModule(j, modules) == m
  }

  /** The elements of `cs` that satisfy `p`. */
  ghost function Picked(cs: seq<nat>, p: nat -> bool): set<nat>
  {
    set j | j in cs && p(j)
  }

  lemma PickedStep(cs: seq<nat>, x: nat, p: nat -> bool)
    ensures Picked(cs + [x], p) == Picked(cs, p) + (if p(x) then {x} else {})
  {
    forall j
      ensures j in cs + [x] <==> j in cs || j == x
    {
    }
  }

  /** Over a strictly ascending sequence the count is the size of the set picked. */
  lemma {:induction false} CountIfCard(cs: seq<nat>, p: nat -> bool)
    requires forall i, j :: 0 <= i < j < |cs| ==> cs[i] < cs[j]
    ensures CountIf(cs, p) == |Picked(cs, p)|
    decreases |cs|
  {
    if cs == [] {
      assert Picked(cs, p) == {};
    } else {
      var n := |cs| - 1;
      var front := cs[..n];
      CountIfCard(front, p);
      assert cs == front + [cs[n]];
      PickedStep(front, cs[n], p);
      assert cs[n] !in Picked(front, p);
    }
  }

  /** Counting over `i`'s children, ascending, counts the neighbour set. */
  lemma RowCount<E>(adj: seq<map<nat, E>>, i: nat, p: nat -> bool)
    requires Bounded(adj) && i < |adj|
    ensures CountIf(Kids(adj, i), p) == |set j | j in adj[i] && p(j)|
  {
    var cs := Kids(adj, i);
    CountIfCard(cs, p);
    forall j
      ensures (j in cs && p(j)) <==> (j in adj[i] && p(j))
    {
      KidsAll(adj, i, j);
    }
    assert Picked(cs, p) == (set j | j in adj[i] && p(j));
  }

  /** The counts over `i`'s children are the sizes of its `Linked` and `Within` sets. */
  lemma RowCounts<E>(adj: seq<map<nat, E>>, modules: seq<set<nat>>, i: nat, mi: nat)
    requires Bounded(adj) && i < |adj|
    ensures CountIf(Kids(adj, i), InSome(modules)) == |Linked(adj, modules, i)|
    ensures CountIf(Kids(adj, i), InModule(modules, mi)) == |Within(adj, modules, i, mi)|
  {
    RowCount(adj, i, InSome(modules));
    RowCount(adj, i, InModule(modules, mi));
    assert (set j | j in adj[i] && InSome(modules)(j)) == Linked(adj, modules, i);
    assert (set j | j in adj[i] && InModule(modules, mi)(j)) == Within(adj, modules, i, mi);
  }

  /** The scan of `i`'s neighbours: `ends` counts those some module holds and `inner`
      those whose module is `mi`. */
  method CountRow<E>(adj: seq<map<nat, E>>, modules: seq<set<nat>>, i: nat, mi: nat) returns (inner: nat, ends: nat)
    requires Bounded(adj) && i < |adj|
    ensures ends == |Linked(adj, modules, i)| && inner == |Within(adj, modules, i, mi)|
  {
    var cs := Kids(adj, i);
    inner, ends := 0, 0;
    var t := 0;
    while t < |cs|
      invariant t <= |cs|
      invariant ends == CountIf(cs[..t], InSome(modules)) && inner == CountIf(cs[..t], InModule(modules, mi))
    {
      assert cs[..t + 1][..t] == cs[..t];
      var mj := WhichModule(cs[t], modules);
      if mj != -1 {
        if mj == mi {
          inner := inner + 1;
        }
        ends := ends + 1;
      }
      t := t + 1;
    }
    assert cs[..t] == cs;
    RowCounts(adj, modules, i, mi);
  }

  /** The counts of one module, over its members in ascending order. */
  method CountModule<E>(adj: seq<map<nat, E>>, modules: seq<set<nat>>, mi: nat) returns (e: nat, a: nat)
    requires Bounded(adj) && mi < |modules|
    ensures a == Ends(adj, modules, Members(modules, mi, |adj|))
    ensures e == Inner(adj, modules, Members(modules, mi, |adj|), mi)
  {
    var ms := Members(modules, mi, |adj|);
    e, a := 0, 0;
    var t := 0;
    while t < |ms|
      invariant t <= |ms|
      invariant a == Ends(adj, modules, ms[..t]) && e == Inner(adj, modules, ms[..t], mi)
    {
      assert ms[..t + 1][..t] == ms[..t];
      var inner, ends := CountRow(adj, modules, ms[t], mi);
      e, a := e + inner, a + ends;
      t := t + 1;
    }
    assert ms[..t] == ms;
  }

  /** The expected `a` and `e` of the first `k` modules. */
  ghost function EndsUpTo<E>(adj: seq<map<nat, E>>, modules: seq<set<nat>>, k: nat): seq<nat>
    requires k <= |modules|
  {
    seq(k, q requires 0 <= q < k => Ends(adj, modules, Members(modules, q, |adj|)))
  }

  ghost function InnerUpTo<E>(adj: seq<map<nat, E>>, modules: seq<set<nat>>, k: nat): seq<nat>
    requires k <= |modules|
  {
    seq(k, q requires 0 <= q < k => Inner(adj, modules, Members(modules, q, |adj|), q))
  }

  lemma UpToStep<E>(adj: seq<map<nat, E>>, modules: seq<set<nat>>, k: nat)
    requires k < |modules|
    ensures EndsUpTo(adj, modules, k + 1) == EndsUpTo(adj, modules, k) + [Ends(adj, modules, Members(modules, k, |adj|))]
    ensures InnerUpTo(adj, modules, k + 1) == InnerUpTo(adj, modules, k) + [Inner(adj, modules, Members(modules, k, |adj|), k)]
  {
  }

  /** The integer part of `modularity_measure(G, modules)`: for every module, over its
      members and their neighbours, the links to nodes some module holds (`a`), those
      staying in the module (`e`), and their total. The source's members are node ids of
      `G`. */
  method ModularityCounts<E>(adj: seq<map<nat, E>>, modules: seq<set<nat>>) returns (e: seq<nat>, a: seq<nat>, total: nat)
    requires Bounded(adj) && Inside(modules, |adj|)
    ensures Counts(adj, modules, e, a, total)
  {
    e, a, total := [], [], 0;
    var k := 0;
    while k < |modules|
      invariant k <= |modules|
      invariant a == EndsUpTo(adj, modules, k) && e == InnerUpTo(adj, modules, k)
      invariant total == Sum(a)
    {
      var ek, ak := CountModule(adj, modules, k);
      UpToStep(adj, modules, k);
      SumAppend(a, [ak]);
      e, a, total := e + [ek], a + [ak], total + ak;
      k := k + 1;
    }
    CountsUpTo(adj, modules, e, a, total);
  }

  lemma CountsUpTo<E>(adj: seq<map<nat, E>>, modules: seq<set<nat>>, e: seq<nat>, a: seq<nat>, total: nat)
    requires a == EndsUpTo(adj, modules, |modules|) && e == InnerUpTo(adj, modules, |modules|)
    requires total == Sum(a)
    ensures Counts(adj, modules, e, a, total)
  {
  }

  /** A module's links that stay inside it are among its links: `e[k] <= a[k]`. */
  lemma {:induction false} InnerBelowEnds<E>(adj: seq<map<nat, E>>, modules: seq<set<nat>>, ms: seq<nat>, m: nat)
    requires forall t :: 0 <= t < |ms| ==> ms[t] < |adj|
    ensures Inner(adj, modules, ms, m) <= Ends(adj, modules, ms)
    decreases |ms|
  {
    if ms != [] {
      var n := |ms| - 1;
      InnerBelowEnds(adj, modules, ms[..n], m);
      SubsetCard(Within(adj, modules, ms[n], m), Linked(adj, modules, ms[n]));
    }
  }

  /** Every linked neighbour lies in exactly one `Within` set: the one of its first
      module. So the links of a node split over the modules. */
  lemma {:induction false} LinkedSplits<E>(adj: seq<map<nat, E>>, modules: seq<set<nat>>, i: nat, m: nat)
    requires i < |adj| && m <= |modules|
    ensures |set j | j in adj[i] && 0 <= WhichModule(j, modules) < m| == SumWithin(adj, modules, i, m)
    decreases m
  {
    var s := set j | j in adj[i] && 0 <= WhichModule(j, modules) < m;
    if m == 0 {
      assert s == {};
    } else {
      LinkedSplits(adj, modules, i, m - 1);
      var r := set j | j in adj[i] && 0 <= WhichModule(j, modules) < m - 1;
      var w := Within(adj, modules, i, m - 1);
      assert s == r + w;
      assert r !! w;
    }
  }

  /** The sizes of the first `m` `Within` sets of `i`. */
  ghost function SumWithin<E>(adj: seq<map<nat, E>>, modules: seq<set<nat>>, i: nat, m: nat): nat
    requires i < |adj|
  {
    if m == 0 then 0 else SumWithin(adj, modules, i, m - 1) + |Within(adj, modules, i, m - 1)|
  }

  /** The links of a node are the sum over the modules of its links into each. */
  lemma LinkedIsSum<E>(adj: seq<map<nat, E>>, modules: seq<set<nat>>, i: nat)
    requires i < |adj|
    ensures |Linked(adj, modules, i)| == SumWithin(adj, modules, i, |modules|)
  {
    LinkedSplits(adj, modules, i, |modules|);
    assert (set j | j in adj[i] && 0 <= WhichModule(j, modules) < |modules|) == Linked(adj, modules, i);
  }

  /** A term of a sum is at most the sum. */
  lemma {:induction false} TermBelowSum(s: seq<nat>, k: nat)
    requires k < |s|
    ensures s[k] <= Sum(s)
    decreases |s|
  {
    if k < |s| - 1 {
      TermBelowSum(s[..|s| - 1], k);
    }
  }

  /** What the measure divides: each module keeps at most its links inside, and each
      module's links are at most the total. */
  lemma CountsBounded<E>(adj: seq<map<nat, E>>, modules: seq<set<nat>>, e: seq<nat>, a: seq<nat>, total: nat, k: nat)
    requires Counts(adj, modules, e, a, total) && k < |modules|
    ensures e[k] <= a[k] <= total
  {
    InnerBelowEnds(adj, modules, Members(modules, k, |adj|), k);
    TermBelowSum(a, k);
  }

  // ---------------------------------------------------------------------------
  // The submodules of a tree node, as main collects them

  /** A root's submodules with the two facts main's filter needs: whether every child
      is childless, and the sum of the submodules' sizes. */
  datatype Parts = Parts(modules: seq<set<nat>>, allLeafs: bool, size: nat)

  /** Sum of the sizes of a sequence of sets. */
  function Sizes(ms: seq<set<nat>>): nat
  {
    if ms == [] then 0 else Sizes(ms[..|ms| - 1]) + |ms[|ms| - 1]|
  }

  /** The submodule of each child of `root`, ascending: the name index of a childless
      child, or those of the childless nodes below the child. */
  ghost function Pieces(g: Tree, nameMap: map<string, nat>, rank: seq<nat>, root: nat): seq<set<nat>>
    requires WellFormed(g) && Ranked(g.adj, rank) && root < |g.adj|
  {
    var cs := Kids(g.adj, root);
    seq(|cs|, i requires 0 <= i < |cs| => Ids(g, nameMap, Share(g.adj, rank, cs[i])))
  }

  /** Every child of `root` is childless. */
  ghost predicate AllLeaves(adj: Rows, root: nat)
    requires root < |adj|
  {
    forall c :: c in adj[root] ==> c < |adj| && adj[c] == map[]
  }

  /** The submodules of the first `t` children of `root`. */
  ghost predicate Collected(g: Tree, nameMap: map<string, nat>, rank: seq<nat>, root: nat, t: nat, p: Parts)
    requires WellFormed(g) && Ranked(g.adj, rank) && root < |g.adj|
  {
    var cs := Kids(g.adj, root);
    && t <= |cs| && |p.modules| == t
    && (forall i :: 0 <= i < t ==> p.modules[i] == Ids(g, nameMap, Share(g.adj, rank, cs[i])))
    && (p.allLeafs <==> forall i :: 0 <= i < t ==> g.adj[cs[i]] == map[])
    && p.size == Sizes(p.modules)
    && (forall i :: 0 <= i < t ==> Known(g, nameMap, Share(g.adj, rank, cs[i])))
  }

  /** The name index of a childless node is its only id. */
  lemma IdsSingle(g: Tree, nameMap: map<string, nat>, c: nat)
    requires c < |g.nodes| && NameOf(g, c) in nameMap
    ensures Ids(g, nameMap, {c}) == {nameMap[NameOf(g, c)]}
  {
  }

  /** Adding the submodule of the next child keeps the collection's state. */
  lemma CollectedNext(g: Tree, nameMap: map<string, nat>, rank: seq<nat>, root: nat, t: nat, p: Parts, m: set<nat>)
    requires WellFormed(g) && Ranked(g.adj, rank) && root < |g.adj|
    requires Collected(g, nameMap, rank, root, t, p) && t < |Kids(g.adj, root)|
    requires var c := Kids(g.adj, root)[t];
      c < |g.adj| && Known(g, nameMap, Share(g.adj, rank, c)) && m == Ids(g, nameMap, Share(g.adj, rank, c))
    ensures var c := Kids(g.adj, root)[t];
      Collected(g, nameMap, rank, root, t + 1, Parts(p.modules + [m], p.allLeafs && g.adj[c] == map[], p.size + |m|))
  {
    assert (p.modules + [m])[..t] == p.modules;
  }

  /** A child whose share holds an unknown name makes what is gathered below `root`
      unknown. */
  lemma UnknownChild(g: Tree, nameMap: map<string, nat>, rank: seq<nat>, root: nat, t: nat)
    requires WellFormed(g) && Ranked(g.adj, rank) && root < |g.adj| && t < |Kids(g.adj, root)|
    requires var c := Kids(g.adj, root)[t]; c < |g.adj| && !Known(g, nameMap, Share(g.adj, rank, c))
    ensures !Known(g, nameMap, LeavesBelow(g.adj, rank, root))
  {
    var cs := Kids(g.adj, root);
    forall l | l in Share(g.adj, rank, cs[t])
      ensures l in Gathered(g.adj, rank, root)
    {
      GatheringMember(g.adj, rank, root, cs, l);
    }
    UnknownGrows(g, nameMap, Share(g.adj, rank, cs[t]), Gathered(g.adj, rank, root));
    GatheredIsLeavesBelow(g.adj, rank, root);
  }

  /** The submodule main builds for child `c`: the singleton of its name index when it is
      childless, otherwise `add_leafs` of it. It fails exactly when a name there is
      unknown. */
  method Submodule(g: Tree, nameMap: map<string, nat>, c: nat, ghost rank: seq<nat>)
    returns (failed: bool, m: set<nat>)
    requires WellFormed(g) && Ranked(g.adj, rank) && c < |g.adj|
    ensures failed <==> !Known(g, nameMap, Share(g.adj, rank, c))
    ensures !failed ==> m == Ids(g, nameMap, Share(g.adj, rank, c))
  {
    if g.adj[c] == map[] {
      var name := g.nodes[c].tag.name;
      if name !in nameMap {
        return true, {};
      }
      IdsSingle(g, nameMap, c);
      return false, {nameMap[name]};
    } else {
      var sub := AddLeafs(g, nameMap, c, rank);
      GatheredIsLeavesBelow(g.adj, rank, c);
      if sub.None? {
        return true, {};
      }
      return false, sub.value;
    }
  }

  /** The loop of main over the children of `root`: a childless child gives the
      singleton of its name index, any other child `add_leafs` of it. The source asserts
      every name is known; the result is `None` exactly when one is not. */
  method Submodules(g: Tree, nameMap: map<string, nat>, root: nat, ghost rank: seq<nat>) returns (r: Option<Parts>)
    requires WellFormed(g) && Ranked(g.adj, rank) && root < |g.adj|
    ensures r.None? <==> !Known(g, nameMap, LeavesBelow(g.adj, rank, root))
    ensures r.Some? ==> r.value.modules == Pieces(g, nameMap, rank, root)
    ensures r.Some? ==> (r.value.allLeafs <==> AllLeaves(g.adj, root))
    ensures r.Some? ==> r.value.size == Sizes(r.value.modules)
  {
    var cs := Kids(g.adj, root);
    var p := Parts([], true, 0);
    var t := 0;
    while t < |cs|
      invariant t <= |cs| && Collected(g, nameMap, rank, root, t, p)
    {
      var c := cs[t];
      EdgeRank(g.adj, rank, root, c);
      var failed, m := Submodule(g, nameMap, c, rank);
      if failed {
        UnknownChild(g, nameMap, rank, root, t);
        return None;
      }
      CollectedNext(g, nameMap, rank, root, t, p, m);
      p := Parts(p.modules + [m], p.allLeafs && g.adj[c] == map[], p.size + |m|);
      t := t + 1;
    }
    CollectedAll(g, nameMap, rank, root, p);
    return Some(p);
  }

  /** Once every child is collected, the pieces are all there and every name below is
      known. */
  lemma CollectedAll(g: Tree, nameMap: map<string, nat>, rank: seq<nat>, root: nat, p: Parts)
    requires WellFormed(g) && Ranked(g.adj, rank) && root < |g.adj|
    requires Collected(g, nameMap, rank, root, |Kids(g.adj, root)|, p)
    ensures Known(g, nameMap, LeavesBelow(g.adj, rank, root))
    ensures p.modules == Pieces(g, nameMap, rank, root)
    ensures p.allLeafs <==> AllLeaves(g.adj, root)
    ensures p.size == Sizes(p.modules)
  {
    var cs := Kids(g.adj, root);
    forall l | l in Gathered(g.adj, rank, root)
      ensures l < |g.nodes| && NameOf(g, l) in nameMap
    {
      GatheringMember(g.adj, rank, root, cs, l);
    }
    GatheredIsLeavesBelow(g.adj, rank, root);
    if p.allLeafs {
      forall c | c in g.adj[root]
        ensures c < |g.adj| && g.adj[c] == map[]
      {
        KidsAll(g.adj, root, c);
      }
    }
    if AllLeaves(g.adj, root) {
      forall i | 0 <= i < |cs|
        ensures g.adj[cs[i]] == map[]
      {
        assert cs[i] in g.adj[root];
      }
    }
  }

  // ---------------------------------------------------------------------------
  // The selection of main

  /** A tree node main scores: it has children, not all of them childless, and its
      submodules hold more than four ids in all. */
  ghost predicate Eligible(g: Tree, nameMap: map<string, nat>, rank: seq<nat>, k: nat)
    requires WellFormed(g) && Ranked(g.adj, rank) && k < |g.adj|
  {
    g.adj[k] != map[] && !AllLeaves(g.adj, k) && Sizes(Pieces(g, nameMap, rank, k)) > 4
  }

  /** A scored node: its submodules and the counts of the measure over them. */
  datatype Scored = Scored(root: nat, modules: seq<set<nat>>, e: seq<nat>, a: seq<nat>, total: nat)

  ghost function RootsOf(out: seq<Scored>): set<nat>
  {
    set i | 0 <= i < |out| :: out[i].root
  }

  /** One scored node, as main reports it. */
  ghost predicate Report<E>(g: Tree, adj: seq<map<nat, E>>, nameMap: map<string, nat>, rank: seq<nat>, s: Scored)
    requires WellFormed(g) && Ranked(g.adj, rank)
  {
    && s.root < |g.adj| && Eligible(g, nameMap, rank, s.root)
    && s.modules == Pieces(g, nameMap, rank, s.root)
    && Counts(adj, s.modules, s.e, s.a, s.total)
  }

  /** The state of main's loop after the first `k` tree nodes: every name below them is
      known, and the nodes scored so far are the eligible ones among them, ascending. */
  ghost predicate Measured<E>(g: Tree, adj: seq<map<nat, E>>, nameMap: map<string, nat>, rank: seq<nat>, k: nat, out: seq<Scored>)
    requires WellFormed(g) && Ranked(g.adj, rank)
  {
    && k <= |g.adj|
    && (forall j :: 0 <= j < k ==> Known(g, nameMap, LeavesBelow(g.adj, rank, j)))
    && (forall i :: 0 <= i < |out| ==> out[i].root < k && Report(g, adj, nameMap, rank, out[i]))
    && (forall i, j :: 0 <= i < j < |out| ==> out[i].root < out[j].root)
    && (forall j :: 0 <= j < k ==> (Eligible(g, nameMap, rank, j) <==> j in RootsOf(out)))
  }

  /** Every id the map gives is a node of the network. */
  ghost predicate IdsIn(nameMap: map<string, nat>, n: nat)
  {
    forall t :: t in nameMap ==> nameMap[t] < n
  }

  lemma PiecesInside(g: Tree, nameMap: map<string, nat>, rank: seq<nat>, root: nat, n: nat)
    requires WellFormed(g) && Ranked(g.adj, rank) && root < |g.adj| && IdsIn(nameMap, n)
    ensures Inside(Pieces(g, nameMap, rank, root), n)
  {
  }

  lemma RootsAppend(out: seq<Scored>, s: Scored)
    ensures RootsOf(out + [s]) == RootsOf(out) + {s.root}
  {
    var out' := out + [s];
    forall x | x in RootsOf(out')
      ensures x in RootsOf(out) + {s.root}
    {
      var i :| 0 <= i < |out'| && out'[i].root == x;
      if i < |out| {
        assert out[i].root == x;
      }
    }
    forall x | x in RootsOf(out)
      ensures x in RootsOf(out')
    {
      var i :| 0 <= i < |out| && out[i].root == x;
      assert out'[i].root == x;
    }
    assert out'[|out|].root == s.root;
  }

  /** Passing over node `k`, which is not eligible. */
  lemma MeasuredSkip<E>(g: Tree, adj: seq<map<nat, E>>, nameMap: map<string, nat>, rank: seq<nat>, k: nat, out: seq<Scored>)
    requires WellFormed(g) && Ranked(g.adj, rank) && k < |g.adj|
    requires Measured(g, adj, nameMap, rank, k, out) && Known(g, nameMap, LeavesBelow(g.adj, rank, k))
    requires !Eligible(g, nameMap, rank, k)
    ensures Measured(g, adj, nameMap, rank, k + 1, out)
  {
    assert k !in RootsOf(out);
  }

  /** Scoring node `k`, which is eligible. */
  lemma MeasuredAdd<E>(g: Tree, adj: seq<map<nat, E>>, nameMap: map<string, nat>, rank: seq<nat>, k: nat,
                       out: seq<Scored>, s: Scored)
    requires WellFormed(g) && Ranked(g.adj, rank) && k < |g.adj|
    requires Measured(g, adj, nameMap, rank, k, out) && Known(g, nameMap, LeavesBelow(g.adj, rank, k))
    requires s.root == k && Report(g, adj, nameMap, rank, s)
    ensures Measured(g, adj, nameMap, rank, k + 1, out + [s])
  {
    RootsAppend(out, s);
  }

  /** Main's work for tree node `k`: a node with children gets its submodules, and when
      they pass the filter the counts of the measure over them. */
  method MeasureNode<E>(g: Tree, adj: seq<map<nat, E>>, nameMap: map<string, nat>, k: nat, ghost rank: seq<nat>,
                        out: seq<Scored>)
    returns (failed: bool, out': seq<Scored>)
    requires WellFormed(g) && Ranked(g.adj, rank) && k < |g.adj| && Bounded(adj) && IdsIn(nameMap, |adj|)
    requires Measured(g, adj, nameMap, rank, k, out)
    ensures failed ==> !Known(g, nameMap, LeavesBelow(g.adj, rank, k))
    ensures !failed ==> Measured(g, adj, nameMap, rank, k + 1, out')
  {
    if g.adj[k] == map[] {
      assert LeavesBelow(g.adj, rank, k) == {};
      MeasuredSkip(g, adj, nameMap, rank, k, out);
      return false, out;
    }
    var parts := Submodules(g, nameMap, k, rank);
    if parts.None? {
      return true, out;
    }
    var p := parts.value;
    if !p.allLeafs && p.size > 4 {
      PiecesInside(g, nameMap, rank, k, |adj|);
      var e, a, total := ModularityCounts(adj, p.modules);
      var s := Scored(k, p.modules, e, a, total);
      MeasuredAdd(g, adj, nameMap, rank, k, out, s);
      return false, out + [s];
    }
    MeasuredSkip(g, adj, nameMap, rank, k, out);
    return false, out;
  }

  /** The loop of main over the tree's nodes (modmeas.C:224-259) with the measure's
      arithmetic left out: the nodes that pass the filter, ascending, each with its
      submodules and link counts. The source asserts that every name it looks up is
      known; the result is `None` exactly when one is not. */
  method Measure<E>(g: Tree, adj: seq<map<nat, E>>, nameMap: map<string, nat>, ghost rank: seq<nat>)
    returns (r: Option<seq<Scored>>)
    requires WellFormed(g) && Ranked(g.adj, rank) && Bounded(adj) && IdsIn(nameMap, |adj|)
    ensures r.None? <==> exists k :: 0 <= k < |g.adj| && !Known(g, nameMap, LeavesBelow(g.adj, rank, k))
    ensures r.Some? ==> Measured(g, adj, nameMap, rank, |g.adj|, r.value)
  {
    var out: seq<Scored> := [];
    var k := 0;
    while k < |g.adj|
      invariant Measured(g, adj, nameMap, rank, k, out)
    {
      var failed;
      failed, out := MeasureNode(g, adj, nameMap, k, rank, out);
      if failed {
        return None;
      }
      k := k + 1;
    }
    return Some(out);
  }

  /** What `Measure` reports: exactly the eligible nodes, each once, ascending, with its
      submodules and counts. */
  lemma MeasuredMeaning<E>(g: Tree, adj: seq<map<nat, E>>, nameMap: map<string, nat>, rank: seq<nat>, out: seq<Scored>, k: nat)
    requires WellFormed(g) && Ranked(g.adj, rank) && Measured(g, adj, nameMap, rank, |g.adj|, out) && k < |g.adj|
    ensures Eligible(g, nameMap, rank, k) <==> exists i :: 0 <= i < |out| && out[i].root == k
    ensures forall i :: 0 <= i < |out| ==> Report(g, adj, nameMap, rank, out[i])
  {
    if Eligible(g, nameMap, rank, k) {
      assert k in RootsOf(out);
    }
  }
}

=== FILE: regions.dfy ===
/** Connectivity facts the Girvan–Newman driver relies on: a region is a node set that no
    stored pair leaves and whose nodes are joined by walks; removing one edge from such a
    region leaves every node joined to one of the edge's endpoints, so the component
    labelling of the region finds at most two components. */
module Regions {
  import opened AdjList
  import opened Stats

  /** No stored pair leaves `s`. */
  ghost predicate ClosedSet<E>(adj: seq<map<nat, E>>, s: set<nat>)
  {
    forall x: nat, y: nat :: x in s && x < |adj| && y in adj[x] ==> y in s
  }

  /** Every two nodes of `s` are joined by a walk. (The trigger keeps the solver from
      chasing walks it was not asked about.) */
  ghost predicate Joined<E>(adj: seq<map<nat, E>>, s: set<nat>)
  {
    forall x: nat, y: nat {:trigger Reaches(adj, x, y)} :: x in s && y in s ==> Reaches(adj, x, y)
  }

  /** A walk that starts in a closed set stays in it. */
  lemma {:induction false} WalkInside<E>(adj: seq<map<nat, E>>, s: set<nat>, p: seq<nat>)
    requires IsWalk(adj, p) && p[0] in s && ClosedSet(adj, s)
    ensures forall i :: 0 <= i < |p| ==> p[i] in s
    decreases |p|
  {
    if |p| > 1 {
      var init := p[..|p| - 1];
      assert IsWalk(adj, init) by {
        forall i | 0 <= i < |init| - 1
          ensures init[i + 1] in adj[init[i]]
        {
          assert init[i] == p[i] && init[i + 1] == p[i + 1];
        }
      }
      WalkInside(adj, s, init);
      assert p[|p| - 2] == init[|p| - 2];
      assert p[|p| - 1] in adj[p[|p| - 2]];
    }
  }

  /** Walks from a closed set survive any change that keeps the rows of the set. */
  lemma ReachesWithin<E>(adj: seq<map<nat, E>>, adj': seq<map<nat, E>>, s: set<nat>, a: nat, b: nat)
    requires |adj'| == |adj| && ClosedSet(adj, s) && a in s && Reaches(adj, a, b)
    requires forall x :: x in s && x < |adj| ==> adj[x].Keys <= adj'[x].Keys
    ensures Reaches(adj', a, b)
  {
    var p :| IsWalk(adj, p) && p[0] == a && p[|p| - 1] == b;
    WalkInside(adj, s, p);
    assert IsWalk(adj', p) by {
      forall i | 0 <= i < |p| - 1
        ensures p[i + 1] in adj'[p[i]]
      {
        assert p[i] in s;
      }
    }
  }

  /** Walks survive any change that keeps every row's keys. */
  lemma ReachesSameKeys<E, F>(adj: seq<map<nat, E>>, adj': seq<map<nat, F>>, a: nat, b: nat)
    requires |adj'| == |adj| && forall x :: 0 <= x < |adj| ==> adj[x].Keys == adj'[x].Keys
    requires Reaches(adj, a, b)
    ensures Reaches(adj', a, b)
  {
    var p :| IsWalk(adj, p) && p[0] == a && p[|p| - 1] == b;
    assert IsWalk(adj', p) by {
      forall i | 0 <= i < |p| - 1
        ensures p[i + 1] in adj'[p[i]]
      {
        assert p[i + 1] in adj[p[i]];
      }
    }
  }

  /** A joined set stays joined when every row keeps its keys. */
  lemma JoinedSameKeys<E, F>(adj: seq<map<nat, E>>, adj': seq<map<nat, F>>, s: set<nat>)
    requires |adj'| == |adj| && forall x :: 0 <= x < |adj| ==> adj[x].Keys == adj'[x].Keys
    requires Joined(adj, s)
    ensures Joined(adj', s)
  {
    forall x: nat, y: nat | x in s && y in s
      ensures Reaches(adj', x, y)
    {
      ReachesSameKeys(adj, adj', x, y);
    }
  }

  /** One step in front of a walk. */
  lemma ReachesStep<E>(adj: seq<map<nat, E>>, a: nat, b: nat, c: nat)
    requires a < |adj| && b in adj[a] && b < |adj| && Reaches(adj, b, c)
    ensures Reaches(adj, a, c)
  {
    assert IsWalk(adj, [a, b]);
    ReachesTrans(adj, a, b, c);
  }

  /** A walk to `u` still leads, once the edge {u, v} is gone, from its start to `u` or to
      `v`: the walk up to its first use of the removed edge avoids it. */
  lemma {:induction false} WalkAvoid<E>(adj: seq<map<nat, E>>, u: nat, v: nat, p: seq<nat>)
    requires u < |adj| && v < |adj| && IsWalk(adj, p) && p[|p| - 1] == u
    ensures var a := Unlinked(adj, u, v, true);
      Reaches(a, p[0], u) || Reaches(a, p[0], v)
    decreases |p|
  {
    var a := Unlinked(adj, u, v, true);
    UnlinkedFacts(adj, u, v, true);
    if |p| == 1 {
      ReachesRefl(a, u);
    } else if p[0] == u || p[0] == v {
      ReachesRefl(a, p[0]);
    } else {
      var rest := p[1..];
      assert IsWalk(adj, rest) by {
        forall i | 0 <= i < |rest| - 1
          ensures rest[i + 1] in adj[rest[i]]
        {
          assert rest[i] == p[i + 1] && rest[i + 1] == p[i + 2];
        }
      }
      WalkAvoid(adj, u, v, rest);
      assert p[1] in a[p[0]];
      if Reaches(a, p[1], u) {
        ReachesStep(a, p[0], p[1], u);
      } else {
        ReachesStep(a, p[0], p[1], v);
      }
    }
  }

  /** In a joined set holding `u`, every node still reaches `u` or `v` once {u, v} is
      removed. */
  lemma ReachesAfterRemoval<E>(adj: seq<map<nat, E>>, s: set<nat>, u: nat, v: nat, x: nat)
    requires u < |adj| && v < |adj| && Joined(adj, s) && u in s && x in s
    ensures var a := Unlinked(adj, u, v, true);
      Reaches(a, x, u) || Reaches(a, x, v)
  {
    assert Reaches(adj, x, u);
    var p :| IsWalk(adj, p) && p[0] == x && p[|p| - 1] == u;
    WalkAvoid(adj, u, v, p);
  }

  /** The nodes labelled `c`. */
  function Side(comp: seq<int>, c: int): (s: set<nat>)
    ensures forall x: nat {:trigger x in s} :: x in s <==> x < |comp| && comp[x] == c
  {
    set x: nat | x < |comp| && comp[x] == c
  }

  /** What labelling a closed region `m` after the removal of one of its edges {u, v}
      yields, when every node of `m` still reaches `u` or `v`: exactly the nodes of `m`
      are labelled, with one or two labels; each label's nodes form a closed, joined set;
      label 0 holds the smallest node of `m`. */
  lemma SplitFacts<E>(adj: seq<map<nat, E>>, m: set<nat>, comp: seq<int>, seeds: seq<nat>, u: nat, v: nat)
    requires Bounded(adj) && Symmetric(adj) && ClosedSet(adj, m)
    requires forall x :: x in m ==> x < |adj|
    requires Labelling(adj, MaskOf(|adj|, m), comp, seeds)
    requires forall c :: 0 <= c < |seeds| ==> seeds[c] in m
    requires forall x :: x in m ==> comp[x] >= 0
    requires u in m && v in m
    requires forall x :: x in m ==> Reaches(adj, x, u) || Reaches(adj, x, v)
    ensures 1 <= |seeds| <= 2
    ensures forall x :: 0 <= x < |adj| ==> -1 <= comp[x] <= 1
    ensures forall x: nat :: x < |adj| ==> (comp[x] >= 0 <==> x in m)
    ensures Side(comp, 0) + Side(comp, 1) == m && Side(comp, 0) !! Side(comp, 1)
    ensures Side(comp, 0) != {} && (|seeds| == 2 <==> Side(comp, 1) != {})
    ensures ClosedSet(adj, Side(comp, 0)) && ClosedSet(adj, Side(comp, 1))
    ensures Joined(adj, Side(comp, 0)) && Joined(adj, Side(comp, 1))
    ensures forall x :: x in m ==> seeds[0] <= x
  {
    assert 0 <= comp[u] < |seeds|;
    LabelsAtMostTwo(adj, m, comp, seeds, u, v);
    forall x: nat | x < |adj|
      ensures comp[x] >= 0 <==> x in m
    {
      if comp[x] >= 0 {
        LabelledInside(adj, m, comp, seeds, x);
      }
    }
    SidesClosed(adj, comp, seeds, 0);
    SidesClosed(adj, comp, seeds, 1);
    SidesJoined(adj, MaskOf(|adj|, m), comp, seeds, 0);
    SidesJoined(adj, MaskOf(|adj|, m), comp, seeds, 1);
    assert seeds[0] in Side(comp, 0);
    if |seeds| == 2 {
      assert seeds[1] in Side(comp, 1);
    }
    forall x | x in m
      ensures seeds[0] <= x
    {
    }
  }

  /** The labelling finds a second component exactly when the region is no longer
      joined. */
  lemma SplitIffDisjoined<E>(adj: seq<map<nat, E>>, m: set<nat>, comp: seq<int>, seeds: seq<nat>, u: nat, v: nat)
    requires Bounded(adj) && Symmetric(adj) && ClosedSet(adj, m)
    requires forall x :: x in m ==> x < |adj|
    requires Labelling(adj, MaskOf(|adj|, m), comp, seeds)
    requires forall c :: 0 <= c < |seeds| ==> seeds[c] in m
    requires forall x :: x in m ==> comp[x] >= 0
    requires u in m && v in m
    requires forall x :: x in m ==> Reaches(adj, x, u) || Reaches(adj, x, v)
    ensures |seeds| == 2 <==> !Joined(adj, m)
  {
    SplitFacts(adj, m, comp, seeds, u, v);
    if |seeds| == 2 {
      var a, b := seeds[0], seeds[1];
      SameLabelIffPath(adj, MaskOf(|adj|, m), comp, seeds, a, b);
      assert !Reaches(adj, a, b);
    } else {
      assert Side(comp, 1) == {};
      assert m == Side(comp, 0);
    }
  }

  /** A labelled node is reached from a seed, hence lies in the closed region. */
  lemma LabelledInside<E>(adj: seq<map<nat, E>>, m: set<nat>, comp: seq<int>, seeds: seq<nat>, x: nat)
    requires ClosedSet(adj, m) && FromSeeds(adj, comp, seeds)
    requires forall c :: 0 <= c < |seeds| ==> seeds[c] in m
    requires x < |comp| && comp[x] >= 0
    ensures x in m
  {
    var p :| IsWalk(adj, p) && p[0] == seeds[comp[x]] && p[|p| - 1] == x;
    WalkInside(adj, m, p);
  }

  /** Every seed shares its label with `u` or with `v`, so there are at most two labels. */
  lemma LabelsAtMostTwo<E>(adj: seq<map<nat, E>>, m: set<nat>, comp: seq<int>, seeds: seq<nat>, u: nat, v: nat)
    requires Bounded(adj) && Symmetric(adj)
    requires forall x :: x in m ==> x < |adj|
    requires Labelling(adj, MaskOf(|adj|, m), comp, seeds)
    requires forall c :: 0 <= c < |seeds| ==> seeds[c] in m
    requires forall x :: x in m ==> comp[x] >= 0
    requires u in m && v in m
    requires forall x :: x in m ==> Reaches(adj, x, u) || Reaches(adj, x, v)
    ensures |seeds| <= 2
  {
    if |seeds| > 2 {
      SeedLabel(adj, m, comp, seeds, u, v, 0);
      SeedLabel(adj, m, comp, seeds, u, v, 1);
      SeedLabel(adj, m, comp, seeds, u, v, 2);
    }
  }

  lemma SeedLabel<E>(adj: seq<map<nat, E>>, m: set<nat>, comp: seq<int>, seeds: seq<nat>, u: nat, v: nat, c: nat)
    requires Bounded(adj) && Symmetric(adj)
    requires forall x :: x in m ==> x < |adj|
    requires Labelling(adj, MaskOf(|adj|, m), comp, seeds)
    requires c < |seeds| && seeds[c] in m
    requires forall x :: x in m ==> comp[x] >= 0
    requires u in m && v in m
    requires forall x :: x in m ==> Reaches(adj, x, u) || Reaches(adj, x, v)
    ensures c == comp[u] || c == comp[v]
  {
    var s := seeds[c];
    if Reaches(adj, s, u) {
      SameLabelIffPath(adj, MaskOf(|adj|, m), comp, seeds, s, u);
    } else {
      SameLabelIffPath(adj, MaskOf(|adj|, m), comp, seeds, s, v);
    }
  }

  /** The nodes carrying one label form a closed set. */
  lemma SidesClosed<E>(adj: seq<map<nat, E>>, comp: seq<int>, seeds: seq<nat>, c: nat)
    requires Bounded(adj) && Symmetric(adj) && |comp| == |adj| && SameLabelClosed(adj, comp, [])
    ensures ClosedSet(adj, Side(comp, c))
  {
    forall x: nat, y: nat | x in Side(comp, c) && x < |adj| && y in adj[x]
      ensures y in Side(comp, c)
    {
      SameLabelClosedAt(adj, comp, [], x, y);
    }
  }

  /** The nodes carrying one label are joined. */
  lemma SidesJoined<E>(adj: seq<map<nat, E>>, mask: seq<bool>, comp: seq<int>, seeds: seq<nat>, c: nat)
    requires Labelling(adj, mask, comp, seeds) && Symmetric(adj)
    ensures Joined(adj, Side(comp, c))
  {
    forall x: nat, y: nat | x in Side(comp, c) && y in Side(comp, c)
      ensures Reaches(adj, x, y)
    {
      SameLabelIffPath(adj, mask, comp, seeds, x, y);
    }
  }
}

=== FILE: rgb.dfy ===
/** The packed colour of graphics/general.H: three 8-bit components in one `long`, red in
    bits 16-23, green in bits 8-15 and blue in bits 0-7. Components arrive as 32-bit
    unsigned integers and the packed value is a 64-bit `long`; both are bit-vectors here,
    so masking and shifting are exactly the source's. */
module Rgb {
  type Uint = bv32
  type Long = bv64

  /** `RGB(r, g, b)`: each component masked to its low 8 bits and shifted into place. */
  function Pack(r: Uint, g: Uint, b: Uint): (p: Long)
    ensures p < 0x100_0000
    ensures (p >> 16) as Uint == r & 0xFF && ((p >> 8) & 0xFF) as Uint == g & 0xFF && (p & 0xFF) as Uint == b & 0xFF
  {
    (((r & 0xFF) << 16) | ((g & 0xFF) << 8) | (b & 0xFF)) as Long
  }

  /** `getR(rgb)`: bits 16-23. An arithmetic or a logical shift give the same bits there. */
  function GetR(p: Long): (c: Uint)
    ensures c < 256
  {
    ((p >> 16) & 0xFF) as Uint
  }

  /** `getG(rgb)`: bits 8-15. */
  function GetG(p: Long): (c: Uint)
    ensures c < 256
  {
    ((p >> 8) & 0xFF) as Uint
  }

  /** `getB(rgb)`: bits 0-7. */
  function GetB(p: Long): (c: Uint)
    ensures c < 256
  {
    (p & 0xFF) as Uint
  }

  /** Unpacking recovers each component modulo 256. */
  lemma UnpackPack(r: Uint, g: Uint, b: Uint)
    ensures GetR(Pack(r, g, b)) == r % 256
    ensures GetG(Pack(r, g, b)) == g % 256
    ensures GetB(Pack(r, g, b)) == b % 256
  {
    assert r & 0xFF == r % 256 && g & 0xFF == g % 256 && b & 0xFF == b % 256;
  }

  /** Every value below 2^24 is the packing of its own components. */
  lemma PackUnpack(p: Long)
    requires p < 0x100_0000
    ensures Pack(GetR(p), GetG(p), GetB(p)) == p
  {
  }
}

=== FILE: similarity.dfy ===
/** The similarity-measure readers of networks/hierclust.C (`read_similarity_measure`) and
    networks/treeanlz.C (`read_measure`), and the two `prepare_image` functions that turn a
    measure into a grey-level image.

    A measure file is a sequence of "<name1> <name2> <value>" triples. The readers intern the
    names to ids 0, 1, 2, ... in order of first appearance, grow the table to hold the
    largest id and store the value at [id1][id2], the most recent value winning. The input
    is modelled as the triples read in full plus the way the first incomplete read failed:
    at the end of the stream (a clean stop) or elsewhere (a malformed triple). How the
    characters of a value are turned into a `double` is not modelled. */
module Similarity {
  import opened Common
  import opened AdjList

  datatype Triple = Triple(n1: string, n2: string, v: real)

  // ---------------------------------------------------------------------------
  // Name interning

  /** The names of the triples in reading order: first name, second name, next triple. */
  function NameStream(ts: seq<Triple>): (ns: seq<string>)
    decreases |ts|
  {
    if ts == [] then [] else NameStream(ts[..|ts| - 1]) + [ts[|ts| - 1].n1, ts[|ts| - 1].n2]
  }

  /** Triple k contributes its two names at positions 2k and 2k + 1. */
  lemma {:induction false} NameStreamAt(ts: seq<Triple>, k: nat)
    requires k < |ts|
    ensures |NameStream(ts)| == 2 * |ts|
    ensures NameStream(ts)[2 * k] == ts[k].n1 && NameStream(ts)[2 * k + 1] == ts[k].n2
    decreases |ts|
  {
    if k < |ts| - 1 {
      NameStreamAt(ts[..|ts| - 1], k);
    } else if |ts| > 1 {
      NameStreamAt(ts[..|ts| - 1], 0);
    }
  }

  predicate Distinct(s: seq<string>)
  {
    forall i, j :: 0 <= i < j < |s| ==> s[i] != s[j]
  }

  /** Reference definition of the interning order: each name at its first appearance. */
  function Firsts(ns: seq<string>): (fs: seq<string>)
    decreases |ns|
  {
    if ns == [] then []
    else
      var fs := Firsts(ns[..|ns| - 1]);
      if ns[|ns| - 1] in fs then fs else fs + [ns[|ns| - 1]]
  }

  /** The first appearances are distinct and hold exactly the names of the stream. */
  lemma {:induction false} FirstsFacts(ns: seq<string>)
    ensures Distinct(Firsts(ns))
    ensures forall n :: n in Firsts(ns) <==> n in ns
    decreases |ns|
  {
    if ns != [] {
      var init := ns[..|ns| - 1];
      FirstsFacts(init);
      assert ns == init + [ns[|ns| - 1]];
    }
  }

  /** Reading more names only appends to the first appearances. */
  lemma {:induction false} FirstsPrefix(ns: seq<string>, more: seq<string>)
    ensures |Firsts(ns)| <= |Firsts(ns + more)| && Firsts(ns + more)[..|Firsts(ns)|] == Firsts(ns)
    decreases |more|
  {
    if more == [] {
      assert ns + more == ns;
    } else {
      var init := more[..|more| - 1];
      FirstsPrefix(ns, init);
      assert (ns + more)[..|ns + more| - 1] == ns + init;
    }
  }

  /** The position of the first appearance of `n` in `ns`. */
  function FirstAt(ns: seq<string>, n: string): (k: nat)
    requires n in ns
  {
    if ns[0] == n then 0 else 1 + FirstAt(ns[1..], n)
  }

  lemma {:induction false} FirstAtFacts(ns: seq<string>, n: string)
    requires n in ns
    ensures FirstAt(ns, n) < |ns| && ns[FirstAt(ns, n)] == n
    ensures forall i :: 0 <= i < FirstAt(ns, n) ==> ns[i] != n
    decreases |ns|
  {
    if ns[0] != n {
      FirstAtFacts(ns[1..], n);
    }
  }

  /** The first appearance of a name is unchanged by appending. */
  lemma FirstAtAppend(o: seq<string>, p: seq<string>, n: string)
    requires n in o
    ensures n in o + p && FirstAt(o + p, n) == FirstAt(o, n)
  {
    FirstAtFacts(o, n);
    FirstAtUnique(o + p, n, FirstAt(o, n));
  }

  /** The first appearance is the position holding `n` with no `n` before it. */
  lemma {:induction false} FirstAtUnique(ns: seq<string>, n: string, k: nat)
    requires k < |ns| && ns[k] == n && forall i :: 0 <= i < k ==> ns[i] != n
    ensures FirstAt(ns, n) == k
    decreases k
  {
    if k > 0 {
      FirstAtUnique(ns[1..], n, k - 1);
    }
  }

  /** The id of an interned name: its position in the interning order. */
  function Id(order: seq<string>, n: string): (i: nat)
    requires n in order
    ensures i < |order| && order[i] == n
  {
    FirstAtFacts(order, n);
    FirstAt(order, n)
  }

  /** Distinct names have their id as their only position. */
  lemma IdOf(order: seq<string>, i: nat)
    requires Distinct(order) && i < |order|
    ensures Id(order, order[i]) == i
  {
    FirstAtUnique(order, order[i], i);
  }

  /** Interning one name: a known name keeps its id; a new one gets the next id. */
  function Intern(order: seq<string>, n: string): (r: seq<string>)
    ensures n in r
  {
    if n in order then order else order + [n]
  }

  // ---------------------------------------------------------------------------
  // The reading loop

  datatype State = State(order: seq<string>, meas: seq<map<nat, real>>)

  /** `meas.resize(k)` when the table is shorter: appended rows are empty. */
  function Grow(meas: seq<map<nat, real>>, k: nat): (r: seq<map<nat, real>>)
    ensures |r| == Max(|meas|, k)
    ensures forall i :: 0 <= i < |r| ==> r[i] == if i < |meas| then meas[i] else map[]
  {
    if |meas| < k then meas + seq(k - |meas|, _ => map[]) else meas
  }

  function Max(a: nat, b: nat): nat
  {
    if a < b then b else a
  }

  /** One complete triple: intern the first name, then the second, grow the table to
      1 + the larger id and store the value at [id1][id2], replacing an earlier one. */
  function Absorb(st: State, t: Triple): (r: State)
  {
    var o1 := Intern(st.order, t.n1);
    var o2 := Intern(o1, t.n2);
    var i1, i2 := Id(o2, t.n1), Id(o2, t.n2);
    var m := Grow(st.meas, 1 + Max(i1, i2));
    State(o2, m[i1 := Insert(m[i1], i2, t.v)])
  }

  /** The state after the complete triples `ts`, starting from an empty interning and the
      caller's table `meas0`. */
  function Fold(meas0: seq<map<nat, real>>, ts: seq<Triple>): (st: State)
    decreases |ts|
  {
    if ts == [] then State([], meas0) else Absorb(Fold(meas0, ts[..|ts| - 1]), ts[|ts| - 1])
  }

  /** Interning one name keeps the order as `Firsts` builds it. */
  lemma InternFirsts(ns: seq<string>, n: string)
    ensures Intern(Firsts(ns), n) == Firsts(ns + [n])
  {
    assert (ns + [n])[..|ns|] == ns;
  }

  /** The interning order is the order of first appearance of the names read. */
  lemma {:induction false} FoldOrder(meas0: seq<map<nat, real>>, ts: seq<Triple>)
    ensures Fold(meas0, ts).order == Firsts(NameStream(ts))
    decreases |ts|
  {
    if ts != [] {
      var init := ts[..|ts| - 1];
      var t := ts[|ts| - 1];
      FoldOrder(meas0, init);
      var ns := NameStream(init);
      InternFirsts(ns, t.n1);
      InternFirsts(ns + [t.n1], t.n2);
      assert NameStream(ts) == ns + [t.n1] + [t.n2];
    }
  }

  /** Ids are assigned once: a name interned earlier keeps its id in every later order. */
  lemma IdStable(ns: seq<string>, more: seq<string>, n: string)
    requires n in Firsts(ns)
    ensures n in Firsts(ns + more) && Id(Firsts(ns + more), n) == Id(Firsts(ns), n)
  {
    FirstsPrefix(ns, more);
    IdPrefix(Firsts(ns), Firsts(ns + more), n);
  }

  /** A name keeps its id in any extension of the interning order. */
  lemma IdPrefix(o: seq<string>, o': seq<string>, n: string)
    requires n in o && |o| <= |o'| && o'[..|o|] == o
    ensures n in o' && Id(o', n) == Id(o, n)
  {
    assert o' == o + o'[|o|..];
    FirstAtAppend(o, o'[|o|..], n);
  }

  /** The names of more triples follow the names of the earlier ones. */
  lemma {:induction false} NameStreamAppend(ts: seq<Triple>, more: seq<Triple>)
    ensures NameStream(ts + more) == NameStream(ts) + NameStream(more)
    decreases |more|
  {
    if more == [] {
      assert ts + more == ts;
    } else {
      var init := more[..|more| - 1];
      NameStreamAppend(ts, init);
      assert (ts + more)[..|ts + more| - 1] == ts + init;
      assert (ts + more)[|ts + more| - 1] == more[|more| - 1];
    }
  }

  /** The id a name gets when first read is the id it keeps after any later triples. */
  lemma FoldIdFinal(meas0: seq<map<nat, real>>, ts: seq<Triple>, more: seq<Triple>, n: string)
    requires n in Fold(meas0, ts).order
    ensures n in Fold(meas0, ts + more).order
    ensures Id(Fold(meas0, ts + more).order, n) == Id(Fold(meas0, ts).order, n)
  {
    FoldOrder(meas0, ts);
    FoldOrder(meas0, ts + more);
    NameStreamAppend(ts, more);
    IdStable(NameStream(ts), NameStream(more), n);
  }

  /** Interning keeps the names distinct. */
  lemma InternDistinct(order: seq<string>, n: string)
    requires Distinct(order)
    ensures Distinct(Intern(order, n))
  {
  }

  /** One triple keeps the table one row per interned id at least, as long as the caller's
      table. */
  lemma AbsorbSize(st: State, t: Triple, m0: nat)
    requires Distinct(st.order) && |st.meas| == Max(m0, |st.order|)
    ensures var r := Absorb(st, t); Distinct(r.order) && |r.meas| == Max(m0, |r.order|)
  {
    var o1 := Intern(st.order, t.n1);
    InternDistinct(st.order, t.n1);
    var o2 := Intern(o1, t.n2);
    InternDistinct(o1, t.n2);
    var i1, i2 := Id(o2, t.n1), Id(o2, t.n2);
    if |o2| > |st.order| {
      var last := |o2| - 1;
      assert o2[last] == t.n1 || o2[last] == t.n2;
      IdOf(o2, last);
      assert Max(i1, i2) == last;
    }
  }

  /** The table holds a row for every interned id, and never shrinks. */
  lemma {:induction false} FoldSize(meas0: seq<map<nat, real>>, ts: seq<Triple>)
    ensures Distinct(Fold(meas0, ts).order)
    ensures |Fold(meas0, ts).meas| == Max(|meas0|, |Fold(meas0, ts).order|)
    decreases |ts|
  {
    if ts != [] {
      FoldSize(meas0, ts[..|ts| - 1]);
      AbsorbSize(Fold(meas0, ts[..|ts| - 1]), ts[|ts| - 1], |meas0|);
    }
  }

  /** The most recent value read for the pair of ids (i, j), each triple's names given the
      ids they had once it was read, if any triple names that pair. */
  function Written(meas0: seq<map<nat, real>>, ts: seq<Triple>, i: nat, j: nat): Option<real>
    decreases |ts|
  {
    if ts == [] then None
    else
      var t := ts[|ts| - 1];
      var order := Fold(meas0, ts).order;
      assert order == Absorb(Fold(meas0, ts[..|ts| - 1]), t).order;
      if Id(order, t.n1) == i && Id(order, t.n2) == j then Some(t.v)
      else Written(meas0, ts[..|ts| - 1], i, j)
  }

  /** One triple changes entry [id1][id2] and nothing else; rows it adds are empty. */
  lemma AbsorbEntry(st: State, t: Triple, i: nat, j: nat)
    requires i < |Absorb(st, t).meas|
    ensures var r := Absorb(st, t);
      var i1, i2 := Id(r.order, t.n1), Id(r.order, t.n2);
      if i == i1 && j == i2 then j in r.meas[i] && r.meas[i][j] == t.v
      else (j in r.meas[i] <==> i < |st.meas| && j in st.meas[i]) &&
           (j in r.meas[i] ==> r.meas[i][j] == st.meas[i][j])
  {
  }

  /** Every entry of the table after reading is the most recent value read for its pair of
      ids, or, for pairs no triple names, the caller's entry (absent from rows added by the
      reader). */
  lemma {:induction false} FoldEntries(meas0: seq<map<nat, real>>, ts: seq<Triple>, i: nat, j: nat)
    requires i < |Fold(meas0, ts).meas|
    ensures var st := Fold(meas0, ts);
      match Written(meas0, ts, i, j)
      case Some(v) => j in st.meas[i] && st.meas[i][j] == v
      case None =>
        (j in st.meas[i] <==> i < |meas0| && j in meas0[i]) &&
        (j in st.meas[i] ==> st.meas[i][j] == meas0[i][j])
    decreases |ts|
  {
    if ts != [] {
      var init := ts[..|ts| - 1];
      var st0 := Fold(meas0, init);
      AbsorbEntry(st0, ts[|ts| - 1], i, j);
      if i < |st0.meas| {
        FoldEntries(meas0, init, i, j);
      } else {
        FoldSize(meas0, init);
        NoneBeyond(meas0, init, i, j);
      }
    }
  }

  /** No triple read so far names a row the table does not have yet. */
  lemma {:induction false} NoneBeyond(meas0: seq<map<nat, real>>, ts: seq<Triple>, i: nat, j: nat)
    requires i >= |Fold(meas0, ts).meas|
    ensures Written(meas0, ts, i, j) == None
    decreases |ts|
  {
    if ts != [] {
      var init := ts[..|ts| - 1];
      var st0 := Fold(meas0, init);
      assert |st0.meas| <= |Fold(meas0, ts).meas|;
      NoneBeyond(meas0, init, i, j);
    }
  }

  // ---------------------------------------------------------------------------
  // The two readers

  /** How the first incomplete `i >> n1 >> n2 >> v` failed. */
  datatype Stop = AtEof | Malformed

  /** The inverse of the interning: id to name. */
  function Inverse(order: seq<string>): (names: map<nat, string>)
    ensures forall i: nat :: i in names <==> i < |order|
  {
    map i: nat | i < |order| :: order[i]
  }

  /** `read_similarity_measure(i, meas, names)`: reads every complete triple into `meas`
      (also when it then fails). At a clean end of the stream it replaces `names` by the
      id-to-name map and returns true; after a malformed triple it returns false and leaves
      `names` as it was. */
  function ReadSimilarityMeasure(ts: seq<Triple>, stop: Stop, meas0: seq<map<nat, real>>, names0: map<nat, string>)
    : (r: (bool, seq<map<nat, real>>, map<nat, string>))
    ensures r.0 <==> stop == AtEof
    ensures r.1 == Fold(meas0, ts).meas
    ensures !r.0 ==> r.2 == names0
  {
    var st := Fold(meas0, ts);
    if stop == AtEof then (true, st.meas, Inverse(st.order)) else (false, st.meas, names0)
  }

  /** The returned names are exactly the ids interned, each mapped to its name, and the
      names read are exactly those with an id. */
  lemma NamesInverse(ts: seq<Triple>, meas0: seq<map<nat, real>>, names0: map<nat, string>)
    ensures var (ok, _, names) := ReadSimilarityMeasure(ts, AtEof, meas0, names0);
      var order := Fold(meas0, ts).order;
      && ok
      && (forall n :: n in NameStream(ts) <==> n in order)
      && (forall n :: n in order ==> Id(order, n) in names && names[Id(order, n)] == n)
      && (forall i :: i in names ==> names[i] in order && Id(order, names[i]) == i)
  {
    var order := Fold(meas0, ts).order;
    FoldOrder(meas0, ts);
    FirstsFacts(NameStream(ts));
    forall i | 0 <= i < |order|
      ensures Id(order, order[i]) == i
    {
      IdOf(order, i);
    }
  }

  /** `read_measure(i, meas, names)` of the tree analyser: the same loop, with the
      name-to-id map itself as the result, updated also when it returns false. The caller
      passes an empty map. */
  function ReadMeasure(ts: seq<Triple>, stop: Stop, meas0: seq<map<nat, real>>)
    : (r: (bool, seq<map<nat, real>>, map<string, nat>))
    ensures r.0 <==> stop == AtEof
    ensures r.1 == Fold(meas0, ts).meas
    ensures forall n :: n in r.2 <==> n in NameStream(ts)
  {
    var st := Fold(meas0, ts);
    FoldOrder(meas0, ts);
    FirstsFacts(NameStream(ts));
    (stop == AtEof, st.meas, map n | n in st.order :: Id(st.order, n))
  }

  /** Both readers agree: `read_measure`'s map and `read_similarity_measure`'s are
      inverse to each other. */
  lemma ReadersAgree(ts: seq<Triple>, meas0: seq<map<nat, real>>, names0: map<nat, string>)
    ensures var (_, m1, names) := ReadSimilarityMeasure(ts, AtEof, meas0, names0);
      var (_, m2, ids) := ReadMeasure(ts, AtEof, meas0);
      && m1 == m2
      && (forall n :: n in ids ==> ids[n] in names && names[ids[n]] == n)
      && (forall i :: i in names ==> names[i] in ids && ids[names[i]] == i)
  {
    NamesInverse(ts, meas0, names0);
  }

  // ---------------------------------------------------------------------------
  // prepare_image

  /** The value stored at [i][j], 0 when absent. */
  function Get(m: map<nat, real>, k: nat): real
  {
    if k in m then m[k] else 0.0
  }

  /** `prepare_image(meas, ord, image)` of hierclust.C: an |ord| x |ord| image whose pixel
      (i, j) is 1 minus the measure between the ids `ord[i]` and `ord[j]`, a missing entry
      counting as 0. The source indexes `meas` with every id without a check. */
  function PrepareImage(meas: seq<map<nat, real>>, ord: seq<nat>): (image: seq<seq<real>>)
    requires forall i :: 0 <= i < |ord| ==> ord[i] < |meas|
    ensures |image| == |ord| && forall i :: 0 <= i < |ord| ==> |image[i]| == |ord|
  {
    seq(|ord|, i requires 0 <= i < |ord| =>
      seq(|ord|, j requires 0 <= j < |ord| => 1.0 - Get(meas[ord[i]], ord[j])))
  }

  /** The image gives the measure back, and a symmetric measure gives a symmetric image. */
  lemma PrepareImageMeaning(meas: seq<map<nat, real>>, ord: seq<nat>)
    requires forall i :: 0 <= i < |ord| ==> ord[i] < |meas|
    ensures var image := PrepareImage(meas, ord);
      && (forall i, j :: 0 <= i < |ord| && 0 <= j < |ord| ==> 1.0 - image[i][j] == Get(meas[ord[i]], ord[j]))
      && ((forall a, b :: 0 <= a < |meas| && 0 <= b < |meas| ==> Get(meas[a], b) == Get(meas[b], a)) ==>
            forall i, j :: 0 <= i < |ord| && 0 <= j < |ord| ==> image[i][j] == image[j][i])
  {
  }

  /** `prepare_image(meas, names, ord, image)` of treeanlz.C: the order holds names, looked
      up in the name-to-id map (asserted present), and the image is filled from the
      bottom-right corner: pixel (n-1-i, n-1-j) is 1 minus the measure between the ids of
      `ord[i]` and `ord[j]`. */
  function PrepareNamedImage(meas: seq<map<nat, real>>, ids: map<string, nat>, ord: seq<string>)
    : (image: seq<seq<real>>)
    requires forall i :: 0 <= i < |ord| ==> ord[i] in ids && ids[ord[i]] < |meas|
    ensures |image| == |ord| && forall i :: 0 <= i < |ord| ==> |image[i]| == |ord|
  {
    var n := |ord|;
    seq(n, a requires 0 <= a < n =>
      seq(n, b requires 0 <= b < n => 1.0 - Get(meas[ids[ord[n - 1 - a]]], ids[ord[n - 1 - b]])))
  }

  /** The tree analyser's image is the clusterer's image of the looked-up ids, turned by
      half a revolution. */
  lemma NamedImageIsTurned(meas: seq<map<nat, real>>, ids: map<string, nat>, ord: seq<string>)
    requires forall i :: 0 <= i < |ord| ==> ord[i] in ids && ids[ord[i]] < |meas|
    ensures var n := |ord|;
      var idOrd := seq(n, i requires 0 <= i < n => ids[ord[i]]);
      var a, b := PrepareNamedImage(meas, ids, ord), PrepareImage(meas, idOrd);
      forall i, j :: 0 <= i < n && 0 <= j < n ==> a[n - 1 - i][n - 1 - j] == b[i][j]
  {
  }
}

=== FILE: stats.dfy ===
/** Traversals over the graph store (networks/stats.H): masked connected-component
    labelling, breadth-first hop distances, cumulative histograms and the component-size
    summaries. They read only the rows of a graph, so they take the rows directly; a
    row's entries are visited in ascending neighbour order, as the ordered map is. */
module Stats {
  import opened Common
  import opened AdjList

  // ---------------------------------------------------------------------------
  // Component labels

  /** Number of entries of `comp` that are still unlabelled (negative). */
  function Unlabelled(comp: seq<int>): nat
  {
    if |comp| == 0 then 0 else Unlabelled(comp[..|comp| - 1]) + (if comp[|comp| - 1] < 0 then 1 else 0)
  }

  lemma {:induction false} UnlabelledLabel(comp: seq<int>, u: nat, c: nat)
    requires u < |comp| && comp[u] < 0
    ensures Unlabelled(comp[u := c]) + 1 == Unlabelled(comp)
    decreases |comp|
  {
    var n := |comp| - 1;
    if u < n {
      assert comp[u := c][..n] == comp[..n][u := c];
      UnlabelledLabel(comp[..n], u, c);
    } else {
      assert comp[u := c][..n] == comp[..n];
    }
  }

  /** `find_first_untouched(comp, mask)` scanning from `i`: the first masked position
      still labelled -1, or -1 if there is none. */
  function FindFirstUntouched(comp: seq<int>, mask: seq<bool>, i: nat): (r: int)
    requires |mask| == |comp| && i <= |comp|
    ensures r == -1 || (i <= r < |comp| && comp[r] == -1 && mask[r])
    ensures r == -1 ==> forall x :: i <= x < |comp| ==> !(comp[x] == -1 && mask[x])
    ensures r >= 0 ==> forall x :: i <= x < r ==> !(comp[x] == -1 && mask[x])
    decreases |comp| - i
  {
    if i == |comp| then -1
    else if comp[i] == -1 && mask[i] then i
    else FindFirstUntouched(comp, mask, i + 1)
  }

  /** Every label lies in [-1, k). */
  ghost predicate LabelRange(comp: seq<int>, k: nat)
  {
    forall x :: 0 <= x < |comp| ==> -1 <= comp[x] < k
  }

  /** Seed `c` is masked, carries label `c`, and every masked node below it carries a
      smaller label: seeds are taken lowest index first. */
  ghost predicate Seeded(mask: seq<bool>, comp: seq<int>, seeds: seq<nat>)
    requires |mask| == |comp|
  {
    && (forall c :: 0 <= c < |seeds| ==> seeds[c] < |comp| && mask[seeds[c]] && comp[seeds[c]] == c)
    && (forall c, x :: 0 <= c < |seeds| && 0 <= x < seeds[c] && mask[x] ==> 0 <= comp[x] < c)
  }

  /** Every labelled node is reachable from the seed of its label. */
  ghost predicate FromSeeds<E>(adj: seq<map<nat, E>>, comp: seq<int>, seeds: seq<nat>)
  {
    forall x :: 0 <= x < |comp| && comp[x] >= 0 ==> comp[x] < |seeds| && Reaches(adj, seeds[comp[x]], x)
  }

  /** Every neighbour of a labelled node outside `q` is labelled. */
  ghost predicate Closed<E>(adj: seq<map<nat, E>>, comp: seq<int>, q: seq<nat>)
  {
    forall x: nat, y: nat :: x < |adj| && x < |comp| && comp[x] >= 0 && x !in q && y in adj[x] && y < |comp| ==> comp[y] >= 0
  }

  /** Every neighbour of a labelled node outside `q` carries the same label. */
  ghost predicate SameLabelClosed<E>(adj: seq<map<nat, E>>, comp: seq<int>, q: seq<nat>)
  {
    forall x: nat, y: nat :: x < |adj| && x < |comp| && comp[x] >= 0 && x !in q && y in adj[x] && y < |comp| ==> comp[y] == comp[x]
  }

  /** Every node the first `k` seeds reach is labelled, with a label no later than the
      first seed that reaches it: a seed's search runs to completion before the next
      seed is chosen, so a later seed is one no earlier search reached. */
  ghost predicate SeedsReach<E>(adj: seq<map<nat, E>>, comp: seq<int>, seeds: seq<nat>, k: nat)
  {
    forall c, x :: 0 <= c < k && c < |seeds| && 0 <= x < |comp| && Reaches(adj, seeds[c], x) ==> 0 <= comp[x] <= c
  }

  /** The labels `connected_components` leaves, with the seeds it chose. */
  ghost predicate Labelling<E>(adj: seq<map<nat, E>>, mask: seq<bool>, comp: seq<int>, seeds: seq<nat>)
  {
    && |comp| == |adj| == |mask|
    && LabelRange(comp, |seeds|)
    && Seeded(mask, comp, seeds)
    && FromSeeds(adj, comp, seeds)
    && SeedsReach(adj, comp, seeds, |seeds|)
    && Closed(adj, comp, [])
    && (Symmetric(adj) ==> SameLabelClosed(adj, comp, []))
  }

  /** The state inside the search for label `c`: the queue holds nodes labelled `c`,
      and only queued nodes may still have unlabelled neighbours. */
  ghost predicate Round<E>(adj: seq<map<nat, E>>, mask: seq<bool>, comp: seq<int>, seeds: seq<nat>, q: seq<nat>, c: nat)
  {
    && Bounded(adj)
    && |comp| == |adj| == |mask| && |seeds| == c + 1
    && LabelRange(comp, c + 1)
    && Seeded(mask, comp, seeds)
    && FromSeeds(adj, comp, seeds)
    && SeedsReach(adj, comp, seeds, c)
    && (forall i :: 0 <= i < |q| ==> q[i] < |adj| && comp[q[i]] == c)
    && Closed(adj, comp, q)
    && (Symmetric(adj) ==> SameLabelClosed(adj, comp, q))
  }

  /** `connected_components(g, comp, mask)`: labels are reset to -1; while some masked
      node is unlabelled, the lowest one seeds a new label and a breadth-first search
      from it labels every unlabelled node it reaches, masked or not. Returns the
      number of seeds. */
  method ConnectedComponents<E>(adj: seq<map<nat, E>>, mask: seq<bool>) returns (comp: seq<int>, count: nat, ghost seeds: seq<nat>)
    requires Bounded(adj) && |mask| == |adj|
    ensures |seeds| == count
    ensures Labelling(adj, mask, comp, seeds)
    ensures forall x :: 0 <= x < |adj| && mask[x] ==> comp[x] >= 0
  {
    comp := seq(|adj|, _ => -1);
    count := 0;
    seeds := [];
    var idx := FindFirstUntouched(comp, mask, 0);
    while idx != -1
      invariant |seeds| == count
      invariant Labelling(adj, mask, comp, seeds)
      invariant idx == FindFirstUntouched(comp, mask, 0)
      decreases Unlabelled(comp)
    {
      comp, seeds := Explore(adj, mask, comp, seeds, idx, count);
      count := count + 1;
      idx := FindFirstUntouched(comp, mask, 0);
    }
  }

  /** One round of the outer loop: seed `idx` with the next label and run the
      breadth-first search from it to completion. */
  method Explore<E>(adj: seq<map<nat, E>>, mask: seq<bool>, comp0: seq<int>, ghost seeds0: seq<nat>, idx: nat, c: nat)
    returns (comp: seq<int>, ghost seeds: seq<nat>)
    requires Bounded(adj) && |seeds0| == c
    requires Labelling(adj, mask, comp0, seeds0)
    requires idx == FindFirstUntouched(comp0, mask, 0)
    ensures seeds == seeds0 + [idx]
    ensures Labelling(adj, mask, comp, seeds)
    ensures Unlabelled(comp) < Unlabelled(comp0)
  {
    comp := comp0[idx := c];
    seeds := seeds0 + [idx];
    UnlabelledLabel(comp0, idx, c);
    SeedRound(adj, mask, comp0, seeds0, idx);
    var q := [idx];
    while q != []
      invariant Round(adj, mask, comp, seeds, q, c)
      invariant Unlabelled(comp) < Unlabelled(comp0)
      decreases Unlabelled(comp), |q|
    {
      comp, q := Visit(adj, mask, comp, seeds, q, c);
    }
    RoundDone(adj, mask, comp, seeds, c);
  }

  /** A round whose queue is empty has labelled everything its seed reaches. */
  lemma RoundDone<E>(adj: seq<map<nat, E>>, mask: seq<bool>, comp: seq<int>, seeds: seq<nat>, c: nat)
    requires Round(adj, mask, comp, seeds, [], c)
    ensures SeedsReach(adj, comp, seeds, c + 1)
  {
    forall x | 0 <= x < |comp| && Reaches(adj, seeds[c], x)
      ensures 0 <= comp[x] <= c
    {
      var p :| IsWalk(adj, p) && p[0] == seeds[c] && p[|p| - 1] == x;
      WalkLabelled(adj, comp, p);
    }
  }

  /** Seeding the lowest unlabelled masked node starts a round for the next label. */
  lemma SeedRound<E>(adj: seq<map<nat, E>>, mask: seq<bool>, comp: seq<int>, seeds: seq<nat>, idx: nat)
    requires Bounded(adj) && Labelling(adj, mask, comp, seeds)
    requires idx == FindFirstUntouched(comp, mask, 0)
    ensures idx < |comp| && comp[idx] == -1
    ensures Round(adj, mask, comp[idx := |seeds|], seeds + [idx], [idx], |seeds|)
  {
    SeedSeeded(mask, comp, seeds, idx);
    SeedFromSeeds(adj, mask, comp, seeds, idx);
    SeedClosed(adj, mask, comp, seeds, idx);
    var comp' := comp[idx := |seeds|];
    forall d, x | 0 <= d < |seeds| && 0 <= x < |comp'| && Reaches(adj, (seeds + [idx])[d], x)
      ensures 0 <= comp'[x] <= d
    {
      assert 0 <= comp[x] <= d;
    }
  }

  lemma SeedSeeded(mask: seq<bool>, comp: seq<int>, seeds: seq<nat>, idx: nat)
    requires |comp| == |mask| && LabelRange(comp, |seeds|) && Seeded(mask, comp, seeds)
    requires idx == FindFirstUntouched(comp, mask, 0)
    ensures idx < |comp| && comp[idx] == -1
    ensures LabelRange(comp[idx := |seeds|], |seeds| + 1)
    ensures Seeded(mask, comp[idx := |seeds|], seeds + [idx])
  {
    var c := |seeds|;
    var comp' := comp[idx := c];
    var seeds' := seeds + [idx];
    forall d, x | 0 <= d < |seeds'| && 0 <= x < seeds'[d] && mask[x]
      ensures 0 <= comp'[x] < d
    {
      if d < c {
        assert 0 <= comp[x] < d;
      }
    }
  }

  lemma SeedFromSeeds<E>(adj: seq<map<nat, E>>, mask: seq<bool>, comp: seq<int>, seeds: seq<nat>, idx: nat)
    requires |comp| == |adj| && LabelRange(comp, |seeds|) && FromSeeds(adj, comp, seeds)
    requires idx < |comp| && comp[idx] == -1
    ensures FromSeeds(adj, comp[idx := |seeds|], seeds + [idx])
  {
    ReachesRefl(adj, idx);
  }

  lemma SeedClosed<E>(adj: seq<map<nat, E>>, mask: seq<bool>, comp: seq<int>, seeds: seq<nat>, idx: nat)
    requires |comp| == |adj| && Closed(adj, comp, []) && (Symmetric(adj) ==> SameLabelClosed(adj, comp, []))
    requires idx < |comp| && comp[idx] == -1
    ensures Closed(adj, comp[idx := |seeds|], [idx])
    ensures Symmetric(adj) ==> SameLabelClosed(adj, comp[idx := |seeds|], [idx])
  {
    var comp' := comp[idx := |seeds|];
    forall x: nat, y: nat | x < |adj| && x < |comp'| && comp'[x] >= 0 && x !in [idx] && y in adj[x] && y < |comp'|
      ensures comp'[y] >= 0
    {
      ClosedAt(adj, comp, [], x, y);
    }
    if Symmetric(adj) {
      forall x: nat, y: nat | x < |adj| && x < |comp'| && comp'[x] >= 0 && x !in [idx] && y in adj[x] && y < |comp'|
        ensures comp'[y] == comp'[x]
      {
        SameLabelClosedAt(adj, comp, [], x, y);
      }
    }
  }

  lemma ClosedAt<E>(adj: seq<map<nat, E>>, comp: seq<int>, q: seq<nat>, x: nat, y: nat)
    requires Closed(adj, comp, q)
    requires x < |adj| && x < |comp| && comp[x] >= 0 && x !in q && y in adj[x] && y < |comp|
    ensures comp[y] >= 0
  {
  }

  lemma SameLabelClosedAt<E>(adj: seq<map<nat, E>>, comp: seq<int>, q: seq<nat>, x: nat, y: nat)
    requires SameLabelClosed(adj, comp, q)
    requires x < |adj| && x < |comp| && comp[x] >= 0 && x !in q && y in adj[x] && y < |comp|
    ensures comp[y] == comp[x]
  {
  }

  /** Labelling an unlabelled neighbour of the front node and queueing it keeps the round. */
  lemma RoundLabel<E>(adj: seq<map<nat, E>>, mask: seq<bool>, comp: seq<int>, seeds: seq<nat>, q: seq<nat>, c: nat, u: nat)
    requires Round(adj, mask, comp, seeds, q, c) && q != []
    requires u in adj[q[0]] && comp[u] < 0
    ensures Round(adj, mask, comp[u := c], seeds, q + [u], c)
  {
    var comp' := comp[u := c];
    ReachesStep(adj, seeds[c], q[0], u);
    assert FromSeeds(adj, comp', seeds);
    assert Closed(adj, comp', q + [u]);
  }

  /** A front node whose neighbours are all labelled (with its own label, when the graph
      is undirected) can leave the queue. */
  lemma RoundPop<E>(adj: seq<map<nat, E>>, mask: seq<bool>, comp: seq<int>, seeds: seq<nat>, q: seq<nat>, c: nat)
    requires Round(adj, mask, comp, seeds, q, c) && q != []
    requires Scanned(adj, comp, q[0], |adj|, c)
    ensures Round(adj, mask, comp, seeds, q[1..], c)
  {
    var curr := q[0];
    forall x | 0 <= x < |adj| && x !in q[1..] && x in q
      ensures x == curr
    {
      assert q == [curr] + q[1..];
    }
  }

  /** Process the front of the queue: label each unlabelled neighbour, in ascending
      order, and append it; then pop the front. */
  method Visit<E>(adj: seq<map<nat, E>>, mask: seq<bool>, comp0: seq<int>, ghost seeds: seq<nat>, q0: seq<nat>, c: nat)
    returns (comp: seq<int>, q: seq<nat>)
    requires Round(adj, mask, comp0, seeds, q0, c) && q0 != []
    ensures Round(adj, mask, comp, seeds, q, c)
    ensures Unlabelled(comp) < Unlabelled(comp0) || (Unlabelled(comp) == Unlabelled(comp0) && |q| < |q0|)
  {
    var curr := q0[0];
    comp := comp0;
    q := q0;
    var u: nat := 0;
    while u < |adj|
      invariant u <= |adj| && q != [] && q[0] == curr && |q| >= |q0|
      invariant Round(adj, mask, comp, seeds, q, c)
      invariant Scanned(adj, comp, curr, u, c)
      invariant Unlabelled(comp) + (|q| - |q0|) == Unlabelled(comp0)
    {
      if Symmetric(adj) && u in adj[curr] && comp[u] >= 0 {
        NeighbourSameLabel(adj, mask, comp, seeds, q, c, u);
      }
      ScannedNext(adj, comp, curr, c, u);
      if u in adj[curr] && comp[u] < 0 {
        RoundLabel(adj, mask, comp, seeds, q, c, u);
        UnlabelledLabel(comp, u, c);
        comp := comp[u := c];
        q := q + [u];
      }
      u := u + 1;
    }
    RoundPop(adj, mask, comp, seeds, q, c);
    q := q[1..];
  }

  /** The neighbours of `curr` below `u` are labelled (with `c`, when the graph is undirected). */
  ghost predicate Scanned<E>(adj: seq<map<nat, E>>, comp: seq<int>, curr: nat, u: nat, c: nat)
  {
    && curr < |adj| && |comp| == |adj|
    && (forall y :: 0 <= y < u && y in adj[curr] ==> y < |comp| && comp[y] >= 0)
    && (Symmetric(adj) ==> forall y :: 0 <= y < u && y in adj[curr] ==> y < |comp| && comp[y] == c)
  }

  /** Scanning neighbour `u` of the front node: labelling it if it is unlabelled extends
      the scanned range. */
  lemma ScannedNext<E>(adj: seq<map<nat, E>>, comp: seq<int>, curr: nat, c: nat, u: nat)
    requires Scanned(adj, comp, curr, u, c) && u < |adj|
    requires Symmetric(adj) && u in adj[curr] && comp[u] >= 0 ==> comp[u] == c
    ensures Scanned(adj, if u in adj[curr] && comp[u] < 0 then comp[u := c] else comp, curr, u + 1, c)
  {
  }

  /** In an undirected graph a labelled neighbour of the front node has label `c`: an
      older label is closed, and would have claimed the front node itself. */
  lemma NeighbourSameLabel<E>(adj: seq<map<nat, E>>, mask: seq<bool>, comp: seq<int>, seeds: seq<nat>, q: seq<nat>, c: nat, u: nat)
    requires Round(adj, mask, comp, seeds, q, c) && q != [] && Symmetric(adj)
    requires u in adj[q[0]] && comp[u] >= 0
    ensures comp[u] == c
  {
    if u !in q {
      assert q[0] in adj[u];
    } else {
      var i :| 0 <= i < |q| && q[i] == u;
    }
  }
  // ---------------------------------------------------------------------------
  // What the labels mean

  /** Labels spread along walks: the end of a walk that starts at a labelled node is labelled. */
  lemma {:induction false} WalkLabelled<E>(adj: seq<map<nat, E>>, comp: seq<int>, p: seq<nat>)
    requires |comp| == |adj| && Closed(adj, comp, []) && IsWalk(adj, p) && comp[p[0]] >= 0
    ensures comp[p[|p| - 1]] >= 0
    decreases |p|
  {
    if |p| > 1 {
      var p' := p[..|p| - 1];
      assert IsWalk(adj, p');
      WalkLabelled(adj, comp, p');
      assert p[|p| - 1] in adj[p[|p| - 2]];
      ClosedAt(adj, comp, [], p[|p| - 2], p[|p| - 1]);
    }
  }

  /** In an undirected graph a walk never changes label. */
  lemma {:induction false} WalkSameLabel<E>(adj: seq<map<nat, E>>, comp: seq<int>, p: seq<nat>)
    requires |comp| == |adj| && SameLabelClosed(adj, comp, []) && IsWalk(adj, p) && comp[p[0]] >= 0
    ensures comp[p[|p| - 1]] == comp[p[0]]
    decreases |p|
  {
    if |p| > 1 {
      var p' := p[..|p| - 1];
      assert IsWalk(adj, p');
      WalkSameLabel(adj, comp, p');
      assert p[|p| - 1] in adj[p[|p| - 2]];
      SameLabelClosedAt(adj, comp, [], p[|p| - 2], p[|p| - 1]);
    }
  }

  /** A node ends up labelled exactly when some seed reaches it; the breadth-first search
      follows every pair, so reachable nodes outside the mask are labelled as well. */
  lemma LabelledIffReached<E>(adj: seq<map<nat, E>>, mask: seq<bool>, comp: seq<int>, seeds: seq<nat>, x: nat)
    requires Labelling(adj, mask, comp, seeds) && x < |adj|
    ensures comp[x] >= 0 <==> exists c :: 0 <= c < |seeds| && Reaches(adj, seeds[c], x)
    ensures comp[x] < 0 ==> comp[x] == -1
  {
    if c :| 0 <= c < |seeds| && Reaches(adj, seeds[c], x) {
      var p :| IsWalk(adj, p) && p[0] == seeds[c] && p[|p| - 1] == x;
      WalkLabelled(adj, comp, p);
    }
  }

  /** A labelled node carries the label of the first seed that reaches it. */
  lemma FirstSeedLabel<E>(adj: seq<map<nat, E>>, mask: seq<bool>, comp: seq<int>, seeds: seq<nat>, x: nat)
    requires Labelling(adj, mask, comp, seeds) && x < |adj| && comp[x] >= 0
    ensures Reaches(adj, seeds[comp[x]], x)
    ensures forall d :: 0 <= d < comp[x] ==> !Reaches(adj, seeds[d], x)
  {
  }

  /** No seed is reachable from an earlier one: each is chosen among the nodes the
      earlier searches left unlabelled. */
  lemma SeedsUnreached<E>(adj: seq<map<nat, E>>, mask: seq<bool>, comp: seq<int>, seeds: seq<nat>, d: nat, c: nat)
    requires Labelling(adj, mask, comp, seeds) && d < c < |seeds|
    ensures !Reaches(adj, seeds[d], seeds[c])
  {
  }

  /** On the directed pair 0 -> 1 with both nodes masked there is one component: the
      search from node 0 labels node 1 before it could seed a second one. */
  lemma DirectedPairOneComponent(comp: seq<int>, seeds: seq<nat>)
    requires Labelling([map[1 := 1], map[]], [true, true], comp, seeds) && comp[1] >= 0
    ensures seeds == [0] && comp == [0, 0]
  {
    var adj: seq<map<nat, nat>> := [map[1 := 1], map[]];
    assert |seeds| >= 1 by {
      assert comp[1] < |seeds|;
    }
    assert seeds[0] == 0;
    ReachesRefl(adj, 0);
    ReachesStep(adj, 0, 0, 1);
    assert comp[0] == 0 && comp[1] == 0;
    var last := |seeds| - 1;
    assert seeds[last] < 2 && comp[seeds[last]] == last;
  }

  /** On an undirected graph two labelled nodes share a label exactly when a walk joins them. */
  lemma SameLabelIffPath<E>(adj: seq<map<nat, E>>, mask: seq<bool>, comp: seq<int>, seeds: seq<nat>, x: nat, y: nat)
    requires Labelling(adj, mask, comp, seeds) && Symmetric(adj)
    requires x < |adj| && y < |adj| && comp[x] >= 0 && comp[y] >= 0
    ensures comp[x] == comp[y] <==> Reaches(adj, x, y)
  {
    if comp[x] == comp[y] {
      var s := seeds[comp[x]];
      ReachesSym(adj, s, x);
      ReachesTrans(adj, x, s, y);
    }
    if Reaches(adj, x, y) {
      var p :| IsWalk(adj, p) && p[0] == x && p[|p| - 1] == y;
      WalkSameLabel(adj, comp, p);
    }
  }

  /** The mask `connected_components(g, comp, subset)` builds: true exactly at the subset's ids. */
  function MaskOf(n: nat, subset: set<nat>): (mask: seq<bool>)
    ensures |mask| == n
    ensures forall k :: 0 <= k < n ==> (mask[k] <==> k in subset)
  {
    seq(n, k => k in subset)
  }

  /** `connected_components(g, comp, subset)`: only subset nodes seed components. */
  method SubsetComponents<E>(adj: seq<map<nat, E>>, subset: set<nat>) returns (comp: seq<int>, count: nat, ghost seeds: seq<nat>)
    requires Bounded(adj) && forall k :: k in subset ==> k < |adj|
    ensures Labelling(adj, MaskOf(|adj|, subset), comp, seeds) && |seeds| == count
    ensures forall c :: 0 <= c < count ==> seeds[c] in subset
    ensures forall x :: x in subset ==> comp[x] >= 0
  {
    comp, count, seeds := ConnectedComponents(adj, MaskOf(|adj|, subset));
  }

  /** `connected_components(g, comp)`: every node is masked, so every node gets a label. */
  method AllComponents<E>(adj: seq<map<nat, E>>) returns (comp: seq<int>, count: nat, ghost seeds: seq<nat>)
    requires Bounded(adj)
    ensures Labelling(adj, seq(|adj|, _ => true), comp, seeds) && |seeds| == count
    ensures forall x :: 0 <= x < |comp| ==> 0 <= comp[x] < count
  {
    comp, count, seeds := ConnectedComponents(adj, seq(|adj|, _ => true));
  }
}

=== FILE: stl.dfy ===
/** The sequence helpers of utils/stl.H: prefix and suffix tests, the trimming of a
    compiler-generated function signature down to the function's name, and the printed
    form of a pair. */
module Stl {
  import opened Common
  import opened Text

  // ---------------------------------------------------------------------------
  // starts_with / ends_with

  /** `starts_with(seq, sub)`: walks `sub` and `seq` together from the front and stops
      at the first mismatch. The source asserts that `seq` is at least as long. */
  method StartsWith<T(==)>(s: seq<T>, sub: seq<T>) returns (b: bool)
    requires |s| >= |sub|
    ensures b <==> sub == s[..|sub|]
  {
    var i := 0;
    while i < |sub|
      invariant 0 <= i <= |sub|
      invariant sub[..i] == s[..i]
    {
      if sub[i] != s[i] {
        return false;
      }
      i := i + 1;
    }
    return true;
  }

  /** `ends_with(seq, sub)`: walks both sequences backwards from their ends and stops at
      the first mismatch. The source asserts that `seq` is at least as long. */
  method EndsWith<T(==)>(s: seq<T>, sub: seq<T>) returns (b: bool)
    requires |s| >= |sub|
    ensures b <==> sub == s[|s| - |sub|..]
  {
    var i := 0;
    while i < |sub|
      invariant 0 <= i <= |sub|
      invariant sub[|sub| - i..] == s[|s| - i..]
    {
      if sub[|sub| - 1 - i] != s[|s| - 1 - i] {
        assert sub[|sub| - |sub| + (|sub| - 1 - i)] != s[|s| - |sub| + (|sub| - 1 - i)];
        return false;
      }
      assert sub[|sub| - (i + 1)..] == [sub[|sub| - 1 - i]] + sub[|sub| - i..];
      assert s[|s| - (i + 1)..] == [s[|s| - 1 - i]] + s[|s| - i..];
      i := i + 1;
    }
    return true;
  }

  /** Each test agrees with its mirror image: `sub` ends `s` exactly when the reversal of
      `sub` starts the reversal of `s`. */
  function Reverse<T>(s: seq<T>): (r: seq<T>)
    ensures |r| == |s| && forall i :: 0 <= i < |s| ==> r[i] == s[|s| - 1 - i]
  {
    if s == [] then [] else Reverse(s[1..]) + [s[0]]
  }

  lemma SuffixIsReversedPrefix<T>(s: seq<T>, sub: seq<T>)
    requires |s| >= |sub|
    ensures sub == s[|s| - |sub|..] <==> Reverse(sub) == Reverse(s)[..|sub|]
  {
    var rs, rsub := Reverse(s), Reverse(sub);
    if Reverse(sub) == Reverse(s)[..|sub|] {
      forall i | 0 <= i < |sub|
        ensures sub[i] == s[|s| - |sub| + i]
      {
        assert rsub[|sub| - 1 - i] == rs[|sub| - 1 - i];
      }
    }
  }

  // ---------------------------------------------------------------------------
  // pf_format

  /** `str.find(c)`: the first position holding `c`, or `None` (npos). */
  function Find(s: string, c: char): (r: Option<nat>)
    ensures r.Some? ==> r.value < |s| && s[r.value] == c && forall i :: 0 <= i < r.value ==> s[i] != c
    ensures r.None? ==> forall i :: 0 <= i < |s| ==> s[i] != c
  {
    if s == [] then None
    else if s[0] == c then Some(0)
    else match Find(s[1..], c)
      case None => None
      case Some(k) => Some(k + 1)
  }

  /** `s` up to its first `c`, or all of `s` when it holds no `c`. */
  function UpTo(s: string, c: char): (t: string)
    ensures |t| <= |s| && t == s[..|t|] && forall i :: 0 <= i < |t| ==> t[i] != c
    ensures |t| < |s| ==> s[|t|] == c
  {
    match Find(s, c) case None => s case Some(p) => s[..p]
  }

  /** `pf_format(str)`: cuts `str` before its first '(' and then drops everything up to
      and including the first space of what is left. Each cut is skipped when its
      character is absent: `substr(0, npos)` keeps everything and `find(" ") + 1` wraps
      npos round to 0. The result is a tail of the text before the first '(', and what was
      dropped from that text is either nothing, when it has no space, or a run ending at
      its first space. */
  function PfFormat(str: string): (r: string)
    ensures var t := UpTo(str, '(');
      && |r| <= |t| && r == t[|t| - |r|..]
      && var d := t[..|t| - |r|];
         if d == [] then forall i :: 0 <= i < |t| ==> t[i] != ' '
         else d[|d| - 1] == ' ' && forall i :: 0 <= i < |d| - 1 ==> d[i] != ' '
  {
    var tmp := UpTo(str, '(');
    match Find(tmp, ' ') case None => tmp case Some(q) => tmp[q + 1..]
  }

  /** A signature of the shape the compiler produces, "<type> <name>(<arguments>" with a
      one-token type and a name free of spaces and parentheses, is trimmed to the name. */
  lemma PfFormatSignature(ty: string, name: string, args: string)
    requires forall i :: 0 <= i < |ty| ==> ty[i] != ' ' && ty[i] != '('
    requires forall i :: 0 <= i < |name| ==> name[i] != ' ' && name[i] != '('
    ensures PfFormat(ty + " " + name + "(" + args) == name
  {
    var pre := ty + " " + name;
    SignatureHead(ty, name);
    var str := pre + "(" + args;
    assert str == ty + " " + name + "(" + args;
    assert str[..|pre|] == pre;
    FindFirst(str, '(', |pre|);
    assert UpTo(str, '(') == pre;
  }

  /** In "<type> <name>" the first space follows the type and there is no '('. */
  lemma SignatureHead(ty: string, name: string)
    requires forall i :: 0 <= i < |ty| ==> ty[i] != ' ' && ty[i] != '('
    requires forall i :: 0 <= i < |name| ==> name[i] != ' ' && name[i] != '('
    ensures var pre := ty + " " + name;
      && (forall i :: 0 <= i < |pre| ==> pre[i] != '(')
      && Find(pre, ' ') == Some(|ty|) && pre[|ty| + 1..] == name
  {
    var pre := ty + " " + name;
    forall i | 0 <= i < |pre|
      ensures pre[i] != '('
    {
      if i > |ty| {
        assert pre[i] == name[i - |ty| - 1];
      }
    }
    FindFirst(pre, ' ', |ty|);
  }

  /** `Find` returns a position holding the character with none before it. */
  lemma FindFirst(s: string, c: char, k: nat)
    requires k < |s| && s[k] == c && forall i :: 0 <= i < k ==> s[i] != c
    ensures Find(s, c) == Some(k)
  {
  }

  /** Without a '(' or a space nothing is cut. */
  lemma PfFormatPlain(str: string)
    requires forall i :: 0 <= i < |str| ==> str[i] != ' ' && str[i] != '('
    ensures PfFormat(str) == str
  {
  }

  // ---------------------------------------------------------------------------
  // operator<< for pairs

  /** `o << p` for a pair: '[', the first element, ',', the second, ']'. */
  function WritePair(first: string, second: string): (s: string)
  {
    "[" + first + "," + second + "]"
  }

  /** Reads back a pair of integers written by `WritePair`: '[', an integer, ',', an
      integer, ']', and the input left after it. */
  function ReadIntPair(s: string): (r: Option<((int, int), string)>)
    ensures r.Some? ==> |r.value.1| < |s|
  {
    if s == [] || s[0] != '[' then None
    else match ReadInt(s[1..])
      case None => None
      case Some((a, s1)) =>
        if s1 == [] || s1[0] != ',' then None
        else match ReadInt(s1[1..])
          case None => None
          case Some((b, s2)) =>
            if s2 == [] || s2[0] != ']' then None else Some(((a, b), s2[1..]))
  }

  /** A printed pair of integers reads back as the same pair. */
  lemma IntPairRoundTrip(a: int, b: int, rest: string)
    ensures ReadIntPair(WritePair(IntToString(a), IntToString(b)) + rest) == Some(((a, b), rest))
  {
    var sa, sb := IntToString(a), IntToString(b);
    var s2 := "]" + rest;
    var s1 := "," + (sb + s2);
    assert WritePair(sa, sb) + rest == "[" + (sa + s1);
    ReadIntWritten(a, s1);
    ReadIntWritten(b, s2);
    ReadPairFields(sa + s1, a, s1, sb + s2, b, rest);
  }

  /** The reader's steps: '[', the first integer, ',', the second, ']'. */
  lemma ReadPairFields(t: string, a: int, s1: string, u: string, b: int, rest: string)
    requires ReadInt(t) == Some((a, s1)) && s1 == "," + u
    requires ReadInt(u) == Some((b, "]" + rest))
    ensures ReadIntPair("[" + t) == Some(((a, b), rest))
  {
    assert ("[" + t)[1..] == t;
    assert s1[1..] == u;
    assert ("]" + rest)[1..] == rest;
  }
}

=== FILE: text.dfy ===
/** Decimal integers and whitespace-separated tokens as the C++ stream operators write and
    read them: `o << n` writes an optional '-' and the decimal digits of `n`; `i >> n`
    skips leading whitespace, accepts an optional sign and reads the longest run of digits;
    `i >> str` skips leading whitespace and reads the longest run of non-whitespace
    characters. Integer width (overflow sets the stream's fail bit) is not modelled. */
module Text {
  import opened Common

  /** `isspace` in the C locale. */
  predicate IsSpace(c: char)
  {
    c == ' ' || c == '\t' || c == '\n' || c == '\r' || c == '\U{C}' || c == '\U{B}'
  }

  predicate IsDigit(c: char)
  {
    '0' <= c <= '9'
  }

  function DigitChar(k: nat): (c: char)
    requires k < 10
    ensures IsDigit(c) && !IsSpace(c)
  {
    "0123456789"[k]
  }

  function DigitValue(c: char): (k: nat)
    requires IsDigit(c)
    ensures k < 10 && DigitChar(k) == c
  {
    (c as int - '0' as int) as nat
  }

  /** The decimal digits of `n`, most significant first, no leading zeros. */
  function NatToString(n: nat): (s: string)
    ensures |s| > 0 && forall i :: 0 <= i < |s| ==> IsDigit(s[i])
    decreases n
  {
    if n < 10 then [DigitChar(n)] else NatToString(n / 10) + [DigitChar(n % 10)]
  }

  /** `o << n` for a signed integer. */
  function IntToString(n: int): (s: string)
    ensures |s| > 0 && forall i :: 0 <= i < |s| ==> !IsSpace(s[i])
  {
    if n < 0 then "-" + NatToString(-n) else NatToString(n)
  }

  /** The value of a run of digits. */
  function DigitsValue(s: string): nat
    requires forall i :: 0 <= i < |s| ==> IsDigit(s[i])
  {
    if s == [] then 0 else DigitsValue(s[..|s| - 1]) * 10 + DigitValue(s[|s| - 1])
  }

  lemma {:induction false} NatToStringValue(n: nat)
    ensures DigitsValue(NatToString(n)) == n
    decreases n
  {
    var s := NatToString(n);
    if n >= 10 {
      NatToStringValue(n / 10);
      assert s[..|s| - 1] == NatToString(n / 10);
    }
  }

  /** Length of the longest all-digit prefix of `s`. */
  function DigitRun(s: string): (k: nat)
    ensures k <= |s| && (forall i :: 0 <= i < k ==> IsDigit(s[i])) && (k < |s| ==> !IsDigit(s[k]))
  {
    if s == [] || !IsDigit(s[0]) then 0 else 1 + DigitRun(s[1..])
  }

  lemma {:induction false} DigitRunPrefix(ds: string, rest: string)
    requires forall i :: 0 <= i < |ds| ==> IsDigit(ds[i])
    requires rest == [] || !IsDigit(rest[0])
    ensures DigitRun(ds + rest) == |ds|
    decreases |ds|
  {
    if ds != [] {
      assert (ds + rest)[1..] == ds[1..] + rest;
      DigitRunPrefix(ds[1..], rest);
    }
  }

  /** Number of leading whitespace characters of `s`. */
  function SpaceRun(s: string): (k: nat)
    ensures k <= |s| && (forall i :: 0 <= i < k ==> IsSpace(s[i])) && (k < |s| ==> !IsSpace(s[k]))
  {
    if s == [] || !IsSpace(s[0]) then 0 else 1 + SpaceRun(s[1..])
  }

  /** `s` with its leading whitespace skipped. */
  function SkipSpace(s: string): (r: string)
    ensures r == s[SpaceRun(s)..]
  {
    s[SpaceRun(s)..]
  }

  /** An unsigned run of digits and what follows it; `None` if there is no digit. */
  function ReadDigits(s: string): (r: Option<(nat, string)>)
  {
    var k := DigitRun(s);
    if k == 0 then None else Some((DigitsValue(s[..k]), s[k..]))
  }

  /** `i >> n` on the remaining input `s`: the value read and the input left. */
  function ReadInt(s: string): (r: Option<(int, string)>)
    ensures r.Some? ==> |r.value.1| < |s|
  {
    var t := SkipSpace(s);
    if t != [] && (t[0] == '-' || t[0] == '+') then
      match ReadDigits(t[1..])
      case None => None
      case Some((v, rest)) => Some((if t[0] == '-' then -(v as int) else v as int, rest))
    else
      match ReadDigits(t)
      case None => None
      case Some((v, rest)) => Some((v, rest))
  }

  /** Length of the longest prefix of `s` without whitespace. */
  function WordRun(s: string): (k: nat)
    ensures k <= |s| && (forall i :: 0 <= i < k ==> !IsSpace(s[i])) && (k < |s| ==> IsSpace(s[k]))
  {
    if s == [] || IsSpace(s[0]) then 0 else 1 + WordRun(s[1..])
  }

  lemma {:induction false} WordRunPrefix(w: string, rest: string)
    requires forall i :: 0 <= i < |w| ==> !IsSpace(w[i])
    requires rest == [] || IsSpace(rest[0])
    ensures WordRun(w + rest) == |w|
    decreases |w|
  {
    if w != [] {
      assert (w + rest)[1..] == w[1..] + rest;
      WordRunPrefix(w[1..], rest);
    }
  }

  /** `i >> str`: a non-empty whitespace-free token and the input left. */
  function ReadWord(s: string): (r: Option<(string, string)>)
    ensures r.Some? ==> |r.value.0| > 0 && |r.value.1| < |s|
  {
    var t := SkipSpace(s);
    var k := WordRun(t);
    if k == 0 then None else Some((t[..k], t[k..]))
  }

  /** A token carries no whitespace. */
  predicate IsWord(w: string)
  {
    |w| > 0 && forall i :: 0 <= i < |w| ==> !IsSpace(w[i])
  }

  lemma SkipNoSpace(s: string)
    requires s == [] || !IsSpace(s[0])
    ensures SkipSpace(s) == s
  {
  }

  lemma ReadDigitsWritten(m: nat, rest: string)
    requires rest == [] || !IsDigit(rest[0])
    ensures ReadDigits(NatToString(m) + rest) == Some((m, rest))
  {
    var ds := NatToString(m);
    NatToStringValue(m);
    DigitRunPrefix(ds, rest);
    assert (ds + rest)[..|ds|] == ds;
    assert (ds + rest)[|ds|..] == rest;
  }

  /** Reading back what `o << n` wrote, followed by anything that does not continue the
      number, gives `n` and leaves that continuation. */
  lemma ReadIntWritten(n: int, rest: string)
    requires rest == [] || !IsDigit(rest[0])
    ensures ReadInt(IntToString(n) + rest) == Some((n, rest))
  {
    var m: nat := if n < 0 then -n else n;
    var ds := NatToString(m);
    ReadDigitsWritten(m, rest);
    var s := IntToString(n) + rest;
    if n < 0 {
      assert s == "-" + (ds + rest);
      assert s[0] == '-';
      SkipNoSpace(s);
      assert s[1..] == ds + rest;
    } else {
      assert s == ds + rest;
      assert IsDigit(s[0]);
      SkipNoSpace(s);
    }
  }

  /** Reading back a written token gives the token and leaves what follows it. */
  lemma ReadWordWritten(w: string, rest: string)
    requires IsWord(w) && (rest == [] || IsSpace(rest[0]))
    ensures ReadWord(w + rest) == Some((w, rest))
  {
    var s := w + rest;
    assert s[0] == w[0];
    SkipNoSpace(s);
    WordRunPrefix(w, rest);
    var k := WordRun(s);
    assert s[..k] == w;
    assert s[k..] == rest;
  }

  /** Whitespace in front of the input is skipped by both readers. */
  lemma ReadAfterSpace(c: char, s: string)
    requires IsSpace(c)
    ensures ReadInt([c] + s) == ReadInt(s) && ReadWord([c] + s) == ReadWord(s)
  {
    assert ([c] + s)[1..] == s;
    assert SkipSpace([c] + s) == SkipSpace(s);
  }
}

=== FILE: treeanlz.dfy ===
/** The community-tree post-processing of networks/treeanlz.C (shared, line for line, with
    networks/modmeas.C): recognising generated node names, reading the leaf order off a
    tree, and cleaning a tree by splicing out every child that sits at its parent's level.

    The tree is the `resgraph` the Girvan–Newman program writes: a directed adjacency
    list whose row `v` holds the children of `v` (edge tags are `null`, so rows are
    `map<nat, ()>`), each node tagged with a `TreeTag`. On a valid graph `indegree(v)` is
    the size of row `v` (`AdjList.DegreeMeaning`), so "has children" is "row non-empty".

    Every traversal here follows child edges until it runs out of nodes, which terminates
    only on an acyclic graph. The model takes a ghost `rank` that decreases along every
    edge as the witness of acyclicity; the source's inputs are trees and need no such
    argument. */
module TreeAnlz {
  import opened Common
  import opened Text
  import opened AdjList
  import opened Community

  type Rows = seq<map<nat, ()>>
  type Tree = Graph<TreeTag, ()>

  // ---------------------------------------------------------------------------
  // Generated names

  /** `is_tree_name(str, c)`: '<', then `c`, an integer (leading whitespace skipped,
      anything after it ignored) and a closing '>' as the last character. */
  function IsTreeName(str: string, c: char): (b: bool)
    ensures b ==> |str| >= 3 && str[0] == '<' && str[1] == c && str[|str| - 1] == '>'
  {
    if str == [] then false
    else if str[0] != '<' then false
    else if str[|str| - 1] != '>' then false
    else if str[1] != c then false
    else ReadInt(str[2..]).Some?
  }

  function IsRootName(str: string): bool
  {
    IsTreeName(str, 'r')
  }

  function IsBranchName(str: string): bool
  {
    IsTreeName(str, 'b')
  }

  /** The names the Girvan–Newman program generates are told apart: "<r i>" is a root name
      and not a branch name, "<b i>" the other way round. */
  lemma GeneratedNamesRecognised(i: int)
    ensures IsRootName(RootName(i)) && !IsBranchName(RootName(i))
    ensures IsBranchName(BranchName(i)) && !IsRootName(BranchName(i))
  {
    NameIndex("<r", i, ">");
    NameIndex("<b", i, ">");
  }

  /** The recogniser is lenient: whitespace before the integer and any text between the
      integer and the closing '>' are accepted. */
  lemma TreeNameLenient(c: char, i: int, junk: string)
    requires junk == [] || !IsDigit(junk[0])
    ensures IsTreeName("<" + [c] + " " + IntToString(i) + junk + ">", c)
  {
    var t := IntToString(i) + (junk + ">");
    var str := "<" + [c] + " " + IntToString(i) + junk + ">";
    assert str == ['<', c] + ([' '] + t);
    assert str[2..] == [' '] + t;
    assert str[|str| - 1] == '>';
    ReadAfterSpace(' ', t);
    ReadIntWritten(i, junk + ">");
  }

  // ---------------------------------------------------------------------------
  // Children and acyclicity

  /** The members of `m` in [from, n), ascending: the order in which an iterator over an
      ordered row or an ordered set visits them. */
  function Ascending(m: set<nat>, from: nat, n: nat): (cs: seq<nat>)
    ensures from <= n ==> |cs| <= n - from
    ensures forall i :: 0 <= i < |cs| ==> cs[i] in m && from <= cs[i] < n
    ensures forall i, j :: 0 <= i < j < |cs| ==> cs[i] < cs[j]
    decreases n - from
  {
    if from >= n then []
    else
      var rest := Ascending(m, from + 1, n);
      if from in m then [from] + rest else rest
  }

  lemma {:induction false} AscendingComplete(m: set<nat>, from: nat, n: nat, k: nat)
    requires from <= k < n && k in m
    ensures k in Ascending(m, from, n)
    decreases n - from
  {
    if from < k {
      AscendingComplete(m, from + 1, n, k);
    }
  }

  lemma {:induction false} AscendingCard(m: set<nat>, from: nat, n: nat)
    ensures |Ascending(m, from, n)| == |set k | k in m && from <= k < n|
    decreases n - from
  {
    var s := set k | k in m && from <= k < n;
    if from >= n {
      assert s == {};
    } else {
      AscendingCard(m, from + 1, n);
      var t := set k | k in m && from + 1 <= k < n;
      if from in m {
        assert s == {from} + t;
      } else {
        assert s == t;
      }
    }
  }

  /** The children of `v`, ascending. */
  function Kids<E>(adj: seq<map<nat, E>>, v: nat): (cs: seq<nat>)
    requires v < |adj|
    ensures forall i :: 0 <= i < |cs| ==> cs[i] in adj[v] && cs[i] < |adj|
    ensures forall i, j :: 0 <= i < j < |cs| ==> cs[i] < cs[j]
  {
    Ascending(adj[v].Keys, 0, |adj|)
  }

  /** On a well-formed graph the children listed are all of the row, so their number is
      `indegree(v)`. */
  lemma KidsAll<E>(adj: seq<map<nat, E>>, v: nat, c: nat)
    requires Bounded(adj) && v < |adj|
    ensures |Kids(adj, v)| == |adj[v]|
    ensures c in adj[v] <==> c in Kids(adj, v)
  {
    AscendingCard(adj[v].Keys, 0, |adj|);
    assert (set k | k in adj[v].Keys && 0 <= k < |adj|) == adj[v].Keys;
    if c in adj[v] {
      AscendingComplete(adj[v].Keys, 0, |adj|, c);
    }
  }

  /** Every edge goes from a higher to a lower rank: the graph has no cycle. */
  ghost predicate Ranked(adj: Rows, rank: seq<nat>)
  {
    |rank| == |adj| && Bounded(adj) && forall u, v :: 0 <= u < |adj| && v in adj[u] ==> v < |rank| && rank[v] < rank[u]
  }

  /** Every node has no child or exactly two: what the tree code asserts. */
  ghost predicate Binary(adj: Rows)
  {
    forall v :: 0 <= v < |adj| ==> |Kids(adj, v)| == 0 || |Kids(adj, v)| == 2
  }

  function Pow(b: nat, e: nat): (p: nat)
    requires b >= 1
    ensures p >= 1
  {
    if e == 0 then 1 else b * Pow(b, e - 1)
  }

  lemma {:induction false} PowMonotone(b: nat, x: nat, y: nat)
    requires b >= 1 && x <= y
    ensures Pow(b, x) <= Pow(b, y)
    decreases y
  {
    if x < y {
      PowMonotone(b, x, y - 1);
      assert Pow(b, y) == b * Pow(b, y - 1);
    }
  }

  /** The weight of a stack of nodes: `b` to the power of each node's rank. Replacing a
      node by fewer than `b` nodes of lower rank makes it lighter. */
  function Weight(stack: seq<nat>, rank: seq<nat>, b: nat): nat
    requires b >= 1
  {
    if stack == [] then 0
    else
      var v := stack[|stack| - 1];
      Weight(stack[..|stack| - 1], rank, b) + (if v < |rank| then Pow(b, rank[v]) else 0)
  }

  lemma {:induction false} WeightAppend(s: seq<nat>, t: seq<nat>, rank: seq<nat>, b: nat)
    requires b >= 1
    ensures Weight(s + t, rank, b) == Weight(s, rank, b) + Weight(t, rank, b)
    decreases |t|
  {
    if t == [] {
      assert s + t == s;
    } else {
      assert (s + t)[..|s + t| - 1] == s + t[..|t| - 1];
      WeightAppend(s, t[..|t| - 1], rank, b);
    }
  }

  /** Nodes of rank below `r` weigh at most `b^(r-1)` each. */
  lemma {:induction false} WeightBelow(cs: seq<nat>, rank: seq<nat>, b: nat, r: nat)
    requires b >= 1 && r >= 1
    requires forall i :: 0 <= i < |cs| ==> cs[i] < |rank| && rank[cs[i]] < r
    ensures Weight(cs, rank, b) <= |cs| * Pow(b, r - 1)
    decreases |cs|
  {
    if cs != [] {
      var n := |cs| - 1;
      WeightBelow(cs[..n], rank, b, r);
      PowMonotone(b, rank[cs[n]], r - 1);
      assert n * Pow(b, r - 1) + Pow(b, r - 1) == (n + 1) * Pow(b, r - 1);
    }
  }

  lemma MulLess(a: nat, b: nat, p: nat)
    requires a < b && p >= 1
    ensures a * p < b * p
  {
    assert b * p == a * p + (b - a) * p;
  }

  /** Popping `v` and pushing fewer than `b` of its children lightens the stack. */
  lemma WeightReplace(base: seq<nat>, v: nat, cs: seq<nat>, rank: seq<nat>, b: nat)
    requires b >= 1 && v < |rank| && |cs| < b
    requires forall i :: 0 <= i < |cs| ==> cs[i] < |rank| && rank[cs[i]] < rank[v]
    ensures Weight(base + cs, rank, b) < Weight(base + [v], rank, b)
  {
    WeightAppend(base, cs, rank, b);
    WeightAppend(base, [v], rank, b);
    assert [v][..0] == [];
    WeightChildren(v, cs, rank, b);
  }

  /** Fewer than `b` nodes of rank below `v`'s weigh less than `v`. */
  lemma WeightChildren(v: nat, cs: seq<nat>, rank: seq<nat>, b: nat)
    requires b >= 1 && v < |rank| && |cs| < b
    requires forall i :: 0 <= i < |cs| ==> cs[i] < |rank| && rank[cs[i]] < rank[v]
    ensures Weight(cs, rank, b) < Pow(b, rank[v])
  {
    if cs != [] {
      assert rank[cs[0]] < rank[v];
      var p := Pow(b, rank[v] - 1);
      WeightBelow(cs, rank, b, rank[v]);
      MulLess(|cs|, b, p);
      assert Pow(b, rank[v]) == b * p;
    }
  }

  // ---------------------------------------------------------------------------
  // extract_order

  /** Both parts, or `None` when either is. */
  function Cat(x: Option<seq<string>>, y: Option<seq<string>>): (r: Option<seq<string>>)
    ensures r.Some? <==> x.Some? && y.Some?
    ensures r.Some? ==> r.value == x.value + y.value
  {
    if x.Some? && y.Some? then Some(x.value + y.value) else None
  }

  /** A size-1 tree node stands for one graph node: its name goes into the order. */
  predicate IsLeafTag(t: TreeTag)
  {
    t.size == 1
  }

  /** The names of the size-1 nodes among `cs`, in order. */
  function LeafNames(g: Tree, cs: seq<nat>): (ns: seq<string>)
    requires forall i :: 0 <= i < |cs| ==> cs[i] < |g.nodes|
  {
    if cs == [] then []
    else (if IsLeafTag(g.nodes[cs[0]].tag) then [g.nodes[cs[0]].tag.name] else []) + LeafNames(g, cs[1..])
  }

  /** The order `extract_order` produces below `v`, defined by recursion over the tree:
      `v` must have exactly two children; the names of those of size 1 come first, in
      ascending id, then the order below the larger non-leaf child, then below the
      smaller. `None` when a node reached has other than two children. */
  ghost function Emit(g: Tree, rank: seq<nat>, v: nat): Option<seq<string>>
    requires WellFormed(g) && Ranked(g.adj, rank) && v < |g.adj|
    decreases rank[v], 1
  {
    var cs := Kids(g.adj, v);
    if |cs| != 2 then None
    else Cat(Some(LeafNames(g, cs)), Cat(EmitChild(g, rank, cs[1], v), EmitChild(g, rank, cs[0], v)))
  }

  /** Nothing for a size-1 child (its name is already out), the order below it otherwise. */
  ghost function EmitChild(g: Tree, rank: seq<nat>, c: nat, parent: nat): Option<seq<string>>
    requires WellFormed(g) && Ranked(g.adj, rank) && parent < |g.adj| && c in g.adj[parent]
    decreases rank[parent], 0
  {
    if IsLeafTag(g.nodes[c].tag) then Some([]) else Emit(g, rank, c)
  }

  /** What a stack of pending nodes still produces: the top first. */
  ghost function EmitAll(g: Tree, rank: seq<nat>, stack: seq<nat>): Option<seq<string>>
    requires WellFormed(g) && Ranked(g.adj, rank)
    requires forall i :: 0 <= i < |stack| ==> stack[i] < |g.adj|
  {
    if stack == [] then Some([])
    else Cat(Emit(g, rank, stack[|stack| - 1]), EmitAll(g, rank, stack[..|stack| - 1]))
  }

  /** `extract_order(R, root, ord)` on an empty `ord`: a stack seeded with the root; each
      popped node must have two children (asserted); a size-1 child contributes its name,
      any other child is pushed. The result is the recursive order `Emit`, and `None`
      where the source's assertion fails. */
  method ExtractOrder(g: Tree, root: nat, ghost rank: seq<nat>) returns (r: Option<seq<string>>)
    requires WellFormed(g) && Ranked(g.adj, rank) && root < |g.adj|
    ensures r == Emit(g, rank, root)
  {
    var stack: seq<nat> := [root];
    var ord: seq<string> := [];
    PushOne(g, rank, [], root);
    assert [] + [root] == [root];
    CatUnit(Emit(g, rank, root));
    while stack != []
      invariant forall i :: 0 <= i < |stack| ==> stack[i] < |g.adj|
      invariant Emit(g, rank, root) == Cat(Some(ord), EmitAll(g, rank, stack))
      decreases Weight(stack, rank, |g.adj| + 1)
    {
      var failed;
      failed, stack, ord := Pop(g, rank, stack, ord);
      if failed {
        return None;
      }
    }
    CatUnit(Some(ord));
    return Some(ord);
  }

  /** One pass of the loop: pop a node; fail unless it has two children; otherwise
      emit the names of its size-1 children and push the others. */
  method Pop(g: Tree, ghost rank: seq<nat>, stack: seq<nat>, ord: seq<string>)
    returns (failed: bool, stack': seq<nat>, ord': seq<string>)
    requires WellFormed(g) && Ranked(g.adj, rank) && stack != []
    requires forall i :: 0 <= i < |stack| ==> stack[i] < |g.adj|
    ensures failed ==> EmitAll(g, rank, stack) == None
    ensures !failed ==> forall i :: 0 <= i < |stack'| ==> stack'[i] < |g.adj|
    ensures !failed ==> Cat(Some(ord'), EmitAll(g, rank, stack')) == Cat(Some(ord), EmitAll(g, rank, stack))
    ensures !failed ==> Weight(stack', rank, |g.adj| + 1) < Weight(stack, rank, |g.adj| + 1)
  {
    var curr := stack[|stack| - 1];
    var base := stack[..|stack| - 1];
    assert stack == base + [curr];
    var cs := Kids(g.adj, curr);
    if |cs| != 2 {
      PushOne(g, rank, base, curr);
      return true, stack, ord;
    }
    var names, pushed := Visit(g, cs);
    PushedFacts(g, rank, curr);
    PopStep(g, rank, curr, base);
    CatAssoc(Some(ord), Some(names), EmitAll(g, rank, base + pushed));
    WeightReplace(base, curr, pushed, rank, |g.adj| + 1);
    return false, base + pushed, ord + names;
  }

  /** The scan over the two children of a popped node: a size-1 child gives its name,
      any other is pushed, both in ascending id. */
  method Visit(g: Tree, cs: seq<nat>) returns (names: seq<string>, pushed: seq<nat>)
    requires |cs| == 2 && cs[0] < |g.nodes| && cs[1] < |g.nodes|
    ensures names == LeafNames(g, cs) && pushed == Pushed(g, cs)
  {
    names, pushed := [], [];
    var a, b := cs[0], cs[1];
    if IsLeafTag(g.nodes[a].tag) {
      names := names + [g.nodes[a].tag.name];
    } else {
      pushed := pushed + [a];
    }
    if IsLeafTag(g.nodes[b].tag) {
      names := names + [g.nodes[b].tag.name];
    } else {
      pushed := pushed + [b];
    }
    LeafNamesTwo(g, cs);
  }

  /** One pass of the loop: popping `v` and pushing its non-leaf children leaves what is
      still to come equal to `v`'s leaf names followed by the rest. */
  lemma PopStep(g: Tree, rank: seq<nat>, v: nat, base: seq<nat>)
    requires WellFormed(g) && Ranked(g.adj, rank) && v < |g.adj|
    requires forall i :: 0 <= i < |base| ==> base[i] < |g.adj|
    requires |Kids(g.adj, v)| == 2
    ensures var cs := Kids(g.adj, v);
      EmitAll(g, rank, base + [v])
        == Cat(Some(LeafNames(g, cs)), EmitAll(g, rank, base + Pushed(g, cs)))
  {
    var cs := Kids(g.adj, v);
    var a, b := cs[0], cs[1];
    var e := EmitAll(g, rank, base);
    var s1 := base + Deferred(g, a);
    PushOne(g, rank, base, v);
    PushChild(g, rank, base, a, v);
    PushChild(g, rank, s1, b, v);
    assert base + Pushed(g, cs) == s1 + Deferred(g, b);
    CatAssoc(Some(LeafNames(g, cs)), Cat(EmitChild(g, rank, b, v), EmitChild(g, rank, a, v)), e);
    CatAssoc(EmitChild(g, rank, b, v), EmitChild(g, rank, a, v), e);
  }

  /** `[c]`, or nothing for a size-1 node. */
  function Deferred(g: Tree, c: nat): seq<nat>
    requires c < |g.nodes|
  {
    if IsLeafTag(g.nodes[c].tag) then [] else [c]
  }

  /** The children `extract_order` pushes: those not of size 1, ascending. */
  function Pushed(g: Tree, cs: seq<nat>): seq<nat>
    requires |cs| == 2 && cs[0] < |g.nodes| && cs[1] < |g.nodes|
  {
    Deferred(g, cs[0]) + Deferred(g, cs[1])
  }

  /** At most two children are pushed, each of lower rank than the popped node. */
  lemma PushedFacts(g: Tree, rank: seq<nat>, v: nat)
    requires WellFormed(g) && Ranked(g.adj, rank) && v < |g.adj| && |Kids(g.adj, v)| == 2
    ensures var p := Pushed(g, Kids(g.adj, v));
      && |p| < |g.adj| + 1
      && forall i :: 0 <= i < |p| ==> p[i] < |g.adj| && p[i] < |rank| && rank[p[i]] < rank[v]
  {
    var cs := Kids(g.adj, v);
    assert cs[0] in g.adj[v] && cs[1] in g.adj[v];
    assert rank[cs[0]] < rank[v] && rank[cs[1]] < rank[v];
  }

  /** Pushing a node puts its order in front of the rest. */
  lemma PushOne(g: Tree, rank: seq<nat>, base: seq<nat>, c: nat)
    requires WellFormed(g) && Ranked(g.adj, rank) && c < |g.adj|
    requires forall i :: 0 <= i < |base| ==> base[i] < |g.adj|
    ensures EmitAll(g, rank, base + [c]) == Cat(Emit(g, rank, c), EmitAll(g, rank, base))
  {
    assert (base + [c])[..|base|] == base;
  }

  /** Deferring a child puts what it still owes in front of the rest. */
  lemma PushChild(g: Tree, rank: seq<nat>, base: seq<nat>, c: nat, parent: nat)
    requires WellFormed(g) && Ranked(g.adj, rank) && parent < |g.adj| && c in g.adj[parent]
    requires forall i :: 0 <= i < |base| ==> base[i] < |g.adj|
    ensures forall i :: 0 <= i < |base + Deferred(g, c)| ==> (base + Deferred(g, c))[i] < |g.adj|
    ensures EmitAll(g, rank, base + Deferred(g, c)) == Cat(EmitChild(g, rank, c, parent), EmitAll(g, rank, base))
  {
    if IsLeafTag(g.nodes[c].tag) {
      assert base + [] == base;
      CatUnit(EmitAll(g, rank, base));
    } else {
      PushOne(g, rank, base, c);
    }
  }

  lemma CatUnit(x: Option<seq<string>>)
    ensures Cat(Some([]), x) == x && Cat(x, Some([])) == x
  {
    if x.Some? {
      assert [] + x.value == x.value && x.value + [] == x.value;
    }
  }

  lemma CatAssoc(x: Option<seq<string>>, y: Option<seq<string>>, z: Option<seq<string>>)
    ensures Cat(Cat(x, y), z) == Cat(x, Cat(y, z))
  {
    if x.Some? && y.Some? && z.Some? {
      assert (x.value + y.value) + z.value == x.value + (y.value + z.value);
    }
  }

  lemma LeafNamesTwo(g: Tree, cs: seq<nat>)
    requires |cs| == 2 && cs[0] < |g.nodes| && cs[1] < |g.nodes|
    ensures LeafNames(g, cs)
      == (if IsLeafTag(g.nodes[cs[0]].tag) then [g.nodes[cs[0]].tag.name] else [])
       + (if IsLeafTag(g.nodes[cs[1]].tag) then [g.nodes[cs[1]].tag.name] else [])
  {
    assert cs[1..][1..] == [];
    assert LeafNames(g, cs[1..][1..]) == [];
    assert LeafNames(g, cs) == (if IsLeafTag(g.nodes[cs[0]].tag) then [g.nodes[cs[0]].tag.name] else []) + LeafNames(g, cs[1..]);
    assert cs[1..][0] == cs[1];
  }

  // ---------------------------------------------------------------------------
  // clean_tree: levels

  /** The level a two-child node takes from its children's: one more when they are
      equal, the larger otherwise. */
  function Step(x: nat, y: nat): (l: nat)
    ensures l >= x && l >= y
  {
    if x == y then x + 1 else if x < y then y else x
  }

  lemma StepMonotone(x1: nat, y1: nat, x2: nat, y2: nat)
    requires x1 <= x2 && y1 <= y2
    ensures Step(x1, y1) <= Step(x2, y2)
  {
  }

  /** The level of every node, by recursion over the tree: 1 for a childless node,
      `Step` of the two children's levels otherwise (a Strahler number). */
  ghost function Level(adj: Rows, rank: seq<nat>, v: nat): (l: nat)
    requires Ranked(adj, rank) && Binary(adj) && v < |adj|
    ensures l >= 1
    decreases rank[v]
  {
    var cs := Kids(adj, v);
    if |cs| == 0 then 1
    else
      assert cs[0] in adj[v] && cs[1] in adj[v];
      Step(Level(adj, rank, cs[0]), Level(adj, rank, cs[1]))
  }

  /** The value the sweep gives a two-child node from the current levels. */
  function Target(adj: Rows, level: seq<nat>, k: nat): nat
    requires k < |adj| && |level| == |adj| && |Kids(adj, k)| == 2
  {
    var cs := Kids(adj, k);
    Step(level[cs[0]], level[cs[1]])
  }

  /** No level is below 1 or above the node's true level. */
  ghost predicate Capped(adj: Rows, rank: seq<nat>, level: seq<nat>)
    requires Ranked(adj, rank) && Binary(adj)
  {
    |level| == |adj| && forall k :: 0 <= k < |adj| ==> 1 <= level[k] <= Level(adj, rank, k)
  }

  /** No two-child node is above the value the sweep would give it: updates only raise. */
  ghost predicate Rising(adj: Rows, level: seq<nat>)
    requires |level| == |adj|
  {
    forall k :: 0 <= k < |adj| && |Kids(adj, k)| == 2 ==> level[k] <= Target(adj, level, k)
  }

  /** Every two-child node holds the value the sweep would give it. */
  ghost predicate Fixed(adj: Rows, level: seq<nat>)
    requires |level| == |adj|
  {
    forall k :: 0 <= k < |adj| && |Kids(adj, k)| == 2 ==> level[k] == Target(adj, level, k)
  }

  /** How far the levels still are from the true ones, summed over nodes `0 .. n-1`. */
  ghost function Gap(adj: Rows, rank: seq<nat>, level: seq<nat>, n: nat): nat
    requires Ranked(adj, rank) && Binary(adj) && Capped(adj, rank, level) && n <= |adj|
  {
    if n == 0 then 0 else Gap(adj, rank, level, n - 1) + (Level(adj, rank, n - 1) - level[n - 1])
  }

  lemma {:induction false} GapRaise(adj: Rows, rank: seq<nat>, level: seq<nat>, k: nat, x: nat, n: nat)
    requires Ranked(adj, rank) && Binary(adj) && Capped(adj, rank, level) && n <= |adj|
    requires k < |adj| && level[k] <= x <= Level(adj, rank, k)
    ensures Capped(adj, rank, level[k := x])
    ensures Gap(adj, rank, level[k := x], n) + (if k < n then x - level[k] else 0) == Gap(adj, rank, level, n)
    decreases n
  {
    if n > 0 {
      GapRaise(adj, rank, level, k, x, n - 1);
    }
  }

  /** A fixpoint of the sweep is the true level everywhere. */
  lemma {:induction false} FixedIsLevel(adj: Rows, rank: seq<nat>, level: seq<nat>, v: nat)
    requires Ranked(adj, rank) && Binary(adj) && Capped(adj, rank, level) && Fixed(adj, level)
    requires v < |adj|
    ensures level[v] == Level(adj, rank, v)
    decreases rank[v]
  {
    var cs := Kids(adj, v);
    if |cs| == 2 {
      assert cs[0] in adj[v] && cs[1] in adj[v];
      FixedIsLevel(adj, rank, level, cs[0]);
      FixedIsLevel(adj, rank, level, cs[1]);
      assert level[v] == Target(adj, level, v);
    }
  }

  /** Raising node `k` to its target keeps every level capped and every update a raise. */
  lemma RaiseStep(adj: Rows, rank: seq<nat>, level: seq<nat>, k: nat)
    requires Ranked(adj, rank) && Binary(adj) && Capped(adj, rank, level) && Rising(adj, level)
    requires k < |adj| && |Kids(adj, k)| == 2
    ensures var x := Target(adj, level, k);
      && level[k] <= x <= Level(adj, rank, k)
      && Rising(adj, level[k := x])
  {
    var x := Target(adj, level, k);
    var cs := Kids(adj, k);
    assert cs[0] in adj[k] && cs[1] in adj[k];
    StepMonotone(level[cs[0]], level[cs[1]], Level(adj, rank, cs[0]), Level(adj, rank, cs[1]));
    var l' := level[k := x];
    forall j | 0 <= j < |adj| && |Kids(adj, j)| == 2
      ensures l'[j] <= Target(adj, l', j)
    {
      var ds := Kids(adj, j);
      StepMonotone(level[ds[0]], level[ds[1]], l'[ds[0]], l'[ds[1]]);
      if j == k {
        assert ds == cs;
      }
    }
  }

  /** One pass over the nodes in ascending id, each two-child node set from its children's
      current levels. */
  method Sweep(adj: Rows, ghost rank: seq<nat>, level: seq<nat>) returns (level': seq<nat>, changed: bool)
    requires Ranked(adj, rank) && Binary(adj) && Capped(adj, rank, level) && Rising(adj, level)
    ensures Capped(adj, rank, level') && Rising(adj, level')
    ensures changed ==> Gap(adj, rank, level', |adj|) < Gap(adj, rank, level, |adj|)
    ensures !changed ==> level' == level && Fixed(adj, level)
  {
    assert FixedBelow(adj, level, 0);
    level', changed := level, false;
    for k := 0 to |adj|
      invariant Capped(adj, rank, level') && Rising(adj, level')
      invariant changed ==> Gap(adj, rank, level', |adj|) < Gap(adj, rank, level, |adj|)
      invariant !changed ==> level' == level
      invariant !changed ==> FixedBelow(adj, level, k)
    {
      var cs := Kids(adj, k);
      if |cs| > 0 {
        var x := Step(level'[cs[0]], level'[cs[1]]);
        if x != level'[k] {
          RaiseStep(adj, rank, level', k);
          GapRaise(adj, rank, level', k, x, |adj|);
          level' := level'[k := x];
          changed := true;
        }
      }
      if !changed {
        FixedBelowStep(adj, level, k);
      }
    }
  }

  /** Nodes `0 .. n-1` hold the values the sweep gives them. */
  ghost predicate FixedBelow(adj: Rows, level: seq<nat>, n: nat)
    requires |level| == |adj|
  {
    forall j :: 0 <= j < n && j < |adj| && |Kids(adj, j)| == 2 ==> level[j] == Target(adj, level, j)
  }

  lemma FixedBelowStep(adj: Rows, level: seq<nat>, k: nat)
    requires |level| == |adj| && k < |adj| && FixedBelow(adj, level, k)
    requires |Kids(adj, k)| == 2 ==> level[k] == Target(adj, level, k)
    ensures FixedBelow(adj, level, k + 1)
  {
  }

  /** The level labelling of `clean_tree`: all levels start at 1 and sweeps repeat until
      one changes nothing. The result is the true level of every node. The source
      asserts that every node with children has exactly two. */
  method Levels(adj: Rows, ghost rank: seq<nat>) returns (level: seq<nat>)
    requires Ranked(adj, rank) && Binary(adj)
    ensures |level| == |adj| && forall k :: 0 <= k < |adj| ==> level[k] == Level(adj, rank, k)
  {
    level := seq(|adj|, _ => 1);
    var change := true;
    while change
      invariant Capped(adj, rank, level) && Rising(adj, level)
      invariant !change ==> Fixed(adj, level)
      decreases Gap(adj, rank, level, |adj|), change
    {
      level, change := Sweep(adj, rank, level);
    }
    forall k | 0 <= k < |adj|
      ensures level[k] == Level(adj, rank, k)
    {
      FixedIsLevel(adj, rank, level, k);
    }
  }

  // ---------------------------------------------------------------------------
  // clean_tree: splicing out equal-level children

  /** The position of the last of `cs` whose level is `x`; the source's scan keeps
      overwriting its candidate, so the last match wins. */
  function LastAt(cs: seq<nat>, level: seq<nat>, x: nat): (r: Option<nat>)
    requires forall i :: 0 <= i < |cs| ==> cs[i] < |level|
    ensures r.Some? ==> r.value < |cs| && level[cs[r.value]] == x
    ensures r.Some? ==> forall j :: r.value < j < |cs| ==> level[cs[j]] != x
    ensures r.None? ==> forall j :: 0 <= j < |cs| ==> level[cs[j]] != x
  {
    if cs == [] then None
    else if level[cs[|cs| - 1]] == x then Some(|cs| - 1)
    else LastAt(cs[..|cs| - 1], level, x)
  }

  /** The rows after splicing child `t` out of `curr`: `t`'s children become children of
      `curr`, `t` stops being one, and `t` keeps no children. */
  function Splice(adj: Rows, curr: nat, t: nat): (r: Rows)
    requires curr < |adj| && t < |adj| && curr != t
    ensures |r| == |adj| && r[t] == map[]
    ensures forall c :: c in r[curr] <==> c != t && (c in adj[curr] || c in adj[t])
    ensures forall k :: 0 <= k < |adj| && k != curr && k != t ==> r[k] == adj[k]
  {
    adj[t := map[]][curr := (adj[curr] + adj[t]) - {t}]
  }

  /** Every node has at most one parent. */
  ghost predicate SingleParent(adj: Rows)
  {
    forall u, w, v :: 0 <= u < |adj| && 0 <= w < |adj| && v in adj[u] && v in adj[w] ==> u == w
  }

  /** A forest: single parents, and no listed root has a parent. */
  ghost predicate Forest(adj: Rows, roots: seq<nat>)
  {
    && SingleParent(adj)
    && forall i, u :: 0 <= i < |roots| && 0 <= u < |adj| ==> roots[i] !in adj[u]
  }

  /** `l` is a childless node reached from `v` along child edges; a childless `v` reaches
      only itself. */
  ghost predicate Under(adj: Rows, rank: seq<nat>, v: nat, l: nat)
    decreases if v < |rank| then rank[v] else 0
  {
    && v < |adj| && v < |rank|
    && if adj[v] == map[] then l == v
       else exists c :: c in adj[v] && c < |rank| && rank[c] < rank[v] && Under(adj, rank, c, l)
  }

  /** Every listed root reaches the same childless nodes in both graphs. */
  ghost predicate SameLeaves(adj0: Rows, adj: Rows, rank: seq<nat>, roots: seq<nat>)
  {
    forall i, l :: 0 <= i < |roots| ==> (Under(adj, rank, roots[i], l) <==> Under(adj0, rank, roots[i], l))
  }

  /** Splicing keeps ranks decreasing along edges. */
  lemma SpliceRanked(adj: Rows, rank: seq<nat>, curr: nat, t: nat)
    requires Ranked(adj, rank) && curr < |adj| && t in adj[curr]
    ensures curr != t && Ranked(Splice(adj, curr, t), rank)
  {
    EdgeRank(adj, rank, curr, t);
    var r := Splice(adj, curr, t);
    forall u, v | 0 <= u < |r| && v in r[u]
      ensures v < |r| && rank[v] < rank[u]
    {
      if u == curr && v in adj[t] {
        assert rank[v] < rank[t];
      }
    }
  }

  /** Splicing keeps a forest a forest with the same roots. */
  lemma SpliceForest(adj: Rows, rank: seq<nat>, roots: seq<nat>, curr: nat, t: nat)
    requires Ranked(adj, rank) && Forest(adj, roots) && curr < |adj| && t in adj[curr]
    ensures curr != t && Forest(Splice(adj, curr, t), roots)
  {
    EdgeRank(adj, rank, curr, t);
    var r := Splice(adj, curr, t);
    forall u, w, v | 0 <= u < |r| && 0 <= w < |r| && v in r[u] && v in r[w]
      ensures u == w
    {
      var pu := if u == curr && v !in adj[curr] then t else u;
      var pw := if w == curr && v !in adj[curr] then t else w;
      assert v in adj[pu] && v in adj[pw];
    }
    forall i, u | 0 <= i < |roots| && 0 <= u < |r|
      ensures roots[i] !in r[u]
    {
      if u == curr {
        assert roots[i] !in adj[curr] && roots[i] !in adj[t];
      }
    }
  }

  /** The number of nodes with children. */
  ghost function Internal(adj: Rows): nat
  {
    |set k | 0 <= k < |adj| && adj[k] != map[]|
  }

  lemma SubsetCard<T>(a: set<T>, b: set<T>)
    requires a <= b
    ensures |a| <= |b|
    decreases |b|
  {
    if b != {} {
      var x :| x in b;
      SubsetCard(a - {x}, b - {x});
    }
  }

  /** Splicing out a node that has children leaves one node fewer with children. */
  lemma SpliceInternal(adj: Rows, rank: seq<nat>, curr: nat, t: nat)
    requires Ranked(adj, rank) && curr < |adj| && t in adj[curr] && adj[t] != map[]
    ensures curr != t && Internal(Splice(adj, curr, t)) < Internal(adj)
  {
    EdgeRank(adj, rank, curr, t);
    var r := Splice(adj, curr, t);
    var a := set k | 0 <= k < |r| && r[k] != map[];
    var b := set k | 0 <= k < |adj| && adj[k] != map[];
    assert a <= b - {t} by {
      forall k | k in a
        ensures k in b - {t}
      {
        if k == curr {
          assert t in adj[curr];
        }
      }
    }
    assert t in b;
    SubsetCard(a, b - {t});
  }

  /** An edge goes to a node of lower rank, so never to itself. */
  lemma EdgeRank(adj: Rows, rank: seq<nat>, u: nat, v: nat)
    requires Ranked(adj, rank) && u < |adj| && v in adj[u]
    ensures v < |adj| && rank[v] < rank[u] && u != v
  {
  }

  /** What the splice does not touch: a node other than `t` that is `curr` or is not a
      parent of `t` reaches the same childless nodes before and after. */
  lemma {:induction false} SpliceUnder(adj: Rows, rank: seq<nat>, curr: nat, t: nat, v: nat, l: nat)
    requires Ranked(adj, rank) && SingleParent(adj)
    requires curr < |adj| && t in adj[curr] && adj[t] != map[]
    requires v < |adj| && v != t && (v == curr || t !in adj[v])
    ensures curr != t && (Under(Splice(adj, curr, t), rank, v, l) <==> Under(adj, rank, v, l))
    decreases rank[v], 2
  {
    EdgeRank(adj, rank, curr, t);
    var r := Splice(adj, curr, t);
    if v == curr {
      SpliceCurrForth(adj, rank, curr, t, l);
      SpliceCurrBack(adj, rank, curr, t, l);
    } else {
      assert r[v] == adj[v];
      forall c | c in adj[v]
        ensures Under(r, rank, c, l) <==> Under(adj, rank, c, l)
      {
        EdgeRank(adj, rank, v, c);
        if c != curr && t in adj[c] {
          assert false;
        }
        SpliceUnder(adj, rank, curr, t, c, l);
      }
    }
  }

  /** What `curr` reaches after the splice it reached before. */
  lemma {:induction false} SpliceCurrForth(adj: Rows, rank: seq<nat>, curr: nat, t: nat, l: nat)
    requires Ranked(adj, rank) && SingleParent(adj)
    requires curr < |adj| && t in adj[curr] && adj[t] != map[]
    ensures curr != t && (Under(Splice(adj, curr, t), rank, curr, l) ==> Under(adj, rank, curr, l))
    decreases rank[curr], 1
  {
    EdgeRank(adj, rank, curr, t);
    var r := Splice(adj, curr, t);
    if Under(r, rank, curr, l) {
      assert r[curr] != map[];
      var c :| c in r[curr] && c < |rank| && rank[c] < rank[curr] && Under(r, rank, c, l);
      SpliceUnderChild(adj, rank, curr, t, c, l);
      if c !in adj[curr] {
        assert c in adj[t] && Under(adj, rank, t, l);
      }
    }
  }

  /** What `curr` reached before the splice it still reaches. */
  lemma {:induction false} SpliceCurrBack(adj: Rows, rank: seq<nat>, curr: nat, t: nat, l: nat)
    requires Ranked(adj, rank) && SingleParent(adj)
    requires curr < |adj| && t in adj[curr] && adj[t] != map[]
    ensures curr != t && (Under(adj, rank, curr, l) ==> Under(Splice(adj, curr, t), rank, curr, l))
    decreases rank[curr], 1
  {
    EdgeRank(adj, rank, curr, t);
    var r := Splice(adj, curr, t);
    if Under(adj, rank, curr, l) {
      var c :| c in adj[curr] && c < |rank| && rank[c] < rank[curr] && Under(adj, rank, c, l);
      var d := c;
      if c == t {
        d :| d in adj[t] && d < |rank| && rank[d] < rank[t] && Under(adj, rank, d, l);
      }
      SpliceUnderChild(adj, rank, curr, t, d, l);
      assert d in r[curr] && rank[d] < rank[curr] && Under(r, rank, d, l);
    }
  }

  /** The nodes that become or stay children of `curr` keep what they reach. */
  lemma {:induction false} SpliceUnderChild(adj: Rows, rank: seq<nat>, curr: nat, t: nat, c: nat, l: nat)
    requires Ranked(adj, rank) && SingleParent(adj)
    requires curr < |adj| && t in adj[curr] && adj[t] != map[]
    requires c != t && (c in adj[curr] || c in adj[t])
    ensures curr != t && c < |adj| && rank[c] < rank[curr]
    ensures Under(Splice(adj, curr, t), rank, c, l) <==> Under(adj, rank, c, l)
    decreases rank[curr], 0
  {
    EdgeRank(adj, rank, curr, t);
    if c in adj[t] {
      EdgeRank(adj, rank, t, c);
    } else {
      EdgeRank(adj, rank, curr, c);
    }
    if t in adj[c] && c != curr {
      assert false;
    }
    SpliceUnder(adj, rank, curr, t, c, l);
  }

  /** The spliced-out child is left with no edge at all: its own row is emptied and its
      one parent drops it. */
  lemma SpliceIsolates(adj: Rows, rank: seq<nat>, curr: nat, t: nat)
    requires Ranked(adj, rank) && SingleParent(adj) && curr < |adj| && t in adj[curr]
    ensures curr != t && Splice(adj, curr, t)[t] == map[]
    ensures forall k :: 0 <= k < |adj| ==> t !in Splice(adj, curr, t)[k]
  {
    EdgeRank(adj, rank, curr, t);
  }

  /** Splicing inside a forest keeps what every root reaches. */
  lemma SpliceSameLeaves(adj: Rows, rank: seq<nat>, roots: seq<nat>, curr: nat, t: nat)
    requires Ranked(adj, rank) && Forest(adj, roots) && forall i :: 0 <= i < |roots| ==> roots[i] < |adj|
    requires curr < |adj| && t in adj[curr] && adj[t] != map[]
    ensures curr != t && SameLeaves(adj, Splice(adj, curr, t), rank, roots)
  {
    EdgeRank(adj, rank, curr, t);
    forall i, l | 0 <= i < |roots|
      ensures Under(Splice(adj, curr, t), rank, roots[i], l) <==> Under(adj, rank, roots[i], l)
    {
      var v := roots[i];
      assert v != t;
      if v != curr && t in adj[v] {
        assert false;
      }
      SpliceUnder(adj, rank, curr, t, v, l);
    }
  }

  lemma SameLeavesTrans(a: Rows, b: Rows, c: Rows, rank: seq<nat>, roots: seq<nat>)
    requires SameLeaves(a, b, rank, roots) && SameLeaves(b, c, rank, roots)
    ensures SameLeaves(a, c, rank, roots)
  {
  }

  /** What the collapse keeps true when it starts from the true levels of a binary forest,
      `done` being the nodes already replaced on the stack by their children: a child at
      its parent's level has two children; a finished node has no child at its own level;
      a finished node and a node on the stack have only finished parents. */
  ghost predicate Settled(adj: Rows, level: seq<nat>, stack: seq<nat>, done: set<nat>)
  {
    && Bounded(adj) && |level| == |adj|
    && (forall p, x :: 0 <= p < |adj| && x in adj[p] && level[x] == level[p] ==> |Kids(adj, x)| == 2)
    && (forall p, c :: p in done && p < |adj| && c in adj[p] ==> level[c] != level[p])
    && (forall p, x :: 0 <= p < |adj| && x in adj[p] && x in done ==> p in done)
    && (forall p, i :: 0 <= p < |adj| && 0 <= i < |stack| && stack[i] in adj[p] ==> p in done)
  }

  /** A node with children has level at least 2, a childless one level 1: so on a binary
      tree a child at its parent's level has two children, and before the collapse nothing
      is finished and the roots have no parent. */
  lemma SettledStart(adj: Rows, rank: seq<nat>, level: seq<nat>, roots: seq<nat>)
    requires Ranked(adj, rank) && Binary(adj) && Forest(adj, roots)
    requires |level| == |adj| && forall k :: 0 <= k < |adj| ==> level[k] == Level(adj, rank, k)
    ensures Settled(adj, level, roots, {})
  {
    forall p, x | 0 <= p < |adj| && x in adj[p] && level[x] == level[p]
      ensures |Kids(adj, x)| == 2
    {
      KidsAll(adj, p, x);
      assert Level(adj, rank, p) >= 2;
    }
  }

  /** Replacing `curr`, which has no child at its level, by its children keeps `Settled`:
      its children's only parent is `curr`, now finished. */
  lemma SettledFinish(adj: Rows, level: seq<nat>, base: seq<nat>, curr: nat, done: set<nat>)
    requires Settled(adj, level, base + [curr], done) && SingleParent(adj) && curr < |adj|
    requires forall c :: c in adj[curr] ==> level[c] != level[curr]
    ensures Settled(adj, level, base + Kids(adj, curr), done + {curr})
  {
    var stack := base + [curr];
    var s' := base + Kids(adj, curr);
    assert stack[|base|] == curr;
    forall p, i | 0 <= p < |adj| && 0 <= i < |s'| && s'[i] in adj[p]
      ensures p in done + {curr}
    {
      if i < |base| {
        assert s'[i] == stack[i];
      } else {
        assert s'[i] in adj[curr];
      }
    }
    forall p, x | 0 <= p < |adj| && x in adj[p] && x in done + {curr}
      ensures p in done + {curr}
    {
      if x == curr {
        assert stack[|base|] in adj[p];
      }
    }
  }

  /** The child `t` at the level of `curr`, the top of the stack, has two children, and
      splicing it out keeps `Settled`. Neither `curr` nor `t` is finished (a finished node
      has no child at its level, and `t`'s parent would be), so no finished row changes;
      the children `curr` takes from `t` sit at `t`'s level only if they have two
      children; and `curr`'s own parent, finished, is not at its level. */
  lemma SettledSplice(adj: Rows, rank: seq<nat>, level: seq<nat>, stack: seq<nat>, done: set<nat>, t: nat)
    requires Settled(adj, level, stack, done) && Ranked(adj, rank) && SingleParent(adj)
    requires stack != [] && stack[|stack| - 1] < |adj|
    requires t in adj[stack[|stack| - 1]] && level[t] == level[stack[|stack| - 1]]
    ensures t < |adj| && |Kids(adj, t)| == 2
    ensures stack[|stack| - 1] != t && Settled(Splice(adj, stack[|stack| - 1], t), level, stack, done)
  {
    var curr := stack[|stack| - 1];
    EdgeRank(adj, rank, curr, t);
    assert curr !in done;
    assert t !in done;
    var a := Splice(adj, curr, t);
    SpliceRanked(adj, rank, curr, t);
    forall p, x | 0 <= p < |a| && x in a[p] && level[x] == level[p]
      ensures |Kids(a, x)| == 2
    {
      if x != curr {
        assert a[x] == adj[x];
        assert x in adj[p] || (p == curr && x in adj[t]);
      }
    }
    forall p, x | 0 <= p < |a| && x in a[p] && x in done
      ensures p in done
    {
      assert x in adj[p];
    }
    forall p, i | 0 <= p < |a| && 0 <= i < |stack| && stack[i] in a[p]
      ensures p in done
    {
      assert stack[i] in adj[p];
    }
  }

  /** `x` is `v` itself or a node `v` reaches along child edges. */
  ghost predicate Reaches(adj: Rows, rank: seq<nat>, v: nat, x: nat)
    decreases if v < |rank| then rank[v] else 0
  {
    && v < |adj| && v < |rank|
    && (v == x || exists c :: c in adj[v] && c < |rank| && rank[c] < rank[v] && Reaches(adj, rank, c, x))
  }

  /** What the collapse achieves: no node a root reaches keeps a child at its own
      level. */
  ghost predicate Collapsed(adj: Rows, rank: seq<nat>, level: seq<nat>, roots: seq<nat>)
  {
    && Bounded(adj) && |level| == |adj|
    && forall i, x: nat, c: nat :: 0 <= i < |roots| && Reaches(adj, rank, roots[i], x) && x < |adj| && c in adj[x]
         ==> level[c] != level[x]
  }

  /** Every node a root reaches is finished or reached from a node on the stack. */
  ghost predicate Covered(adj: Rows, rank: seq<nat>, roots: seq<nat>, stack: seq<nat>, done: set<nat>)
  {
    forall i, x :: 0 <= i < |roots| && Reaches(adj, rank, roots[i], x) ==>
      x in done || exists j :: 0 <= j < |stack| && Reaches(adj, rank, stack[j], x)
  }

  /** A node reached from another one has a parent. */
  lemma {:induction false} ReachesParent(adj: Rows, rank: seq<nat>, v: nat, x: nat)
    ensures Reaches(adj, rank, v, x) && v != x ==> exists p :: 0 <= p < |adj| && x in adj[p]
    decreases if v < |rank| then rank[v] else 0
  {
    if Reaches(adj, rank, v, x) && v != x {
      var c :| c in adj[v] && c < |rank| && rank[c] < rank[v] && Reaches(adj, rank, c, x);
      ReachesParent(adj, rank, c, x);
    }
  }

  /** What a node reaches after a splice it reached before. */
  lemma {:induction false} SpliceReachesBack(adj: Rows, rank: seq<nat>, curr: nat, t: nat, v: nat, x: nat)
    requires Ranked(adj, rank) && curr < |adj| && t in adj[curr]
    requires curr != t && Reaches(Splice(adj, curr, t), rank, v, x)
    ensures Reaches(adj, rank, v, x)
    decreases rank[v]
  {
    var r := Splice(adj, curr, t);
    if v != x {
      var c :| c in r[v] && c < |rank| && rank[c] < rank[v] && Reaches(r, rank, c, x);
      SpliceReachesBack(adj, rank, curr, t, c, x);
      if c !in adj[v] {
        assert v == curr && c in adj[t];
        assert rank[t] < rank[curr];
      }
    }
  }

  /** A splice keeps every path that neither starts nor ends at the spliced child: one
      through it now takes the edge from `curr` to its child. */
  lemma {:induction false} SpliceReachesForth(adj: Rows, rank: seq<nat>, curr: nat, t: nat, v: nat, x: nat)
    requires Ranked(adj, rank) && SingleParent(adj) && curr < |adj| && t in adj[curr] && curr != t
    requires Reaches(adj, rank, v, x) && v != t && x != t
    ensures Reaches(Splice(adj, curr, t), rank, v, x)
    decreases rank[v]
  {
    var r := Splice(adj, curr, t);
    if v != x {
      var c :| c in adj[v] && c < |rank| && rank[c] < rank[v] && Reaches(adj, rank, c, x);
      if c != t {
        SpliceReachesForth(adj, rank, curr, t, c, x);
        assert c in r[v];
      } else {
        assert v == curr;
        var g :| g in adj[t] && g < |rank| && rank[g] < rank[t] && Reaches(adj, rank, g, x);
        SpliceReachesForth(adj, rank, curr, t, g, x);
        assert g in r[curr];
      }
    }
  }

  /** After the splice no root reaches the spliced child: its only parent dropped it. */
  lemma SpliceUnreached(adj: Rows, rank: seq<nat>, roots: seq<nat>, curr: nat, t: nat, i: nat)
    requires Ranked(adj, rank) && Forest(adj, roots) && curr < |adj| && t in adj[curr] && curr != t
    requires i < |roots|
    ensures !Reaches(Splice(adj, curr, t), rank, roots[i], t)
  {
    var r := Splice(adj, curr, t);
    forall p | 0 <= p < |r|
      ensures t !in r[p]
    {
      if p != curr && p != t {
        assert r[p] == adj[p];
      }
    }
    assert roots[i] != t;
    ReachesParent(r, rank, roots[i], t);
  }

  /** With the roots on the stack every node a root reaches is covered. */
  lemma CoveredStart(adj: Rows, rank: seq<nat>, roots: seq<nat>)
    ensures Covered(adj, rank, roots, roots, {})
  {
    forall i, x | 0 <= i < |roots| && Reaches(adj, rank, roots[i], x)
      ensures exists j :: 0 <= j < |roots| && Reaches(adj, rank, roots[j], x)
    {
    }
  }

  /** Dropping or finishing `curr` keeps every reached node covered: `curr` is finished and
      what it reaches beyond itself is reached from one of its children, now on the
      stack. */
  lemma CoveredFinish(adj: Rows, rank: seq<nat>, roots: seq<nat>, base: seq<nat>, curr: nat, done: set<nat>)
    requires Ranked(adj, rank) && curr < |adj| && Covered(adj, rank, roots, base + [curr], done)
    ensures Covered(adj, rank, roots, base + Kids(adj, curr), done + {curr})
  {
    var stack, s' := base + [curr], base + Kids(adj, curr);
    forall i, x | 0 <= i < |roots| && Reaches(adj, rank, roots[i], x) && x !in done + {curr}
      ensures exists j :: 0 <= j < |s'| && Reaches(adj, rank, s'[j], x)
    {
      var j :| 0 <= j < |stack| && Reaches(adj, rank, stack[j], x);
      if j < |base| {
        assert s'[j] == stack[j];
      } else {
        assert stack[j] == curr;
        var c :| c in adj[curr] && c < |rank| && rank[c] < rank[curr] && Reaches(adj, rank, c, x);
        KidsAll(adj, curr, c);
        var m :| 0 <= m < |Kids(adj, curr)| && Kids(adj, curr)[m] == c;
        assert s'[|base| + m] == c;
      }
    }
  }

  /** Splicing out the child `t` at the level of `curr` keeps every reached node covered:
      `t` is reached no more, and neither `t` nor any other node on the stack lost what it
      reached. */
  lemma CoveredSplice(adj: Rows, rank: seq<nat>, level: seq<nat>, roots: seq<nat>, stack: seq<nat>,
                      done: set<nat>, t: nat)
    requires Settled(adj, level, stack, done) && Ranked(adj, rank) && Forest(adj, roots)
    requires Covered(adj, rank, roots, stack, done)
    requires stack != [] && stack[|stack| - 1] < |adj|
    requires t in adj[stack[|stack| - 1]] && level[t] == level[stack[|stack| - 1]]
    ensures stack[|stack| - 1] != t && Covered(Splice(adj, stack[|stack| - 1], t), rank, roots, stack, done)
  {
    var curr := stack[|stack| - 1];
    EdgeRank(adj, rank, curr, t);
    assert curr !in done;
    var r := Splice(adj, curr, t);
    forall i, x | 0 <= i < |roots| && Reaches(r, rank, roots[i], x) && x !in done
      ensures exists j :: 0 <= j < |stack| && Reaches(r, rank, stack[j], x)
    {
      SpliceUnreached(adj, rank, roots, curr, t, i);
      SpliceReachesBack(adj, rank, curr, t, roots[i], x);
      var j :| 0 <= j < |stack| && Reaches(adj, rank, stack[j], x);
      assert stack[j] in adj[curr] ==> curr in done;
      SpliceReachesForth(adj, rank, curr, t, stack[j], x);
    }
  }

  /** With the stack empty every reached node is finished, and no finished node has a
      child at its level. */
  lemma CollapsedEnd(adj: Rows, rank: seq<nat>, level: seq<nat>, roots: seq<nat>, done: set<nat>)
    requires Settled(adj, level, [], done) && Covered(adj, rank, roots, [], done)
    ensures Collapsed(adj, rank, level, roots)
  {
    forall i, x: nat, c: nat | 0 <= i < |roots| && Reaches(adj, rank, roots[i], x) && x < |adj| && c in adj[x]
      ensures level[c] != level[x]
    {
      assert x in done;
    }
  }

  /** One pass of the collapse loop: pop `curr`; a childless node is dropped; a node with
      no child at its own level is replaced by its children in ascending order (and is
      then finished); otherwise the last child at its level is spliced out and `curr` is
      pushed again. The source asserts that the spliced child has at most two children and
      reads two, a missing one as node 0; the model fails (`failed`) on a spliced child
      with any number but two, which never happens while `Settled` holds. A dropped or
      replaced node counts as finished. */
  method CollapseStep(adj: Rows, level: seq<nat>, stack: seq<nat>, ghost rank: seq<nat>, ghost roots: seq<nat>,
                      ghost done: set<nat>)
    returns (failed: bool, adj': Rows, stack': seq<nat>, ghost done': set<nat>)
    requires Ranked(adj, rank) && |level| == |adj| && stack != []
    requires forall i :: 0 <= i < |stack| ==> stack[i] < |adj|
    requires forall i :: 0 <= i < |roots| ==> roots[i] < |adj|
    ensures var curr := stack[|stack| - 1];
      LastAt(Kids(adj, curr), level, level[curr]).None? ==>
        !failed && adj' == adj && stack' == stack[..|stack| - 1] + Kids(adj, curr)
    ensures var curr := stack[|stack| - 1]; var j := LastAt(Kids(adj, curr), level, level[curr]);
      j.Some? && !failed ==>
        Kids(adj, curr)[j.value] != curr && adj' == Splice(adj, curr, Kids(adj, curr)[j.value]) && stack' == stack
    ensures failed ==> exists t :: (t < |adj| && t in adj[stack[|stack| - 1]] && level[t] == level[stack[|stack| - 1]]
      && |Kids(adj, t)| != 2)
    ensures Settled(adj, level, stack, done) && SingleParent(adj) ==> !failed && Settled(adj', level, stack', done')
    ensures Settled(adj, level, stack, done) && Forest(adj, roots) && Covered(adj, rank, roots, stack, done)
      ==> Covered(adj', rank, roots, stack', done')
    ensures !failed ==> |adj'| == |adj| && Ranked(adj', rank)
    ensures !failed ==> forall i :: 0 <= i < |stack'| ==> stack'[i] < |adj|
    ensures !failed && Forest(adj, roots) ==> Forest(adj', roots) && SameLeaves(adj, adj', rank, roots)
    ensures !failed ==> (Internal(adj') < Internal(adj)
      || (adj' == adj && Weight(stack', rank, |adj| + 1) < Weight(stack, rank, |adj| + 1)))
  {
    var curr := stack[|stack| - 1];
    var base := stack[..|stack| - 1];
    assert stack == base + [curr];
    done' := done;
    var cs := Kids(adj, curr);
    if adj[curr] == map[] {
      KidsAll(adj, curr, 0);
      DescendFacts(adj, level, rank, roots, base, curr, done);
      assert base + cs == base;
      return false, adj, base, done + {curr};
    }
    match LastAt(cs, level, level[curr])
    case None =>
      DescendFacts(adj, level, rank, roots, base, curr, done);
      return false, adj, base + cs, done + {curr};
    case Some(j) =>
      var t := cs[j];
      if Settled(adj, level, stack, done) && SingleParent(adj) {
        SettledSplice(adj, rank, level, stack, done, t);
      }
      if |Kids(adj, t)| != 2 {
        return true, adj, stack, done;
      }
      EdgeRank(adj, rank, curr, t);
      adj' := Splice(adj, curr, t);
      SpliceFacts(adj, level, rank, roots, stack, done, curr, t);
      return false, adj', stack, done;
  }

  /** Replacing the top `curr`, which has no child at its level, by its children: the
      stack gets lighter, and `Settled` and `Covered` are kept with `curr` finished. */
  lemma DescendFacts(adj: Rows, level: seq<nat>, rank: seq<nat>, roots: seq<nat>, base: seq<nat>, curr: nat,
                     done: set<nat>)
    requires Ranked(adj, rank) && |level| == |adj| && curr < |adj|
    requires LastAt(Kids(adj, curr), level, level[curr]).None?
    ensures Weight(base + Kids(adj, curr), rank, |adj| + 1) < Weight(base + [curr], rank, |adj| + 1)
    ensures Settled(adj, level, base + [curr], done) && SingleParent(adj)
      ==> Settled(adj, level, base + Kids(adj, curr), done + {curr})
    ensures Covered(adj, rank, roots, base + [curr], done)
      ==> Covered(adj, rank, roots, base + Kids(adj, curr), done + {curr})
  {
    var cs := Kids(adj, curr);
    KidsAll(adj, curr, curr);
    forall i | 0 <= i < |cs| ensures cs[i] < |rank| && rank[cs[i]] < rank[curr] {
      EdgeRank(adj, rank, curr, cs[i]);
    }
    assert |cs| <= |adj|;
    WeightReplace(base, curr, cs, rank, |adj| + 1);
    forall c | c in adj[curr]
      ensures level[c] != level[curr]
    {
      KidsAll(adj, curr, c);
    }
    if Settled(adj, level, base + [curr], done) && SingleParent(adj) {
      SettledFinish(adj, level, base, curr, done);
    }
    if Covered(adj, rank, roots, base + [curr], done) {
      CoveredFinish(adj, rank, roots, base, curr, done);
    }
  }

  /** Splicing out the child `t` at the level of `curr`, the top of the stack, when `t` has
      two children: acyclicity, the forest and its leaves, `Settled` and `Covered` are
      kept, and fewer nodes have children. */
  lemma SpliceFacts(adj: Rows, level: seq<nat>, rank: seq<nat>, roots: seq<nat>, stack: seq<nat>, done: set<nat>,
                    curr: nat, t: nat)
    requires Ranked(adj, rank) && |level| == |adj| && stack != [] && curr == stack[|stack| - 1] && curr < |adj|
    requires t in adj[curr] && level[t] == level[curr] && |Kids(adj, t)| == 2
    requires forall i :: 0 <= i < |roots| ==> roots[i] < |adj|
    ensures curr != t && Ranked(Splice(adj, curr, t), rank) && Internal(Splice(adj, curr, t)) < Internal(adj)
    ensures Forest(adj, roots) ==> Forest(Splice(adj, curr, t), roots) && SameLeaves(adj, Splice(adj, curr, t), rank, roots)
    ensures Settled(adj, level, stack, done) && SingleParent(adj) ==> Settled(Splice(adj, curr, t), level, stack, done)
    ensures Settled(adj, level, stack, done) && Forest(adj, roots) && Covered(adj, rank, roots, stack, done)
      ==> Covered(Splice(adj, curr, t), rank, roots, stack, done)
  {
    assert Kids(adj, t)[0] in adj[t];
    EdgeRank(adj, rank, curr, t);
    SpliceRanked(adj, rank, curr, t);
    SpliceInternal(adj, rank, curr, t);
    if Forest(adj, roots) {
      SpliceForest(adj, rank, roots, curr, t);
      SpliceSameLeaves(adj, rank, roots, curr, t);
    }
    if Settled(adj, level, stack, done) && SingleParent(adj) {
      SettledSplice(adj, rank, level, stack, done, t);
    }
    if Settled(adj, level, stack, done) && Forest(adj, roots) && Covered(adj, rank, roots, stack, done) {
      CoveredSplice(adj, rank, level, roots, stack, done, t);
    }
  }

  /** One pass as the collapse loop sees it: every root keeps the childless nodes it
      reached in the starting rows `adj0`, and a pass never fails while `Settled` holds
      on a forest. */
  method CollapsePass(adj0: Rows, adj: Rows, level: seq<nat>, stack: seq<nat>, ghost rank: seq<nat>,
                      ghost roots: seq<nat>, ghost done: set<nat>)
    returns (failed: bool, adj': Rows, stack': seq<nat>, ghost done': set<nat>)
    requires |adj| == |adj0| && Ranked(adj, rank) && |level| == |adj| && stack != []
    requires forall i :: 0 <= i < |stack| ==> stack[i] < |adj|
    requires forall i :: 0 <= i < |roots| ==> roots[i] < |adj|
    requires Forest(adj0, roots) ==> Forest(adj, roots) && SameLeaves(adj0, adj, rank, roots)
    ensures Settled(adj, level, stack, done) && Forest(adj, roots) && Covered(adj, rank, roots, stack, done)
      ==> !failed && Settled(adj', level, stack', done') && Covered(adj', rank, roots, stack', done')
    ensures !failed ==> |adj'| == |adj| && Ranked(adj', rank) && forall i :: 0 <= i < |stack'| ==> stack'[i] < |adj|
    ensures !failed && Forest(adj0, roots) ==> Forest(adj', roots) && SameLeaves(adj0, adj', rank, roots)
    ensures !failed ==> (Internal(adj') < Internal(adj)
      || (adj' == adj && Weight(stack', rank, |adj| + 1) < Weight(stack, rank, |adj| + 1)))
  {
    failed, adj', stack', done' := CollapseStep(adj, level, stack, rank, roots, done);
    if !failed && Forest(adj0, roots) {
      SameLeavesTrans(adj0, adj, adj', rank, roots);
    }
  }

  /** The collapse loop of `clean_tree`, started with the roots on the stack (the last
      root on top). When no step fails, the rows keep their number and acyclicity, no node
      gains children that had none, and on a forest every root still reaches exactly the
      childless nodes it reached before. Started from the true levels of a binary forest,
      no step fails and the result is collapsed: no node a root reaches keeps a child at
      its own level. */
  method Collapse(adj0: Rows, level: seq<nat>, roots: seq<nat>, ghost rank: seq<nat>) returns (r: Option<Rows>)
    requires Ranked(adj0, rank) && |level| == |adj0|
    requires forall i :: 0 <= i < |roots| ==> roots[i] < |adj0|
    ensures r.Some? ==> |r.value| == |adj0| && Ranked(r.value, rank) && Internal(r.value) <= Internal(adj0)
    ensures r.Some? && Forest(adj0, roots) ==> Forest(r.value, roots) && SameLeaves(adj0, r.value, rank, roots)
    ensures Binary(adj0) && Forest(adj0, roots) && (forall k :: 0 <= k < |adj0| ==> level[k] == Level(adj0, rank, k))
      ==> r.Some? && Collapsed(r.value, rank, level, roots)
  {
    var adj: Rows, stack: seq<nat> := adj0, roots;
    ghost var done: set<nat> := {};
    ghost var good := Binary(adj0) && Forest(adj0, roots) && forall k :: 0 <= k < |adj0| ==> level[k] == Level(adj0, rank, k);
    if good {
      SettledStart(adj0, rank, level, roots);
      CoveredStart(adj0, rank, roots);
    }
    while stack != []
      invariant |adj| == |adj0| && Ranked(adj, rank) && Internal(adj) <= Internal(adj0)
      invariant forall i :: 0 <= i < |stack| ==> stack[i] < |adj|
      invariant Forest(adj0, roots) ==> Forest(adj, roots) && SameLeaves(adj0, adj, rank, roots)
      invariant good ==> Settled(adj, level, stack, done) && Covered(adj, rank, roots, stack, done)
      decreases Internal(adj), Weight(stack, rank, |adj0| + 1)
    {
      var failed, adj', stack';
      failed, adj', stack', done := CollapsePass(adj0, adj, level, stack, rank, roots, done);
      if failed {
        return None;
      }
      adj, stack := adj', stack';
    }
    if good {
      CollapsedEnd(adj, rank, level, roots, done);
    }
    return Some(adj);
  }

  // ---------------------------------------------------------------------------
  // clean_tree: the graph left after collapsing

  /** The directed graph on `adj` carrying `tags`, with every counter as the rows imply.
      The source reaches it by removing and adding edges one at a time, each of which keeps
      the counters right, and `CountedUnique` shows there is only one such graph. */
  function Recount<N>(adj: Rows, tags: seq<N>): (g: Graph<N, ()>)
    requires Bounded(adj) && |tags| == |adj|
    ensures Valid(g) && g.adj == adj && !g.undirected
    ensures |g.nodes| == |tags| && forall k :: 0 <= k < |tags| ==> g.nodes[k].tag == tags[k]
  {
    var nodes := seq(|adj|, k requires 0 <= k < |adj| => NodeInfo(|adj[k]|, |Holders(adj, k)|, tags[k]));
    Graph(adj, nodes, IsolatedSet(nodes), RowSum(adj), false)
  }

  /** The bookkeeping is a function of the rows, the tags and the mode. */
  lemma CountedUnique<N, E>(g: Graph<N, E>, h: Graph<N, E>)
    requires Counted(g) && Counted(h) && g.adj == h.adj && SameTags(g, h) && g.undirected == h.undirected
    ensures g == h
  {
    assert g.nodes == h.nodes by {
      forall k | 0 <= k < |g.nodes|
        ensures g.nodes[k] == h.nodes[k]
      {
      }
    }
  }

  /** A node with an edge in either direction: `degree(k) > 0` on a directed graph. */
  ghost predicate Touched(adj: Rows, k: nat)
    requires k < |adj|
  {
    adj[k] != map[] || exists i :: 0 <= i < |adj| && k in adj[i]
  }

  /** The mask `clean_tree` builds: the nodes of positive degree. */
  function DegreeMask(g: Tree): (mask: seq<bool>)
    requires Valid(g) && !g.undirected
    ensures |mask| == |g.adj| && forall k :: 0 <= k < |g.adj| ==> (mask[k] <==> Touched(g.adj, k))
  {
    var mask := seq(|g.adj|, k requires 0 <= k < |g.adj| => Degree(g, k) > 0);
    assert forall k :: 0 <= k < |g.adj| ==> (mask[k] <==> Touched(g.adj, k)) by {
      forall k | 0 <= k < |g.adj|
        ensures mask[k] <==> Touched(g.adj, k)
      {
        DegreeMeaning(g, k);
        if Touched(g.adj, k) && g.adj[k] == map[] {
          var i :| 0 <= i < |g.adj| && k in g.adj[i];
          assert i in Holders(g.adj, k);
        }
        if Holders(g.adj, k) != {} {
          var i :| i in Holders(g.adj, k);
        }
      }
    }
    mask
  }

  /** Every node has no child or two, decided. */
  function IsBinary(adj: Rows): (b: bool)
    requires Bounded(adj)
    ensures b <==> Binary(adj)
  {
    var b := forall v :: 0 <= v < |adj| ==> |adj[v]| == 0 || |adj[v]| == 2;
    assert b <==> Binary(adj) by {
      forall v | 0 <= v < |adj|
        ensures |Kids(adj, v)| == |adj[v]|
      {
        KidsAll(adj, v, 0);
      }
    }
    b
  }

  ghost function TouchedMask(adj: Rows): (mask: seq<bool>)
  {
    seq(|adj|, k requires 0 <= k < |adj| => Touched(adj, k))
  }

  /** The last part of `clean_tree`: count the degrees of the collapsed rows, mark the
      nodes with an edge, and copy the subgraph they induce into `clean` resized to fit.
      The copy holds exactly the edges between marked nodes and each marked node's tag. */
  function Pruned(adj: Rows, tags: seq<TreeTag>, clean: Tree): (r: Tree)
    requires Bounded(adj) && |tags| == |adj|
    ensures var mask := TouchedMask(adj);
      && Valid(r) && r.undirected == clean.undirected
      && r.adj == SubRows(adj, mask, clean.undirected)
      && forall k :: 0 <= k < |adj| && mask[k] ==> Rank(mask, k) < |r.nodes| && r.nodes[Rank(mask, k)].tag == tags[k]
  {
    var g := Recount(adj, tags);
    var mask := DegreeMask(g);
    assert mask == TouchedMask(adj);
    Subgraph(g, mask, ResizeAndClear(clean, CountTrue(mask), NewTreeTag("", 0)))
  }

  /** The true level of every node. */
  ghost function TrueLevels(adj: Rows, rank: seq<nat>): (level: seq<nat>)
    requires Ranked(adj, rank) && Binary(adj)
    ensures |level| == |adj| && forall k :: 0 <= k < |adj| ==> level[k] == Level(adj, rank, k)
  {
    seq(|adj|, k requires 0 <= k < |adj| => Level(adj, rank, k))
  }

  /** `clean_tree(R, clean, roots)`: label levels, collapse equal-level children under
      the roots, then keep the nodes that still have an edge, renumbered in order, in
      `clean`. The source asserts a tree whose inner nodes have two children each and that
      every child it splices out has two; `None` stands for either assertion failing.
      On a forest every root reaches the same leaves in the collapsed rows as in `R`. */
  method CleanTree(R: Tree, clean: Tree, roots: seq<nat>, ghost rank: seq<nat>) returns (r: Option<Tree>, collapsed: Rows)
    requires Valid(R) && !R.undirected && Ranked(R.adj, rank)
    requires forall i :: 0 <= i < |roots| ==> roots[i] < |R.adj|
    ensures !Binary(R.adj) ==> r.None?
    ensures Binary(R.adj) && Forest(R.adj, roots) ==> r.Some? && Collapsed(collapsed, rank, TrueLevels(R.adj, rank), roots)
    ensures r.Some? ==> |collapsed| == |R.adj| && Ranked(collapsed, rank) && Internal(collapsed) <= Internal(R.adj)
    ensures r.Some? ==> r.value == Pruned(collapsed, Tags(R), clean)
    ensures r.Some? && Forest(R.adj, roots) ==> Forest(collapsed, roots) && SameLeaves(R.adj, collapsed, rank, roots)
  {
    if !IsBinary(R.adj) {
      return None, R.adj;
    }
    var level := Levels(R.adj, rank);
    assert level == TrueLevels(R.adj, rank);
    var c := Collapse(R.adj, level, roots, rank);
    if c.None? {
      return None, R.adj;
    }
    collapsed := c.value;
    r := Some(Pruned(collapsed, Tags(R), clean));
  }

  function Tags(g: Tree): (tags: seq<TreeTag>)
    ensures |tags| == |g.nodes| && forall k :: 0 <= k < |g.nodes| ==> tags[k] == g.nodes[k].tag
  {
    seq(|g.nodes|, k requires 0 <= k < |g.nodes| => g.nodes[k].tag)
  }

  /** A childless node reached from a node with children has a parent, so the cleaned tree
      keeps it: pruning by degree loses no leaf of a root that has children. */
  lemma {:induction false} UnderTouched(adj: Rows, rank: seq<nat>, v: nat, l: nat)
    requires Under(adj, rank, v, l) && adj[v] != map[]
    ensures l < |adj| && TouchedMask(adj)[l]
    decreases rank[v]
  {
    var c :| c in adj[v] && c < |rank| && rank[c] < rank[v] && Under(adj, rank, c, l);
    if adj[c] == map[] {
      assert l == c && Touched(adj, l);
    } else {
      UnderTouched(adj, rank, c, l);
    }
  }
}
